=== FILE: README.md ===
# Portfolio site core, modelled in Dafny

The system is a personal portfolio site. A FastAPI backend keeps a PostgreSQL cache of the owner's GitHub repositories. Each repository is enriched by an optional `portfolio/meta.json` in the repository itself. The backend serves this cache to a React front end, which shows it as a forty-slot carousel. Around this pipeline sit:

- an admin area: login sessions, a screenshot editor, site settings and an AI writing assistant;
- a small analytics collector with its browser-side tracker;
- a form for project requests.

This project models the core of that system as pure functions over immutable data and proves properties about it.

- **Cache pipeline.**
  - `GitHubService` pages through the owner's repositories.
  - It decodes the base64 (section 4 of RFC 4648) and JSON (RFC 8259) meta file into a `PortfolioMeta` with every default filled in.
  - It expands screenshot names into raw-content URLs, merges each GitHub record with its meta, drops forks and ranks the result.
  - `RepositoryService` is an id-keyed insert-or-overwrite table (`map<int, Row>`). It has a row decoder that never raises on malformed JSON and a priority-ordered listing.
  - `ReposRouter` adds the shared-secret gate and the refresh count.
  - `RepoSchema` gives the pydantic models' defaults and validation.
  - `Base64` and `Json` are the decoders the pipeline relies on.
- **Carousel.**
  - `Carousel` holds the grey palette, the text-colour rule, slot ids and filtering, shared by the two carousels.
  - `Portfolio` projects the repositories into slots. It covers image precedence, search and tag filtering, and arrow and lightbox navigation.
  - `PortfolioTags` builds the quick-filter chips.
  - `PortfolioMarkdown` renders bold markup.
  - `Works` is the static showcase.
- **Admin state.**
  - `ProjectsManager` is the screenshot edit buffer.
  - `SettingsManager` is the settings form with dirty tracking.
  - `SettingsRouter` is the key-value settings store.
  - `AuthService` and `AuthRouter` handle users, seven-day sessions and the Bearer header.
  - `CreateAdmin` is the admin-creation script.
  - `Upload` covers storage keys and the screenshot upload loop.
  - `AiWriter` assembles prompts and the portfolio summary.
  - `Config` parses the CORS origins and names the declared settings.
- **Analytics.**
  - `Analytics` is the server-side session and bounce state machine, with the duration formatter and the statistics guards.
  - `Tracker` is the browser tracker. It covers session and visitor ids, UUID generation, UTM fields, scroll milestones, exit intent and Do Not Track.
- **Project requests.** `ProjectRequests` covers status validation and the Discord announcement's fields.

Anything that talks to the outside world becomes a parameter: HTTP responses, SQL outcomes, bucket operations, clocks, random digits, bcrypt and `json.loads`/`json.dumps`. In `Analytics` a failing database statement is a parameter naming the statement that fails, and in `RepositoryService` (and the repositories router that calls it) a parameter says which upserts reach the database; elsewhere every statement is taken to succeed (see "## Left out"). A Python exception is the `Err` side of a `Result`, and an HTTP error is a status code.

Some parts of the source are modelled as written even though they are defects; "## Findings" lists all nine. Five Python call sites read attributes or pass keyword arguments that do not exist: `repo.languages` (repository.py:121), the `r2_*` bucket settings (upload.py:53), `discord_webhook_url` (project_requests.py:59), the Google credential settings (ai_writer.py:33) and `include_hidden=` (ai_writer.py:70). The AI writer also reads a role's "title" where roles carry "role_name" (ai_writer.py:83), the markdown helper renders a stray "**" wrongly, Do Not Track still lets `trackEvent` send events, and the ranking raises on mixed update times (below). For each of these the model has two members. One reproduces the failure as written. The other is the evidently intended definition, which carries the property.

The ranking of the non-fork repositories in `fetch_all_repos_with_meta` is also modelled both ways: as written it raises TypeError when a priority class mixes repositories with and without `updated_at` (`GitHubService.SortRepos`), and the intended ranking, with a missing update time ranked last, is `GitHubService.SortReposCorrected`.

## Model

| member | source | states |
|---|---|---|
| Config.CorsOriginsList | backend/app/config.py:35-38 | one origin per comma-separated segment; no origin contains a comma or starts or ends with whitespace |
| Config.CorsOriginsJoin | backend/app/config.py:36-38 | origins without commas or surrounding whitespace, joined with commas, are read back exactly (partner of CorsOriginsList) |
| Config.SingleOrigin | backend/app/config.py:36-38 | a single origin without commas or surrounding whitespace is read back alone |
| Config.DefaultCorsList | backend/app/config.py:19-38 | the default setting allows exactly http://localhost:5173 |
| Config.GetSettings | backend/app/config.py:41-44 | the first call loads and caches the settings; every later call answers the cached instance |
| Config.GetSettingsStable | backend/app/config.py:41-44 | two calls answer the same instance even when the environment changed in between |
| CreateAdmin.CreateAdminAccount | backend/scripts/create_admin.py:23-56 | answers true exactly when no account has the address; on false the table is unchanged, on true exactly one account is created |
| CreateAdmin.RunScript | backend/scripts/create_admin.py:62-76 | status 1 and no change with fewer than two arguments or a password under 6 characters; status 0 exactly when the arguments are complete, the password is long enough and the address is new |
| CreateAdmin.RunScriptCreatesOne | backend/scripts/create_admin.py:62-76 | status 0 means exactly one account was added, with the given address and optional name |
| CreateAdmin.SecondRunFails | backend/scripts/create_admin.py:23-76 | running the script twice with the same address fails the second time and changes nothing |
| Base64.Decode | backend/app/services/github.py:88-89 | non-ASCII text is refused; a successful decoding yields at most three bytes per four characters |
| Base64.DecodeEncode | backend/app/services/github.py:88-89 | decoding the RFC 4648 section 4 encoding of any bytes gives them back |
| Base64.DecodeSkipsNewline | backend/app/services/github.py:88-89 | a newline inserted anywhere does not change the decoding, so line-wrapped file content decodes |
| Base64.RunDataOnly | backend/app/services/github.py:88-89 | from any decoder state, text of data characters only fails exactly when it leaves the current quad unfinished |
| Base64.DecodeDataOnly | backend/app/services/github.py:88-89 | text of data characters only decodes exactly when its length is a multiple of four |
| Base64.DecodeDanglingCharacter | backend/app/services/github.py:88-89 | any text of data characters whose length is one more than a multiple of four is refused |
| RepoSchema.Validate | backend/app/schemas/repo.py:6-137 | validation succeeds exactly when every declared field is acceptable; the record holds exactly the declared fields with supplied or default values; failure is a ValidationError |
| RepoSchema.ValidateCongruent | backend/app/schemas/repo.py:6-137 | two dicts that agree on the declared fields validate alike, so undeclared keys are ignored |
| RepoSchema.ValidateIdempotent | backend/app/schemas/repo.py:6-137 | a validated record validates to itself, so dumping and loading a model changes nothing |
| RepoSchema.DumpCharacterised | backend/app/schemas/repo.py:6-137 | a record is the dump of its model exactly when it has the declared keys with values of the declared kinds |
| RepoSchema.SetFieldDumped | backend/app/schemas/repo.py:6-137 | setting one declared field of a dump to a value of its kind gives a dump again |
| RepoSchema.ScreenshotDefaults | backend/app/schemas/repo.py:20-25 | a screenshot given only its file and caption validates with type "desktop" and no url |
| RepoSchema.RoleDefaults | backend/app/schemas/repo.py:28-33 | a role given only its name validates with 100 percent contribution and no responsibility |
| RepoSchema.ValidateItems | backend/app/schemas/repo.py:70-137 | a list of records validates only when every item is a dict that validates, item by item and in order |
| RepoSchema.ValidateListDumped | backend/app/schemas/repo.py:70-137 | a list of dumps validates back to itself |
| RepoSchema.ValidatedListDumped | backend/app/schemas/repo.py:70-137 | whatever list validation returns is a list of dumps |
| RepoSchema.ValidateStrs | backend/app/schemas/repo.py:70-137 | a list of strings validates exactly when every item is a string |
| RepoSchema.ValidateStrListInverse | backend/app/schemas/repo.py:70-137 | validating the JSON of a list of strings gives the list back |
| RepoSchema.ValidateDictListInverse | backend/app/schemas/repo.py:139-186 | validating the JSON of a list of dicts gives the list back |
| RepoSchema.OptStrValue | backend/app/schemas/repo.py:139-190 | an optional string field is None exactly when absent or null, and otherwise must be a string |
| RepoSchema.OptIntValue | backend/app/schemas/repo.py:70-137 | an optional integer field is None exactly when absent or null, and otherwise must be an integer |
| RepoSchema.SchemaIsWellFormed | backend/app/schemas/repo.py:6-137 | every nested model declares each field once and every default fits its field's kind |
| RepoSchema.NewRepository | backend/app/schemas/repo.py:139-190 | the four required fields are as given |
| RepoSchema.NewRepositoryDefaults | backend/app/schemas/repo.py:139-190 | every other field takes its declared default |
| GitHubService.FetchUserRepos | backend/app/services/github.py:31-66 | pages are requested in order until the first that is not a 200, is empty or holds fewer than 100 records; the result is every record of the pages read, in order |
| GitHubService.Section | backend/app/services/github.py:98-104 | an absent section reads as an empty dict; a present section that is not a dict fails |
| GitHubService.ParseArchitecture | backend/app/services/github.py:107-138 | an architecture value that is not a dict gives no overview and four empty lists |
| GitHubService.ParseMetaJson | backend/app/services/github.py:96-142 | a successful parse comes from a dict document without a malformed section, yields a well-formed meta, and ignores a non-dict client or architecture |
| GitHubService.ParseMetaWithToJson | backend/app/services/github.py:96-142 | for any well-formed schema, parsing the document written for a meta gives the meta back |
| GitHubService.ParseMetaToJson | backend/app/services/github.py:96-142 | reading back the document written for a well-formed meta gives the same meta (partner of ParseMetaJson) |
| GitHubService.ParseMetaEmpty | backend/app/services/github.py:96-142 | an empty document is valid, and every field takes its declared default |
| GitHubService.DecodeMeta | backend/app/services/github.py:86-94 | a meta is produced only from a body whose content string decodes as base64, and it is well-formed |
| GitHubService.FetchPortfolioMeta | backend/app/services/github.py:68-94 | only a transport error escapes; 404 and every other non-200 answer give no meta; a meta comes only from a 200 answer |
| GitHubService.DecodeMetaFrom | backend/app/services/github.py:86-91 | a 200 answer whose content decodes, reads as UTF-8, loads and parses to a meta gives that meta |
| GitHubService.FetchEncodedMeta | backend/app/services/github.py:68-142 | a meta written as JSON, stored as UTF-8 and served base64 encoded is read back unchanged |
| GitHubService.DecodeWrapped | backend/app/services/github.py:88-89 | wrapping the base64 text into lines does not change what it decodes to |
| GitHubService.FetchWrappedMeta | backend/app/services/github.py:68-142 | the round trip also holds for line-wrapped content |
| GitHubService.ScreenshotUrlFile | backend/app/services/github.py:150-151 | for one repository and branch, the URL ends with the file name after a fixed prefix |
| GitHubService.ScreenshotUrlInjective | backend/app/services/github.py:150-151 | two files of one repository and branch never share a URL |
| GitHubService.BuildScreenshotUrls | backend/app/services/github.py:144-156 | one entry per screenshot; each keeps its other keys and values and gains or overwrites "url" with the raw URL of its file |
| GitHubService.BuildScreenshotUrlsIdempotent | backend/app/services/github.py:144-156 | building the URLs twice gives the same list as building them once |
| GitHubService.ScreenshotUrlsDumped | backend/app/services/github.py:195-198 | screenshot records stay valid screenshot records once their URL is built |
| GitHubService.TitleOr | backend/app/services/github.py:201 | a missing or empty title falls back to the repository name |
| GitHubService.MergeRepoData | backend/app/services/github.py:158-252 | the GitHub fields are copied; the meta flag holds exactly when a meta exists; with a meta its fields are carried and screenshots get URLs on main; without one the title is the name |
| GitHubService.MergeWithoutMeta | backend/app/services/github.py:232-250 | without a meta every field GitHub does not supply keeps the declared default, except the title |
| GitHubService.MergeDumped | backend/app/services/github.py:193-252 | merging a well-formed meta, or none, gives a repository whose nested records are valid |
| GitHubService.NonForks | backend/app/services/github.py:259-262 | exactly the records that are not forks are kept |
| GitHubService.NonForksAppend | backend/app/services/github.py:259-262 | skipping forks distributes over concatenation, so the listing order is kept |
| GitHubService.MergeAllFails | backend/app/services/github.py:259-272 | the merge loop fails exactly when the meta request of some non-fork fails |
| GitHubService.MergeAllRecords | backend/app/services/github.py:259-272 | a successful merge holds each non-fork, in order, merged with its own meta |
| GitHubService.KeyRanked | backend/app/services/github.py:274-278 | comparing the sort keys is ranking by priority, then by update time with a missing time lowest |
| GitHubService.SortRepos | backend/app/services/github.py:274-278 | raises TypeError exactly when one priority class mixes known and unknown update times; otherwise the intended ranking: a permutation ordered highest priority first, then latest update first |
| GitHubService.SortReposCorrected | backend/app/services/github.py:274-278 | on every input, a permutation ordered highest priority first, then latest update first, a missing update time last in its class |
| GitHubService.SyncAll | backend/app/services/github.py:254-280 | a failed listing propagates; a returned list is a permutation of the merged repositories, ordered highest priority first, then latest update first |
| GitHubService.MixedPriorityRaises | backend/app/services/github.py:172-174 | for any two repositories of one priority, one updated and one never, the sort as written raises TypeError while the intended ranking puts the updated one first |
| GitHubService.PairOrder | backend/app/services/github.py:274-278 | a ranked permutation of two records in which the first ranks below the second swaps them |
| GitHubService.FetchAllReposWithMeta | backend/app/services/github.py:254-280 | a successful sync answers the merged repositories ordered by priority, then update time |
| RepositoryService.ParseJsonField | backend/app/services/repository.py:162-175 | an already parsed list or dict is kept; NULL and any other kind give the default, [] when none is given |
| RepositoryService.ParseJsonFieldDumped | backend/app/services/repository.py:162-175 | JSON text written with json.dumps is read back as the value written |
| RepositoryService.ParseJsonFieldGarbage | backend/app/services/repository.py:170-174 | text that is not JSON gives the default instead of raising |
| RepositoryService.RowToRepo | backend/app/services/repository.py:177-218 | with `languages` declared: a NULL star count fails; otherwise the id, cache time and update time are copied and a NULL priority reads as 0 |
| RepositoryService.RowToRepoAsWritten | backend/app/services/repository.py:211 | with `Repository` as declared, the `languages` keyword is ignored: the record has no languages, and a row with a NULL `languages` column reads as with the field declared |
| RepositoryService.AsWrittenIgnoresLanguages | backend/app/services/repository.py:211 | as written, the content of the `languages` column never changes what a row reads as |
| RepositoryService.LanguagesListDiffers | backend/app/services/repository.py:211 | a row that reads as written but stores `[]` as its languages fails the read once the field is declared |
| RepositoryService.NullRowDefaults | backend/app/services/repository.py:177-218 | an all-NULL row reads as the repository built from its four required fields with every declared default |
| RepositoryService.RowOf | backend/app/services/repository.py:37-124 | the written row keeps the id and takes the current time when the record has no cache time |
| RepositoryService.RowOfReadBack | backend/app/services/repository.py:37-218 | reading a written row gives the record with the read-back normalisations (partner of RowOf and RowToRepo) |
| RepositoryService.ReadBackIdempotent | backend/app/services/repository.py:37-218 | writing what was read and reading it again changes nothing |
| RepositoryService.Upsert | backend/app/services/repository.py:37-126 | the record's row is inserted or overwritten and no other row changes |
| RepositoryService.UpsertIdempotent | backend/app/services/repository.py:37-126 | upserting the same record twice leaves the table as upserting it once |
| RepositoryService.UpsertCall | backend/app/services/repository.py:37-126 | the call succeeds exactly when the database is reachable and every attribute it reads is declared by the model |
| RepositoryService.UpsertAsWrittenFails | backend/app/services/repository.py:121 | with the model as declared, every upsert raises because languages is not an attribute |
| RepositoryService.UpsertCorrectedSucceeds | backend/app/services/repository.py:37-126 | with languages declared, an upsert fails only when the database is unreachable |
| RepositoryService.UpsertMany | backend/app/services/repository.py:128-137 | answers the number of successful upserts, never more than the records given |
| RepositoryService.UpsertAll | backend/app/services/repository.py:128-137 | the count never exceeds the number of calls that reached the database, and no existing row is dropped |
| RepositoryService.UpsertAllAsWritten | backend/app/services/repository.py:121-137 | as written, upsert_many stores nothing and reports 0 |
| RepositoryService.UpsertAllCorrectedCount | backend/app/services/repository.py:128-137 | with languages declared, the count is the number of calls that reached the database |
| RepositoryService.UpsertAllCorrectedStores | backend/app/services/repository.py:128-137 | with languages declared, every record whose call reached the database has its row afterwards |
| RepositoryService.UpsertAllCorrectedKeeps | backend/app/services/repository.py:128-137 | with languages declared, rows of ids no record carries are unchanged |
| RepositoryService.UpsertAllCorrectedKeys | backend/app/services/repository.py:128-137 | with languages declared, no id is added except the records' |
| RepositoryService.GetById | backend/app/services/repository.py:25-35 | an absent id gives None; a found record is the reading of that id's row |
| RepositoryService.GetAfterUpsert | backend/app/services/repository.py:25-126 | after an upsert the record is found under its id, as read back |
| RepositoryService.Delete | backend/app/services/repository.py:139-146 | answers true exactly when the id had a row; exactly that row is removed |
| RepositoryService.DeleteUndoesInsert | backend/app/services/repository.py:37-146 | deleting a freshly inserted record restores the table and reports true |
| RepositoryService.ListingRows | backend/app/services/repository.py:18-21 | every row once, ordered by priority descending, then update time descending with NULL last |
| RepositoryService.RowsToRepos | backend/app/services/repository.py:23 | succeeds exactly when every row reads; then the records are the rows' readings, in order |
| RepositoryService.GetAll | backend/app/services/repository.py:15-23 | succeeds exactly when every row reads, and then lists one record per row |
| RepositoryService.ListingReadable | backend/app/services/repository.py:15-23 | the listing reads exactly when every row of the table reads |
| RepositoryService.GetAllHoldsRow | backend/app/services/repository.py:15-23 | every row of a readable table appears in the listing as it reads |
| RepositoryService.RowKeyRanked | backend/app/services/repository.py:18-21 | with non-NULL priorities, the SQL order is the ranking the sync uses |
| RepositoryService.GetAllRanked | backend/app/services/repository.py:15-23 | when no row has a NULL priority, the listing is ranked as the sync ranks |
| RepositoryService.MaxCached | backend/app/services/repository.py:152 | None exactly when no row has a cache time; otherwise the latest one present |
| RepositoryService.GetLastUpdated | backend/app/services/repository.py:148-154 | None exactly when no row has a cache time; otherwise a row's cache time that no other exceeds |
| RepositoryService.GetCount | backend/app/services/repository.py:156-160 | the count is the number of rows listed |
| RepositoryService.UpsertCount | backend/app/services/repository.py:37-160 | an upsert adds one to the count exactly when the id is new |
| RepositoryService.DeleteCount | backend/app/services/repository.py:139-160 | a deletion reporting true takes one off the count; otherwise the count is unchanged |
| ReposRouter.Authorize | backend/app/routers/repos.py:63-71 | an empty secret lets everyone through; otherwise a missing or empty header is 401 and a stripped token other than the secret is 403; access is granted exactly in the remaining case |
| ReposRouter.BearerAccepted | backend/app/routers/repos.py:68-71 | "Bearer " followed by the secret is accepted |
| ReposRouter.DirectAccepted | backend/app/routers/repos.py:68-71 | the bare secret is accepted as well |
| ReposRouter.SpacedSecretUnreachable | backend/app/routers/repos.py:69-71 | a secret that starts or ends with whitespace can never be presented, so every header is refused |
| ReposRouter.GetRepositories | backend/app/routers/repos.py:15-34 | 500 exactly when some row does not read; otherwise every record once, with total equal to their number and the latest cache time |
| ReposRouter.GetRepository | backend/app/routers/repos.py:37-45 | 404 when the id has no row; success exactly when the row reads, answering its reading |
| ReposRouter.ListingHoldsRecord | backend/app/routers/repos.py:15-45 | every record the single-record endpoint answers is in the listing |
| ReposRouter.GetRepositoryAfterUpsert | backend/app/routers/repos.py:37-45 | a stored record is served back as the cache reads it |
| ReposRouter.Refresh | backend/app/routers/repos.py:48-87 | the gate first; success exactly when the gate passes and the sync succeeds; a failure leaves the cache alone and a sync failure is 500 with its description |
| ReposRouter.RefreshAsync | backend/app/routers/repos.py:90-122 | answers the fixed message exactly when the gate passes; a refused call leaves the cache alone |
| ReposRouter.RefreshAsyncSameCache | backend/app/routers/repos.py:48-122 | both refresh endpoints leave the cache in the same state |
| ReposRouter.RefreshAsWritten | backend/app/routers/repos.py:73-81 | as the model is declared, a successful refresh reports 0 updates and leaves the cache unchanged |
| ReposRouter.RefreshCorrected | backend/app/routers/repos.py:73-81 | with languages declared, a successful refresh counts the upserts that reached the database and stores each of those records |
| AuthService.FindUserByEmail | backend/app/services/auth.py:35-46 | None exactly when no account has the address; otherwise the first account with it |
| AuthService.FindUserById | backend/app/services/auth.py:48-59 | None exactly when no account has the id; otherwise an account with that id |
| AuthService.FoundById | backend/app/services/auth.py:48-59 | with distinct ids, every account is the one found under its own id |
| AuthService.CreateUser | backend/app/services/auth.py:61-76 | appends one account with the next id and the given hash; sessions untouched; distinct ids stay distinct |
| AuthService.AuthenticateUser | backend/app/services/auth.py:142-155 | an account is answered exactly when the first account with the address exists and the password verifies against its hash |
| AuthService.CreatedUserAuthenticates | backend/app/services/auth.py:61-155 | an account created with a hash of the password can then authenticate with that password |
| AuthService.CreateSession | backend/app/services/auth.py:9-94 | adds exactly one session for the user and token, expiring 7 days after now |
| AuthService.FirstLive | backend/app/services/auth.py:96-120 | finds a row only when one has the token, has not expired and belongs to an existing account |
| AuthService.GetSession | backend/app/services/auth.py:96-120 | a session is answered exactly when some row is live for the token; it expires after now and shows its account without the hash |
| AuthService.FirstLiveKept | backend/app/services/auth.py:96-140 | dropping only rows that are not live for a token leaves the session found for it unchanged |
| AuthService.DeleteSession | backend/app/services/auth.py:122-131 | removes exactly the rows with the token and answers true even when none matched |
| AuthService.DeletedSessionGone | backend/app/services/auth.py:96-131 | after deletion the token finds no session at any time |
| AuthService.DeleteSessionKeepsOthers | backend/app/services/auth.py:96-131 | deleting one token leaves every other token's session as it was |
| AuthService.CleanupExpired | backend/app/services/auth.py:133-140 | removes exactly the rows that expired before now |
| AuthService.CleanupKeepsLive | backend/app/services/auth.py:96-140 | cleanup never ends a session that is live at or after the cleanup time |
| AuthService.SessionLifetime | backend/app/services/auth.py:78-120 | a fresh session is found exactly until 7 days have passed, and it shows its account |
| AuthRouter.GetCurrentUser | backend/app/routers/auth.py:13-28 | 401 with the source's messages for a missing or non-Bearer header and for a token without a live session; otherwise the session's account |
| AuthRouter.Login | backend/app/routers/auth.py:31-45 | 422 and no change for an address the `EmailStr` check refuses; 401 and no change exactly when authentication of the normalised address fails; otherwise one new session whose token is answered |
| AuthRouter.LoginNormalised | backend/app/schemas/auth.py:6-8 | two spellings of an address that normalise alike log in alike |
| AuthRouter.LoginThenMe | backend/app/routers/auth.py:13-61 | the token from a login identifies the same account for 7 days |
| AuthRouter.Logout | backend/app/routers/auth.py:47-55 | always answers "Logged out"; only a Bearer header deletes its session |
| AuthRouter.LogoutThenMe | backend/app/routers/auth.py:13-55 | after logout the same header is refused |
| AuthRouter.Register | backend/app/routers/auth.py:63-76 | signed-out callers get the 401 first; a malformed address gets 422; an address whose normalised form is taken gets 400; nothing is written on any error; otherwise one account with the normalised address is appended |
| AuthRouter.RegisterTwiceRefused | backend/app/schemas/auth.py:22-25 | once an address is registered, every spelling of it that normalises alike is refused with 400 |
| Upload.ContentType | backend/app/routers/upload.py:64 | the declared content type, or "image/jpeg" when it is missing or empty |
| Upload.Extension | backend/app/routers/upload.py:72 | the extension never contains a '.' |
| Upload.ExtensionOf | backend/app/routers/upload.py:72 | a name ending in "." followed by a dot-free text has that text as its extension |
| Upload.ExtensionDefault | backend/app/routers/upload.py:72 | a name without '.' gets the extension "jpg" |
| Upload.ScreenshotKeyParts | backend/app/routers/upload.py:73 | a key splits at '/' into "screenshots", the project id and the file part |
| Upload.FilePartInjective | backend/app/routers/upload.py:73 | the file part gives back its uuid and its extension |
| Upload.ScreenshotKeyInjective | backend/app/routers/upload.py:73 | two files get the same key only for the same project, uuid and extension |
| Upload.Step | backend/app/routers/upload.py:62-100 | a non-image file is refused with 400 before anything is stored; otherwise the put and the 90-day link must both succeed, else 500 naming the file |
| Upload.Run | backend/app/routers/upload.py:62-105 | the loop succeeds exactly when every step does, answering each step's key and link in order |
| Upload.RunError | backend/app/routers/upload.py:62-100 | a failed loop reports the error of its first failing file, and every earlier file succeeded |
| Upload.RunKeeps | backend/app/routers/upload.py:62-100 | an object whose key no file gets is left as it was, whatever the outcome |
| Upload.RunKeys | backend/app/routers/upload.py:62-100 | the loop adds no key except the files' keys |
| Upload.RunStores | backend/app/routers/upload.py:62-100 | after a successful loop with distinct keys, every file's object is stored under its key |
| Upload.DistinctKeys | backend/app/routers/upload.py:73 | with distinct uuids, two files of a batch never share a key |
| Upload.UploadScreenshots | backend/app/routers/upload.py:44-105 | signed-out callers are refused; a missing bucket attribute raises; an empty endpoint is 500; success exactly when every file uploads, answering one key and one link per file |
| Upload.UploadRuns | backend/app/routers/upload.py:59-105 | past the configuration checks the upload is the loop over the batch's files |
| Upload.UploadFailure | backend/app/routers/upload.py:62-100 | a failed upload names the first file that was not uploaded |
| Upload.UploadTouchesOnlyBatch | backend/app/routers/upload.py:62-100 | no object outside the batch's keys is touched and no other key is added |
| Upload.UploadAsWritten | backend/app/routers/upload.py:53 | as the settings class is declared, every signed-in upload raises AttributeError and stores nothing |
| Upload.UploadCorrected | backend/app/routers/upload.py:44-105 | with the bucket settings declared and set, an upload whose puts and signings succeed answers one link and one key per file and stores each file under its key |
| Upload.GetFile | backend/app/routers/upload.py:108-121 | a missing bucket attribute raises; an empty endpoint is 500; otherwise a 302 redirect to a one-hour link, or 404 when signing fails |
| Upload.DeleteScreenshot | backend/app/routers/upload.py:124-147 | signed-out callers are refused; a missing bucket attribute raises; an empty endpoint is 500; on success only that key is removed, and any failure changes nothing |
| Upload.DeleteUndoesPut | backend/app/routers/upload.py:124-147 | deleting the key of an uploaded object restores the bucket to what it was before |
| Upload.ServeAndDeleteAsWritten | backend/app/routers/upload.py:113-132 | as the settings class is declared, serving and deleting raise AttributeError for every key |
| SettingsRouter.SnsRows | backend/app/routers/settings.py:46-53 | exactly the keys starting with "sns_" and "contact_email", each with its stored value |
| SettingsRouter.GetSnsLinks | backend/app/routers/settings.py:37-61 | each of the five links is the stored value of its key: "" when the key is absent, None when the value is NULL |
| SettingsRouter.SnsLinksIgnoreOtherKeys | backend/app/routers/settings.py:37-61 | writing or deleting any key other than the five, even one the LIKE filter fetches, leaves the public links unchanged |
| SettingsRouter.GetAllSettings | backend/app/routers/settings.py:65-77 | signed-out callers are refused; otherwise every key with its value, a NULL value read as "" |
| SettingsRouter.UpdateSettings | backend/app/routers/settings.py:80-110 | signed-out callers are refused and nothing changes; otherwise the answer counts every item |
| SettingsRouter.ApplyItemsFrame | backend/app/routers/settings.py:93-108 | the table gains exactly the named keys, and keys not named keep their rows |
| SettingsRouter.UpsertSetting | backend/app/routers/settings.py:93-106 | the key then holds the item's value and the update time; a description sent replaces the stored one, none sent keeps it (None for a new key); every other row is unchanged |
| SettingsRouter.ApplyItemsLastWins | backend/app/routers/settings.py:93-108 | the last item naming a key decides its value, and the key carries the update time |
| SettingsRouter.ApplyItemsDescription | backend/app/routers/settings.py:99-102 | the last item for a key that carries a description decides the description |
| SettingsRouter.ApplyItemsKeepsDescription | backend/app/routers/settings.py:99-102 | items without a description keep the stored one |
| SettingsRouter.GetSetting | backend/app/routers/settings.py:113-133 | 404 when the key has no row; otherwise its key, value and description |
| SettingsRouter.DeleteSetting | backend/app/routers/settings.py:136-152 | success exactly when the key had a row; only that row is removed and the key is echoed; otherwise 404 and nothing changes |
| SettingsRouter.UpdateThenGet | backend/app/routers/settings.py:80-133 | a saved value is read back by key and in the full listing |
| SettingsRouter.DeleteThenGet | backend/app/routers/settings.py:113-152 | a deleted key is gone, and deleting it again is 404 |
| SettingsRouter.UpdateThenSns | backend/app/routers/settings.py:37-110 | saving the GitHub link publishes it on the public endpoint |
| ProjectRequests.OutputLabel | backend/app/routers/project_requests.py:44-67 | the output type's label; an unknown type is shown as it is; "other" with a description shows "기타: " and the description |
| ProjectRequests.IdeaField | backend/app/routers/project_requests.py:80 | the idea unchanged up to 500 characters; a longer idea is cut to its first 500 followed by "..."; a missing or empty idea is "-" |
| ProjectRequests.EmbedFor | backend/app/routers/project_requests.py:69-84 | seven fields, the first the output label and the last the idea text |
| ProjectRequests.EmbedTitleNamesRequest | backend/app/routers/project_requests.py:71 | two requests' embed titles differ, so the title names the request |
| ProjectRequests.Notify | backend/app/routers/project_requests.py:54-98 | an undeclared webhook attribute raises before the try block; otherwise true exactly when an address is set and the post succeeds |
| ProjectRequests.CreateRequest | backend/app/routers/project_requests.py:101-130 | the row is always inserted with the next id and the column default status; success exactly when the webhook attribute is declared, answering the stored row |
| ProjectRequests.CreateAsWritten | backend/app/routers/project_requests.py:59-128 | as the settings class is declared, every submission is stored and then answered with an error |
| ProjectRequests.CreateCorrected | backend/app/routers/project_requests.py:101-130 | with the webhook address declared, a submission succeeds whether or not the announcement goes through |
| ProjectRequests.ListRequests | backend/app/routers/project_requests.py:133-147 | every row exactly once, newest first |
| ProjectRequests.ListedAfterCreate | backend/app/routers/project_requests.py:101-147 | every stored request is listed |
| ProjectRequests.SetStatus | backend/app/routers/project_requests.py:160-168 | rows with the id take the new status; every other row is unchanged |
| ProjectRequests.UpdateRequestStatus | backend/app/routers/project_requests.py:150-173 | a status outside the five is 400 before the table is touched; an id without a row is 404; success exactly otherwise, setting the status and changing no other modelled field; the `updated_at` column is not modelled |
| ProjectRequests.StatusesStayValid | backend/app/routers/project_requests.py:101-173 | with a listed column default, creating and updating keep every status among the five |
| ProjectRequests.UpdateChangesOnlyStatus | backend/app/routers/project_requests.py:150-173 | after an update the request has the new status; its id, form and creation time and every other request are unchanged (the `updated_at` column is not modelled) |
| Analytics.PeriodDays | backend/app/routers/analytics.py:16-21 | 1, 7, 30 or 90 days for the four named periods, and 7 for any other |
| Analytics.StartDate | backend/app/routers/analytics.py:13-22 | the start lies between 90 days and one day before now |
| Analytics.FormatDuration | backend/app/routers/analytics.py:25-33 | every text ends in "s" |
| Analytics.FormatWholeSeconds | backend/app/routers/analytics.py:25-33 | "0s" for zero; whole seconds under a minute; otherwise the minutes and the seconds left over, below 60 |
| Analytics.DurationRoundTrip | backend/app/routers/analytics.py:25-33 | the text of a whole number of seconds reads back as that number (partner of FormatDuration) |
| Analytics.Collect | backend/app/routers/analytics.py:36-181 | a missing or non-dict body answers false and writes nothing; each call adds at most one page view and one event; no NULL session id appears |
| Analytics.CollectPageView | backend/app/routers/analytics.py:59-118 | no event is written; at most one page view is appended, exactly one on success, stamped with the current time; only the sent session id can be added or changed, and on success it exists with this page as its exit page; no NULL session id appears |
| Analytics.CollectEvent | backend/app/routers/analytics.py:119-143 | page views and session ids are unchanged; at most one event is appended, exactly one on success, with the sent name; only the sent session can change, and only for an engaging event |
| Analytics.CollectLeave | backend/app/routers/analytics.py:144-175 | page views and session ids are unchanged; at most one event is appended, on success a `page_leave` event; only the sent session changes, and a known one ends now with this page as its exit page |
| Analytics.PageViewOnKnownSession | backend/app/routers/analytics.py:59-101 | a page view of a known session is stored, counts the session, moves its exit page and clears its bounce flag, and nothing else of it changes |
| Analytics.PageViewStartsSession | backend/app/routers/analytics.py:59-117 | a page view of an unknown session starts one with the page as entry and exit and the UTM fields sent |
| Analytics.PageViewKeptWhenUtmBroken | backend/app/routers/analytics.py:102-117 | a "utm" that is not a dict answers false after the page view was written, and the view stays |
| Analytics.EventBounce | backend/app/routers/analytics.py:119-142 | every event adds one row; only scroll_depth, click and form_submit clear the bounce flag; no other session changes |
| Analytics.LeaveEndsSession | backend/app/routers/analytics.py:144-175 | leaving ends the session with its duration and exit page and records exactly one page_leave event |
| Analytics.UnknownTypeIgnored | backend/app/routers/analytics.py:57-177 | any other type answers true and writes nothing |
| Analytics.FailureAnswersFalse | backend/app/routers/analytics.py:179-181 | a failing statement answers false unless it comes after the last write the type makes |
| Analytics.Percent | backend/app/routers/analytics.py:228 | the bounce rate is 0 without sessions, lies between 0 and 100, and is exactly the bounced share times 100 |
| Analytics.Mean | backend/app/routers/analytics.py:229 | pages per session is 0 without sessions and otherwise exactly views divided by sessions |
| Analytics.BouncesAmongSessions | backend/app/routers/analytics.py:202-210 | bounced sessions are among the sessions counted |
| Analytics.AvgDuration | backend/app/routers/analytics.py:212-218 | the mean duration is NULL exactly when no session of the period has a duration; otherwise it times their number is their total |
| Analytics.AvgWithinDurations | backend/app/routers/analytics.py:212-218 | the mean duration lies between the shortest and the longest duration recorded in the period |
| Analytics.AvgOfOne | backend/app/routers/analytics.py:212-218 | a period with one timed session averages exactly its duration |
| Analytics.Overview | backend/app/routers/analytics.py:195-254 | both rates are 0 without sessions; the bounce rate lies between 0 and 100; pages per session times sessions is the page views; the mean duration reads "0s" when no session has a duration |
| Analytics.ExtractHostname | backend/app/routers/analytics.py:397-405 | None for a missing or empty url; the url itself when parsing raises |
| Analytics.SourceLabel | backend/app/routers/analytics.py:319 | never empty: the referrer's host when it has one, else "Direct" |
| Analytics.PageLabel | backend/app/routers/analytics.py:283 | the page title, or the url when the title is empty |
| Analytics.GetStats | backend/app/routers/analytics.py:184-394 | signed-out callers are refused; any metric but the five named is 400; the overview answers the overview figures, mean duration included, computed from the tables for the period |
| Tracker.GetOrCreateSessionId | src/app/lib/analytics/tracker.ts:55-75 | without session storage the fresh id is returned and nothing stored; otherwise the "_as_sid" entry is (re)written with the returned id and the current time, and every other entry is kept |
| Tracker.SessionReuse | src/app/lib/analytics/tracker.ts:59-70 | a stored session is reused exactly when its entry parses and is younger than the timeout; otherwise the fresh id is used |
| Tracker.SessionLivesThirtyMinutes | src/app/lib/analytics/tracker.ts:56-66 | a call made less than 30 minutes after the previous one returns the same session id; from 30 minutes on it returns the new one |
| Tracker.GetOrCreateVisitorId | src/app/lib/analytics/tracker.ts:77-89 | a stored "_as_vid" is returned unchanged; an absent or empty one is replaced by the fresh id, which is stored; when local storage throws, the fresh id is returned and nothing is stored |
| Tracker.VisitorIdStable | src/app/lib/analytics/tracker.ts:77-85 | the visitor id is created once: a second visit returns the same id and leaves the storage unchanged |
| Tracker.GenerateId | src/app/lib/analytics/tracker.ts:91-97 | the generated id has 36 characters |
| Tracker.TemplateAt | src/app/lib/analytics/tracker.ts:92 | the template has dashes at positions 8, 13, 18 and 23, the version digit 4 at 14, the variant 'y' at 19 and 'x' everywhere else |
| Tracker.GeneratedIsUuidV4 | src/app/lib/analytics/tracker.ts:91-97 | every id generated from any random digits is a lower-case version 4 UUID with variant 8 to b |
| Tracker.EveryUuidV4Generated | src/app/lib/analytics/tracker.ts:91-97 | every lower-case version 4 UUID is produced by some random digits (the converse of GeneratedIsUuidV4) |
| Tracker.GetUtmParams | src/app/lib/analytics/tracker.ts:99-107 | the result holds only source, medium and campaign, each exactly when the matching utm_ parameter is present and non-empty, with that parameter's value |
| Tracker.ScrollPercent | src/app/lib/analytics/tracker.ts:140-142 | the percentage is 0 when the page cannot scroll, and between 0 and 100 while the scroll position is within the page |
| Tracker.NextMilestone | src/app/lib/analytics/tracker.ts:147-154 | the chosen milestone is the smallest one that was reached and is above the last one reported; when there is none, no milestone qualifies |
| Tracker.HandleScroll | src/app/lib/analytics/tracker.ts:144-155 | only a new depth record is handled; it updates the maximum and reports a milestone exactly when one was reached above the last reported, which becomes the last reported |
| Tracker.JumpToBottomReportsQuarter | src/app/lib/analytics/tracker.ts:144-153 | a jump from the top straight to the bottom reports 25 only, and staying at the bottom reports nothing more |
| Tracker.WithDefaults | src/app/lib/analytics/tracker.ts:23-29 | an option left unset is switched on |
| Tracker.Body | src/app/lib/analytics/tracker.ts:110-120 | every message body is a JSON object that carries a "type" field |
| Tracker.Start | src/app/lib/analytics/tracker.ts:22-53 | when Do Not Track is honoured and set, the tracker is disabled with its configuration and page, sends nothing and leaves the storage as it was; otherwise it starts active and sends exactly one message (the page view) |
| Tracker.Step | src/app/lib/analytics/tracker.ts:109-253 | a disabled tracker stays disabled and sends only `trackEvent` calls, as events with empty session and visitor ids; an active one keeps its configuration and ids, sends at most one message, and never lowers its depth record except on navigation, where it resets it to 0 |
| Tracker.Run | src/app/lib/analytics/tracker.ts:22-253 | a disabled tracker stays disabled with its configuration over any inputs, and sends nothing while no `trackEvent` call arrives |
| Tracker.DisabledSendsNothing | src/app/lib/analytics/tracker.ts:31-35 | a tracker disabled by Do Not Track sends nothing while no `trackEvent` call arrives, since none of its listeners is installed |
| Tracker.DisabledSendsCustom | src/app/lib/analytics/tracker.ts:125-134 | a `trackEvent` call on a disabled tracker sends one event with empty session and visitor ids |
| Tracker.StepCorrected | src/app/lib/analytics/tracker.ts:31-35 | the intended step: a disabled tracker sends nothing; an active one behaves as `Step` |
| Tracker.RunCorrected | src/app/lib/analytics/tracker.ts:31-35 | under the corrected step a disabled tracker stays disabled with its configuration, an active one stays active with its configuration and ids, and at most one message is sent per input; that a disabled one sends nothing is `Tracker.CorrectedDisabledSendsNothing` |
| Tracker.CorrectedDisabledSendsNothing | src/app/lib/analytics/tracker.ts:31-35 | under the corrected step a disabled tracker sends nothing, whatever the inputs, `trackEvent` calls included |
| Tracker.StepsAgree | src/app/lib/analytics/tracker.ts:125-134 | the as-written and corrected steps agree exactly except on a `trackEvent` call to a disabled tracker |
| Tracker.ExitIntentOnlyAtTop | src/app/lib/analytics/tracker.ts:193-204 | an exit intent is reported only for the mouse leaving the window through its top 10 pixels, and only by a tracker that had not reported one yet |
| Tracker.ExitIntentAtMostOnce | src/app/lib/analytics/tracker.ts:194-198 | a tracker reports at most one exit intent over any sequence of inputs, and none when it already had |
| Tracker.StepReports | src/app/lib/analytics/tracker.ts:147-153 | one step reports no milestone, or exactly the new last milestone, which is a milestone above the previous one |
| Tracker.MilestonesIncrease | src/app/lib/analytics/tracker.ts:138-155 | over any sequence of inputs the reported depths are milestones, strictly increasing and above the last milestone reported before |
| Tracker.MilestonesAtMostFour | src/app/lib/analytics/tracker.ts:147 | at most four depth milestones are ever reported |
| Tracker.PageViewBodiesAccepted | src/app/lib/analytics/tracker.ts:110-120 | a page view body always has object-valued "screen" and "utm" and the type "pageview", which the collector requires |
| Tracker.LeaveRecordsDuration | src/app/lib/analytics/tracker.ts:168-181 | a leave message for a known session, when the database does not fail, is accepted and records in that session the duration the tracker measured |
| Strings.OrText | backend/app/services/ai_writer.py:79-80 | Python's `a or b` on optional text: the text when it is present and non-empty, the fallback otherwise |
| AiWriter.CountText | backend/app/services/ai_writer.py:88-89 | a missing or zero count reads "알 수 없음" |
| AiWriter.Label | backend/app/services/ai_writer.py:81-84 | a dict contributes a label exactly when the key holds text, and that text; a missing key or a non-text value makes the join raise TypeError |
| AiWriter.Labels | backend/app/services/ai_writer.py:81-84 | the labels of a list, in order and one per item, exactly when every item has one; otherwise TypeError |
| AiWriter.FirstFive | backend/app/services/ai_writer.py:84 | the slice `[:5]`: a prefix of at most five items, the whole list when it is that short |
| AiWriter.Block | backend/app/services/ai_writer.py:78-96 | a project's block exists exactly when its technologies, roles and first five features all have labels, and then it opens with the project's heading; otherwise TypeError |
| AiWriter.LaterFeaturesIgnored | backend/app/services/ai_writer.py:84 | features after the fifth never reach the summary |
| AiWriter.Blocks | backend/app/services/ai_writer.py:77-98 | one block per project, in order, exactly when every project's block exists |
| AiWriter.GetAllCall | backend/app/services/ai_writer.py:70 | passing any keyword to `get_all`, which takes none, raises TypeError; with none the cached projects come back in portfolio order |
| AiWriter.SummaryOf | backend/app/services/ai_writer.py:68-100 | a failure to fetch propagates; no project gives the fixed sentence; otherwise the blocks joined by "\n---\n", available exactly when every block is |
| AiWriter.SummaryAsWritten | backend/app/services/ai_writer.py:68-70 | as written, the summary raises TypeError whatever the table holds |
| AiWriter.Summary | backend/app/services/ai_writer.py:68-100 | with the unsupported argument dropped: a failed fetch propagates, no project gives the fixed sentence, and otherwise the summary is available exactly when every project's block is |
| AiWriter.RoleTitleRaises | backend/app/services/ai_writer.py:83 | a role dict with "role_name" and no "title" makes the as-written block raise, while reading "role_name" lists it |
| AiWriter.EmptySummary | backend/app/services/ai_writer.py:72-73 | with no project the corrected summary is the fixed sentence |
| AiWriter.ContentInstruction | backend/app/services/ai_writer.py:127-178 | a known content type gets its own instruction; any other gets the custom prompt when one is given, else the default sentence |
| AiWriter.UnknownTypeIsCustom | backend/app/services/ai_writer.py:178 | an unknown content type is served exactly as "custom" |
| AiWriter.ToneInstruction | backend/app/services/ai_writer.py:167-179 | the tone instruction is one of the three defined |
| AiWriter.LanguageInstruction | backend/app/services/ai_writer.py:173-180 | the language instruction is one of the two defined |
| AiWriter.Fallbacks | backend/app/services/ai_writer.py:179-180 | an unknown tone is treated as professional and an unknown language as Korean |
| AiWriter.ExtraInstructions | backend/app/services/ai_writer.py:194 | the extra-instructions section is present exactly when a non-empty custom prompt accompanies a content type other than "custom", and then holds that prompt |
| AiWriter.FullPrompt | backend/app/services/ai_writer.py:183-206 | the prompt opens with the writer's role and the content instruction and closes with the portfolio summary and the closing request |
| AiWriter.UseCredentials | backend/app/services/ai_writer.py:33-55 | an empty setting changes nothing; otherwise only the credentials variable changes; malformed JSON text raises RuntimeError |
| AiWriter.EnsureInitialized | backend/app/services/ai_writer.py:25-65 | an initialised service is left alone; success leaves it initialised with the Gemini model; an undeclared credentials setting raises AttributeError; once the credentials are applied, the credentials variable and any temporary file stay recorded even if a later step raises |
| AiWriter.InitFailureKeepsCredentials | backend/app/services/ai_writer.py:43-61 | when `vertexai.init` raises after usable credentials, the service stays uninitialised but the credentials variable is set and a JSON setting's temporary file is recorded |
| AiWriter.InitializeOnce | backend/app/services/ai_writer.py:27-28 | a second initialisation changes neither the service nor the environment |
| AiWriter.GenerateContent | backend/app/services/ai_writer.py:102-225 | generation succeeds exactly when initialisation, the summary and the model all succeed, and then answers the model's text for the full prompt; a model failure becomes RuntimeError; the service and environment as initialisation leaves them persist on every outcome |
| AiWriter.GenerateAsWritten | backend/app/services/ai_writer.py:30-70 | as written, generation always fails: AttributeError on the undeclared credentials setting, and otherwise the summary's TypeError |
| AiWriter.GenerateCorrected | backend/app/services/ai_writer.py:102-225 | with the Google settings declared and the summary readable, the model's text for the prompt built from the summary is returned |
| SettingsManager.Get | src/app/components/admin/SettingsManager.tsx:6-8 | a key has a value exactly when some entry carries it |
| SettingsManager.GetAt | src/app/components/admin/SettingsManager.tsx:6-8 | with distinct keys, each entry's value is the one found under its key |
| SettingsManager.Fetch | src/app/components/admin/SettingsManager.tsx:67-86 | a loaded object becomes both the edited and the confirmed settings; a 401 and a network failure each leave their message; another status changes nothing; loading ends in every case |
| SettingsManager.Put | src/app/components/admin/SettingsManager.tsx:89 | the key then holds the new value; an existing key keeps its place and a new key is appended |
| SettingsManager.PutFrame | src/app/components/admin/SettingsManager.tsx:89 | every other key keeps its value and every entry its place |
| SettingsManager.PutDistinct | src/app/components/admin/SettingsManager.tsx:89 | a put keeps the keys distinct |
| SettingsManager.HandleChange | src/app/components/admin/SettingsManager.tsx:88-90 | only the edited key changes, to the new value; the confirmed settings, the saving flag and the message are untouched |
| SettingsManager.SaveRequest | src/app/components/admin/SettingsManager.tsx:101-104 | the request holds one item per entry, in order, with the entry's key and value and no description |
| SettingsManager.Save | src/app/components/admin/SettingsManager.tsx:96-127 | on success the edited settings become the confirmed ones, so nothing is unsaved; on failure the confirmed settings stay and the failure message shows; saving ends either way |
| SettingsManager.RevertLeavesNoChanges | src/app/components/admin/SettingsManager.tsx:88-94 | editing a key away from its confirmed value and back leaves no unsaved change |
| SettingsManager.PutRestore | src/app/components/admin/SettingsManager.tsx:89 | putting a key's old value back restores the entries exactly (the inverse of a put on an existing key) |
| SettingsManager.NewKeyStaysChanged | src/app/components/admin/SettingsManager.tsx:89-94 | a key the confirmed settings lacked stays an unsaved change whatever it is set to afterwards |
| SettingsManager.SaveReachesServer | src/app/components/admin/SettingsManager.tsx:96-116 | a save answered by the settings router stores every entry, and the router then lists each key with the form's value |
| SettingsManager.FreshLoadNotSavable | src/app/components/admin/SettingsManager.tsx:214 | just after a load the save button is disabled |
| SettingsManager.HasChanges | src/app/components/admin/SettingsManager.tsx:92-94 | unsaved changes exactly when the two lists differ in length or in some entry; with none, every key reads alike in both |
| SettingsManager.SaveEnabled | src/app/components/admin/SettingsManager.tsx:214 | disabled while saving or without changes; when enabled, a successful save changes the confirmed settings |
| ProjectsManager.ImageUrl | src/app/components/admin/ProjectsManager.tsx:29-42 | a non-empty key is served through the file endpoint; else an http url is used as is; else a non-empty url is taken for a key; else the url comes back unchanged |
| ProjectsManager.Screenshots | src/app/components/admin/ProjectsManager.tsx:69-71 | the edit buffer when the project has one, even an empty one; else the server's list; else nothing |
| ProjectsManager.HasChanges | src/app/components/admin/ProjectsManager.tsx:182-184 | a project has unsaved changes exactly when the editor shows its buffer rather than the server's list |
| ProjectsManager.Find | src/app/components/admin/ProjectsManager.tsx:98 | a found project has the id and is in the loaded list; nothing is found only when the list has not loaded or no project has the id |
| ProjectsManager.NewShot | src/app/components/admin/ProjectsManager.tsx:106-112 | an uploaded entry holds its key, an empty caption and the next order number; its url is the matching presigned URL when there is a non-empty one, else the key |
| ProjectsManager.UploadDone | src/app/components/admin/ProjectsManager.tsx:95-116 | after a successful upload for a loaded project, its buffer is its current screenshots followed by one new entry per key, in order; a failed upload or an unknown project changes nothing; other buffers are kept |
| ProjectsManager.Delete | src/app/components/admin/ProjectsManager.tsx:125-133 | the entry at the index is dropped and the rest keep their order; an index out of range still opens a buffer holding the list unchanged; other buffers are kept |
| ProjectsManager.Without | src/app/components/admin/ProjectsManager.tsx:130 | filtering out an index removes exactly that entry, or nothing when the index is out of range |
| ProjectsManager.Caption | src/app/components/admin/ProjectsManager.tsx:135-145 | only the caption of the entry at the index changes; length and every other entry are kept |
| ProjectsManager.SaveRequest | src/app/components/admin/ProjectsManager.tsx:147-160 | a request is sent exactly when the project has unsaved changes, and it carries the buffer |
| ProjectsManager.SaveDone | src/app/components/admin/ProjectsManager.tsx:166-180 | a successful save discards that project's buffer alone; a failure keeps every buffer; other projects' unsaved state is unchanged |
| ProjectsManager.UploadThenDelete | src/app/components/admin/ProjectsManager.tsx:95-133 | uploading one file and deleting the entry it produced gives back the list from before |
| ProjectsManager.UploadKeepsNumbering | src/app/components/admin/ProjectsManager.tsx:111 | screenshots numbered by position stay so after an upload |
| ProjectsManager.DeleteLeavesGap | src/app/components/admin/ProjectsManager.tsx:130 | deleting an entry other than the last leaves the numbering out of step: orders are not renumbered |
| ProjectsManager.UploadedShownByKey | src/app/components/admin/ProjectsManager.tsx:29-33 | a fresh upload is shown through the file endpoint by its key, whatever its url |
| ProjectsManager.EditThenSave | src/app/components/admin/ProjectsManager.tsx:125-184 | an edit opens unsaved changes for its project, and a successful save removes them without touching any other project's |
| Carousel.HexDigitValue | src/app/components/sections/Works.tsx:63-65 | a hex digit of either case has a value below 16, and nothing else has one |
| Carousel.ParseHex | src/app/components/sections/Works.tsx:63-65 | `parseInt(s, 16)` is NaN exactly when the text is empty or does not start with a hex digit |
| Carousel.Substring | src/app/components/sections/Works.tsx:63-65 | `substring(a, b)` yields at most b - a characters, clamped to the text |
| Carousel.DropHash | src/app/components/sections/Works.tsx:62 | `replace('#', '')` leaves a text without '#' unchanged and drops a leading '#' |
| Carousel.TextColor | src/app/components/sections/Works.tsx:62-70 | the text is dark exactly when all three channels parse and their mean exceeds 100, and light otherwise |
| Carousel.ColorData | src/app/components/sections/Portfolio.tsx:190-213 | slot i gets palette entry i mod 40 as its spine and the text colour that entry calls for |
| Carousel.HexChar | src/app/components/sections/Works.tsx:63-65 | the digit written for a value below 16 parses back to that value |
| Carousel.Hex2 | src/app/components/sections/Works.tsx:63-65 | a byte is written as two hex digits |
| Carousel.Hex2Parses | src/app/components/sections/Works.tsx:63-65 | two digits written for a byte parse back to the byte (partner of Hex2) |
| Carousel.GreyChannels | src/app/components/sections/Works.tsx:62-65 | every channel of the grey "#vvvvvv" reads back as v |
| Carousel.GreyText | src/app/components/sections/Works.tsx:66-70 | on a grey spine the text is dark above level 100 and light at 100 and below |
| Carousel.PaletteGreys | src/app/components/sections/Works.tsx:48-57 | the palette's lightest entry, its darkest entry and the entries at each end of the dark run are the greys 230, 40, 110 and 95 |
| Carousel.SlotTextColors | src/app/components/sections/Works.tsx:46-71 | slots 0, 12 and 27 carry dark text, slots 13, 19 and 26 light text, and slot 40 repeats slot 0 |
| Carousel.SlotId | src/app/components/sections/Works.tsx:91 | "{id}-{i}" splits on '-' into the id's own parts followed by the slot number |
| Carousel.SlotIdsDistinct | src/app/components/sections/Portfolio.tsx:297 | two different slots never share an id, whatever the projects' ids |
| Carousel.SubsequenceMembers | src/app/components/sections/Works.tsx:143-147 | everything kept by a filter was in the input |
| Carousel.SubsequencePairs | src/app/components/sections/Portfolio.tsx:557 | an order that holds of every pair in the input holds of every pair the filter keeps |
| Carousel.Filter | src/app/components/sections/Works.tsx:143-147 | the result keeps exactly the elements that pass, in their original order, and is the input itself when all pass |
| Works.Repeat | src/app/components/sections/Works.tsx:87 | `Array(n).fill(xs).flat()` has n times as many elements as xs |
| Works.RepeatAt | src/app/components/sections/Works.tsx:87 | position i of the repetition holds xs[i mod len(xs)] |
| Works.Slots | src/app/components/sections/Works.tsx:87-98 | the wheel has forty slots |
| Works.FilledSlotsCycle | src/app/components/sections/Works.tsx:87-98 | the repeated-and-sliced construction puts base project i mod n in slot i, n the number of base projects, however many copies are made |
| Works.ProjectsAsBuilt | src/app/components/sections/Works.tsx:7-98 | the page's forty slots are the five sample projects repeated and cut to forty, slot i showing sample i mod 5 |
| Works.Search | src/app/components/sections/Works.tsx:135-150 | a blank query shows every slot; otherwise exactly the matching slots, in wheel order |
| Works.SlotsDistinct | src/app/components/sections/Works.tsx:91 | two slots never share an id although each sample fills eight of them |
| Works.SlotsRepeat | src/app/components/sections/Works.tsx:87-93 | slot i is numbered i + 1 and shows the same project as slot i + n, n the number of base projects |
| Works.YearsAlternate | src/app/components/sections/Works.tsx:95 | a slot's year is 2025 at even positions and 2026 at odd ones, whatever the sample's own year |
| Works.YearQuery | src/app/components/sections/Works.tsx:143-147 | a slot whose title and category hold no digit matches a year query exactly when it is that year's slot |
| Works.SearchByYear | src/app/components/sections/Works.tsx:135-150 | over projects whose titles and categories hold no digit, searching a year finds exactly the slots of that year |
| Works.NoDigits | src/app/components/sections/Works.tsx:144-145 | a text without digits never contains a query that starts with a digit |
| Portfolio.Resolve | src/app/components/sections/Portfolio.tsx:255-263 | an http URL is used as is, a path under /uploads/ is prefixed with the API host, and anything else is read as a storage key through the file endpoint |
| Portfolio.CoverImage | src/app/components/sections/Portfolio.tsx:252-277 | the cover image when set, else the first screenshot's url when it has one, else GitHub's generated preview of the repository |
| Portfolio.Category | src/app/components/sections/Portfolio.tsx:280 | the first project type, else the language, else "Project", with its first letter capitalised; never empty |
| Portfolio.Title | src/app/components/sections/Portfolio.tsx:298 | the title when set, else the repository name |
| Portfolio.Card | src/app/components/sections/Portfolio.tsx:295-344 | a card carries the repository's id, the slot's id, number and colours, its title, category and image, status "completed" when empty and at least one contributor |
| Portfolio.Transform | src/app/components/sections/Portfolio.tsx:241-346 | no repository gives the fallback card alone; otherwise forty cards, card i showing repository i mod n under the id "{id}-{i}" |
| Portfolio.CardsDistinct | src/app/components/sections/Portfolio.tsx:297 | no two cards share an id, whatever the repositories' ids |
| Portfolio.EveryRepoShown | src/app/components/sections/Portfolio.tsx:247-248 | the first forty repositories each get the card of their own position, numbered from 1 |
| Portfolio.ResolveAgreesWithEditor | src/app/components/sections/Portfolio.tsx:255-263 | a stored key shows the same image here and in the admin editor; a path under /uploads/ does not, since the editor reads it as a key |
| Portfolio.MatchingIds | src/app/components/sections/Portfolio.tsx:512-554 | an id is collected exactly when some repository with that id matches the query and every tag |
| Portfolio.Filtered | src/app/components/sections/Portfolio.tsx:504-558 | a blank query with no tag keeps every card; otherwise exactly the cards whose repository matches, in carousel order |
| Portfolio.MoreTagsShowFewer | src/app/components/sections/Portfolio.tsx:547-550 | selecting one more tag never brings a card back |
| Portfolio.MatchingCardKept | src/app/components/sections/Portfolio.tsx:544-557 | a card whose repository mentions the query and every tag is kept |
| Portfolio.FindIndex | src/app/components/sections/Portfolio.tsx:644 | the first position holding the id, or none when no repository has it |
| Portfolio.Step | src/app/components/sections/Portfolio.tsx:649-654 | an arrow always lands on a position within the list |
| Portfolio.StepIsModular | src/app/components/sections/Portfolio.tsx:649-654 | right moves one position on a ring of n, and left one position back |
| Portfolio.KeyDown | src/app/components/sections/Portfolio.tsx:635-752 | with no open card nothing happens; Escape closes; an arrow opens the neighbouring repository as a card for its position with the id "{id}-nav"; an unknown repository or another key changes nothing |
| Portfolio.RightThenLeft | src/app/components/sections/Portfolio.tsx:649-654 | with distinct ids, right then left comes back to the same repository |
| Portfolio.ArrowMoves | src/app/components/sections/Portfolio.tsx:644-660 | an arrow on the card of the repository at position j opens the neighbouring position |
| Portfolio.StepsUndo | src/app/components/sections/Portfolio.tsx:649-654 | the two arrows undo each other on positions |
| Portfolio.FindDistinct | src/app/components/sections/Portfolio.tsx:644 | with distinct ids each repository is found at its own position |
| Portfolio.NavCardIsSlotCard | src/app/components/sections/Portfolio.tsx:660-712 | the card an arrow opens differs from the carousel's card for that position only in its id |
| Portfolio.Previous | src/app/components/sections/Portfolio.tsx:1724 | the previous button goes one back on a ring of the screenshots, and from no selection to -1 |
| Portfolio.Next | src/app/components/sections/Portfolio.tsx:1733 | the next button goes one on around the screenshots, and from no selection to 1 |
| Portfolio.LightboxWraps | src/app/components/sections/Portfolio.tsx:1718-1738 | the two buttons undo each other and never leave the screenshots |
| PortfolioTags.TypeTag | src/app/components/sections/Portfolio.tsx:460-464 | a project type with a friendly name (looked up lower-cased) gets that name; any other keeps its length, its first letter upper-cased and the rest lower-cased |
| PortfolioTags.LanguageTag | src/app/components/sections/Portfolio.tsx:467-472 | the language's friendly name when it has one, else the language exactly as written |
| PortfolioTags.TechTags | src/app/components/sections/Portfolio.tsx:474-481 | only technologies with a friendly name count, each as that name |
| PortfolioTags.OccurrencesCountEveryTag | src/app/components/sections/Portfolio.tsx:459-482 | every tag of every repository is counted |
| PortfolioTags.TypeTagIgnoresCase | src/app/components/sections/Portfolio.tsx:462-463 | the case of a project type does not change its tag |
| PortfolioTags.LanguageKeepsCase | src/app/components/sections/Portfolio.tsx:469-470 | a language without a friendly name makes a different chip in each case, where the same text as a project type makes one |
| PortfolioTags.BumpAppends | src/app/components/sections/Portfolio.tsx:464 | a tag not yet counted enters the map at the end with count 1 |
| PortfolioTags.BumpIncrements | src/app/components/sections/Portfolio.tsx:464 | a tag already counted is incremented where it stands |
| PortfolioTags.FirstSeen | src/app/components/sections/Portfolio.tsx:485 | the map's keys in insertion order: each occurring tag once |
| PortfolioTags.Reference | src/app/components/sections/Portfolio.tsx:457-485 | the meaning of the counting map: each distinct tag in order of first occurrence, with its number of occurrences |
| PortfolioTags.TallyCounts | src/app/components/sections/Portfolio.tsx:457-485 | the map built by incrementing equals the reference counts, order included |
| PortfolioTags.CountStep | src/app/components/sections/Portfolio.tsx:464 | one more occurrence changes the reference counts exactly as the increment does |
| PortfolioTags.Rank | src/app/components/sections/Portfolio.tsx:487-488 | `priorityTags.indexOf`: the first position of the tag, and "absent" exactly when it is not a priority tag |
| PortfolioTags.KeyOrder | src/app/components/sections/Portfolio.tsx:486-494 | the sort key orders two entries exactly as the comparator does: priority tags by their rank and before the others, the others by falling count |
| PortfolioTags.SortedEntries | src/app/components/sections/Portfolio.tsx:485-494 | sorting keeps each counted tag once, with its count |
| PortfolioTags.DataMembers | src/app/components/sections/Portfolio.tsx:497 | each data tag is a counted tag that is not a default one, with its count |
| PortfolioTags.DataOrdered | src/app/components/sections/Portfolio.tsx:486-497 | the data tags are distinct and in the comparator's order |
| PortfolioTags.DataComplete | src/app/components/sections/Portfolio.tsx:497 | every counted tag that is not a default one is among the data tags |
| PortfolioTags.Chips | src/app/components/sections/Portfolio.tsx:498-500 | the defaults followed by the data tags in order, cut to eight |
| PortfolioTags.ChipsDistinct | src/app/components/sections/Portfolio.tsx:497-500 | no chip appears twice |
| PortfolioTags.ChipsOrdered | src/app/components/sections/Portfolio.tsx:486-500 | the chips after the defaults are counted non-default tags in the comparator's order |
| PortfolioTags.ChipsComplete | src/app/components/sections/Portfolio.tsx:486-500 | a counted tag is left out only when all eight places are taken, each data chip ranking ahead of it |
| PortfolioTags.QuickFilterTags | src/app/components/sections/Portfolio.tsx:456-501 | the default tags first, then distinct counted tags in the comparator's order, eight at most, and a counted tag is missing only when it ranks behind every data chip shown |
| PortfolioTags.PageTables | src/app/components/sections/Portfolio.tsx:453 | the page has six distinct default tags |
| PortfolioTags.PageChips | src/app/components/sections/Portfolio.tsx:453-500 | the page shows its six defaults and at most two data tags |
| PortfolioTags.NoRepositoriesDefaultsOnly | src/app/components/sections/Portfolio.tsx:456-500 | with no repository the chips are the defaults alone |
| PortfolioMarkdown.RunEnd | src/app/components/sections/Portfolio.tsx:230 | the end of a run of non-star characters: the first '*' at or after the start, or the end of the text |
| PortfolioMarkdown.MatchAt | src/app/components/sections/Portfolio.tsx:230 | the pattern matches at a position exactly when some end makes a bold span there, and that end is the one returned |
| PortfolioMarkdown.Pieces | src/app/components/sections/Portfolio.tsx:230 | the split yields an odd number of parts, bold spans at odd positions, which put back together give the text |
| PortfolioMarkdown.SplitBold | src/app/components/sections/Portfolio.tsx:230 | splitting with the capturing pattern puts plain text at even positions and bold spans at odd ones, losing nothing |
| PortfolioMarkdown.Unframe | src/app/components/sections/Portfolio.tsx:234 | `slice(2, -2)` takes back out what a "**" frame surrounds, and is empty for parts shorter than four |
| PortfolioMarkdown.ParseAsWritten | src/app/components/sections/Portfolio.tsx:226-238 | empty text is returned as is; otherwise one node per part of the split |
| PortfolioMarkdown.ParseCorrected | src/app/components/sections/Portfolio.tsx:226-238 | empty text is returned as is; otherwise one node per part, bold nodes holding non-empty star-free text, and the nodes together stand for exactly the text |
| PortfolioMarkdown.CorrectNodes | src/app/components/sections/Portfolio.tsx:232-237 | the parts at odd positions become bold and the rest plain, each node standing for exactly its part |
| PortfolioMarkdown.SourceOfMarkups | src/app/components/sections/Portfolio.tsx:232-237 | nodes that each stand for their part stand together for the whole text |
| PortfolioMarkdown.AgreeUnlessStrayFrame | src/app/components/sections/Portfolio.tsx:232-233 | the as-written and corrected renderings agree exactly when no plain part between spans starts and ends with "**" |
| PortfolioMarkdown.StarsVanish | src/app/components/sections/Portfolio.tsx:232-233 | the text "**" renders as written as an empty bold element, losing the stars; the corrected rendering keeps them as plain text |
| PortfolioMarkdown.LoneSpanSplits | src/app/components/sections/Portfolio.tsx:230 | a text that is one bold span splits into that span between two empty texts |
| PortfolioMarkdown.FramedSpan | src/app/components/sections/Portfolio.tsx:230-234 | a non-empty star-free text framed in "**" is a bold span, and the slice gives the text back |
| PortfolioMarkdown.LoneSpan | src/app/components/sections/Portfolio.tsx:226-238 | a text that is one bold span renders its inside in bold between two empty texts, the same in both renderings |
| PortfolioMarkdown.LoneSpanIsBold | src/app/components/sections/Portfolio.tsx:229-234 | "**x**" for a non-empty star-free x renders x in bold, the same in both renderings |

## Left out

- Network, database and bucket I/O are parameters or recorded results, not code: httpx calls to GitHub and Discord, asyncpg, boto3 and presigned URLs, Vertex AI, `sendBeacon`/XHR, and browser storage.
- Connection pooling, background refresh tasks and overlapping requests are not modelled, because the model has no concurrency.
- bcrypt, `secrets.token_urlsafe`, `uuid4`, `Math.random` and the clocks are parameters. Their outputs are only assumed to have the shapes the code relies on.
- Date parsing and formatting (`fromisoformat`, `new Date`) are not modelled; timestamps are integers. The cards' `year` and `yearMonth` come from dates, so they are not modelled.
- Floating-point presentation is left out: carousel angles and radii, language percentage bars, and the rounding of bounce rates when displayed. The overview's ratios are real numbers.
- The analytics statistics' grouped SQL listings are left out: the overview's daily `trend` (page views and distinct visitors per day), and the top pages, sources, real-time and exits listings. Only the labels the listings derive are modelled (`Analytics.PageLabel`, `Analytics.SourceLabel`, `Analytics.ExtractHostname`).
- Analytics.AvgDuration: averages only whole-number durations. The column types are not part of this model; a leave whose duration is not a whole number is stored by the model, while the database would refuse it, and the average leaves it out.
- The tracker's throttling of scroll and activity handlers is not modelled, because it is timer-driven; the inputs are the calls that get through.
- Logging, `print`, `console.error` and `alert` are left out, because they have no effect on state.
- pydantic's lax coercions (a numeric string accepted as an int and the like) are not modelled; a field validates only from the matching JSON kind.
- The order of keys in JSON objects is not modelled, because objects are finite maps.
- ProjectRequests.UpdateRequestStatus and ProjectRequests.UpdateChangesOnlyStatus: the `updated_at` column that the UPDATE sets to `NOW()` (project_requests.py:162-164) is not modelled, because the table's definition, and so the column's value on insert, is not part of this model; "no other field changes" is about the modelled fields.
- GitHubService.MergeRepoData, GitHubService.SyncAll and SettingsRouter.ApplyItems take one timestamp for the whole sync or save, while the source reads the clock once per repository (`datetime.utcnow()`, github.py:190) and `NOW()` once per statement (settings.py:96-103), so its times can differ slightly between items.
- GitHubService.FetchUserRepos: a 200 page is taken to hold a list of repository records. The source passes `response.json()` (github.py:56) straight to `extend`, and a body of another shape (a dict, whose keys would be added, or a scalar, which raises) is not modelled.
- Statement failures are modelled only in `Analytics` and `RepositoryService`. `SettingsRouter.UpdateSettings`, `ProjectRequests.CreateRequest`, `AuthService` and `CreateAdmin` take every statement to succeed. In the source a database error there raises out of the handler, leaving applied whatever statements ran before it (for a settings save, the earlier items); that partial outcome is not modelled.
- JSON numbers with a fractional part or an exponent (such as `1.5` or `1e3`) are not modelled: numbers are integers.
- JavaScript prototype keys in object lookups (a project type named "constructor", say) are not modelled; the friendly-name table is a map.
- Case mapping covers ASCII letters only. `toLowerCase`, `lower()` and `toUpperCase` on other scripts are not modelled.
- `parseInt` is modelled only on text without sign, blanks or "0x", which is all the palette holds.
- The markup, animation and static pages are not modelled, because they carry no rules: the admin dashboard, login and AI-writer pages, the intro and hero sections, the router's static content-type list, and the app's entry points.
- Sorting.SortBy: the contracts state a permutation in key order. They do not say how equal keys are ordered, although the insertion sort keeps them in input order as Python's and JavaScript's sorts do.
- Portfolio.Step: its own contract states only that the arrow stays within the list. `Portfolio.StepIsModular` states the ring arithmetic.
- Works.SearchByYear: stated for base projects whose titles and categories hold no digit. It is not proved that the five sample projects meet this, although their texts, read off the page, hold no digits.
- Works.Slots: its own contract states only the forty slots. The contents of each slot are stated by `Works.ProjectsAsBuilt`, `Works.SlotsRepeat` and `Works.YearsAlternate`.
- RepositoryService.RowToRepo: reads with `languages` declared on `Repository`, as the corrected upsert needs; as declared, pydantic ignores the keyword, so a stored `languages` that is not an object does not fail the read there. `RepositoryService.RowToRepoAsWritten` is that read.
- The meta's `start_date` and `end_date` are kept as any text (`GitHubService.ParseMetaJson` and the repository rows). The source declares them `Optional[date]` (backend/app/schemas/repo.py:85-86 and 167-168), so pydantic refuses text that is not an ISO date; that check is not modelled, because dates are not.
- The `EmailStr` check of the login and registration bodies is the parameter `AuthRouter.EmailCheck`: its address syntax and normalisation rules are not modelled, and its 422 answer carries one message instead of pydantic's list of errors.
- Two mismatches between the admin projects page and the API are not modelled, because the page's requests are inputs: the page reads `/api/repos` as a list, while the router answers an object holding `repositories`, `total` and `last_updated`; and it saves screenshots with a PUT to `/api/repos/{id}/screenshots`, a path no router defines. The model takes the loaded list and the save outcome as given.
- Tracker.GenerateId: its own contract states only the length. The layout is stated both ways by `Tracker.GeneratedIsUuidV4` and `Tracker.EveryUuidV4Generated`.

## Findings

| source | as written | input that shows it | evidently intended | confidence | as-written member | corrected member |
|---|---|---|---|---|---|---|
| backend/app/services/repository.py:121 | `upsert` reads `repo.languages`, but the `Repository` model declares no `languages` field, so every upsert raises and `upsert_many` stores nothing | any repository, e.g. one built from id, name, full_name and html_url only | the field is declared with an empty default, and each upsert stores its row | high; not executed | RepositoryService.UpsertAllAsWritten | RepositoryService.UpsertAllCorrectedCount |
| backend/app/routers/upload.py:53 | the upload, file and delete endpoints read `settings.bucket_endpoint` and other `bucket_*` names, but the settings class declares only `r2_*` names, so each endpoint raises AttributeError | any signed-in upload of one image | the bucket settings are declared, and the upload stores each file and answers its key and link | high; not executed | Upload.UploadAsWritten | Upload.UploadCorrected |
| backend/app/routers/project_requests.py:59 | the announcement reads `settings.discord_webhook_url`, which the settings class does not declare, so every submission answers 500 after its row is stored | any project request form | the webhook address is declared; the submission succeeds whether or not the announcement goes through | high; not executed | ProjectRequests.CreateAsWritten | ProjectRequests.CreateCorrected |
| backend/app/services/ai_writer.py:70 | the summary calls `get_all(include_hidden=False)`, but `get_all` takes no such argument, so the summary always raises TypeError, and `generate_content` with it | any table, including an empty one | `get_all()` without arguments, giving the fixed sentence for no project and otherwise the blocks | high; not executed | AiWriter.SummaryAsWritten | AiWriter.EmptySummary |
| backend/app/services/ai_writer.py:83 | roles are labelled by `r.get('title', r)`, but a role carries `role_name`, so the dict itself reaches `", ".join` and raises TypeError | a project with one role `{"role_name": "Backend"}` | each role is labelled by its `role_name` | high; not executed | AiWriter.RoleTitleRaises | AiWriter.Block |
| backend/app/services/ai_writer.py:33 | initialisation reads `settings.google_application_credentials`, which the settings class does not declare, so generation raises AttributeError before any prompt is built | any content request on a fresh service | the Google settings are declared, and the model's text for the built prompt is returned | high; not executed | AiWriter.GenerateAsWritten | AiWriter.GenerateCorrected |
| src/app/components/sections/Portfolio.tsx:232-233 | every part that starts and ends with "**" is made bold, including plain text between spans, so the text "**" becomes an empty bold element and its stars vanish | the text `**` | only the spans the pattern captured are bold; everything else is shown verbatim. This also changes `**a*b**`, which the pattern does not capture: as written it is bold "a*b", corrected it is plain text with its stars | medium; not executed | PortfolioMarkdown.StarsVanish | PortfolioMarkdown.ParseCorrected |
| src/app/lib/analytics/tracker.ts:32-35 | under Do Not Track the constructor returns before the ids and listeners are set up, but `initAnalytics` still installs the instance and the exported `trackEvent` still sends through it, with empty session and visitor ids | `trackEvent("x")` in a browser that sets Do Not Track | a tracker disabled by Do Not Track sends nothing at all | medium; not executed | Tracker.DisabledSendsCustom | Tracker.CorrectedDisabledSendsNothing |
| backend/app/services/github.py:274-278 | the sort key pairs the priority with `github_updated_at or datetime.min`; update times parsed at line 172 carry a UTC offset and `datetime.min` is naive, so comparing them raises TypeError | two repositories of the same priority, one with `updated_at` and one without | a missing update time ranks below every known one in its priority class | high; not executed | GitHubService.MixedPriorityRaises | GitHubService.SortReposCorrected |

=== FILE: ai_writer.dfy ===
/** The AI writer: it builds a prompt from the portfolio's cached projects
    and the request's content type, tone and language, and hands it to the
    generative model.

    The model, Vertex AI's initialisation, `json.loads` and the temporary
    file's name are parameters; the environment is a map. */
module AiWriter {
  import opened Wrappers
  import opened Strings
  import opened Json
  import Config
  import opened RepoSchema
  import RepositoryService

  // ---------------------------------------------------------------------------
  // The portfolio summary

  const NoProjects: string := "포트폴리오 프로젝트가 없습니다."
  const Unknown: string := "알 수 없음"
  const NoneText: string := "없음"
  const BlockSeparator: string := "\n---\n"
  /** Each project lists at most this many features. */
  const FeatureLimit: nat := 5

  /** A count, or "unknown" when it is missing or 0. */
  function CountText(n: Option<int>): (r: string)
    ensures n.None? || n.value == 0 ==> r == Unknown
  {
    if n.Some? && n.value != 0 then IntToString(n.value) else Unknown
  }

  /** `x.get(key, x)` on a dict, as `", ".join` needs it: the text under the
      key; a missing key leaves the dict itself and a non-text value stays
      what it is, and either makes the join raise TypeError. */
  function Label(o: Object, key: string): (r: Result<string>)
    ensures r.Ok? <==> key in o && o[key].JStr?
    ensures r.Ok? ==> r.value == o[key].s
    ensures r.Err? ==> r.error == Raised("TypeError")
  {
    if key in o && o[key].JStr? then Ok(o[key].s) else Err(Raised("TypeError"))
  }

  /** The labels of a list of dicts, in order. */
  function Labels(items: seq<Object>, key: string): (r: Result<seq<string>>)
    ensures r.Ok? <==> forall i :: 0 <= i < |items| ==> Label(items[i], key).Ok?
    ensures r.Ok? ==> |r.value| == |items| && forall i :: 0 <= i < |items| ==> r.value[i] == items[i][key].s
    ensures r.Err? ==> r.error == Raised("TypeError")
    decreases |items|
  {
    if |items| == 0 then Ok([])
    else
      var first :- Label(items[0], key);
      var rest :- Labels(items[1..], key);
      Ok([first] + rest)
  }

  /** The first five items. */
  function FirstFive<T>(items: seq<T>): (r: seq<T>)
    ensures |r| <= FeatureLimit && |r| <= |items| && r == items[..|r|]
    ensures |items| <= FeatureLimit ==> r == items
  {
    if |items| <= FeatureLimit then items else items[..FeatureLimit]
  }

  /** The heading of a project: its title, else its name. */
  function Heading(r: Repository): string {
    OrText(r.title, r.name)
  }

  /** A line added only for a non-empty text. */
  function OptionalLine(prefix: string, v: Option<string>): string {
    if v.Some? && v.value != "" then prefix + v.value + "\n" else ""
  }

  /** One project's block; `roleKey` is the dict key read for each role. */
  function Block(r: Repository, roleKey: string): (res: Result<string>)
    ensures res.Ok? <==> Labels(r.technologies, "name").Ok? && Labels(r.roles, roleKey).Ok?
                         && Labels(FirstFive(r.features), "title").Ok?
    ensures res.Ok? ==> StartsWith(res.value, "\n## " + Heading(r) + "\n")
    ensures res.Err? ==> res.error == Raised("TypeError")
  {
    var techs :- Labels(r.technologies, "name");
    var roles :- Labels(r.roles, roleKey);
    var features :- Labels(FirstFive(r.features), "title");
    var head := "\n## " + Heading(r) + "\n";
    var body := BlockBody(r, techs, roles, features);
    PrefixOfConcat(head, body);
    Ok(head + body)
  }

  lemma PrefixOfConcat(a: string, b: string)
    ensures StartsWith(a + b, a)
  {
    assert (a + b)[..|a|] == a;
  }

  /** A block after its heading, from the project and its joined lists. */
  function BlockBody(r: Repository, techs: seq<string>, roles: seq<string>, features: seq<string>): string {
    "- 설명: " + OrText(r.description, OrText(r.detailedDescription, NoneText))
       + "\n- 기술 스택: " + Join(techs, ", ")
       + "\n- 프로젝트 유형: " + Join(r.projectType, ", ")
       + "\n- 역할: " + Join(roles, ", ")
       + "\n- 주요 기능: " + Join(features, ", ")
       + "\n- GitHub: " + r.htmlUrl
       + "\n- 데모: " + OrText(r.demoUrl, NoneText)
       + "\n- 상태: " + r.status
       + "\n- 커밋 수: " + CountText(r.commitCount)
       + "\n- 코드 라인: " + CountText(r.linesOfCode)
       + "\n"
       + OptionalLine("- 도전 과제: ", r.challenges)
       + OptionalLine("- 성과: ", r.achievements)
       + OptionalLine("- 아키텍처: ", r.architecture)
  }

  /** Features after the fifth never reach the summary: a project whose
      feature list only grows past five gives the same block. */
  lemma LaterFeaturesIgnored(r: Repository, more: seq<Object>, roleKey: string)
    requires |r.features| >= FeatureLimit
    ensures Block(r.(features := r.features + more), roleKey) == Block(r, roleKey)
  {
    assert FirstFive(r.features + more) == FirstFive(r.features);
  }

  /** The blocks of the projects, in order. */
  function Blocks(repos: seq<Repository>, roleKey: string): (r: Result<seq<string>>)
    ensures r.Ok? <==> forall i :: 0 <= i < |repos| ==> Block(repos[i], roleKey).Ok?
    ensures r.Ok? ==> |r.value| == |repos| && forall i :: 0 <= i < |repos| ==> r.value[i] == Block(repos[i], roleKey).value
    ensures r.Err? ==> r.error == Raised("TypeError")
  {
    MapResult(repos, r => Block(r, roleKey))
  }

  /** `get_all` as called with the keyword arguments `kwargs`: it takes none,
      so any raises TypeError; otherwise the cached projects in portfolio
      order. */
  function GetAllCall(kwargs: set<string>, t: RepositoryService.Table, codec: Codec): (r: Result<seq<Repository>>)
    ensures kwargs != {} ==> r == Err(Raised("TypeError"))
    ensures kwargs == {} ==> r == RepositoryService.GetAll(t, codec)
  {
    if kwargs != {} then Err(Raised("TypeError")) else RepositoryService.GetAll(t, codec)
  }

  /** `get_portfolio_summary` over the result of fetching the projects: the
      fixed sentence for no project, else the blocks separated by rules. */
  function SummaryOf(repos: Result<seq<Repository>>, roleKey: string): (r: Result<string>)
    ensures repos.Err? ==> r == Err(repos.error)
    ensures repos == Ok([]) ==> r == Ok(NoProjects)
    ensures repos.Ok? && |repos.value| > 0 ==>
              (r.Ok? <==> forall i :: 0 <= i < |repos.value| ==> Block(repos.value[i], roleKey).Ok?)
    ensures repos.Ok? && |repos.value| > 0 && r.Ok? ==> r.value == Join(Blocks(repos.value, roleKey).value, BlockSeparator)
  {
    var list :- repos;
    if |list| == 0 then Ok(NoProjects)
    else
      var blocks :- Blocks(list, roleKey);
      Ok(Join(blocks, BlockSeparator))
  }

  /** The summary as written: `get_all(include_hidden=False)` and each role's
      "title". */
  function SummaryAsWritten(t: RepositoryService.Table, codec: Codec): (r: Result<string>)
    ensures r == Err(Raised("TypeError"))
  {
    SummaryOf(GetAllCall({"include_hidden"}, t, codec), "title")
  }

  /** The summary as intended: `get_all()` and each role's "role_name". */
  function Summary(t: RepositoryService.Table, codec: Codec): (r: Result<string>)
    ensures RepositoryService.GetAll(t, codec).Err? ==> r == Err(RepositoryService.GetAll(t, codec).error)
    ensures RepositoryService.GetAll(t, codec) == Ok([]) ==> r == Ok(NoProjects)
    ensures var listed := RepositoryService.GetAll(t, codec);
      listed.Ok? && |listed.value| > 0 ==>
        (r.Ok? <==> forall i :: 0 <= i < |listed.value| ==> Block(listed.value[i], "role_name").Ok?)
  {
    SummaryOf(GetAllCall({}, t, codec), "role_name")
  }

  /** A role as the schema validates it carries "role_name" and no "title";
      a project with such a role breaks the as-written block, and the block
      reading "role_name" lists it. */
  lemma RoleTitleRaises(r: Repository, i: nat)
    requires i < |r.roles| && "title" !in r.roles[i] && "role_name" in r.roles[i] && r.roles[i]["role_name"].JStr?
    ensures Block(r, "title") == Err(Raised("TypeError"))
    ensures Labels(r.technologies, "name").Ok? && Labels(FirstFive(r.features), "title").Ok?
            && (forall j :: 0 <= j < |r.roles| ==> Label(r.roles[j], "role_name").Ok?)
            ==> Block(r, "role_name").Ok?
  {
    assert Label(r.roles[i], "title").Err?;
  }

  /** With no project the summary is the fixed sentence. */
  lemma EmptySummary(t: RepositoryService.Table, codec: Codec)
    requires t == map[]
    ensures Summary(t, codec) == Ok(NoProjects)
  {
    assert RepositoryService.GetAll(t, codec).Ok?;
  }

  // ---------------------------------------------------------------------------
  // The prompt

  /** The instructions of the fixed content types. */
  const ContentPrompts: map<string, string> := map[
    "resume" := "이력서용 프로젝트 경력 섹션을 작성해주세요.\n- 각 프로젝트별로 역할, 기술 스택, 주요 성과를 정리\n- 정량적 성과가 있다면 강조\n- 기술적 도전과 해결 과정 포함\n- 채용 담당자가 읽기 좋게 구성",
    "cover_letter" := "자기소개서/커버레터를 작성해주세요.\n- 프로젝트 경험을 기반으로 역량 어필\n- 기술적 성장 스토리 포함\n- 팀 협업 경험과 문제 해결 능력 강조\n- 열정과 성장 가능성 표현",
    "freelance_proposal" := "외주/프리랜서 제안서용 자기소개를 작성해주세요.\n- 완료한 프로젝트들을 실적으로 제시\n- 기술 스택과 전문 분야 명확히\n- 신뢰성과 책임감 어필\n- 클라이언트 관점에서 어떤 가치를 제공하는지 설명",
    "self_introduction" := "간단한 자기소개를 작성해주세요.\n- 1-2분 내로 읽을 수 있는 분량\n- 핵심 기술 스택과 주요 프로젝트 언급\n- 개발자로서의 철학이나 강점\n- 친근하면서도 전문적인 톤",
    "linkedin_summary" := "LinkedIn 프로필 요약을 작성해주세요.\n- 전문성과 경력 하이라이트\n- 관심 분야와 핵심 기술\n- 네트워킹에 열린 자세\n- 영어와 한국어 병기 가능",
    "portfolio_overview" := "포트폴리오 소개 페이지용 텍스트를 작성해주세요.\n- 전체 프로젝트를 아우르는 개요\n- 개발 철학과 접근 방식\n- 기술적 깊이와 다양성 표현\n- 방문자가 프로젝트를 탐색하고 싶게 만드는 훅"]

  const DefaultCustomPrompt: string := "포트폴리오를 기반으로 자유롭게 글을 작성해주세요."

  const ToneInstructions: map<string, string> := map[
    "professional" := "전문적이고 격식있는 톤으로 작성",
    "casual" := "친근하고 편안한 톤으로 작성",
    "creative" := "창의적이고 개성있는 톤으로 작성"]

  const LanguageInstructions: map<string, string> := map[
    "ko" := "한국어로 작성해주세요.",
    "en" := "Write in English."]

  /** A custom prompt that Python treats as true. */
  predicate Given(customPrompt: Option<string>) {
    customPrompt.Some? && customPrompt.value != ""
  }

  /** The instruction for a content type: a fixed type's own, else the
      custom prompt, else the default sentence. */
  function ContentInstruction(contentType: string, customPrompt: Option<string>): (text: string)
    ensures contentType in ContentPrompts ==> text == ContentPrompts[contentType]
    ensures contentType !in ContentPrompts && Given(customPrompt) ==> text == customPrompt.value
    ensures contentType !in ContentPrompts && !Given(customPrompt) ==> text == DefaultCustomPrompt
  {
    if contentType in ContentPrompts then ContentPrompts[contentType] else OrText(customPrompt, DefaultCustomPrompt)
  }

  /** An unknown content type is served as "custom". */
  lemma UnknownTypeIsCustom(contentType: string, customPrompt: Option<string>)
    requires contentType !in ContentPrompts
    ensures ContentInstruction(contentType, customPrompt) == ContentInstruction("custom", customPrompt)
  {
  }

  function ToneInstruction(tone: string): (text: string)
    ensures text in ToneInstructions.Values
  {
    if tone in ToneInstructions then ToneInstructions[tone] else ToneInstructions["professional"]
  }

  function LanguageInstruction(language: string): (text: string)
    ensures text in LanguageInstructions.Values
  {
    if language in LanguageInstructions then LanguageInstructions[language] else LanguageInstructions["ko"]
  }

  /** An unknown tone is professional and an unknown language Korean. */
  lemma Fallbacks(tone: string, language: string)
    ensures tone !in ToneInstructions ==> ToneInstruction(tone) == ToneInstruction("professional")
    ensures language !in LanguageInstructions ==> LanguageInstruction(language) == LanguageInstruction("ko")
  {
  }

  /** The extra-instructions section. */
  function ExtraInstructions(contentType: string, customPrompt: Option<string>): (text: string)
    ensures text != "" <==> Given(customPrompt) && contentType != "custom"
    ensures text != "" ==> text == "## 추가 지시사항\n" + customPrompt.value
  {
    if Given(customPrompt) && contentType != "custom" then "## 추가 지시사항\n" + customPrompt.value else ""
  }

  const Intro: string := "당신은 개발자 포트폴리오를 기반으로 글을 작성하는 전문 작가입니다.\n\n## 작성 요청\n"
  const Closing: string := "\n\n---\n\n위 포트폴리오 데이터를 분석하여 요청된 형식의 글을 작성해주세요.\n마크다운 형식으로 작성하되, 실제 사용 시 쉽게 복사할 수 있도록 깔끔하게 정리해주세요.\n"

  /** The full prompt: the request's instructions first, the portfolio
      summary last before the closing request. */
  function FullPrompt(contentType: string, customPrompt: Option<string>, tone: string, language: string,
                      summary: string): (p: string)
    ensures StartsWith(p, Intro + ContentInstruction(contentType, customPrompt) + "\n\n## 톤 & 스타일\n")
    ensures EndsWith(p, "## 포트폴리오 데이터\n\n" + summary + Closing)
  {
    var head := Intro + ContentInstruction(contentType, customPrompt) + "\n\n## 톤 & 스타일\n";
    var tail := "## 포트폴리오 데이터\n\n" + summary + Closing;
    var middle := ToneInstruction(tone) + "\n\n## 언어\n" + LanguageInstruction(language) + "\n\n"
                  + ExtraInstructions(contentType, customPrompt) + "\n\n---\n\n";
    assert (head + middle + tail)[..|head|] == head;
    assert (head + middle + tail)[|head + middle|..] == tail;
    head + middle + tail
  }

  // ---------------------------------------------------------------------------
  // The service

  const ModelName: string := "gemini-3-flash-preview"
  const CredentialsVariable: string := "GOOGLE_APPLICATION_CREDENTIALS"

  datatype Service = Service(initialized: bool, model: Option<string>, tempCredentialsFile: Option<string>)

  const NewService: Service := Service(false, None, None)

  type Env = map<string, string>

  /** What initialisation needs from outside: `json.loads`, the name of the
      temporary file the credentials are written to, and `vertexai.init`,
      which answers the error it raises, if any. */
  datatype Platform = Platform(load: string -> Option<Json>, tempFile: string, vertexInit: (string, string) -> Option<Error>)

  /** Points the credentials variable at the credentials: a JSON text is
      written to the temporary file, anything else is a file path. An empty
      setting changes nothing. */
  function UseCredentials(creds: string, env: Env, p: Platform): (r: Result<(Env, Option<string>)>)
    ensures creds == "" ==> r == Ok((env, None))
    ensures r.Ok? && creds != "" ==> CredentialsVariable in r.value.0 && r.value.0 - {CredentialsVariable} == env - {CredentialsVariable}
    ensures r.Err? ==> r.error == Raised("RuntimeError") && StartsWith(PyStrip(creds), "{")
  {
    if creds == "" then Ok((env, None))
    else
      var c := PyStrip(creds);
      if StartsWith(c, "{") then
        if p.load(c).None? then Err(Raised("RuntimeError"))
        else Ok((env[CredentialsVariable := p.tempFile], Some(p.tempFile)))
      else Ok((env[CredentialsVariable := c], None))
  }

  /** `_ensure_initialized`: nothing once initialised; otherwise the
      credentials, then Vertex AI, then the model. The outcome comes with
      the service and environment as the call leaves them: once the
      credentials are in place they stay, even when a later step raises. */
  function EnsureInitialized(svc: Service, settings: Config.Attributes, env: Env, p: Platform)
    : (r: (Result<()>, Service, Env))
    ensures svc.initialized ==> r == (Ok(()), svc, env)
    ensures r.0.Ok? ==> r.1.initialized
    ensures r.0.Ok? && !svc.initialized ==> r.1.model == Some(ModelName)
    ensures r.0.Err? ==> r.1 == r.1.(initialized := svc.initialized, model := svc.model) && !svc.initialized
    ensures !svc.initialized && "google_application_credentials" !in settings.declared
            ==> r == (Err(Raised("AttributeError")), svc, env)
    ensures !svc.initialized && "google_application_credentials" in settings.declared
            && UseCredentials(settings.value("google_application_credentials"), env, p).Ok?
            ==> var (env', file) := UseCredentials(settings.value("google_application_credentials"), env, p).value;
                r.2 == env' && r.1.tempCredentialsFile == (if file.Some? then file else svc.tempCredentialsFile)
  {
    if svc.initialized then (Ok(()), svc, env)
    else
      match settings.Get("google_application_credentials")
      case Err(e) => (Err(e), svc, env)
      case Ok(creds) =>
        match UseCredentials(creds, env, p)
        case Err(e) => (Err(e), svc, env)
        case Ok((env', file)) =>
          var svc' := svc.(tempCredentialsFile := if file.Some? then file else svc.tempCredentialsFile);
          Started(svc', settings, env', p)
  }

  /** The steps after the credentials: the project and location settings,
      `vertexai.init`, then the model. */
  function Started(svc: Service, settings: Config.Attributes, env: Env, p: Platform): (r: (Result<()>, Service, Env))
    ensures r.2 == env
    ensures r.0.Ok? ==> r.1 == svc.(initialized := true, model := Some(ModelName))
    ensures r.0.Err? ==> r.1 == svc
  {
    match settings.Get("gcp_project_id")
    case Err(e) => (Err(e), svc, env)
    case Ok(project) =>
      match settings.Get("gcp_location")
      case Err(e) => (Err(e), svc, env)
      case Ok(location) =>
        match p.vertexInit(project, location)
        case Some(e) => (Err(e), svc, env)
        case None => (Ok(()), svc.(initialized := true, model := Some(ModelName)), env)
  }

  /** Initialisation runs at most once: a second call changes nothing. */
  lemma InitializeOnce(svc: Service, settings: Config.Attributes, env: Env, p: Platform,
                       settings2: Config.Attributes, env2: Env, p2: Platform)
    requires EnsureInitialized(svc, settings, env, p).0.Ok?
    ensures var (_, svc', env') := EnsureInitialized(svc, settings, env, p);
      EnsureInitialized(svc', settings2, env', p2) == (Ok(()), svc', env')
  {
  }

  /** When Vertex AI refuses to start, the service stays uninitialised but
      the credentials variable already points at the credentials, and a
      JSON setting leaves its temporary file recorded. */
  lemma InitFailureKeepsCredentials(svc: Service, settings: Config.Attributes, env: Env, p: Platform)
    requires !svc.initialized
    requires {"google_application_credentials", "gcp_project_id", "gcp_location"} <= settings.declared
    requires settings.value("google_application_credentials") != ""
    requires UseCredentials(settings.value("google_application_credentials"), env, p).Ok?
    requires p.vertexInit(settings.value("gcp_project_id"), settings.value("gcp_location")).Some?
    ensures var (r, svc', env') := EnsureInitialized(svc, settings, env, p);
      r.Err? && !svc'.initialized && CredentialsVariable in env'
      && (StartsWith(PyStrip(settings.value("google_application_credentials")), "{") ==> svc'.tempCredentialsFile == Some(p.tempFile))
  {
  }

  /** `generate_content`: initialise, summarise, prompt and generate; a
      failure of the model becomes RuntimeError. The service and
      environment as initialisation leaves them persist whatever happens
      next. `generate` is the model. */
  function GenerateContent(svc: Service, settings: Config.Attributes, env: Env, p: Platform,
                           summary: Result<string>, contentType: string, customPrompt: Option<string>,
                           tone: string, language: string, generate: string -> Result<string>)
    : (res: (Result<string>, Service, Env))
    ensures var (init, svc', env') := EnsureInitialized(svc, settings, env, p);
      res.1 == svc' && res.2 == env' && (init.Err? ==> res.0 == Err(init.error))
    ensures res.0.Ok? <==> EnsureInitialized(svc, settings, env, p).0.Ok? && summary.Ok?
                           && generate(FullPrompt(contentType, customPrompt, tone, language, summary.value)).Ok?
    ensures res.0.Ok? ==> res.0.value == generate(FullPrompt(contentType, customPrompt, tone, language, summary.value)).value
    ensures EnsureInitialized(svc, settings, env, p).0.Ok? && summary.Ok? && res.0.Err? ==> res.0.error == Raised("RuntimeError")
  {
    var (init, svc', env') := EnsureInitialized(svc, settings, env, p);
    if init.Err? then (Err(init.error), svc', env')
    else
      match summary
      case Err(e) => (Err(e), svc', env')
      case Ok(text) =>
        match generate(FullPrompt(contentType, customPrompt, tone, language, text))
        case Err(_) => (Err(Raised("RuntimeError")), svc', env')
        case Ok(content) => (Ok(content), svc', env')
  }

  /** As written, with the settings class as declared, generation always
      fails: the credentials setting is not declared, and were it declared
      the summary would still raise. */
  lemma GenerateAsWritten(svc: Service, value: string -> string, env: Env, p: Platform, t: RepositoryService.Table,
                          codec: Codec, contentType: string, customPrompt: Option<string>, tone: string,
                          language: string, generate: string -> Result<string>, settings: Config.Attributes)
    ensures !svc.initialized ==>
      GenerateContent(svc, Config.Attributes(Config.SettingsFields, value), env, p, SummaryAsWritten(t, codec),
                      contentType, customPrompt, tone, language, generate).0 == Err(Raised("AttributeError"))
    ensures GenerateContent(svc, settings, env, p, SummaryAsWritten(t, codec), contentType, customPrompt, tone,
                            language, generate).0.Err?
  {
    assert "google_application_credentials" !in Config.SettingsFields;
  }

  /** As intended: with the Google settings declared, Vertex AI starting and
      readable projects, the model's text for the prompt built from the
      summary is returned. */
  lemma GenerateCorrected(svc: Service, settings: Config.Attributes, env: Env, p: Platform, t: RepositoryService.Table,
                          codec: Codec, contentType: string, customPrompt: Option<string>, tone: string,
                          language: string, generate: string -> Result<string>)
    requires {"google_application_credentials", "gcp_project_id", "gcp_location"} <= settings.declared
    requires UseCredentials(settings.value("google_application_credentials"), env, p).Ok?
    requires p.vertexInit(settings.value("gcp_project_id"), settings.value("gcp_location")).None?
    requires Summary(t, codec).Ok?
    requires generate(FullPrompt(contentType, customPrompt, tone, language, Summary(t, codec).value)).Ok?
    ensures GenerateContent(svc, settings, env, p, Summary(t, codec), contentType, customPrompt, tone, language, generate).0
            == Ok(generate(FullPrompt(contentType, customPrompt, tone, language, Summary(t, codec).value)).value)
  {
  }
}

=== FILE: analytics.dfy ===
/** The analytics endpoints: the public collector that records page views,
    sessions and events sent by the browser tracker, and the admin
    statistics over them.

    The request body is a JSON value (None when it does not parse), the
    parsed User-Agent is a parameter, and so are the clock, `json.dumps` and
    the database failures: `failAt` names the statement of the request at
    which the database raises, if any. The statements run without a
    transaction, so the ones before a failure stay written. The columns'
    defaults for a new session (its page view count and bounce flag) come
    from the schema, which is not part of this model, so they are a
    parameter too. */
module Analytics {
  import opened Wrappers
  import opened Strings
  import opened Json
  import AuthService

  // ---------------------------------------------------------------------------
  // Periods and durations

  const DaySeconds: int := 86400

  /** Days looked back for a period; any other period means a week. */
  function PeriodDays(period: string): (days: int)
    ensures period == "24h" ==> days == 1
    ensures period == "7d" ==> days == 7
    ensures period == "30d" ==> days == 30
    ensures period == "90d" ==> days == 90
    ensures period !in {"24h", "7d", "30d", "90d"} ==> days == 7
  {
    if period == "24h" then 1
    else if period == "30d" then 30
    else if period == "90d" then 90
    else 7
  }

  /** `get_start_date`, in seconds. */
  function StartDate(period: string, now: int): (start: int)
    ensures now - 90 * DaySeconds <= start <= now - DaySeconds
  {
    now - PeriodDays(period) * DaySeconds
  }

  /** Python's `int(x)`: truncation toward zero. */
  function Trunc(x: real): int {
    if x >= 0.0 then x.Floor else -((-x).Floor)
  }

  /** `format_duration`: "0s" for a missing or zero duration, whole seconds
      under a minute, else minutes and the seconds left over. */
  function FormatDuration(seconds: Option<real>): (text: string)
    ensures EndsWith(text, "s")
  {
    if seconds.None? || seconds.value == 0.0 then "0s"
    else if seconds.value < 60.0 then IntToString(Trunc(seconds.value)) + "s"
    else
      var mins := MinutesOf(seconds.value);
      MinuteSecondText(mins, SecondsLeft(seconds.value, mins))
  }

  /** `int(seconds // 60)`. */
  function MinutesOf(x: real): int {
    (x / 60.0).Floor
  }

  /** `int(seconds % 60)` once the minutes are known. */
  function SecondsLeft(x: real, mins: int): int {
    (x - 60.0 * mins as real).Floor
  }

  /** "{mins}m {secs}s". */
  function MinuteSecondText(mins: int, secs: int): (text: string)
    ensures EndsWith(text, "s")
  {
    IntToString(mins) + "m " + IntToString(secs) + "s"
  }

  /** Floor division of a whole number of seconds by 60, on reals. */
  lemma WholeMinutes(n: nat)
    ensures MinutesOf(n as real) == n / 60
    ensures SecondsLeft(n as real, n / 60) == n % 60
  {
    var q := n / 60;
    var r := n % 60;
    assert n == 60 * q + r;
    assert n as real / 60.0 == q as real + r as real / 60.0;
  }

  /** On a whole number of seconds the text is the decimal minutes and
      seconds, seconds below 60. */
  lemma FormatWholeSeconds(n: nat)
    ensures n == 0 ==> FormatDuration(Some(n as real)) == "0s"
    ensures 0 < n < 60 ==> FormatDuration(Some(n as real)) == NatToString(n) + "s"
    ensures n >= 60 ==> FormatDuration(Some(n as real)) == NatToString(n / 60) + "m " + NatToString(n % 60) + "s"
  {
    var x := n as real;
    assert x.Floor == n;
    if 0 < n < 60 {
      assert Trunc(x) == n;
      assert IntToString(n) == NatToString(n);
    } else if n >= 60 {
      WholeMinutes(n);
      FormatMinutes(x, n / 60, n % 60);
      assert MinuteSecondText(n / 60, n % 60) == NatToString(n / 60) + "m " + NatToString(n % 60) + "s";
    }
  }

  /** The text of a duration of a minute or more, from its whole minutes
      and the whole seconds left over. */
  lemma FormatMinutes(x: real, mins: int, secs: int)
    requires x >= 60.0 && MinutesOf(x) == mins && SecondsLeft(x, mins) == secs
    ensures FormatDuration(Some(x)) == MinuteSecondText(mins, secs)
  {
  }

  /** Reads a duration text back into seconds. */
  function ParseDuration(text: string): Option<nat> {
    if !EndsWith(text, "s") then None
    else
      var parts := Split(text[..|text| - 1], ' ');
      if |parts| == 1 then ParseNat(parts[0])
      else if |parts| == 2 && EndsWith(parts[0], "m") then
        match (ParseNat(parts[0][..|parts[0]| - 1]), ParseNat(parts[1]))
        case (Some(m), Some(s)) => Some(m * 60 + s)
        case _ => None
      else None
  }

  /** The text of a whole number of seconds reads back as that number. */
  lemma DurationRoundTrip(n: nat)
    ensures ParseDuration(FormatDuration(Some(n as real))) == Some(n)
  {
    FormatWholeSeconds(n);
    if n == 0 {
      ReadSeconds(0);
      assert NatToString(0) + "s" == "0s";
    } else if n < 60 {
      ReadSeconds(n);
    } else {
      ParseNatToString(n / 60);
      ParseNatToString(n % 60);
      ReadMinuteWords(NatToString(n / 60), NatToString(n % 60));
    }
  }

  /** "{n}s" reads back as n. */
  lemma ReadSeconds(n: nat)
    ensures ParseDuration(NatToString(n) + "s") == Some(n)
  {
    var text := NatToString(n) + "s";
    var d := NatToString(n);
    assert text[..|text| - 1] == d;
    assert ' ' !in d by { DigitsHaveNoSpace(d); }
    SplitNoSeparator(d, ' ');
    ParseNatToString(n);
  }

  /** "{d}m {e}s" over two digit runs reads as d minutes and e seconds. */
  lemma ReadMinuteWords(d: string, e: string)
    requires forall i :: 0 <= i < |d| ==> IsDigit(d[i])
    requires forall i :: 0 <= i < |e| ==> IsDigit(e[i])
    requires ParseNat(d).Some? && ParseNat(e).Some?
    ensures ParseDuration(d + "m " + e + "s") == Some(ParseNat(d).value * 60 + ParseNat(e).value)
  {
    var text := d + "m " + e + "s";
    var a := d + "m";
    assert EndsWith(text, "s") && text[..|text| - 1] == a + [' '] + e by { MinutesText(d, e); }
    assert ' ' !in a && EndsWith(a, "m") by { MinuteWord(d); }
    assert Split(a + [' '] + e, ' ') == [a, e] by {
      DigitsHaveNoSpace(e);
      MinutesParts(a, e);
    }
    assert a[..|a| - 1] == d;
    MinutesForm(text, a, e);
  }

  /** A text "{a} {b}s" whose first word ends in "m" reads as the minutes
      before the "m" and the seconds of the second word. */
  lemma MinutesForm(text: string, a: string, b: string)
    requires EndsWith(text, "s") && text[..|text| - 1] == a + [' '] + b
    requires Split(a + [' '] + b, ' ') == [a, b] && EndsWith(a, "m")
    requires ParseNat(a[..|a| - 1]).Some? && ParseNat(b).Some?
    ensures ParseDuration(text) == Some(ParseNat(a[..|a| - 1]).value * 60 + ParseNat(b).value)
  {
  }

  /** The text "{a}m {b}s" ends in "s" and holds "{a}m {b}" before it. */
  lemma MinutesText(a: string, b: string)
    ensures var text := a + "m " + b + "s";
      EndsWith(text, "s") && text[..|text| - 1] == (a + "m") + [' '] + b
  {
    var text := a + "m " + b + "s";
    assert text == ((a + "m") + [' '] + b) + "s";
  }

  /** Two words without blanks around one blank split into the two. */
  lemma MinutesParts(a: string, b: string)
    requires ' ' !in a && ' ' !in b
    ensures Split(a + [' '] + b, ' ') == [a, b]
  {
    SplitPrefix(a, b, ' ');
    SplitNoSeparator(b, ' ');
  }

  /** Digits followed by "m" hold no blank and end in "m". */
  lemma MinuteWord(d: string)
    requires forall i :: 0 <= i < |d| ==> IsDigit(d[i])
    ensures ' ' !in d + "m" && EndsWith(d + "m", "m")
  {
    var w := d + "m";
    assert forall i :: 0 <= i < |w| ==> w[i] == (if i < |d| then d[i] else 'm');
    assert w[|w| - 1..] == "m";
  }

  lemma DigitsHaveNoSpace(d: string)
    requires forall i :: 0 <= i < |d| ==> IsDigit(d[i])
    ensures ' ' !in d
  {
  }

  // ---------------------------------------------------------------------------
  // Collection

  /** What `user_agents.parse` reports about the User-Agent header. */
  datatype Agent = Agent(isMobile: bool, isTablet: bool, browserFamily: string, osFamily: string)

  function DeviceType(a: Agent): string {
    if a.isMobile then "mobile" else if a.isTablet then "tablet" else "desktop"
  }

  /** Python's `x or "Unknown"`. */
  function OrUnknown(s: string): string {
    if s == "" then "Unknown" else s
  }

  datatype PageView = PageView(
    sessionId: Json, visitorId: Json, url: Json, title: Json, referrer: Json,
    deviceType: string, browser: string, os: string, screenWidth: Json, screenHeight: Json, createdAt: int)

  datatype SessionRow = SessionRow(
    visitorId: Json, entryPage: Json, exitPage: Json, utmSource: Json, utmMedium: Json, utmCampaign: Json,
    pageViews: int, isBounce: bool, startedAt: int, endedAt: Option<int>, duration: Json)

  datatype EventRow = EventRow(sessionId: Json, visitorId: Json, name: Json, data: Option<string>, url: Json)

  /** The three tables; sessions by id. */
  datatype AnalyticsDb = AnalyticsDb(pageViews: seq<PageView>, sessions: map<Json, SessionRow>, events: seq<EventRow>)

  /** The schema's defaults for a new session row. */
  datatype SessionDefaults = SessionDefaults(pageViews: int, isBounce: bool)

  /** Everything the collector depends on besides the body and the tables. */
  datatype Context = Context(agent: Agent, defaults: SessionDefaults, now: int, dumps: Json -> string, failAt: Option<nat>)

  /** The database raises at statement k of the request. */
  predicate Fails(ctx: Context, k: nat) {
    ctx.failAt == Some(k)
  }

  /** Events that show the visitor engaged, so the session is no bounce. */
  const EngagingEvents: set<string> := {"scroll_depth", "click", "form_submit"}

  /** `d.get(k)` with None for an absent key. */
  function Field(d: Object, k: string): Json {
    GetOr(d, k, JNull)
  }

  /** `d.get(k, {})` followed by `.get(...)`: None when the value is not a
      dict (the call raises), else the dict. */
  function SubObject(d: Object, k: string): Option<Object> {
    match GetOr(d, k, JObj(map[]))
    case JObj(o) => Some(o)
    case _ => None
  }

  /** `UPDATE sessions ... WHERE id = $1`: SQL NULL matches no row. */
  function UpdateSession(sessions: map<Json, SessionRow>, id: Json, f: SessionRow -> SessionRow): map<Json, SessionRow> {
    if id != JNull && id in sessions then sessions[id := f(sessions[id])] else sessions
  }

  /** A page view: the view row, then the session is counted and its exit
      page moved, or a new session starts on this page. */
  function CollectPageView(db: AnalyticsDb, data: Object, ctx: Context): (res: (bool, AnalyticsDb))
    ensures res.1.events == db.events
    ensures db.pageViews <= res.1.pageViews && |res.1.pageViews| <= |db.pageViews| + 1
    ensures res.0 ==> |res.1.pageViews| == |db.pageViews| + 1 && res.1.pageViews[|db.pageViews|].createdAt == ctx.now
    ensures res.1.sessions.Keys <= db.sessions.Keys + {Field(data, "sessionId")}
    ensures forall k :: k in db.sessions && k != Field(data, "sessionId") ==>
              k in res.1.sessions && res.1.sessions[k] == db.sessions[k]
    ensures JNull !in db.sessions ==> JNull !in res.1.sessions
    ensures res.0 ==> var sid := Field(data, "sessionId");
      sid in res.1.sessions && res.1.sessions[sid].exitPage == Field(data, "url")
  {
    match SubObject(data, "screen")
    case None => (false, db)
    case Some(screen) =>
      if Fails(ctx, 0) then (false, db)
      else
        var sid := Field(data, "sessionId");
        var url := Field(data, "url");
        var view := PageView(sid, Field(data, "visitorId"), url, Field(data, "title"), Field(data, "referrer"),
                             DeviceType(ctx.agent), OrUnknown(ctx.agent.browserFamily), OrUnknown(ctx.agent.osFamily),
                             Field(screen, "width"), Field(screen, "height"), ctx.now);
        var db1 := db.(pageViews := db.pageViews + [view]);
        if Fails(ctx, 1) || Fails(ctx, 2) then (false, db1)
        else if sid != JNull && sid in db.sessions then
          (true, db1.(sessions := UpdateSession(db.sessions, sid,
             (s: SessionRow) => s.(pageViews := s.pageViews + 1, exitPage := url, isBounce := false))))
        else match SubObject(data, "utm")
          case None => (false, db1)
          case Some(utm) =>
            if sid == JNull then (false, db1)
            else
              var row := SessionRow(Field(data, "visitorId"), url, url, Field(utm, "source"), Field(utm, "medium"),
                                    Field(utm, "campaign"), ctx.defaults.pageViews, ctx.defaults.isBounce,
                                    ctx.now, None, JNull);
              (true, db1.(sessions := db.sessions[sid := row]))
  }

  /** A custom event: the event row, and for an engaging event the session
      is no bounce. */
  function CollectEvent(db: AnalyticsDb, data: Object, ctx: Context): (res: (bool, AnalyticsDb))
    ensures res.1.pageViews == db.pageViews
    ensures db.events <= res.1.events && |res.1.events| <= |db.events| + 1
    ensures res.0 ==> |res.1.events| == |db.events| + 1 && res.1.events[|db.events|].name == Field(data, "name")
    ensures res.1.sessions.Keys == db.sessions.Keys
    ensures forall k :: k in db.sessions && k != Field(data, "sessionId") ==> res.1.sessions[k] == db.sessions[k]
    ensures !(Field(data, "name").JStr? && Field(data, "name").s in EngagingEvents) ==> res.1.sessions == db.sessions
  {
    if Fails(ctx, 0) then (false, db)
    else
      var payload := Field(data, "data");
      var ev := EventRow(Field(data, "sessionId"), Field(data, "visitorId"), Field(data, "name"),
                         if Truthy(payload) then Some(ctx.dumps(payload)) else None, Field(data, "url"));
      var db1 := db.(events := db.events + [ev]);
      var name := Field(data, "name");
      if name.JStr? && name.s in EngagingEvents then
        if Fails(ctx, 1) then (false, db1)
        else (true, db1.(sessions := UpdateSession(db.sessions, Field(data, "sessionId"),
                                                   (s: SessionRow) => s.(isBounce := false))))
      else (true, db1)
  }

  /** Leaving: the session ends with its duration and exit page, and one
      `page_leave` event records the figures sent. */
  function CollectLeave(db: AnalyticsDb, data: Object, ctx: Context): (res: (bool, AnalyticsDb))
    ensures res.1.pageViews == db.pageViews
    ensures db.events <= res.1.events && |res.1.events| <= |db.events| + 1
    ensures res.0 ==> |res.1.events| == |db.events| + 1 && res.1.events[|db.events|].name == JStr("page_leave")
    ensures res.1.sessions.Keys == db.sessions.Keys
    ensures forall k :: k in db.sessions && k != Field(data, "sessionId") ==> res.1.sessions[k] == db.sessions[k]
    ensures var sid := Field(data, "sessionId");
      !Fails(ctx, 0) && sid != JNull && sid in db.sessions ==>
        res.1.sessions[sid].endedAt == Some(ctx.now) && res.1.sessions[sid].exitPage == Field(data, "url")
  {
    if Fails(ctx, 0) then (false, db)
    else
      var url := Field(data, "url");
      var db1 := db.(sessions := UpdateSession(db.sessions, Field(data, "sessionId"),
        (s: SessionRow) => s.(endedAt := Some(ctx.now), duration := Field(data, "duration"), exitPage := url)));
      if Fails(ctx, 1) then (false, db1)
      else
        var figures := JObj(map["duration" := Field(data, "duration"), "activeTime" := Field(data, "activeTime"),
                                "scrollDepth" := Field(data, "scrollDepth")]);
        var ev := EventRow(Field(data, "sessionId"), Field(data, "visitorId"), JStr("page_leave"),
                           Some(ctx.dumps(figures)), url);
        (true, db1.(events := db1.events + [ev]))
  }

  /** `POST /analytics/collect`: never raises; any failure answers false.
      An unknown type writes nothing and answers true. */
  function Collect(db: AnalyticsDb, body: Option<Json>, ctx: Context): (res: (bool, AnalyticsDb))
    ensures body.None? || !body.value.JObj? ==> res == (false, db)
    ensures |db.pageViews| <= |res.1.pageViews| <= |db.pageViews| + 1
    ensures |db.events| <= |res.1.events| <= |db.events| + 1
    ensures JNull !in db.sessions ==> JNull !in res.1.sessions
  {
    match body
    case None => (false, db)
    case Some(JObj(data)) =>
      var kind := Field(data, "type");
      if kind == JStr("pageview") then CollectPageView(db, data, ctx)
      else if kind == JStr("event") then CollectEvent(db, data, ctx)
      else if kind == JStr("leave") then CollectLeave(db, data, ctx)
      else (true, db)
    case Some(_) => (false, db)
  }

  /** A body of the given type, otherwise arbitrary. */
  predicate OfType(body: Option<Json>, kind: string) {
    body.Some? && body.value.JObj? && Field(body.value.fields, "type") == JStr(kind)
  }

  function Data(body: Option<Json>): Object
    requires body.Some? && body.value.JObj?
  {
    body.value.fields
  }

  /** A page view of a known session counts it, moves its exit page and
      clears its bounce flag; nothing else of it changes. */
  lemma PageViewOnKnownSession(db: AnalyticsDb, body: Option<Json>, ctx: Context)
    requires OfType(body, "pageview") && ctx.failAt.None?
    requires SubObject(Data(body), "screen").Some?
    requires Field(Data(body), "sessionId") != JNull && Field(Data(body), "sessionId") in db.sessions
    ensures var (ok, db') := Collect(db, body, ctx);
      var sid := Field(Data(body), "sessionId");
      var s := db.sessions[sid];
      ok && |db'.pageViews| == |db.pageViews| + 1 && db'.events == db.events
      && db'.sessions == db.sessions[sid := s.(pageViews := s.pageViews + 1, exitPage := Field(Data(body), "url"),
                                                isBounce := false)]
  {
  }

  /** A page view of an unknown session starts one on this page, with the
      schema's defaults and the UTM fields sent. */
  lemma PageViewStartsSession(db: AnalyticsDb, body: Option<Json>, ctx: Context)
    requires OfType(body, "pageview") && ctx.failAt.None?
    requires SubObject(Data(body), "screen").Some? && SubObject(Data(body), "utm").Some?
    requires Field(Data(body), "sessionId") != JNull && Field(Data(body), "sessionId") !in db.sessions
    ensures var (ok, db') := Collect(db, body, ctx);
      var sid := Field(Data(body), "sessionId");
      ok && sid in db'.sessions && db'.sessions.Keys == db.sessions.Keys + {sid}
      && db'.sessions[sid].entryPage == db'.sessions[sid].exitPage == Field(Data(body), "url")
      && db'.sessions[sid].utmSource == Field(SubObject(Data(body), "utm").value, "source")
      && db'.sessions[sid].pageViews == ctx.defaults.pageViews && db'.sessions[sid].isBounce == ctx.defaults.isBounce
  {
  }

  /** A "utm" that is not a dict fails a new session after its page view
      was written: the answer is false but the view stays. */
  lemma PageViewKeptWhenUtmBroken(db: AnalyticsDb, body: Option<Json>, ctx: Context)
    requires OfType(body, "pageview") && ctx.failAt.None?
    requires SubObject(Data(body), "screen").Some? && SubObject(Data(body), "utm").None?
    requires Field(Data(body), "sessionId") !in db.sessions
    ensures var (ok, db') := Collect(db, body, ctx);
      !ok && |db'.pageViews| == |db.pageViews| + 1 && db'.sessions == db.sessions
  {
  }

  /** Only an engaging event clears the bounce flag; every event adds one
      row and touches no other session. */
  lemma EventBounce(db: AnalyticsDb, body: Option<Json>, ctx: Context)
    requires OfType(body, "event") && ctx.failAt.None?
    ensures var (ok, db') := Collect(db, body, ctx);
      var name := Field(Data(body), "name");
      var sid := Field(Data(body), "sessionId");
      ok && |db'.events| == |db.events| + 1 && db'.pageViews == db.pageViews
      && db'.sessions.Keys == db.sessions.Keys
      && (forall k :: k in db.sessions && k != sid ==> db'.sessions[k] == db.sessions[k])
      && (sid in db.sessions && sid != JNull ==>
            db'.sessions[sid] == if name.JStr? && name.s in EngagingEvents then db.sessions[sid].(isBounce := false)
                                 else db.sessions[sid])
  {
  }

  /** Leaving ends the session and records exactly one `page_leave` event. */
  lemma LeaveEndsSession(db: AnalyticsDb, body: Option<Json>, ctx: Context)
    requires OfType(body, "leave") && ctx.failAt.None?
    ensures var (ok, db') := Collect(db, body, ctx);
      var sid := Field(Data(body), "sessionId");
      ok && db'.events[..|db.events|] == db.events && |db'.events| == |db.events| + 1
      && db'.events[|db.events|].name == JStr("page_leave")
      && (sid in db.sessions && sid != JNull ==>
            db'.sessions[sid].endedAt == Some(ctx.now) && db'.sessions[sid].duration == Field(Data(body), "duration")
            && db'.sessions[sid].exitPage == Field(Data(body), "url"))
  {
  }

  /** Any other type is acknowledged and writes nothing. */
  lemma UnknownTypeIgnored(db: AnalyticsDb, body: Option<Json>, ctx: Context, kind: string)
    requires OfType(body, kind) && kind !in {"pageview", "event", "leave"}
    ensures Collect(db, body, ctx) == (true, db)
  {
  }

  /** A failing statement is answered false, and the statements before it
      stay written: the tables only grow by what preceded it. */
  lemma FailureAnswersFalse(db: AnalyticsDb, body: Option<Json>, ctx: Context)
    requires ctx.failAt.Some?
    ensures !Collect(db, body, ctx).0 || (OfType(body, "event") && ctx.failAt.value >= 1)
            || (OfType(body, "pageview") && ctx.failAt.value >= 3)
            || (OfType(body, "leave") && ctx.failAt.value >= 2)
            || (body.Some? && body.value.JObj? && Field(Data(body), "type") !in {JStr("pageview"), JStr("event"), JStr("leave")})
  {
    if body.Some? && body.value.JObj? {
      var data := Data(body);
      var kind := Field(data, "type");
      if kind == JStr("pageview") {
        assert Collect(db, body, ctx) == CollectPageView(db, data, ctx);
      } else if kind == JStr("event") {
        assert Collect(db, body, ctx) == CollectEvent(db, data, ctx);
      } else if kind == JStr("leave") {
        assert Collect(db, body, ctx) == CollectLeave(db, data, ctx);
      }
    }
  }

  // ---------------------------------------------------------------------------
  // Statistics

  /** The number of page views since `start`. */
  function ViewsSince(views: seq<PageView>, start: int): nat {
    |set i | 0 <= i < |views| && views[i].createdAt >= start|
  }

  /** `COUNT(DISTINCT visitor_id)`: NULL is not counted. */
  function VisitorsSince(views: seq<PageView>, start: int): set<Json> {
    set i | 0 <= i < |views| && views[i].createdAt >= start && views[i].visitorId != JNull :: views[i].visitorId
  }

  function SessionsSince(db: AnalyticsDb, start: int): set<Json> {
    set id | id in db.sessions && db.sessions[id].startedAt >= start
  }

  function BouncesSince(db: AnalyticsDb, start: int): set<Json> {
    set id | id in db.sessions && db.sessions[id].startedAt >= start && db.sessions[id].isBounce
  }

  datatype Summary = Summary(pageViews: nat, uniqueVisitors: nat, sessions: nat, bounceRate: real,
                             avgDuration: string, pagesPerSession: real)

  /** A percentage of a whole, 0 for an empty whole. */
  function Percent(part: nat, whole: nat): (r: real)
    ensures whole == 0 ==> r == 0.0
    ensures part <= whole ==> 0.0 <= r <= 100.0
    ensures whole > 0 ==> r * whole as real == part as real * 100.0
  {
    if whole > 0 then part as real / whole as real * 100.0 else 0.0
  }

  /** A mean per item, 0 for no items. */
  function Mean(total: nat, count: nat): (r: real)
    ensures count == 0 ==> r == 0.0
    ensures r >= 0.0
    ensures count > 0 ==> r * count as real == total as real
  {
    if count > 0 then total as real / count as real else 0.0
  }

  /** Bounced sessions are among the sessions. */
  lemma BouncesAmongSessions(db: AnalyticsDb, start: int)
    ensures |BouncesSince(db, start)| <= |SessionsSince(db, start)|
  {
    var b := BouncesSince(db, start);
    var s := SessionsSince(db, start);
    assert s == b + (s - b);
  }

  /** The sessions since `start` whose duration is recorded: `duration_seconds
      IS NOT NULL`, with only whole-second durations stored. */
  function TimedSince(db: AnalyticsDb, start: int): set<Json> {
    set id | id in db.sessions && db.sessions[id].startedAt >= start && db.sessions[id].duration.JInt?
  }

  /** The recorded duration of a session, 0 when it has none. */
  function DurationOf(sessions: map<Json, SessionRow>, id: Json): int {
    if id in sessions && sessions[id].duration.JInt? then sessions[id].duration.i else 0
  }

  /** `SUM(duration_seconds)` over the given sessions. */
  ghost function TotalDuration(sessions: map<Json, SessionRow>, ids: set<Json>): int
    decreases ids
  {
    if ids == {} then 0
    else
      var id :| id in ids;
      DurationOf(sessions, id) + TotalDuration(sessions, ids - {id})
  }

  /** `AVG(duration_seconds)` over the sessions since `start`: NULL (None)
      when no session has a duration, otherwise the total over the count. */
  ghost function AvgDuration(db: AnalyticsDb, start: int): (avg: Option<real>)
    ensures avg.None? <==> TimedSince(db, start) == {}
    ensures avg.Some? ==> avg.value * |TimedSince(db, start)| as real == TotalDuration(db.sessions, TimedSince(db, start)) as real
  {
    var timed := TimedSince(db, start);
    if timed == {} then None
    else Some(TotalDuration(db.sessions, timed) as real / |timed| as real)
  }

  /** A sum of durations that all lie between `lo` and `hi` lies between
      `lo` and `hi` times their number. */
  lemma {:induction false} TotalBounds(sessions: map<Json, SessionRow>, ids: set<Json>, lo: int, hi: int)
    requires forall id :: id in ids ==> lo <= DurationOf(sessions, id) <= hi
    ensures lo * |ids| <= TotalDuration(sessions, ids) <= hi * |ids|
    decreases ids
  {
    if ids != {} {
      var id :| id in ids && TotalDuration(sessions, ids) == DurationOf(sessions, id) + TotalDuration(sessions, ids - {id});
      var rest := ids - {id};
      TotalBounds(sessions, rest, lo, hi);
      assert |ids| == |rest| + 1;
      MulStep(lo, |rest|);
      MulStep(hi, |rest|);
    }
  }

  lemma MulStep(a: int, n: nat)
    ensures a * (n + 1) == a * n + a
  {
  }

  /** A whole between `lo·n` and `hi·n` divided by `n` lies between `lo`
      and `hi`. */
  lemma DivBounds(total: int, n: nat, lo: int, hi: int)
    requires n > 0 && lo * n <= total <= hi * n
    ensures lo as real <= total as real / n as real <= hi as real
  {
    var q := total as real / n as real;
    assert q * n as real == total as real;
    assert (lo * n) as real == lo as real * n as real;
    assert (hi * n) as real == hi as real * n as real;
  }

  /** The mean duration lies between the shortest and the longest recorded
      duration of the period. */
  lemma AvgWithinDurations(db: AnalyticsDb, start: int, lo: int, hi: int)
    requires TimedSince(db, start) != {}
    requires forall id :: id in TimedSince(db, start) ==> lo <= DurationOf(db.sessions, id) <= hi
    ensures lo as real <= AvgDuration(db, start).value <= hi as real
  {
    var timed := TimedSince(db, start);
    TotalBounds(db.sessions, timed, lo, hi);
    DivBounds(TotalDuration(db.sessions, timed), |timed|, lo, hi);
  }

  /** A period with one timed session averages exactly its duration. */
  lemma AvgOfOne(db: AnalyticsDb, start: int, id: Json)
    requires TimedSince(db, start) == {id}
    ensures AvgDuration(db, start) == Some(DurationOf(db.sessions, id) as real)
  {
    assert TotalDuration(db.sessions, {id}) == DurationOf(db.sessions, id) + TotalDuration(db.sessions, {});
  }

  /** The overview figures; rates are 0 when there is no session, and the
      mean duration is AVG over the period's sessions with a duration. */
  ghost function Overview(db: AnalyticsDb, start: int): (s: Summary)
    ensures s.sessions == 0 ==> s.bounceRate == 0.0 && s.pagesPerSession == 0.0
    ensures 0.0 <= s.bounceRate <= 100.0
    ensures s.sessions > 0 ==> s.pagesPerSession * s.sessions as real == s.pageViews as real
    ensures TimedSince(db, start) == {} ==> s.avgDuration == "0s"
  {
    BouncesAmongSessions(db, start);
    var sessions := |SessionsSince(db, start)|;
    var views := ViewsSince(db.pageViews, start);
    Summary(views, |VisitorsSince(db.pageViews, start)|, sessions,
            Percent(|BouncesSince(db, start)|, sessions), FormatDuration(AvgDuration(db, start)), Mean(views, sessions))
  }

  /** `extract_hostname`: None for a missing or empty url; the url itself
      when parsing raises. `hostname` is `urlparse(url).hostname`. */
  function ExtractHostname(url: Option<string>, hostname: string -> Result<Option<string>>): (h: Option<string>)
    ensures url.None? || url.value == "" ==> h.None?
    ensures url.Some? && url.value != "" && hostname(url.value).Err? ==> h == url
  {
    if url.None? || url.value == "" then None
    else match hostname(url.value)
      case Err(_) => url
      case Ok(host) => host
  }

  /** The referrer's label: its host, "Direct" when there is none. */
  function SourceLabel(referrer: Option<string>, hostname: string -> Result<Option<string>>): (name: string)
    ensures name != ""
    ensures ExtractHostname(referrer, hostname).Some? && ExtractHostname(referrer, hostname).value != ""
            ==> name == ExtractHostname(referrer, hostname).value
  {
    var h := ExtractHostname(referrer, hostname);
    if h.None? || h.value == "" then "Direct" else h.value
  }

  /** A page's label: its title, the url when the title is empty. */
  function PageLabel(title: Option<string>, url: string): (name: string)
    ensures title.Some? && title.value != "" ==> name == title.value
    ensures title.None? || title.value == "" ==> name == url
  {
    if title.None? || title.value == "" then url else title.value
  }

  datatype Stats =
    | OverviewStats(summary: Summary)
    | PagesStats
    | SourcesStats
    | RealtimeStats
    | ExitsStats

  /** `GET /analytics/stats`: admins only; the five metrics, 400 for any
      other. The listings other than the overview are grouped by the
      database and only their row labels are modelled. */
  ghost function GetStats(caller: Result<AuthService.PublicUser>, period: string, metric: string, db: AnalyticsDb,
                          now: int): (r: Result<Stats>)
    ensures caller.Err? ==> r == Err(caller.error)
    ensures caller.Ok? && metric !in {"overview", "pages", "sources", "realtime", "exits"}
            ==> r == Err(Http(400, "Invalid metric"))
    ensures r.Ok? <==> caller.Ok? && metric in {"overview", "pages", "sources", "realtime", "exits"}
    ensures r.Ok? && metric == "overview" ==>
              r.value.OverviewStats? && r.value.summary == Overview(db, StartDate(period, now))
  {
    match caller
    case Err(e) => Err(e)
    case Ok(_) =>
      if metric == "overview" then Ok(OverviewStats(Overview(db, StartDate(period, now))))
      else if metric == "pages" then Ok(PagesStats)
      else if metric == "sources" then Ok(SourcesStats)
      else if metric == "realtime" then Ok(RealtimeStats)
      else if metric == "exits" then Ok(ExitsStats)
      else Err(Http(400, "Invalid metric"))
  }
}

=== FILE: auth_router.dfy ===
/** The `/auth` endpoints: the Bearer-token dependency, login, logout and
    registration of further admins. */
module AuthRouter {
  import opened Wrappers
  import opened Strings
  import opened AuthService

  /** `get_current_user`: 401 for a missing header, for one that does not
      start with "Bearer ", and for a token with no live session; the token
      is everything after the first 7 characters, unstripped. */
  function GetCurrentUser(db: AuthDb, header: Option<string>, now: int): (r: Result<PublicUser>)
    ensures header.None? || header.value == "" ==> r == Err(Http(401, "Authorization header missing"))
    ensures header.Some? && header.value != "" && !StartsWith(header.value, "Bearer ")
            ==> r == Err(Http(401, "Invalid authorization header"))
    ensures r.Ok? <==> header.Some? && StartsWith(header.value, "Bearer ")
                       && GetSession(db, header.value[7..], now).Some?
    ensures r.Ok? ==> r.value == GetSession(db, header.value[7..], now).value.user
    ensures r.Err? ==> r.error.Http? && r.error.status == 401
  {
    if header.None? || header.value == "" then Err(Http(401, "Authorization header missing"))
    else if !StartsWith(header.value, "Bearer ") then Err(Http(401, "Invalid authorization header"))
    else match GetSession(db, header.value[7..], now)
      case None => Err(Http(401, "Invalid or expired token"))
      case Some(session) => Ok(session.user)
  }

  datatype LoginResponse = LoginResponse(token: string, user: PublicUser)

  /** The request bodies declare their `email` as pydantic's `EmailStr`:
      a malformed address is refused with 422 before the handler runs, and
      a well-formed one reaches it in normalised form. The validator is the
      parameter `normalise`: None for a malformed address, otherwise the
      normalised address. */
  type EmailCheck = string -> Option<string>

  const InvalidEmail := Http(422, "value is not a valid email address")

  /** `login`: 422 for a malformed address; 401 when authentication of the
      normalised address fails; otherwise exactly one new session, whose
      token is returned. `token` is the random token the session would
      receive. */
  function Login(db: AuthDb, email: string, password: string, normalise: EmailCheck,
                 check: (string, string) -> Option<bool>, token: string, now: int): (res: (Result<LoginResponse>, AuthDb))
    ensures normalise(email).None? ==> res == (Err(InvalidEmail), db)
    ensures normalise(email).Some? ==>
              (res.0.Err? <==> AuthenticateUser(db, normalise(email).value, password, check).None?)
    ensures res.0.Err? && normalise(email).Some? ==> res.0.error == Http(401, "Invalid email or password")
    ensures res.0.Err? ==> res.1 == db
    ensures res.0.Ok? ==> normalise(email).Some? && res.0.value.token == token
                          && res.0.value.user == AuthenticateUser(db, normalise(email).value, password, check).value
                          && res.1.sessions == db.sessions + [Session(res.0.value.user.id, token, now + TokenLifetime)]
                          && res.1.users == db.users
  {
    match normalise(email)
    case None => (Err(InvalidEmail), db)
    case Some(address) =>
      match AuthenticateUser(db, address, password, check)
      case None => (Err(Http(401, "Invalid email or password")), db)
      case Some(user) => (Ok(LoginResponse(token, user)), CreateSession(db, user.id, token, now))
  }

  /** Two spellings of an address that normalise alike log in alike. */
  lemma LoginNormalised(db: AuthDb, e1: string, e2: string, password: string, normalise: EmailCheck,
                        check: (string, string) -> Option<bool>, token: string, now: int)
    requires normalise(e1) == normalise(e2)
    ensures Login(db, e1, password, normalise, check, token, now) == Login(db, e2, password, normalise, check, token, now)
  {
  }

  /** Logging in and presenting the token within 7 days identifies the
      user who logged in. */
  lemma LoginThenMe(db: AuthDb, email: string, password: string, normalise: EmailCheck,
                    check: (string, string) -> Option<bool>, token: string, now: int, later: int)
    requires KeyedUsers(db)
    requires forall i :: 0 <= i < |db.sessions| ==> db.sessions[i].token != token
    requires Login(db, email, password, normalise, check, token, now).0.Ok?
    requires later < now + TokenLifetime
    ensures var (resp, db') := Login(db, email, password, normalise, check, token, now);
      GetCurrentUser(db', Some("Bearer " + token), later) == Ok(resp.value.user)
  {
    var u := FindUserByEmail(db.users, normalise(email).value).value;
    assert Login(db, email, password, normalise, check, token, now)
           == (Ok(LoginResponse(token, Public(u))), CreateSession(db, u.id, token, now));
    assert FindUserById(db.users, u.id) == Some(u) by {
      var k :| 0 <= k < |db.users| && db.users[k] == u;
      FoundById(db.users, k);
    }
    SessionLifetime(db, u.id, token, now, later);
    BearerHeader(token);
  }

  /** The header "Bearer {token}" carries `token`. */
  lemma BearerHeader(token: string)
    ensures var h := "Bearer " + token; h != "" && StartsWith(h, "Bearer ") && h[7..] == token
  {
    var h := "Bearer " + token;
    assert h[..7] == "Bearer " && h[7..] == token;
  }

  /** `logout`: always "Logged out"; only a Bearer header deletes its
      session. */
  function Logout(db: AuthDb, header: Option<string>): (res: (string, AuthDb))
    ensures res.0 == "Logged out"
    ensures header.Some? && StartsWith(header.value, "Bearer ") ==> res.1 == DeleteSession(db, header.value[7..]).0
    ensures !(header.Some? && StartsWith(header.value, "Bearer ")) ==> res.1 == db
  {
    if header.Some? && header.value != "" && StartsWith(header.value, "Bearer ") then
      ("Logged out", DeleteSession(db, header.value[7..]).0)
    else ("Logged out", db)
  }

  /** After logout the same header is refused. */
  lemma LogoutThenMe(db: AuthDb, header: string, now: int)
    requires StartsWith(header, "Bearer ")
    ensures GetCurrentUser(Logout(db, Some(header)).1, Some(header), now).Err?
  {
    DeletedSessionGone(db, header[7..], now);
  }

  /** `register`: the caller must be signed in (the dependency is solved
      before the body is validated, so its 401 comes first); a malformed
      address is 422; an address whose normalised form is already taken is
      400 before anything is written. The account stores the normalised
      address. `passwordHash` is bcrypt's hash of the new password. */
  function Register(db: AuthDb, header: Option<string>, now: int, email: string, normalise: EmailCheck,
                    passwordHash: string, name: Option<string>): (res: (Result<PublicUser>, AuthDb))
    ensures GetCurrentUser(db, header, now).Err? ==> res == (Err(GetCurrentUser(db, header, now).error), db)
    ensures GetCurrentUser(db, header, now).Ok? && normalise(email).None? ==> res == (Err(InvalidEmail), db)
    ensures GetCurrentUser(db, header, now).Ok? && normalise(email).Some?
            && FindUserByEmail(db.users, normalise(email).value).Some?
            ==> res == (Err(Http(400, "Email already registered")), db)
    ensures res.0.Ok? <==> GetCurrentUser(db, header, now).Ok? && normalise(email).Some?
                           && FindUserByEmail(db.users, normalise(email).value).None?
    ensures res.0.Ok? ==> res.1.users == db.users + [AdminUser(db.nextId, normalise(email).value, passwordHash, name)]
                          && res.0.value.email == normalise(email).value
    ensures res.0.Err? ==> res.1 == db
  {
    match GetCurrentUser(db, header, now)
    case Err(e) => (Err(e), db)
    case Ok(_) =>
      match normalise(email)
      case None => (Err(InvalidEmail), db)
      case Some(address) =>
        if FindUserByEmail(db.users, address).Some? then (Err(Http(400, "Email already registered")), db)
        else
          var (db', user) := CreateUser(db, address, passwordHash, name);
          (Ok(user), db')
  }

  /** Registration keeps normalised addresses unique: once an address is
      registered, any spelling of it that normalises alike is refused. */
  lemma RegisterTwiceRefused(db: AuthDb, header: Option<string>, now: int, email: string, again: string,
                             normalise: EmailCheck, hash1: string, hash2: string, name: Option<string>)
    requires Register(db, header, now, email, normalise, hash1, name).0.Ok?
    requires normalise(again) == normalise(email)
    requires GetCurrentUser(Register(db, header, now, email, normalise, hash1, name).1, header, now).Ok?
    ensures Register(Register(db, header, now, email, normalise, hash1, name).1, header, now, again, normalise, hash2, name).0
            == Err(Http(400, "Email already registered"))
  {
    var db' := Register(db, header, now, email, normalise, hash1, name).1;
    assert db'.users[|db'.users| - 1].email == normalise(email).value;
  }
}

=== FILE: auth_service.dfy ===
/** The admin account store and its login sessions. The two tables are
    sequences of rows in insertion order; a query that returns one row
    returns the first matching one. The clock, the random session token and
    bcrypt are parameters. */
module AuthService {
  import opened Wrappers

  /** Sessions live for 7 days, counted in seconds. */
  const TokenExpireDays: int := 7
  const DaySeconds: int := 86400
  const TokenLifetime: int := TokenExpireDays * DaySeconds

  datatype AdminUser = AdminUser(id: int, email: string, passwordHash: string, name: Option<string>)

  /** A user as the API shows it: never the password hash. */
  datatype PublicUser = PublicUser(id: int, email: string, name: Option<string>)

  datatype Session = Session(userId: int, token: string, expiresAt: int)

  datatype SessionInfo = SessionInfo(userId: int, expiresAt: int, user: PublicUser)

  /** The `admin_users` and `admin_sessions` tables; `nextId` is the id the
      next inserted user receives. */
  datatype AuthDb = AuthDb(users: seq<AdminUser>, sessions: seq<Session>, nextId: int)

  function Public(u: AdminUser): PublicUser {
    PublicUser(u.id, u.email, u.name)
  }

  // ---------------------------------------------------------------------------
  // Passwords

  /** `verify_password`: bcrypt's answer, where `check` answers None when
      bcrypt raises, which counts as a mismatch. */
  predicate VerifyPassword(plain: string, hashed: string, check: (string, string) -> Option<bool>) {
    check(plain, hashed) == Some(true)
  }

  // ---------------------------------------------------------------------------
  // Users

  /** `get_user_by_email`: the first user with the address. */
  function FindUserByEmail(users: seq<AdminUser>, email: string): (r: Option<AdminUser>)
    ensures r.None? <==> forall i :: 0 <= i < |users| ==> users[i].email != email
    ensures r.Some? ==> r.value.email == email && r.value in users
    ensures r.Some? ==> exists i :: (0 <= i < |users| && users[i] == r.value
              && forall j :: 0 <= j < i ==> users[j].email != email)
    decreases |users|
  {
    if |users| == 0 then None
    else if users[0].email == email then Some(users[0])
    else
      var r := FindUserByEmail(users[1..], email);
      assert forall i :: 1 <= i < |users| ==> users[i] == users[1..][i - 1];
      if r.Some? then
        assert exists i :: 0 <= i < |users| && users[i] == r.value
                 && forall j :: 0 <= j < i ==> users[j].email != email by {
          var k :| 0 <= k < |users[1..]| && users[1..][k] == r.value
                   && forall j :: 0 <= j < k ==> users[1..][j].email != email;
          assert users[k + 1] == r.value;
        }
        r
      else r
  }

  /** `get_user_by_id`: the first user with the id. */
  function FindUserById(users: seq<AdminUser>, id: int): (r: Option<AdminUser>)
    ensures r.None? <==> forall i :: 0 <= i < |users| ==> users[i].id != id
    ensures r.Some? ==> r.value.id == id && r.value in users
    decreases |users|
  {
    if |users| == 0 then None
    else if users[0].id == id then Some(users[0])
    else
      var r := FindUserById(users[1..], id);
      assert forall i :: 1 <= i < |users| ==> users[i] == users[1..][i - 1];
      r
  }

  /** The primary key of `admin_users`: ids are distinct and below the next
      id the sequence hands out. */
  predicate KeyedUsers(db: AuthDb) {
    (forall i, j :: 0 <= i < j < |db.users| ==> db.users[i].id != db.users[j].id)
    && forall i :: 0 <= i < |db.users| ==> db.users[i].id < db.nextId
  }

  /** With distinct ids, a user is the one found under its id. */
  lemma {:induction false} FoundById(users: seq<AdminUser>, k: int)
    requires 0 <= k < |users|
    requires forall i, j :: 0 <= i < j < |users| ==> users[i].id != users[j].id
    ensures FindUserById(users, users[k].id) == Some(users[k])
    decreases |users|
  {
    if k > 0 {
      FoundById(users[1..], k - 1);
    }
  }

  /** `create_user`: appends a user with the next id and the given bcrypt
      hash. */
  function CreateUser(db: AuthDb, email: string, passwordHash: string, name: Option<string>)
    : (res: (AuthDb, PublicUser))
    ensures res.0.users == db.users + [AdminUser(db.nextId, email, passwordHash, name)]
    ensures res.0.sessions == db.sessions && res.0.nextId > db.nextId
    ensures res.1 == PublicUser(db.nextId, email, name)
    ensures KeyedUsers(db) ==> KeyedUsers(res.0)
  {
    (db.(users := db.users + [AdminUser(db.nextId, email, passwordHash, name)], nextId := db.nextId + 1),
     PublicUser(db.nextId, email, name))
  }

  /** `authenticate_user`: the public view of the first user with the address
      when the password matches its hash; None for an unknown address or a
      wrong password. */
  function AuthenticateUser(db: AuthDb, email: string, password: string, check: (string, string) -> Option<bool>)
    : (r: Option<PublicUser>)
    ensures r.Some? <==> FindUserByEmail(db.users, email).Some?
                         && VerifyPassword(password, FindUserByEmail(db.users, email).value.passwordHash, check)
    ensures r.Some? ==> r.value.email == email
                        && exists u :: (u in db.users && u.email == email && r.value == Public(u)
                           && VerifyPassword(password, u.passwordHash, check))
  {
    match FindUserByEmail(db.users, email)
    case None => None
    case Some(u) => if VerifyPassword(password, u.passwordHash, check) then Some(Public(u)) else None
  }

  /** An account created with a hash the password verifies against can log
      in, provided no earlier account has the address. */
  lemma CreatedUserAuthenticates(db: AuthDb, email: string, password: string, passwordHash: string,
                                 name: Option<string>, check: (string, string) -> Option<bool>)
    requires FindUserByEmail(db.users, email).None?
    requires check(password, passwordHash) == Some(true)
    ensures AuthenticateUser(CreateUser(db, email, passwordHash, name).0, email, password, check)
            == Some(CreateUser(db, email, passwordHash, name).1)
  {
    var users := CreateUser(db, email, passwordHash, name).0.users;
    var k := |users| - 1;
    var found := FindUserByEmail(users, email);
    assert users[k].email == email;
    forall j | 0 <= j < k ensures users[j].email != email {
      assert users[j] == db.users[j];
    }
  }

  // ---------------------------------------------------------------------------
  // Sessions

  /** `create_session`: a row for the user and token expiring exactly 7 days
      from `now`. */
  function CreateSession(db: AuthDb, userId: int, token: string, now: int): (db': AuthDb)
    ensures db'.sessions == db.sessions + [Session(userId, token, now + TokenLifetime)]
    ensures db'.users == db.users && db'.nextId == db.nextId
  {
    db.(sessions := db.sessions + [Session(userId, token, now + TokenLifetime)])
  }

  /** The join condition and filter of `get_session`. */
  predicate Live(s: Session, users: seq<AdminUser>, token: string, now: int) {
    s.token == token && s.expiresAt > now && FindUserById(users, s.userId).Some?
  }

  /** The first live row for the token, joined with its user. */
  function FirstLive(sessions: seq<Session>, users: seq<AdminUser>, token: string, now: int)
    : (r: Option<SessionInfo>)
    ensures r.None? <==> forall i :: 0 <= i < |sessions| ==> !Live(sessions[i], users, token, now)
    ensures r.Some? ==> exists i :: (0 <= i < |sessions| && Live(sessions[i], users, token, now)
              && r.value == SessionInfo(sessions[i].userId, sessions[i].expiresAt,
                                        Public(FindUserById(users, sessions[i].userId).value)))
    decreases |sessions|
  {
    if |sessions| == 0 then None
    else if Live(sessions[0], users, token, now) then
      var s := sessions[0];
      Some(SessionInfo(s.userId, s.expiresAt, Public(FindUserById(users, s.userId).value)))
    else
      assert forall i :: 1 <= i < |sessions| ==> sessions[i] == sessions[1..][i - 1];
      FirstLive(sessions[1..], users, token, now)
  }

  /** `get_session`: a session exactly when a row has the token, expires
      after `now` and belongs to an existing user; the user is shown without
      the hash. */
  function GetSession(db: AuthDb, token: string, now: int): (r: Option<SessionInfo>)
    ensures r.Some? <==> exists i :: 0 <= i < |db.sessions| && Live(db.sessions[i], db.users, token, now)
    ensures r.Some? ==> r.value.expiresAt > now && FindUserById(db.users, r.value.userId).Some?
                        && r.value.user == Public(FindUserById(db.users, r.value.userId).value)
  {
    FirstLive(db.sessions, db.users, token, now)
  }

  /** The rows of `sessions` that satisfy `keep`, in order. */
  function SessionsWhere(sessions: seq<Session>, keep: Session -> bool): (r: seq<Session>)
    ensures forall s :: s in r <==> s in sessions && keep(s)
    ensures |r| <= |sessions|
    decreases |sessions|
  {
    if |sessions| == 0 then []
    else
      var rest := SessionsWhere(sessions[1..], keep);
      assert forall s :: s in sessions <==> s == sessions[0] || s in sessions[1..];
      if keep(sessions[0]) then [sessions[0]] + rest else rest
  }

  /** Keeping every row that is live for `token` at `now` leaves the session
      found for it unchanged. */
  lemma {:induction false} FirstLiveKept(sessions: seq<Session>, users: seq<AdminUser>, token: string,
                                         now: int, keep: Session -> bool)
    requires forall s :: s in sessions && Live(s, users, token, now) ==> keep(s)
    ensures FirstLive(SessionsWhere(sessions, keep), users, token, now) == FirstLive(sessions, users, token, now)
    decreases |sessions|
  {
    if |sessions| > 0 {
      FirstLiveKept(sessions[1..], users, token, now, keep);
      var rest := SessionsWhere(sessions[1..], keep);
      if keep(sessions[0]) {
        assert SessionsWhere(sessions, keep)[1..] == rest;
      }
    }
  }

  /** `delete_session`: removes every row with the token and answers true
      whether or not one matched, since the command tag always reads
      "DELETE n". */
  function DeleteSession(db: AuthDb, token: string): (res: (AuthDb, bool))
    ensures res.1
    ensures forall s :: s in res.0.sessions <==> s in db.sessions && s.token != token
    ensures res.0.users == db.users && res.0.nextId == db.nextId
  {
    (db.(sessions := SessionsWhere(db.sessions, (s: Session) => s.token != token)), true)
  }

  /** After logout the token finds no session, whatever the time. */
  lemma DeletedSessionGone(db: AuthDb, token: string, now: int)
    ensures GetSession(DeleteSession(db, token).0, token, now).None?
  {
  }

  /** Deleting one token leaves the sessions of every other token as they
      were. */
  lemma DeleteSessionKeepsOthers(db: AuthDb, token: string, other: string, now: int)
    requires other != token
    ensures GetSession(DeleteSession(db, token).0, other, now) == GetSession(db, other, now)
  {
    FirstLiveKept(db.sessions, db.users, other, now, (s: Session) => s.token != token);
  }

  /** `cleanup_expired_sessions`: removes exactly the rows that expired
      strictly before `now`. */
  function CleanupExpired(db: AuthDb, now: int): (db': AuthDb)
    ensures forall s :: s in db'.sessions <==> s in db.sessions && s.expiresAt >= now
    ensures db'.users == db.users && db'.nextId == db.nextId
  {
    db.(sessions := SessionsWhere(db.sessions, (s: Session) => s.expiresAt >= now))
  }

  /** Cleanup never ends a session that is still live at or after the
      cleanup time. */
  lemma CleanupKeepsLive(db: AuthDb, now: int, token: string, later: int)
    requires later >= now
    ensures GetSession(CleanupExpired(db, now), token, later) == GetSession(db, token, later)
  {
    FirstLiveKept(db.sessions, db.users, token, later, (s: Session) => s.expiresAt >= now);
  }

  /** A fresh session for an existing user is found exactly until 7 days
      have passed. */
  lemma SessionLifetime(db: AuthDb, userId: int, token: string, now: int, later: int)
    requires forall i :: 0 <= i < |db.sessions| ==> db.sessions[i].token != token
    requires FindUserById(db.users, userId).Some?
    ensures GetSession(CreateSession(db, userId, token, now), token, later).Some? <==> later < now + TokenLifetime
    ensures later < now + TokenLifetime ==>
              GetSession(CreateSession(db, userId, token, now), token, later).value.user
              == Public(FindUserById(db.users, userId).value)
  {
    var db' := CreateSession(db, userId, token, now);
    var k := |db.sessions|;
    assert db'.sessions[k] == Session(userId, token, now + TokenLifetime);
    assert forall i :: 0 <= i < k ==> db'.sessions[i] == db.sessions[i];
  }
}

=== FILE: base64.dfy ===
/** Base64 as the GitHub contents API uses it (section 4 of RFC 4648): the
    encoder writes the standard alphabet with '=' padding, and the decoder is
    Python's `base64.b64decode(s)` in its default, non-validating mode
    (CPython `binascii.a2b_base64` with strict_mode off): characters outside
    the alphabet are skipped, a complete padding run ends the input, and a
    dangling 1, 2 or 3 data characters without enough padding is an error. */
module Base64 {
  import opened Wrappers

  newtype byte = x: int | 0 <= x < 256

  // ---------------------------------------------------------------------------
  // The alphabet

  predicate IsAlphabet(c: char) {
    'A' <= c <= 'Z' || 'a' <= c <= 'z' || '0' <= c <= '9' || c == '+' || c == '/'
  }

  /** The 6-bit value of an alphabet character. */
  function ValueOf(c: char): (v: int)
    requires IsAlphabet(c)
    ensures 0 <= v < 64
  {
    if 'A' <= c <= 'Z' then c as int - 'A' as int
    else if 'a' <= c <= 'z' then c as int - 'a' as int + 26
    else if '0' <= c <= '9' then c as int - '0' as int + 52
    else if c == '+' then 62
    else 63
  }

  /** The alphabet character of a 6-bit value. */
  function CharOf(v: int): (c: char)
    requires 0 <= v < 64
    ensures IsAlphabet(c) && ValueOf(c) == v
  {
    if v < 26 then ('A' as int + v) as char
    else if v < 52 then ('a' as int + v - 26) as char
    else if v < 62 then ('0' as int + v - 52) as char
    else if v == 62 then '+'
    else '/'
  }

  lemma CharOfValue(c: char)
    requires IsAlphabet(c)
    ensures CharOf(ValueOf(c)) == c
  {
  }

  // ---------------------------------------------------------------------------
  // Encoding (`base64.b64encode`)

  function Encode(b: seq<byte>): (s: string)
    ensures |s| == 4 * ((|b| + 2) / 3)
    ensures forall i :: 0 <= i < |s| ==> IsAlphabet(s[i]) || s[i] == '='
    decreases |b|
  {
    if |b| == 0 then ""
    else if |b| == 1 then LastOne(b[0])
    else if |b| == 2 then LastTwo(b[0], b[1])
    else Quad(b[0], b[1], b[2]) + Encode(b[3..])
  }

  /** A final single byte: two data characters and "==". */
  function LastOne(x: byte): (q: string)
    ensures |q| == 4 && IsAlphabet(q[0]) && IsAlphabet(q[1]) && q[2] == '=' && q[3] == '='
  {
    [CharOf(x as int / 4), CharOf(x as int % 4 * 16), '=', '=']
  }

  /** A final pair of bytes: three data characters and "=". */
  function LastTwo(x: byte, y: byte): (q: string)
    ensures |q| == 4 && IsAlphabet(q[0]) && IsAlphabet(q[1]) && IsAlphabet(q[2]) && q[3] == '='
  {
    [CharOf(x as int / 4), CharOf(x as int % 4 * 16 + y as int / 16), CharOf(y as int % 16 * 4), '=']
  }

  /** The four characters of a full group of three bytes. */
  function Quad(x: byte, y: byte, z: byte): (q: string)
    ensures |q| == 4 && forall i :: 0 <= i < 4 ==> IsAlphabet(q[i])
  {
    [CharOf(x as int / 4), CharOf(x as int % 4 * 16 + y as int / 16),
     CharOf(y as int % 16 * 4 + z as int / 64), CharOf(z as int % 64)]
  }

  // ---------------------------------------------------------------------------
  // Decoding (`base64.b64decode` without `validate=True`)

  /** The decoder's registers: how many data characters of the current quad
      were read, the bits still waiting for their byte, how many '=' were seen
      since the last data character (counted only from the third quad
      position on), and the bytes written so far. */
  datatype State = State(quadPos: int, leftchar: int, pads: nat, out: seq<byte>)

  predicate ValidState(st: State) {
    0 <= st.quadPos < 4 && 0 <= st.leftchar < 64
    && (st.quadPos == 2 ==> st.leftchar < 16) && (st.quadPos == 3 ==> st.leftchar < 4)
  }

  const Start := State(0, 0, 0, [])

  /** Feeds one 6-bit value. The source combines the two parts with shifts and
      a bitwise or over disjoint bits, which is the sum written here. */
  function Feed(st: State, v: int): (st': State)
    requires ValidState(st) && 0 <= v < 64
    ensures ValidState(st') && st'.quadPos == (st.quadPos + 1) % 4 && st'.pads == 0
    ensures |st'.out| == |st.out| + (if st.quadPos == 0 then 0 else 1) && st.out <= st'.out
  {
    match st.quadPos
    case 0 => State(1, v, 0, st.out)
    case 1 => State(2, v % 16, 0, st.out + [(st.leftchar * 4 + v / 16) as byte])
    case 2 => State(3, v % 4, 0, st.out + [(st.leftchar * 16 + v / 4) as byte])
    case _ => State(0, 0, 0, st.out + [(st.leftchar * 64 + v) as byte])
  }

  /** Bytes owed by the current partial quad, scaled by four: every data
      character adds exactly three to `4 * |out| + Deficit(quadPos)`. */
  function Deficit(quadPos: int): int {
    if quadPos == 1 then 3 else if quadPos == 2 then 2 else if quadPos == 3 then 1 else 0
  }

  function Run(s: string, st: State): (r: Result<seq<byte>>)
    requires ValidState(st)
    ensures r.Ok? ==> st.out <= r.value
    ensures r.Ok? ==> 4 * |r.value| <= 4 * |st.out| + Deficit(st.quadPos) + 3 * |s|
    decreases |s|
  {
    if |s| == 0 then
      if st.quadPos != 0 then Err(Raised("binascii.Error")) else Ok(st.out)
    else if s[0] == '=' then
      if st.quadPos >= 2 then
        if st.quadPos + st.pads + 1 >= 4 then Ok(st.out)
        else Run(s[1..], st.(pads := st.pads + 1))
      else Run(s[1..], st)
    else if !IsAlphabet(s[0]) then Run(s[1..], st)
    else Run(s[1..], Feed(st, ValueOf(s[0])))
  }

  predicate IsAscii(s: string) {
    forall i :: 0 <= i < |s| ==> s[i] < '\U{80}'
  }

  /** `b64decode` of a `str`: non-ASCII text is refused before decoding. */
  function Decode(s: string): (r: Result<seq<byte>>)
    ensures !IsAscii(s) ==> r.Err?
    ensures r.Ok? ==> 4 * |r.value| <= 3 * |s|
  {
    if !IsAscii(s) then Err(Raised("ValueError")) else Run(s, Start)
  }

  // ---------------------------------------------------------------------------
  // Properties

  /** One data character at the front of the input is fed to the decoder. */
  lemma RunData(c: char, rest: string, st: State)
    requires ValidState(st) && IsAlphabet(c)
    ensures Run([c] + rest, st) == Run(rest, Feed(st, ValueOf(c)))
  {
    assert ([c] + rest)[1..] == rest;
  }

  /** The 6-bit groups of three bytes: x = g0·4 + g1/16, y = (g1 mod 16)·16 + g2/4,
      z = (g2 mod 4)·64 + g3. */
  lemma GroupArithmetic(x: int, y: int, z: int)
    requires 0 <= x < 256 && 0 <= y < 256 && 0 <= z < 256
    ensures (x % 4 * 16 + y / 16) / 16 == x % 4 && (x % 4 * 16 + y / 16) % 16 == y / 16
    ensures (y % 16 * 4 + z / 64) / 4 == y % 16 && (y % 16 * 4 + z / 64) % 4 == z / 64
    ensures x / 4 * 4 + x % 4 == x && y / 16 * 16 + y % 16 == y && z / 64 * 64 + z % 64 == z
  {
  }

  /** Feeding the four 6-bit groups of three bytes writes exactly those bytes. */
  lemma FeedQuad(x: byte, y: byte, z: byte, out: seq<byte>)
    ensures var st1 := Feed(State(0, 0, 0, out), x as int / 4);
            var st2 := Feed(st1, x as int % 4 * 16 + y as int / 16);
            var st3 := Feed(st2, y as int % 16 * 4 + z as int / 64);
            Feed(st3, z as int % 64) == State(0, 0, 0, out + [x, y, z])
  {
    GroupArithmetic(x as int, y as int, z as int);
    var st1 := Feed(State(0, 0, 0, out), x as int / 4);
    var st2 := Feed(st1, x as int % 4 * 16 + y as int / 16);
    assert st2 == State(2, y as int / 16, 0, out + [x]);
    var st3 := Feed(st2, y as int % 16 * 4 + z as int / 64);
    assert st3 == State(3, z as int / 64, 0, out + [x, y]);
  }

  /** Four data characters at the front of the input are fed in order. */
  lemma RunFour(q: string, rest: string, st: State)
    requires ValidState(st) && |q| == 4 && forall i :: 0 <= i < 4 ==> IsAlphabet(q[i])
    ensures var st1 := Feed(st, ValueOf(q[0]));
            var st2 := Feed(st1, ValueOf(q[1]));
            var st3 := Feed(st2, ValueOf(q[2]));
            Run(q + rest, st) == Run(rest, Feed(st3, ValueOf(q[3])))
  {
    var st1 := Feed(st, ValueOf(q[0]));
    var st2 := Feed(st1, ValueOf(q[1]));
    var st3 := Feed(st2, ValueOf(q[2]));
    assert q + rest == [q[0]] + ([q[1]] + ([q[2]] + ([q[3]] + rest)));
    RunData(q[0], [q[1]] + ([q[2]] + ([q[3]] + rest)), st);
    RunData(q[1], [q[2]] + ([q[3]] + rest), st1);
    RunData(q[2], [q[3]] + rest, st2);
    RunData(q[3], rest, st3);
  }

  /** One full quad of data characters turns back into its three bytes. */
  lemma DecodeQuad(x: byte, y: byte, z: byte, rest: string, out: seq<byte>)
    ensures Run(Quad(x, y, z) + rest, State(0, 0, 0, out)) == Run(rest, State(0, 0, 0, out + [x, y, z]))
  {
    var q := Quad(x, y, z);
    assert ValueOf(q[0]) == x as int / 4 && ValueOf(q[1]) == x as int % 4 * 16 + y as int / 16;
    assert ValueOf(q[2]) == y as int % 16 * 4 + z as int / 64 && ValueOf(q[3]) == z as int % 64;
    RunFour(q, rest, State(0, 0, 0, out));
    FeedQuad(x, y, z, out);
  }

  /** A final single byte is written as two data characters and "==". */
  lemma RunLastOne(x: byte, out: seq<byte>)
    ensures Run(LastOne(x), State(0, 0, 0, out)) == Ok(out + [x])
  {
    var c0, c1 := CharOf(x as int / 4), CharOf(x as int % 4 * 16);
    assert [c0, c1, '=', '='] == [c0] + ([c1] + "==");
    var st0 := State(0, 0, 0, out);
    var st1 := Feed(st0, x as int / 4);
    var st2 := Feed(st1, x as int % 4 * 16);
    RunData(c0, [c1] + "==", st0);
    RunData(c1, "==", st1);
    assert x as int / 4 * 4 + x as int % 4 == x as int;
    assert st2.out == out + [x];
    assert st2.quadPos == 2 && st2.pads == 0;
    assert "=="[1..] == "=";
  }

  /** A final pair of bytes is written as three data characters and "=". */
  lemma RunLastTwo(x: byte, y: byte, out: seq<byte>)
    ensures Run(LastTwo(x, y), State(0, 0, 0, out)) == Ok(out + [x, y])
  {
    var c0, c1 := CharOf(x as int / 4), CharOf(x as int % 4 * 16 + y as int / 16);
    var c2 := CharOf(y as int % 16 * 4);
    assert [c0, c1, c2, '='] == [c0] + ([c1] + ([c2] + "="));
    var st0 := State(0, 0, 0, out);
    var st1 := Feed(st0, x as int / 4);
    var st2 := Feed(st1, x as int % 4 * 16 + y as int / 16);
    RunData(c0, [c1] + ([c2] + "="), st0);
    RunData(c1, [c2] + "=", st1);
    RunData(c2, "=", st2);
    FeedLastTwo(x, y, out);
  }

  /** The three data characters of a final pair write both bytes and leave
      the quad waiting for its '='. */
  lemma FeedLastTwo(x: byte, y: byte, out: seq<byte>)
    ensures var st1 := Feed(State(0, 0, 0, out), x as int / 4);
            var st2 := Feed(st1, x as int % 4 * 16 + y as int / 16);
            Feed(st2, y as int % 16 * 4) == State(3, 0, 0, out + [x, y])
  {
    GroupArithmetic(x as int, y as int, 0);
    var st1 := Feed(State(0, 0, 0, out), x as int / 4);
    var st2 := Feed(st1, x as int % 4 * 16 + y as int / 16);
    assert st2 == State(2, y as int / 16, 0, out + [x]);
  }

  /** The last byte decodes back from its padded quad. */
  lemma RunEncodeOne(b: seq<byte>, out: seq<byte>)
    requires |b| == 1
    ensures Run(Encode(b), State(0, 0, 0, out)) == Ok(out + b)
  {
    RunLastOne(b[0], out);
    assert b == [b[0]];
  }

  /** The last two bytes decode back from their padded quad. */
  lemma RunEncodeTwo(b: seq<byte>, out: seq<byte>)
    requires |b| == 2
    ensures Run(Encode(b), State(0, 0, 0, out)) == Ok(out + b)
  {
    RunLastTwo(b[0], b[1], out);
    assert b == [b[0], b[1]];
  }

  /** The first group of three bytes is written as four data characters in
      front of the encoding of the rest. */
  lemma EncodeFirstGroup(b: seq<byte>)
    requires |b| >= 3
    ensures Encode(b) == Quad(b[0], b[1], b[2]) + Encode(b[3..])
  {
  }

  /** A leading full group decodes back, leaving the rest of the encoding. */
  lemma RunEncodeGroup(b: seq<byte>, out: seq<byte>)
    requires |b| >= 3
    ensures Run(Encode(b), State(0, 0, 0, out)) == Run(Encode(b[3..]), State(0, 0, 0, out + [b[0], b[1], b[2]]))
  {
    var e := Encode(b[3..]);
    EncodeFirstGroup(b);
    DecodeQuad(b[0], b[1], b[2], e, out);
  }

  /** Decoding the encoder's output gives the original bytes back, from any
      quad boundary. */
  lemma {:induction false} RunEncode(b: seq<byte>, out: seq<byte>)
    ensures Run(Encode(b), State(0, 0, 0, out)) == Ok(out + b)
    decreases |b|
  {
    if |b| == 0 {
      assert out + b == out;
    } else if |b| == 1 {
      RunEncodeOne(b, out);
    } else if |b| == 2 {
      RunEncodeTwo(b, out);
    } else {
      RunEncodeGroup(b, out);
      RunEncode(b[3..], out + [b[0], b[1], b[2]]);
      GroupSplit(b, out);
    }
  }

  lemma GroupSplit(b: seq<byte>, out: seq<byte>)
    requires |b| >= 3
    ensures out + [b[0], b[1], b[2]] + b[3..] == out + b
  {
    assert b == [b[0], b[1], b[2]] + b[3..];
  }

  /** Section 4 of RFC 4648: decode(encode(b)) == b. */
  lemma DecodeEncode(b: seq<byte>)
    ensures Decode(Encode(b)) == Ok(b)
  {
    var s := Encode(b);
    assert IsAscii(s) by {
      forall i | 0 <= i < |s| ensures s[i] < '\U{80}' {
        assert IsAlphabet(s[i]) || s[i] == '=';
      }
    }
    RunEncode(b, []);
    assert [] + b == b;
  }

  /** A character outside the alphabet and other than '=' is ignored wherever
      it appears: this is what lets the decoder read GitHub's line-wrapped
      content. */
  lemma {:induction false} RunSkipsNoise(s: string, i: nat, c: char, st: State)
    requires i <= |s| && ValidState(st)
    requires !IsAlphabet(c) && c != '='
    ensures Run(s[..i] + [c] + s[i..], st) == Run(s, st)
    decreases i
  {
    var t := s[..i] + [c] + s[i..];
    if i == 0 {
      assert t[0] == c && t[1..] == s;
    } else {
      assert t[0] == s[0];
      assert t[1..] == s[1..][..i - 1] + [c] + s[1..][i - 1..];
      if s[0] == '=' && st.quadPos >= 2 && st.quadPos + st.pads + 1 >= 4 {
      } else if s[0] == '=' && st.quadPos >= 2 {
        RunSkipsNoise(s[1..], i - 1, c, st.(pads := st.pads + 1));
      } else if s[0] == '=' || !IsAlphabet(s[0]) {
        RunSkipsNoise(s[1..], i - 1, c, st);
      } else {
        RunSkipsNoise(s[1..], i - 1, c, Feed(st, ValueOf(s[0])));
      }
    }
  }

  lemma DecodeSkipsNewline(s: string, i: nat)
    requires i <= |s|
    ensures Decode(s[..i] + "\n" + s[i..]) == Decode(s)
  {
    var t := s[..i] + "\n" + s[i..];
    RunSkipsNoise(s, i, '\n', Start);
    assert IsAscii(t) <==> IsAscii(s) by {
      if IsAscii(s) {
        forall k | 0 <= k < |t| ensures t[k] < '\U{80}' {
          if k < i { assert t[k] == s[k]; }
          else if k > i { assert t[k] == s[k - 1]; }
        }
      }
      if IsAscii(t) {
        forall k | 0 <= k < |s| ensures s[k] < '\U{80}' {
          if k < i { assert t[k] == s[k]; }
          else { assert t[k + 1] == s[k]; }
        }
      }
    }
  }

  /** Data characters alone are all fed: the run fails exactly when they do
      not close the current quad. */
  lemma {:induction false} RunDataOnly(s: string, st: State)
    requires ValidState(st) && forall i :: 0 <= i < |s| ==> IsAlphabet(s[i])
    ensures Run(s, st).Err? <==> (st.quadPos + |s|) % 4 != 0
    decreases |s|
  {
    if |s| > 0 {
      var st' := Feed(st, ValueOf(s[0]));
      assert s == [s[0]] + s[1..];
      RunData(s[0], s[1..], st);
      assert forall i :: 0 <= i < |s[1..]| ==> IsAlphabet(s[1..][i]) by {
        assert forall i :: 0 <= i < |s[1..]| ==> s[1..][i] == s[i + 1];
      }
      RunDataOnly(s[1..], st');
      assert (st'.quadPos + |s[1..]|) % 4 == (st.quadPos + |s|) % 4 by {
        var n := |s| - 1;
        if st.quadPos == 3 {
          assert st'.quadPos + |s[1..]| == n && st.quadPos + |s| == n + 4;
        } else {
          assert st'.quadPos + |s[1..]| == st.quadPos + |s|;
        }
      }
    }
  }

  /** Text of data characters only decodes exactly when its length is a
      multiple of four. */
  lemma DecodeDataOnly(s: string)
    requires forall i :: 0 <= i < |s| ==> IsAlphabet(s[i])
    ensures Decode(s).Err? <==> |s| % 4 != 0
  {
    assert IsAscii(s);
    RunDataOnly(s, Start);
  }

  /** A lone data character after whole quads (a length one more than a
      multiple of four) is refused. */
  lemma DecodeDanglingCharacter(s: string)
    requires forall i :: 0 <= i < |s| ==> IsAlphabet(s[i])
    requires |s| % 4 == 1
    ensures Decode(s).Err?
  {
    DecodeDataOnly(s);
  }
}

=== FILE: carousel.dfy ===
/** What the two project carousels share: forty slots coloured from a fixed
    grey palette, a text colour chosen by the lightness of the spine, slot
    ids of the form "{id}-{i}", and order-preserving filtering. */
module Carousel {
  import opened Wrappers
  import Strings

  /** The number of slots on the wheel. */
  const ItemCount: nat := 40

  /** The spine colours, light to dark and back to light. */
  const Palette: seq<string> := [
    "#e6e6e6", "#e4e4e4", "#e1e1e1", "#dcdcdc", "#d4d4d4",
    "#cbcbcb", "#c1c1c1", "#b5b5b5", "#a8a8a8", "#9a9a9a",
    "#8c8c8c", "#7d7d7d", "#6e6e6e", "#5f5f5f", "#505050",
    "#424242", "#373737", "#2f2f2f", "#2a2a2a", "#282828",
    "#282828", "#2a2a2a", "#2f2f2f", "#373737", "#424242",
    "#505050", "#5f5f5f", "#6e6e6e", "#7d7d7d", "#8c8c8c",
    "#9a9a9a", "#a8a8a8", "#b5b5b5", "#c1c1c1", "#cbcbcb",
    "#d4d4d4", "#dcdcdc", "#e1e1e1", "#e4e4e4", "#e6e6e6"
  ]

  const DarkText := "#111111"
  const LightText := "#FFFFFF"

  // ---------------------------------------------------------------------------
  // Hexadecimal channels

  /** The value of a hexadecimal digit, either case. */
  function HexDigitValue(c: char): (d: Option<nat>)
    ensures d.Some? ==> d.value < 16
  {
    if '0' <= c <= '9' then Some(c as int - '0' as int)
    else if 'a' <= c <= 'f' then Some(c as int - 'a' as int + 10)
    else if 'A' <= c <= 'F' then Some(c as int - 'A' as int + 10)
    else None
  }

  /** `parseInt(s, 16)` on text without sign, blanks or "0x": the value of
      the longest prefix of hex digits, None (NaN) when there is none. */
  function ParseHex(s: string): (v: Option<nat>)
    ensures v.None? <==> |s| == 0 || HexDigitValue(s[0]).None?
  {
    if |s| == 0 || HexDigitValue(s[0]).None? then None
    else Some(ParseHexFrom(HexDigitValue(s[0]).value, s[1..]))
  }

  function ParseHexFrom(acc: nat, s: string): nat
    decreases |s|
  {
    if |s| == 0 || HexDigitValue(s[0]).None? then acc
    else ParseHexFrom(acc * 16 + HexDigitValue(s[0]).value, s[1..])
  }

  /** `s.substring(a, b)` with `a <= b`, clamped to the text. */
  function Substring(s: string, a: nat, b: nat): (r: string)
    requires a <= b
    ensures |r| <= b - a
  {
    if a >= |s| then "" else if b >= |s| then s[a..] else s[a..b]
  }

  /** `s.replace('#', '')`: only the first '#' goes. */
  function DropHash(s: string): (r: string)
    ensures '#' !in s ==> r == s
    ensures |s| > 0 && s[0] == '#' ==> r == s[1..]
    decreases |s|
  {
    if |s| == 0 then s
    else if s[0] == '#' then s[1..]
    else [s[0]] + DropHash(s[1..])
  }

  /** Channel `k` (0 red, 1 green, 2 blue) of a colour. */
  function Channel(color: string, k: nat): Option<nat>
    requires k < 3
  {
    ParseHex(Substring(DropHash(color), 2 * k, 2 * k + 2))
  }

  /** The text colour for a spine: dark when the mean of the three channels
      exceeds 100, light otherwise, and light also when a channel does not
      parse (a comparison with NaN is false). */
  function TextColor(spine: string): (text: string)
    ensures text == DarkText <==>
              Channel(spine, 0).Some? && Channel(spine, 1).Some? && Channel(spine, 2).Some?
              && (Channel(spine, 0).value + Channel(spine, 1).value + Channel(spine, 2).value) as real / 3.0 > 100.0
    ensures text == DarkText || text == LightText
  {
    var r, g, b := Channel(spine, 0), Channel(spine, 1), Channel(spine, 2);
    if r.Some? && g.Some? && b.Some? && (r.value + g.value + b.value) as real / 3.0 > 100.0 then DarkText
    else LightText
  }

  /** `generateColorData(i)`. */
  function ColorData(i: nat): (colors: (string, string))
    ensures colors.0 == Palette[i % ItemCount] && colors.1 == TextColor(colors.0)
  {
    var spine := Palette[i % |Palette|];
    (spine, TextColor(spine))
  }

  /** Two lower-case hex digits for a byte. */
  function Hex2(v: nat): (s: string)
    requires v < 256
    ensures |s| == 2
  {
    [HexChar(v / 16), HexChar(v % 16)]
  }

  /** The lower-case hex digit for a value below 16. */
  function HexChar(d: nat): (c: char)
    requires d < 16
    ensures HexDigitValue(c) == Some(d)
  {
    if d < 10 then ('0' as int + d) as char else ('a' as int + d - 10) as char
  }

  lemma Hex2Parses(v: nat)
    requires v < 256
    ensures ParseHex(Hex2(v)) == Some(v)
  {
    var s := Hex2(v);
    assert ParseHex(s) == Some(ParseHexFrom(v / 16, s[1..]));
    assert ParseHexFrom(v / 16, s[1..]) == ParseHexFrom(v / 16 * 16 + v % 16, s[1..][1..]);
    assert s[1..][1..] == [];
  }

  /** The grey "#vvvvvv". */
  function Grey(v: nat): string
    requires v < 256
  {
    "#" + Hex2(v) + Hex2(v) + Hex2(v)
  }

  /** Each channel of a grey reads back as its level. */
  lemma GreyChannels(v: nat, k: nat)
    requires v < 256 && k < 3
    ensures Channel(Grey(v), k) == Some(v)
  {
    var h := Hex2(v) + Hex2(v) + Hex2(v);
    assert DropHash(Grey(v)) == h;
    assert Substring(h, 2 * k, 2 * k + 2) == Hex2(v);
    Hex2Parses(v);
  }

  /** On a grey spine the rule reduces to its level: dark text above 100,
      light text at 100 and below. */
  lemma GreyText(v: nat)
    requires v < 256
    ensures TextColor(Grey(v)) == (if v > 100 then DarkText else LightText)
  {
    GreyChannels(v, 0);
    GreyChannels(v, 1);
    GreyChannels(v, 2);
  }

  /** The palette entries at the ends of the light-text run are greys. */
  lemma PaletteGreys()
    ensures Palette[0] == Grey(230) && Palette[12] == Palette[27] == Grey(110)
    ensures Palette[13] == Palette[26] == Grey(95) && Palette[19] == Grey(40)
  {
    PaletteEntries();
    GreyOf(230, "#e6e6e6");
    GreyOf(110, "#6e6e6e");
    GreyOf(95, "#5f5f5f");
    GreyOf(40, "#282828");
  }

  lemma PaletteEntries()
    ensures Palette[0] == "#e6e6e6" && Palette[12] == Palette[27] == "#6e6e6e"
    ensures Palette[13] == Palette[26] == "#5f5f5f" && Palette[19] == "#282828"
  {
  }

  /** A grey is its two hex digits written three times after '#'. */
  lemma GreyOf(v: nat, text: string)
    requires v < 256 && |text| == 7 && text[0] == '#' && Hex2(v) == text[1..3]
    requires text[3..5] == text[5..7] == text[1..3]
    ensures Grey(v) == text
  {
    assert text == text[..1] + text[1..3] + text[3..5] + text[5..7];
  }

  /** The lightest and darkest slots, and the two ends of each light-text
      run: slots 13 to 26 carry light text, their neighbours dark text. */
  lemma SlotTextColors()
    ensures ColorData(0).1 == DarkText && ColorData(12).1 == DarkText
    ensures ColorData(13).1 == LightText && ColorData(19).1 == LightText && ColorData(26).1 == LightText
    ensures ColorData(27).1 == DarkText && ColorData(40) == ColorData(0)
  {
    PaletteGreys();
    GreyText(230);
    GreyText(110);
    GreyText(95);
    GreyText(40);
  }

  // ---------------------------------------------------------------------------
  // Slots

  /** `${id}-${i}`. */
  function SlotId(id: int, i: nat): (u: string)
    ensures Strings.Split(u, '-') == Strings.Split(Strings.IntToString(id), '-') + [Strings.NatToString(i)]
  {
    var digits := Strings.NatToString(i);
    assert forall k :: 0 <= k < |digits| ==> digits[k] != '-';
    Strings.SplitSnoc(Strings.IntToString(id), digits, '-');
    Strings.IntToString(id) + "-" + digits
  }

  /** Different slots never share an id, whatever the projects' ids. */
  lemma SlotIdsDistinct(id1: int, i1: nat, id2: int, i2: nat)
    requires i1 != i2
    ensures SlotId(id1, i1) != SlotId(id2, i2)
  {
    if SlotId(id1, i1) == SlotId(id2, i2) {
      var p1 := Strings.Split(Strings.IntToString(id1), '-') + [Strings.NatToString(i1)];
      var p2 := Strings.Split(Strings.IntToString(id2), '-') + [Strings.NatToString(i2)];
      assert p1[|p1| - 1] == p2[|p2| - 1];
      Strings.NatToStringInjective(i1, i2);
    }
  }

  /** Division by a positive modulus is determined by the quotient and
      remainder it must produce. */
  lemma ModUnique(i: int, m: int, q: int, r: int)
    requires m > 0 && 0 <= r < m && i == q * m + r
    ensures i % m == r && i / m == q
  {
    if q > i / m {
      MulMono(m, q - i / m);
    } else if q < i / m {
      MulMono(m, i / m - q);
    }
  }

  lemma MulMono(m: int, x: int)
    requires m > 0 && x >= 1
    ensures m * x >= m
  {
  }

  // ---------------------------------------------------------------------------
  // Filtering

  /** `a` is `b` with some elements left out and the rest in order. */
  predicate IsSubsequence<T(==)>(a: seq<T>, b: seq<T>)
    decreases |b|
  {
    |a| == 0 || (|b| > 0 && ((a[0] == b[0] && IsSubsequence(a[1..], b[1..])) || IsSubsequence(a, b[1..])))
  }

  /** Everything in a subsequence is in the sequence. */
  lemma {:induction false} SubsequenceMembers<T>(a: seq<T>, b: seq<T>)
    requires IsSubsequence(a, b)
    ensures forall x :: x in a ==> x in b
    decreases |b|
  {
    if |a| > 0 {
      if a[0] == b[0] && IsSubsequence(a[1..], b[1..]) {
        SubsequenceMembers(a[1..], b[1..]);
        assert forall x :: x in a ==> x == a[0] || x in a[1..];
      } else {
        SubsequenceMembers(a, b[1..]);
      }
    }
  }

  /** A relation that holds of every ordered pair of a sequence holds of
      every ordered pair of its subsequences. */
  lemma {:induction false} SubsequencePairs<T>(a: seq<T>, b: seq<T>, rel: (T, T) -> bool)
    requires IsSubsequence(a, b)
    requires forall i, j :: 0 <= i < j < |b| ==> rel(b[i], b[j])
    ensures forall i, j :: 0 <= i < j < |a| ==> rel(a[i], a[j])
    decreases |b|
  {
    if |a| > 0 {
      if a[0] == b[0] && IsSubsequence(a[1..], b[1..]) {
        SubsequencePairs(a[1..], b[1..], rel);
        SubsequenceMembers(a[1..], b[1..]);
        forall i, j | 0 <= i < j < |a| ensures rel(a[i], a[j]) {
          if i == 0 {
            assert a[j] in b[1..] by { assert a[j] == a[1..][j - 1]; }
            var m :| 0 <= m < |b[1..]| && b[1..][m] == a[j];
            assert rel(b[0], b[m + 1]);
          } else {
            assert a[i] == a[1..][i - 1] && a[j] == a[1..][j - 1];
          }
        }
      } else {
        SubsequencePairs(a, b[1..], rel);
      }
    }
  }

  /** `Array.prototype.filter`. */
  function Filter<T(==,!new)>(s: seq<T>, keep: T -> bool): (r: seq<T>)
    ensures forall x :: x in r <==> x in s && keep(x)
    ensures IsSubsequence(r, s)
    ensures (forall x :: x in s ==> keep(x)) ==> r == s
    decreases |s|
  {
    if |s| == 0 then []
    else
      var rest := Filter(s[1..], keep);
      assert forall x :: x in s <==> x == s[0] || x in s[1..];
      if keep(s[0]) then
        var r := [s[0]] + rest;
        assert r[1..] == rest;
        r
      else rest
  }
}

=== FILE: config.dfy ===
/** Application settings read from the environment, and the CORS origin
    list derived from them. */
module Config {
  import opened Wrappers
  import opened Strings

  const DefaultCorsOrigins: string := "http://localhost:5173"

  /** The settings the modelled code reads. */
  datatype Settings = Settings(appEnv: string, githubToken: string, githubUsername: string,
                               corsOrigins: string, apiSecret: string, r2Endpoint: string,
                               r2BucketName: string, r2PublicUrl: string)

  /** The attribute names `Settings` declares. */
  const SettingsFields: set<string> := {
    "app_env", "database_url", "github_token", "github_username", "cors_origins", "api_secret",
    "r2_endpoint", "r2_access_key_id", "r2_secret_access_key", "r2_bucket_name", "r2_public_url"}

  /** A settings instance seen through attribute access: the declared names
      and the value each holds. Reading a name the class does not declare
      raises AttributeError. */
  datatype Attributes = Attributes(declared: set<string>, value: string -> string) {
    function Get(name: string): Result<string> {
      if name in declared then Ok(value(name)) else Err(Raised("AttributeError"))
    }
  }

  /** Every setting at its declared default. */
  const Defaults: Settings := Settings("dev", "", "", DefaultCorsOrigins, "", "", "", "")

  /** `cors_origins_list`: the comma-separated segments, each stripped, in
      order. */
  function CorsOriginsList(cors: string): (r: seq<string>)
    ensures |r| == Count(cors, ',') + 1
    ensures forall i :: 0 <= i < |r| ==> ',' !in r[i]
    ensures forall i :: 0 <= i < |r| ==> |r[i]| > 0 ==> !IsPySpace(r[i][0]) && !IsPySpace(r[i][|r[i]| - 1])
  {
    var parts := Split(cors, ',');
    var r := seq(|parts|, i requires 0 <= i < |parts| => PyStrip(parts[i]));
    assert forall i :: 0 <= i < |r| ==> ',' !in r[i] by {
      forall i | 0 <= i < |r| ensures ',' !in r[i] {
        StripInfix(parts[i], IsPySpace);
      }
    }
    r
  }

  /** Stripping keeps a contiguous part of the string. */
  lemma StripInfix(s: string, ws: char -> bool)
    ensures forall c :: c in Trim(s, ws) ==> c in s
  {
    var a := TrimStart(s, ws);
    var r := TrimEnd(a, ws);
    forall c | c in r ensures c in s {
      var k :| 0 <= k < |r| && r[k] == c;
      assert a[k] == c;
      assert s[|s| - |a| + k] == c;
    }
  }

  /** Origins written without commas or surrounding spaces and joined by
      commas are read back as written. */
  lemma CorsOriginsJoin(origins: seq<string>)
    requires |origins| > 0
    requires forall i :: 0 <= i < |origins| ==> ',' !in origins[i]
    requires forall i :: 0 <= i < |origins| ==> |origins[i]| > 0 ==>
               !IsPySpace(origins[i][0]) && !IsPySpace(origins[i][|origins[i]| - 1])
    ensures CorsOriginsList(Join(origins, ",")) == origins
  {
    SplitJoin(origins, ',');
    forall i | 0 <= i < |origins| ensures PyStrip(origins[i]) == origins[i] {
      StripUntouched(origins[i], IsPySpace);
    }
  }

  /** One origin without commas or surrounding spaces is read back alone. */
  lemma SingleOrigin(origin: string)
    requires ',' !in origin
    requires |origin| > 0 ==> !IsPySpace(origin[0]) && !IsPySpace(origin[|origin| - 1])
    ensures CorsOriginsList(origin) == [origin]
  {
    SplitNoSeparator(origin, ',');
    StripUntouched(origin, IsPySpace);
  }

  /** The default allows exactly the local development server. */
  lemma DefaultCorsList()
    ensures CorsOriginsList(Defaults.corsOrigins) == ["http://localhost:5173"]
  {
    var d := DefaultCorsOrigins;
    assert d[0] == 'h' && d[|d| - 1] == '3';
    assert ',' !in d;
    SingleOrigin(d);
  }

  /** `get_settings` is cached: the first call loads, every later one
      answers the cached instance. */
  function GetSettings(cache: Option<Settings>, load: Settings): (res: (Settings, Option<Settings>))
    ensures res.1 == Some(res.0)
    ensures cache.Some? ==> res.0 == cache.value
  {
    match cache
    case Some(s) => (s, cache)
    case None => (load, Some(load))
  }

  /** Two calls answer the same instance even if the environment changed. */
  lemma GetSettingsStable(cache: Option<Settings>, load1: Settings, load2: Settings)
    ensures var (s1, c1) := GetSettings(cache, load1);
      GetSettings(c1, load2) == (s1, c1)
  {
  }
}

=== FILE: create_admin.dfy ===
/** The command-line script that creates the first admin account:
    `create_admin.py <email> <password> [name]`. */
module CreateAdmin {
  import opened Wrappers
  import opened AuthService

  /** Passwords shorter than this are refused. */
  const MinPasswordLength: nat := 6

  /** The exit status and the account table after the script. */
  datatype Run = Run(exitCode: int, db: AuthDb)

  /** `create_admin`: false and nothing written when the address exists,
      otherwise one new account. `passwordHash` is bcrypt's hash. */
  function CreateAdminAccount(db: AuthDb, email: string, passwordHash: string, name: Option<string>)
    : (res: (bool, AuthDb))
    ensures res.0 <==> FindUserByEmail(db.users, email).None?
    ensures !res.0 ==> res.1 == db
    ensures res.0 ==> res.1 == CreateUser(db, email, passwordHash, name).0
  {
    if FindUserByEmail(db.users, email).Some? then (false, db)
    else (true, CreateUser(db, email, passwordHash, name).0)
  }

  /** `main` on the argument vector (script name first): usage and status 1
      with fewer than two arguments, status 1 for a password under 6
      characters before the database is touched, else the outcome of
      `create_admin`. `hash` stands for bcrypt with its random salt. */
  function RunScript(argv: seq<string>, db: AuthDb, hash: string -> string): (r: Run)
    ensures |argv| < 3 ==> r == Run(1, db)
    ensures |argv| >= 3 && |argv[2]| < MinPasswordLength ==> r == Run(1, db)
    ensures r.exitCode == 0 || r.exitCode == 1
    ensures r.exitCode == 0 <==> |argv| >= 3 && |argv[2]| >= MinPasswordLength
                                 && FindUserByEmail(db.users, argv[1]).None?
    ensures r.exitCode == 1 ==> r.db == db
  {
    if |argv| < 3 then Run(1, db)
    else
      var email := argv[1];
      var password := argv[2];
      var name := if |argv| > 3 then Some(argv[3]) else None;
      if |password| < MinPasswordLength then Run(1, db)
      else
        var (success, db') := CreateAdminAccount(db, email, hash(password), name);
        Run(if success then 0 else 1, db')
  }

  /** Status 0 means exactly one account was added, under the given
      address and with the optional name. */
  lemma RunScriptCreatesOne(argv: seq<string>, db: AuthDb, hash: string -> string)
    requires RunScript(argv, db, hash).exitCode == 0
    ensures |RunScript(argv, db, hash).db.users| == |db.users| + 1
    ensures var u := RunScript(argv, db, hash).db.users[|db.users|];
      u.email == argv[1] && u.passwordHash == hash(argv[2])
      && u.name == (if |argv| > 3 then Some(argv[3]) else None)
  {
  }

  /** Running the script twice with the same address fails the second
      time. */
  lemma SecondRunFails(argv: seq<string>, db: AuthDb, hash: string -> string)
    requires RunScript(argv, db, hash).exitCode == 0
    ensures RunScript(argv, RunScript(argv, db, hash).db, hash) == Run(1, RunScript(argv, db, hash).db)
  {
    var db' := RunScript(argv, db, hash).db;
    assert db'.users[|db.users|].email == argv[1];
  }
}

=== FILE: github_service.dfy ===
/** The GitHub side of the cache pipeline: listing the owner's repositories
    page by page, reading each repository's optional `portfolio/meta.json`,
    expanding screenshot names into raw-content URLs, merging the GitHub
    record with the meta into a `Repository`, and the fork filter and ordering
    of the full sync.

    The HTTP responses are inputs: a finite list of listing pages (every page
    past the end is an empty 200 answer) and a function answering the contents
    request for an (owner, repository) pair. UTF-8 decoding and the JSON text
    codec are parameters too; the clock is a number. */
module GitHubService {
  import opened Wrappers
  import opened Json
  import opened Strings
  import opened Sorting
  import Base64
  import opened RepoSchema

  const RawUrl: string := "https://raw.githubusercontent.com"
  const PerPage: nat := 100

  /** The fields of a GitHub repository record that the sync reads. A key the
      record lacks is None; `created_at`/`updated_at` are the parsed
      timestamps, None when absent or empty. */
  datatype GitHubRepo = GitHubRepo(
    id: int, ownerLogin: string, name: string, fullName: string,
    description: Option<string>, htmlUrl: string, language: Option<string>,
    stargazersCount: Option<int>, topics: Option<seq<string>>,
    createdAt: Option<int>, updatedAt: Option<int>, fork: bool)

  // ---------------------------------------------------------------------------
  // Listing the owner's repositories

  /** One answer of the listing endpoint; `Unreachable` is a transport error
      (the HTTP client raised). */
  datatype Page = Page(status: int, items: seq<GitHubRepo>) | Unreachable

  /** The answer to the request for page `i + 1`. */
  function PageAt(pages: seq<Page>, i: nat): Page {
    if i < |pages| then pages[i] else Page(200, [])
  }

  /** A page after which the loop asks for the next one. */
  predicate Continues(p: Page) {
    p.Page? && p.status == 200 && |p.items| >= PerPage
  }

  function ItemsOf(p: Page): seq<GitHubRepo> {
    if p.Page? then p.items else []
  }

  /** The items of the given pages, in page order. */
  function Flatten(ps: seq<Page>): seq<GitHubRepo> {
    if |ps| == 0 then [] else Flatten(ps[..|ps| - 1]) + ItemsOf(ps[|ps| - 1])
  }

  /** `fetch_user_repos`: requests pages 1, 2, 3, … and stops at the first
      page that is not a 200, is empty, or holds fewer than 100 records. The
      result is every record of the pages read, in order; a transport error
      propagates. `requests` is the number of pages requested. */
  method FetchUserRepos(pages: seq<Page>) returns (r: Result<seq<GitHubRepo>>, requests: nat)
    ensures 1 <= requests <= |pages| + 1
    ensures forall j :: 0 <= j < requests - 1 ==> Continues(PageAt(pages, j))
    ensures !Continues(PageAt(pages, requests - 1))
    ensures r.Err? <==> PageAt(pages, requests - 1).Unreachable?
    ensures r.Ok? ==> r.value == Flatten(pages[..requests - 1])
                                 + (if PageAt(pages, requests - 1).status == 200 then PageAt(pages, requests - 1).items else [])
    ensures r == ListingFrom(pages, 0)
  {
    var repos: seq<GitHubRepo> := [];
    var page := 1;
    assert ListingFrom(pages, 0).Ok? ==> [] + ListingFrom(pages, 0).value == ListingFrom(pages, 0).value;
    while true
      invariant 1 <= page <= |pages| + 1
      invariant forall j :: 0 <= j < page - 1 ==> Continues(PageAt(pages, j))
      invariant repos == Flatten(pages[..page - 1])
      invariant ListingFrom(pages, 0) == Prepend(repos, ListingFrom(pages, page - 1))
      decreases |pages| + 1 - page
    {
      var response := PageAt(pages, page - 1);
      if response.Unreachable? {
        return Err(Transport), page;
      }
      if response.status != 200 {
        break;
      }
      if |response.items| == 0 {
        break;
      }
      if |response.items| < PerPage {
        repos := repos + response.items;
        break;
      }
      ListingContinues(pages, page - 1, repos);
      repos := repos + response.items;
      page := page + 1;
    }
    return Ok(repos), page;
  }

  /** A full page moves the loop on: its records join the ones read, and the
      listing still splits into those and what the later pages yield. */
  lemma ListingContinues(pages: seq<Page>, i: nat, acc: seq<GitHubRepo>)
    requires Continues(PageAt(pages, i))
    requires acc == Flatten(pages[..i]) && ListingFrom(pages, 0) == Prepend(acc, ListingFrom(pages, i))
    ensures i < |pages| && acc + pages[i].items == Flatten(pages[..i + 1])
    ensures ListingFrom(pages, 0) == Prepend(acc + pages[i].items, ListingFrom(pages, i + 1))
  {
    assert pages[..i + 1][..i] == pages[..i];
    var later := ListingFrom(pages, i + 1);
    assert ListingFrom(pages, i) == Prepend(pages[i].items, later);
    assert later.Ok? ==> (acc + pages[i].items) + later.value == acc + (pages[i].items + later.value);
  }

  /** `Ok(acc + r)` when `r` succeeded; the failure otherwise. */
  function Prepend<T>(acc: seq<T>, r: Result<seq<T>>): Result<seq<T>> {
    if r.Err? then r else Ok(acc + r.value)
  }

  /** A reference definition of the paging loop: the records the listing
      yields from page `i + 1` on. */
  function ListingFrom(pages: seq<Page>, i: nat): Result<seq<GitHubRepo>>
    decreases |pages| - i
  {
    var p := PageAt(pages, i);
    if p.Unreachable? then Err(Transport)
    else if p.status != 200 || |p.items| == 0 then Ok([])
    else if |p.items| < PerPage then Ok(p.items)
    else Prepend(p.items, ListingFrom(pages, i + 1))
  }

  // ---------------------------------------------------------------------------
  // meta.json: sections, parsing and the inverse writer

  /** `data.get(key, {})` used as a dict: absent means empty; a present value
      that is not a dict fails at its first `.get`. */
  function Section(d: Object, key: string): (r: Result<Object>)
    ensures r.Ok? <==> key !in d || d[key].JObj?
    ensures r.Ok? && key in d ==> r.value == d[key].fields
    ensures key !in d ==> r == Ok(map[])
  {
    if key !in d then Ok(map[])
    else if d[key].JObj? then Ok(d[key].fields)
    else Err(Raised("AttributeError"))
  }

  datatype Display = Display(title: Option<string>, subtitle: Option<string>,
                             description: Option<string>, detailedDescription: Option<string>)
  datatype Classification = Classification(projectType: seq<string>, tags: seq<string>, status: string, priority: int)
  datatype Timeline = Timeline(startDate: Option<string>, endDate: Option<string>, isOngoing: bool)
  datatype Links = Links(demoUrl: Option<string>, documentationUrl: Option<string>)
  datatype Metrics = Metrics(linesOfCode: Option<int>, commitCount: Option<int>, contributorCount: int)
  datatype Story = Story(challenges: Option<string>, achievements: Option<string>)
  datatype Architecture = Architecture(overview: Option<string>, systemComponents: seq<Object>,
                                       corePrinciples: seq<Object>, authFlow: seq<string>, dataModels: seq<Object>)

  function ParseDisplay(o: Object): Result<Display> {
    var title :- OptStrValue(Get(o, "title"));
    var subtitle :- OptStrValue(Get(o, "subtitle"));
    var description :- OptStrValue(Get(o, "description"));
    var detailed :- OptStrValue(Get(o, "detailed_description"));
    Ok(Display(title, subtitle, description, detailed))
  }

  function DisplayJson(x: Display): Object {
    map["title" := OptStr(x.title), "subtitle" := OptStr(x.subtitle),
        "description" := OptStr(x.description), "detailed_description" := OptStr(x.detailedDescription)]
  }

  function ParseClassification(o: Object): Result<Classification> {
    var projectType :- ValidateStrList(GetOr(o, "project_type", JArr([])));
    var tags :- ValidateStrList(GetOr(o, "tags", JArr([])));
    var status :- StrValue(GetOr(o, "status", JStr("completed")));
    var priority :- IntValue(GetOr(o, "priority", JInt(0)));
    Ok(Classification(projectType, tags, status, priority))
  }

  function ClassificationJson(x: Classification): Object {
    map["project_type" := StrList(x.projectType), "tags" := StrList(x.tags),
        "status" := JStr(x.status), "priority" := JInt(x.priority)]
  }

  function ParseTimeline(o: Object): Result<Timeline> {
    var startDate :- OptStrValue(Get(o, "start_date"));
    var endDate :- OptStrValue(Get(o, "end_date"));
    var isOngoing :- BoolValue(GetOr(o, "is_ongoing", JBool(false)));
    Ok(Timeline(startDate, endDate, isOngoing))
  }

  function TimelineJson(x: Timeline): Object {
    map["start_date" := OptStr(x.startDate), "end_date" := OptStr(x.endDate), "is_ongoing" := JBool(x.isOngoing)]
  }

  function ParseLinks(o: Object): Result<Links> {
    var demoUrl :- OptStrValue(Get(o, "demo_url"));
    var documentationUrl :- OptStrValue(Get(o, "documentation_url"));
    Ok(Links(demoUrl, documentationUrl))
  }

  function LinksJson(x: Links): Object {
    map["demo_url" := OptStr(x.demoUrl), "documentation_url" := OptStr(x.documentationUrl)]
  }

  function ParseMetrics(o: Object): Result<Metrics> {
    var linesOfCode :- OptIntValue(Get(o, "lines_of_code"));
    var commitCount :- OptIntValue(Get(o, "commit_count"));
    var contributorCount :- IntValue(GetOr(o, "contributor_count", JInt(1)));
    Ok(Metrics(linesOfCode, commitCount, contributorCount))
  }

  function MetricsJson(x: Metrics): Object {
    map["lines_of_code" := OptInt(x.linesOfCode), "commit_count" := OptInt(x.commitCount),
        "contributor_count" := JInt(x.contributorCount)]
  }

  function ParseStory(o: Object): Result<Story> {
    var challenges :- OptStrValue(Get(o, "challenges"));
    var achievements :- OptStrValue(Get(o, "achievements"));
    Ok(Story(challenges, achievements))
  }

  function StoryJson(x: Story): Object {
    map["challenges" := OptStr(x.challenges), "achievements" := OptStr(x.achievements)]
  }

  /** The client section is read only when it is a dict. */
  function ParseClient(j: Json): Result<Option<string>> {
    if j.JObj? then OptStrValue(Get(j.fields, "name")) else Ok(None)
  }

  /** `o.get(key, [])` validated as a list of nested records. */
  function ListField(fields: seq<Field>, o: Object, key: string): (r: Result<seq<Object>>)
    requires WellFormed(fields)
    ensures r.Ok? ==> Dumped(fields, r.value)
  {
    var r := ValidateList(fields, GetOr(o, key, JArr([])));
    if r.Ok? then ValidatedListDumped(fields, GetOr(o, key, JArr([]))); r else r
  }

  lemma ListFieldOf(fields: seq<Field>, o: Object, key: string, xs: seq<Object>)
    requires WellFormed(fields) && Dumped(fields, xs)
    requires key in o && o[key] == ObjList(xs)
    ensures ListField(fields, o, key) == Ok(xs)
  {
    ValidateListDumped(fields, xs);
  }

  /** `o.get(key, [])` validated as a list of strings. */
  function StrField(o: Object, key: string): (r: Result<seq<string>>)
    ensures r.Ok? ==> GetOr(o, key, JArr([])) == StrList(r.value)
  {
    var r := ValidateStrList(GetOr(o, key, JArr([])));
    if r.Ok? then
      ValidateStrListInverse(r.value);
      assert GetOr(o, key, JArr([])) == StrList(r.value);
      r
    else r
  }

  lemma StrFieldOf(o: Object, key: string, xs: seq<string>)
    requires key in o && o[key] == StrList(xs)
    ensures StrField(o, key) == Ok(xs)
  {
    ValidateStrListInverse(xs);
  }

  /** The architecture section is read only when it is a dict; otherwise
      every architecture field is None or empty. */
  function ParseArchitecture(sc: MetaSchema, j: Json): (r: Result<Architecture>)
    requires SchemaWellFormed(sc)
    ensures r.Ok? ==> ArchitectureDumped(sc, r.value)
    ensures r.Ok? && !j.JObj? ==> r.value == Architecture(None, [], [], [], [])
  {
    if !j.JObj? then Ok(Architecture(None, [], [], [], [])) else ParseArchitectureObject(sc, j.fields)
  }

  function ParseArchitectureObject(sc: MetaSchema, o: Object): (r: Result<Architecture>)
    requires SchemaWellFormed(sc)
    ensures r.Ok? ==> ArchitectureDumped(sc, r.value)
  {
    var overview :- OptStrValue(Get(o, "overview"));
    var systemComponents :- ListField(sc.systemComponent, o, "system_components");
    var corePrinciples :- ListField(sc.corePrinciple, o, "core_principles");
    var authFlow :- StrField(o, "auth_flow");
    var dataModels :- ListField(sc.dataModel, o, "data_models");
    Ok(Architecture(overview, systemComponents, corePrinciples, authFlow, dataModels))
  }

  predicate ArchitectureDumped(sc: MetaSchema, x: Architecture)
    requires SchemaWellFormed(sc)
  {
    Dumped(sc.systemComponent, x.systemComponents) && Dumped(sc.corePrinciple, x.corePrinciples)
    && Dumped(sc.dataModel, x.dataModels)
  }

  function ArchitectureJson(x: Architecture): Object {
    map["overview" := OptStr(x.overview), "system_components" := ObjList(x.systemComponents),
        "core_principles" := ObjList(x.corePrinciples), "auth_flow" := StrList(x.authFlow),
        "data_models" := ObjList(x.dataModels)]
  }

  /** The six sections read with `data.get(name, {})`. */
  datatype Sections = Sections(display: Display, classification: Classification, timeline: Timeline,
                               links: Links, metrics: Metrics, story: Story)

  /** The top-level lists of meta.json. */
  datatype Lists = Lists(technologies: seq<Object>, features: seq<Object>, screenshots: seq<Object>,
                         roles: seq<Object>, technicalChallenges: seq<Object>, keyAchievements: seq<string>,
                         codeSnippets: seq<Object>)

  /** A section that is present but not a dict: its first `.get` raises. */
  predicate HasBadSection(d: Object) {
    exists k :: k in {"display", "classification", "timeline", "links", "metrics", "story"} && k in d && !d[k].JObj?
  }

  function ParseSections(d: Object): (r: Result<Sections>)
    ensures r.Ok? ==> !HasBadSection(d)
  {
    var displayS :- Section(d, "display");
    var classificationS :- Section(d, "classification");
    var timelineS :- Section(d, "timeline");
    var linksS :- Section(d, "links");
    var metricsS :- Section(d, "metrics");
    var storyS :- Section(d, "story");
    var display :- ParseDisplay(displayS);
    var classification :- ParseClassification(classificationS);
    var timeline :- ParseTimeline(timelineS);
    var links :- ParseLinks(linksS);
    var metrics :- ParseMetrics(metricsS);
    var story :- ParseStory(storyS);
    assert !HasBadSection(d) by {
      forall k | k in {"display", "classification", "timeline", "links", "metrics", "story"} && k in d
        ensures d[k].JObj?
      {
        assert k == "display" || k == "classification" || k == "timeline" || k == "links" || k == "metrics" || k == "story";
      }
    }
    Ok(Sections(display, classification, timeline, links, metrics, story))
  }

  predicate ListsDumped(sc: MetaSchema, x: Lists)
    requires SchemaWellFormed(sc)
  {
    Dumped(sc.technology, x.technologies) && Dumped(sc.feature, x.features)
    && Dumped(sc.screenshot, x.screenshots) && Dumped(sc.role, x.roles)
    && Dumped(sc.technicalChallenge, x.technicalChallenges) && Dumped(sc.codeSnippet, x.codeSnippets)
  }

  function ParseLists(sc: MetaSchema, d: Object): (r: Result<Lists>)
    requires SchemaWellFormed(sc)
    ensures r.Ok? ==> ListsDumped(sc, r.value)
  {
    var technologies :- ListField(sc.technology, d, "technologies");
    var features :- ListField(sc.feature, d, "features");
    var screenshots :- ListField(sc.screenshot, d, "screenshots");
    var roles :- ListField(sc.role, d, "roles");
    var technicalChallenges :- ListField(sc.technicalChallenge, d, "technical_challenges");
    var keyAchievements :- StrField(d, "key_achievements");
    var codeSnippets :- ListField(sc.codeSnippet, d, "code_snippets");
    Ok(Lists(technologies, features, screenshots, roles, technicalChallenges, keyAchievements, codeSnippets))
  }

  function Assemble(s: Sections, l: Lists, clientName: Option<string>, a: Architecture): PortfolioMeta {
    PortfolioMeta(
      s.display.title, s.display.subtitle, s.display.description, s.display.detailedDescription,
      s.classification.projectType, s.classification.tags, s.classification.status, s.classification.priority,
      s.timeline.startDate, s.timeline.endDate, s.timeline.isOngoing,
      l.technologies, l.features, l.screenshots,
      s.links.demoUrl, s.links.documentationUrl,
      s.metrics.linesOfCode, s.metrics.commitCount, s.metrics.contributorCount,
      s.story.challenges, s.story.achievements,
      l.roles, clientName,
      a.overview, a.systemComponents, a.corePrinciples, a.authFlow, a.dataModels,
      l.technicalChallenges, l.keyAchievements, l.codeSnippets)
  }

  /** Parsing and validating a meta.json document against the schema `sc`. */
  function ParseMetaWith(sc: MetaSchema, data: Json): (r: Result<PortfolioMeta>)
    requires SchemaWellFormed(sc)
    ensures r.Ok? ==> data.JObj? && !HasBadSection(data.fields)
    ensures r.Ok? ==> MetaDumped(sc, r.value)
    ensures r.Ok? && "client" in data.fields && !data.fields["client"].JObj? ==> r.value.clientName.None?
    ensures r.Ok? && "architecture" in data.fields && !data.fields["architecture"].JObj? ==>
              (r.value.architecture.None? && r.value.systemComponents == [] && r.value.corePrinciples == []
               && r.value.authFlow == [] && r.value.dataModels == [])
  {
    if !data.JObj? then Err(Raised("AttributeError"))
    else
      var d := data.fields;
      var sections :- ParseSections(d);
      var lists :- ParseLists(sc, d);
      var clientName :- ParseClient(GetOr(d, "client", JObj(map[])));
      var architecture :- ParseArchitecture(sc, GetOr(d, "architecture", JObj(map[])));
      Ok(Assemble(sections, lists, clientName, architecture))
  }

  /** `_parse_meta_json` followed by `PortfolioMeta(...)` validation. A
      non-dict document or section (other than client and architecture)
      fails; so does a field of the wrong kind. Every failure is caught by
      the caller, so which one is raised first is not modelled. */
  function ParseMetaJson(data: Json): (r: Result<PortfolioMeta>)
    ensures r.Ok? ==> data.JObj? && !HasBadSection(data.fields)
    ensures r.Ok? ==> MetaWellFormed(r.value)
    ensures r.Ok? && "client" in data.fields && !data.fields["client"].JObj? ==> r.value.clientName.None?
    ensures r.Ok? && "architecture" in data.fields && !data.fields["architecture"].JObj? ==>
              (r.value.architecture.None? && r.value.systemComponents == [] && r.value.corePrinciples == []
               && r.value.authFlow == [] && r.value.dataModels == [])
  {
    SchemaIsWellFormed();
    ParseMetaWith(Schema, data)
  }

  // The inverse: the document that describes a meta.

  function SectionsOf(m: PortfolioMeta): Sections {
    Sections(Display(m.title, m.subtitle, m.description, m.detailedDescription),
             Classification(m.projectType, m.tags, m.status, m.priority),
             Timeline(m.startDate, m.endDate, m.isOngoing),
             Links(m.demoUrl, m.documentationUrl),
             Metrics(m.linesOfCode, m.commitCount, m.contributorCount),
             Story(m.challenges, m.achievements))
  }

  function ListsOf(m: PortfolioMeta): Lists {
    Lists(m.technologies, m.features, m.screenshots, m.roles, m.technicalChallenges, m.keyAchievements, m.codeSnippets)
  }

  function ArchitectureOf(m: PortfolioMeta): Architecture {
    Architecture(m.architecture, m.systemComponents, m.corePrinciples, m.authFlow, m.dataModels)
  }

  /** The top-level layout of meta.json. */
  function Document(display: Json, classification: Json, timeline: Json, technologies: Json, features: Json,
                    screenshots: Json, links: Json, metrics: Json, story: Json, roles: Json, client: Json,
                    architecture: Json, technicalChallenges: Json, keyAchievements: Json, codeSnippets: Json): Object
  {
    map["display" := display, "classification" := classification, "timeline" := timeline,
        "technologies" := technologies, "features" := features, "screenshots" := screenshots,
        "links" := links, "metrics" := metrics, "story" := story, "roles" := roles, "client" := client,
        "architecture" := architecture, "technical_challenges" := technicalChallenges,
        "key_achievements" := keyAchievements, "code_snippets" := codeSnippets]
  }

  lemma DocumentFields(display: Json, classification: Json, timeline: Json, technologies: Json, features: Json,
                       screenshots: Json, links: Json, metrics: Json, story: Json, roles: Json, client: Json,
                       architecture: Json, technicalChallenges: Json, keyAchievements: Json, codeSnippets: Json)
    ensures var d := Document(display, classification, timeline, technologies, features, screenshots, links,
                              metrics, story, roles, client, architecture, technicalChallenges, keyAchievements,
                              codeSnippets);
      && "display" in d && d["display"] == display
      && "classification" in d && d["classification"] == classification
      && "timeline" in d && d["timeline"] == timeline
      && "technologies" in d && d["technologies"] == technologies
      && "features" in d && d["features"] == features
      && "screenshots" in d && d["screenshots"] == screenshots
      && "links" in d && d["links"] == links
      && "metrics" in d && d["metrics"] == metrics
      && "story" in d && d["story"] == story
      && "roles" in d && d["roles"] == roles
      && "client" in d && d["client"] == client
      && "architecture" in d && d["architecture"] == architecture
      && "technical_challenges" in d && d["technical_challenges"] == technicalChallenges
      && "key_achievements" in d && d["key_achievements"] == keyAchievements
      && "code_snippets" in d && d["code_snippets"] == codeSnippets
  {
    DocumentFieldsFirst(display, classification, timeline, technologies, features, screenshots, links, metrics, story, roles, client, architecture, technicalChallenges, keyAchievements, codeSnippets);
    DocumentFieldsSecond(display, classification, timeline, technologies, features, screenshots, links, metrics, story, roles, client, architecture, technicalChallenges, keyAchievements, codeSnippets);
    DocumentFieldsMiddle(display, classification, timeline, technologies, features, screenshots, links, metrics, story, roles, client, architecture, technicalChallenges, keyAchievements, codeSnippets);
    DocumentFieldsTail(display, classification, timeline, technologies, features, screenshots, links, metrics, story, roles, client, architecture, technicalChallenges, keyAchievements, codeSnippets);
  }

  lemma DocumentFieldsFirst(display: Json, classification: Json, timeline: Json, technologies: Json, features: Json,
                            screenshots: Json, links: Json, metrics: Json, story: Json, roles: Json, client: Json,
                            architecture: Json, technicalChallenges: Json, keyAchievements: Json, codeSnippets: Json)
    ensures var d := Document(display, classification, timeline, technologies, features, screenshots, links,
                              metrics, story, roles, client, architecture, technicalChallenges, keyAchievements,
                              codeSnippets);
      && "display" in d && d["display"] == display
      && "classification" in d && d["classification"] == classification
      && "timeline" in d && d["timeline"] == timeline
  {}

  lemma DocumentFieldsSecond(display: Json, classification: Json, timeline: Json, technologies: Json, features: Json,
                             screenshots: Json, links: Json, metrics: Json, story: Json, roles: Json, client: Json,
                             architecture: Json, technicalChallenges: Json, keyAchievements: Json, codeSnippets: Json)
    ensures var d := Document(display, classification, timeline, technologies, features, screenshots, links,
                              metrics, story, roles, client, architecture, technicalChallenges, keyAchievements,
                              codeSnippets);
      && "technologies" in d && d["technologies"] == technologies
      && "features" in d && d["features"] == features
  {}

  lemma DocumentFieldsMiddle(display: Json, classification: Json, timeline: Json, technologies: Json, features: Json,
                             screenshots: Json, links: Json, metrics: Json, story: Json, roles: Json, client: Json,
                             architecture: Json, technicalChallenges: Json, keyAchievements: Json, codeSnippets: Json)
    ensures var d := Document(display, classification, timeline, technologies, features, screenshots, links,
                              metrics, story, roles, client, architecture, technicalChallenges, keyAchievements,
                              codeSnippets);
      && "screenshots" in d && d["screenshots"] == screenshots
      && "links" in d && d["links"] == links
      && "metrics" in d && d["metrics"] == metrics
      && "story" in d && d["story"] == story
      && "roles" in d && d["roles"] == roles
  {}

  lemma DocumentFieldsTail(display: Json, classification: Json, timeline: Json, technologies: Json, features: Json,
                           screenshots: Json, links: Json, metrics: Json, story: Json, roles: Json, client: Json,
                           architecture: Json, technicalChallenges: Json, keyAchievements: Json, codeSnippets: Json)
    ensures var d := Document(display, classification, timeline, technologies, features, screenshots, links,
                              metrics, story, roles, client, architecture, technicalChallenges, keyAchievements,
                              codeSnippets);
      && "client" in d && d["client"] == client
      && "architecture" in d && d["architecture"] == architecture
      && "technical_challenges" in d && d["technical_challenges"] == technicalChallenges
      && "key_achievements" in d && d["key_achievements"] == keyAchievements
      && "code_snippets" in d && d["code_snippets"] == codeSnippets
  {}

  /** The meta.json document that describes `m`, section by section. */
  function MetaToJson(m: PortfolioMeta): Json {
    var s := SectionsOf(m);
    JObj(Document(
      JObj(DisplayJson(s.display)), JObj(ClassificationJson(s.classification)), JObj(TimelineJson(s.timeline)),
      ObjList(m.technologies), ObjList(m.features), ObjList(m.screenshots),
      JObj(LinksJson(s.links)), JObj(MetricsJson(s.metrics)), JObj(StoryJson(s.story)),
      ObjList(m.roles), JObj(map["name" := OptStr(m.clientName)]), JObj(ArchitectureJson(ArchitectureOf(m))),
      ObjList(m.technicalChallenges), StrList(m.keyAchievements), ObjList(m.codeSnippets)))
  }

  lemma ParseDisplayJson(x: Display)
    ensures ParseDisplay(DisplayJson(x)) == Ok(x)
  {}

  lemma ParseClassificationJson(x: Classification)
    ensures ParseClassification(ClassificationJson(x)) == Ok(x)
  {
    ValidateStrListInverse(x.projectType);
    ValidateStrListInverse(x.tags);
  }

  lemma ParseTimelineJson(x: Timeline)
    ensures ParseTimeline(TimelineJson(x)) == Ok(x)
  {}

  lemma ParseLinksJson(x: Links)
    ensures ParseLinks(LinksJson(x)) == Ok(x)
  {}

  lemma ParseMetricsJson(x: Metrics)
    ensures ParseMetrics(MetricsJson(x)) == Ok(x)
  {}

  lemma ParseStoryJson(x: Story)
    ensures ParseStory(StoryJson(x)) == Ok(x)
  {}

  lemma ParseClientJson(c: Option<string>)
    ensures ParseClient(JObj(map["name" := OptStr(c)])) == Ok(c)
  {}

  lemma ParseArchitectureFrom(sc: MetaSchema, o: Object, x: Architecture)
    requires SchemaWellFormed(sc) && ArchitectureDumped(sc, x)
    requires "overview" in o && o["overview"] == OptStr(x.overview)
    requires "system_components" in o && o["system_components"] == ObjList(x.systemComponents)
    requires "core_principles" in o && o["core_principles"] == ObjList(x.corePrinciples)
    requires "auth_flow" in o && o["auth_flow"] == StrList(x.authFlow)
    requires "data_models" in o && o["data_models"] == ObjList(x.dataModels)
    ensures ParseArchitectureObject(sc, o) == Ok(x)
  {
    ArchitectureListsOf(sc, o, x);
    OptStrOf(o, "overview", x.overview);
    ParseArchitectureParts(sc, o, x);
  }

  /** An optional string stored under `key` reads back. */
  lemma OptStrOf(o: Object, key: string, v: Option<string>)
    requires key in o && o[key] == OptStr(v)
    ensures OptStrValue(Get(o, key)) == Ok(v)
  {
  }

  lemma ArchitectureListsOf(sc: MetaSchema, o: Object, x: Architecture)
    requires SchemaWellFormed(sc) && ArchitectureDumped(sc, x)
    requires "system_components" in o && o["system_components"] == ObjList(x.systemComponents)
    requires "core_principles" in o && o["core_principles"] == ObjList(x.corePrinciples)
    requires "auth_flow" in o && o["auth_flow"] == StrList(x.authFlow)
    requires "data_models" in o && o["data_models"] == ObjList(x.dataModels)
    ensures ListField(sc.systemComponent, o, "system_components") == Ok(x.systemComponents)
    ensures ListField(sc.corePrinciple, o, "core_principles") == Ok(x.corePrinciples)
    ensures StrField(o, "auth_flow") == Ok(x.authFlow)
    ensures ListField(sc.dataModel, o, "data_models") == Ok(x.dataModels)
  {
    ListFieldOf(sc.systemComponent, o, "system_components", x.systemComponents);
    ListFieldOf(sc.corePrinciple, o, "core_principles", x.corePrinciples);
    StrFieldOf(o, "auth_flow", x.authFlow);
    ListFieldOf(sc.dataModel, o, "data_models", x.dataModels);
  }

  lemma ParseArchitectureParts(sc: MetaSchema, o: Object, x: Architecture)
    requires SchemaWellFormed(sc)
    requires OptStrValue(Get(o, "overview")) == Ok(x.overview)
    requires ListField(sc.systemComponent, o, "system_components") == Ok(x.systemComponents)
    requires ListField(sc.corePrinciple, o, "core_principles") == Ok(x.corePrinciples)
    requires StrField(o, "auth_flow") == Ok(x.authFlow)
    requires ListField(sc.dataModel, o, "data_models") == Ok(x.dataModels)
    ensures ParseArchitectureObject(sc, o) == Ok(x)
  {
    assert x == Architecture(x.overview, x.systemComponents, x.corePrinciples, x.authFlow, x.dataModels);
  }

  lemma ParseArchitectureJson(sc: MetaSchema, x: Architecture)
    requires SchemaWellFormed(sc) && ArchitectureDumped(sc, x)
    ensures ParseArchitecture(sc, JObj(ArchitectureJson(x))) == Ok(x)
  {
    ArchitectureJsonFields(x);
    ParseArchitectureFrom(sc, ArchitectureJson(x), x);
  }

  /** Each key of the architecture's JSON holds the matching field. */
  lemma ArchitectureJsonFields(x: Architecture)
    ensures var o := ArchitectureJson(x);
      && "overview" in o && o["overview"] == OptStr(x.overview)
      && "system_components" in o && o["system_components"] == ObjList(x.systemComponents)
      && "core_principles" in o && o["core_principles"] == ObjList(x.corePrinciples)
      && "auth_flow" in o && o["auth_flow"] == StrList(x.authFlow)
      && "data_models" in o && o["data_models"] == ObjList(x.dataModels)
  {
    var o := ArchitectureJson(x);
    assert "overview" in o && o["overview"] == OptStr(x.overview);
    assert "system_components" in o && o["system_components"] == ObjList(x.systemComponents);
    assert "core_principles" in o && o["core_principles"] == ObjList(x.corePrinciples);
    assert "auth_flow" in o && o["auth_flow"] == StrList(x.authFlow);
    assert "data_models" in o && o["data_models"] == ObjList(x.dataModels);
  }

  lemma ParseSectionsFrom(d: Object, s: Sections)
    requires "display" in d && d["display"] == JObj(DisplayJson(s.display))
    requires "classification" in d && d["classification"] == JObj(ClassificationJson(s.classification))
    requires "timeline" in d && d["timeline"] == JObj(TimelineJson(s.timeline))
    requires "links" in d && d["links"] == JObj(LinksJson(s.links))
    requires "metrics" in d && d["metrics"] == JObj(MetricsJson(s.metrics))
    requires "story" in d && d["story"] == JObj(StoryJson(s.story))
    ensures ParseSections(d) == Ok(s)
  {
    ParseDisplayJson(s.display);
    ParseClassificationJson(s.classification);
    ParseTimelineJson(s.timeline);
    ParseLinksJson(s.links);
    ParseMetricsJson(s.metrics);
    ParseStoryJson(s.story);
  }

  lemma ParseListsFrom(sc: MetaSchema, d: Object, l: Lists)
    requires SchemaWellFormed(sc) && ListsDumped(sc, l)
    requires "technologies" in d && d["technologies"] == ObjList(l.technologies)
    requires "features" in d && d["features"] == ObjList(l.features)
    requires "screenshots" in d && d["screenshots"] == ObjList(l.screenshots)
    requires "roles" in d && d["roles"] == ObjList(l.roles)
    requires "technical_challenges" in d && d["technical_challenges"] == ObjList(l.technicalChallenges)
    requires "key_achievements" in d && d["key_achievements"] == StrList(l.keyAchievements)
    requires "code_snippets" in d && d["code_snippets"] == ObjList(l.codeSnippets)
    ensures ParseLists(sc, d) == Ok(l)
  {
    ListFieldOf(sc.technology, d, "technologies", l.technologies);
    ListFieldOf(sc.feature, d, "features", l.features);
    ListFieldOf(sc.screenshot, d, "screenshots", l.screenshots);
    ListFieldOf(sc.role, d, "roles", l.roles);
    ListFieldOf(sc.technicalChallenge, d, "technical_challenges", l.technicalChallenges);
    StrFieldOf(d, "key_achievements", l.keyAchievements);
    ListFieldOf(sc.codeSnippet, d, "code_snippets", l.codeSnippets);
  }

  lemma ParseArchitectureAt(sc: MetaSchema, d: Object, a: Architecture)
    requires SchemaWellFormed(sc) && ArchitectureDumped(sc, a)
    requires "architecture" in d && d["architecture"] == JObj(ArchitectureJson(a))
    ensures ParseArchitecture(sc, GetOr(d, "architecture", JObj(map[]))) == Ok(a)
  {
    ParseArchitectureJson(sc, a);
  }

  /** The parse of a document is assembled from the parses of its parts. */
  lemma ParseMetaParts(sc: MetaSchema, d: Object, m: PortfolioMeta)
    requires SchemaWellFormed(sc)
    requires ParseSections(d) == Ok(SectionsOf(m))
    requires ParseLists(sc, d) == Ok(ListsOf(m))
    requires ParseClient(GetOr(d, "client", JObj(map[]))) == Ok(m.clientName)
    requires ParseArchitecture(sc, GetOr(d, "architecture", JObj(map[]))) == Ok(ArchitectureOf(m))
    ensures ParseMetaWith(sc, JObj(d)) == Ok(m)
  {}

  /** The round trip for any well-formed schema. */
  lemma ParseMetaWithToJson(sc: MetaSchema, m: PortfolioMeta)
    requires SchemaWellFormed(sc) && MetaDumped(sc, m)
    ensures ParseMetaWith(sc, MetaToJson(m)) == Ok(m)
  {
    var s := SectionsOf(m);
    DocumentFields(
      JObj(DisplayJson(s.display)), JObj(ClassificationJson(s.classification)), JObj(TimelineJson(s.timeline)),
      ObjList(m.technologies), ObjList(m.features), ObjList(m.screenshots),
      JObj(LinksJson(s.links)), JObj(MetricsJson(s.metrics)), JObj(StoryJson(s.story)),
      ObjList(m.roles), JObj(map["name" := OptStr(m.clientName)]), JObj(ArchitectureJson(ArchitectureOf(m))),
      ObjList(m.technicalChallenges), StrList(m.keyAchievements), ObjList(m.codeSnippets));
    var d := MetaToJson(m).fields;
    ParseSectionsFrom(d, s);
    ParseListsFrom(sc, d, ListsOf(m));
    ParseArchitectureAt(sc, d, ArchitectureOf(m));
    ParseClientJson(m.clientName);
    ParseMetaParts(sc, d, m);
  }

  /** Reading back the document written for a well-formed meta gives the
      same meta. */
  lemma ParseMetaToJson(m: PortfolioMeta)
    requires MetaWellFormed(m)
    ensures ParseMetaJson(MetaToJson(m)) == Ok(m)
  {
    SchemaIsWellFormed();
    ParseMetaWithToJson(Schema, m);
  }

  /** An empty meta.json is a valid document: every field takes its model
      default. */
  lemma ParseMetaEmpty()
    ensures ParseMetaJson(JObj(map[])).Ok?
    ensures var m := ParseMetaJson(JObj(map[])).value;
      m.title.None? && m.status == "completed" && m.priority == 0 && !m.isOngoing
      && m.contributorCount == 1 && m.projectType == [] && m.tags == [] && m.technologies == []
      && m.screenshots == [] && m.roles == [] && m.clientName.None? && m.architecture.None?
      && m.keyAchievements == [] && m.codeSnippets == []
  {}

  // ---------------------------------------------------------------------------
  // Reading portfolio/meta.json

  /** The answer of the contents endpoint for `portfolio/meta.json`: its
      status and its body read as JSON (None when the body is not JSON text),
      or a transport error. */
  datatype ContentResponse = Content(status: int, body: Option<Json>) | ContentUnreachable

  /** The work inside the `try` of `fetch_portfolio_meta`: the body's
      `content` string is base64-decoded, read as UTF-8, loaded as JSON and
      parsed as a meta. Every failure on the way is caught and gives None. */
  function DecodeMeta(body: Option<Json>, utf8: seq<Base64.byte> -> Option<string>, codec: Codec): (r: Option<PortfolioMeta>)
    ensures r.Some? ==> MetaWellFormed(r.value)
    ensures r.Some? ==> body.Some? && body.value.JObj? && "content" in body.value.fields
                        && body.value.fields["content"].JStr?
                        && Base64.Decode(body.value.fields["content"].s).Ok?
  {
    if body.None? || !body.value.JObj? || "content" !in body.value.fields
       || !body.value.fields["content"].JStr? then None
    else match Base64.Decode(body.value.fields["content"].s)
      case Err(_) => None
      case Ok(bytes) =>
        match utf8(bytes)
        case None => None
        case Some(text) =>
          match codec.Load(text)
          case None => None
          case Some(data) =>
            match ParseMetaJson(data)
            case Err(_) => None
            case Ok(m) => Some(m)
  }

  /** `fetch_portfolio_meta`: a 404 (no meta.json) and any other non-200
      answer give no meta; a 200 answer is decoded. Only a transport error
      escapes. */
  function FetchPortfolioMeta(resp: ContentResponse, utf8: seq<Base64.byte> -> Option<string>, codec: Codec)
    : (r: Result<Option<PortfolioMeta>>)
    ensures r.Err? <==> resp.ContentUnreachable?
    ensures resp.Content? && resp.status != 200 ==> r == Ok(None)
    ensures r.Ok? && r.value.Some? ==> resp.status == 200 && MetaWellFormed(r.value.value)
  {
    match resp
    case ContentUnreachable => Err(Transport)
    case Content(status, body) =>
      if status == 404 then Ok(None)
      else if status != 200 then Ok(None)
      else Ok(DecodeMeta(body, utf8, codec))
  }

  /** The contents endpoint's answer for a file holding `bytes`. */
  function ContentAnswer(content: string): ContentResponse {
    Content(200, Some(JObj(map["content" := JStr(content)])))
  }

  /** A 200 answer whose content decodes, reads, loads and parses to `m`
      gives `m`. */
  lemma DecodeMetaFrom(content: string, bytes: seq<Base64.byte>, data: Json, m: PortfolioMeta,
                       utf8: seq<Base64.byte> -> Option<string>, codec: Codec)
    requires Base64.Decode(content) == Ok(bytes)
    requires utf8(bytes).Some? && codec.Load(utf8(bytes).value) == Some(data)
    requires ParseMetaJson(data) == Ok(m)
    ensures FetchPortfolioMeta(ContentAnswer(content), utf8, codec) == Ok(Some(m))
  {
    DecodeMetaOf(content, bytes, data, m, utf8, codec);
  }

  lemma DecodeMetaOf(content: string, bytes: seq<Base64.byte>, data: Json, m: PortfolioMeta,
                     utf8: seq<Base64.byte> -> Option<string>, codec: Codec)
    requires Base64.Decode(content) == Ok(bytes)
    requires utf8(bytes).Some? && codec.Load(utf8(bytes).value) == Some(data)
    requires ParseMetaJson(data) == Ok(m)
    ensures DecodeMeta(Some(JObj(map["content" := JStr(content)])), utf8, codec) == Some(m)
  {
    var body := map["content" := JStr(content)];
    assert "content" in body && body["content"] == JStr(content);
  }

  /** A meta written by `MetaToJson`, stored as UTF-8 and served base64
      encoded, is read back unchanged. */
  lemma FetchEncodedMeta(m: PortfolioMeta, bytes: seq<Base64.byte>, utf8: seq<Base64.byte> -> Option<string>, codec: Codec)
    requires MetaWellFormed(m) && Faithful(codec)
    requires utf8(bytes) == Some(codec.Dump(MetaToJson(m)))
    ensures FetchPortfolioMeta(ContentAnswer(Base64.Encode(bytes)), utf8, codec) == Ok(Some(m))
  {
    Base64.DecodeEncode(bytes);
    ParseMetaToJson(m);
    assert codec.Load(codec.Dump(MetaToJson(m))) == Some(MetaToJson(m));
    DecodeMetaFrom(Base64.Encode(bytes), bytes, MetaToJson(m), m, utf8, codec);
  }

  /** The encoded text as GitHub serves it: a newline after every `w`
      characters and at the end. */
  function Wrap(s: string, w: nat): (r: string)
    requires w > 0
    decreases |s|
  {
    if |s| <= w then s + "\n" else s[..w] + "\n" + Wrap(s[w..], w)
  }

  /** Line wrapping does not change what the text decodes to, after any
      prefix. */
  lemma {:induction false} DecodeWrapped(p: string, s: string, w: nat)
    requires w > 0
    ensures Base64.Decode(p + Wrap(s, w)) == Base64.Decode(p + s)
    decreases |s|
  {
    if |s| <= w {
      var t := p + s;
      Base64.DecodeSkipsNewline(t, |t|);
      assert t[..|t|] + "\n" + t[|t|..] == p + Wrap(s, w);
    } else {
      var t := (p + s[..w]) + Wrap(s[w..], w);
      var i := |p + s[..w]|;
      Base64.DecodeSkipsNewline(t, i);
      assert t[..i] + "\n" + t[i..] == p + Wrap(s, w);
      DecodeWrapped(p + s[..w], s[w..], w);
      assert (p + s[..w]) + s[w..] == p + s;
    }
  }

  /** The round trip holds for the line-wrapped answer too. */
  lemma FetchWrappedMeta(m: PortfolioMeta, bytes: seq<Base64.byte>, utf8: seq<Base64.byte> -> Option<string>, codec: Codec, w: nat)
    requires MetaWellFormed(m) && Faithful(codec) && w > 0
    requires utf8(bytes) == Some(codec.Dump(MetaToJson(m)))
    ensures FetchPortfolioMeta(ContentAnswer(Wrap(Base64.Encode(bytes), w)), utf8, codec) == Ok(Some(m))
  {
    var e := Base64.Encode(bytes);
    DecodeWrapped("", e, w);
    assert "" + Wrap(e, w) == Wrap(e, w) && "" + e == e;
    Base64.DecodeEncode(bytes);
    ParseMetaToJson(m);
    assert codec.Load(codec.Dump(MetaToJson(m))) == Some(MetaToJson(m));
    DecodeMetaFrom(Wrap(e, w), bytes, MetaToJson(m), m, utf8, codec);
  }

  // ---------------------------------------------------------------------------
  // Screenshot URLs

  /** The text the URL's f-string writes for the screenshot's `file`: the
      string itself, `str(v)` (the parameter `show`) for another value, and
      "" when the key is absent. */
  function FileName(o: Object, show: Json -> string): string {
    if "file" !in o then "" else if o["file"].JStr? then o["file"].s else show(o["file"])
  }

  function ScreenshotUrl(owner: string, repo: string, branch: string, file: string): string {
    RawUrl + "/" + owner + "/" + repo + "/" + branch + "/portfolio/screenshots/" + file
  }

  /** For one repository and branch, the URL determines the file name: it is
      what follows the fixed prefix. */
  lemma ScreenshotUrlFile(owner: string, repo: string, branch: string, file: string)
    ensures var prefix := RawUrl + "/" + owner + "/" + repo + "/" + branch + "/portfolio/screenshots/";
      StartsWith(ScreenshotUrl(owner, repo, branch, file), prefix)
      && ScreenshotUrl(owner, repo, branch, file)[|prefix|..] == file
  {
  }

  lemma ScreenshotUrlInjective(owner: string, repo: string, branch: string, f1: string, f2: string)
    requires ScreenshotUrl(owner, repo, branch, f1) == ScreenshotUrl(owner, repo, branch, f2)
    ensures f1 == f2
  {
    ScreenshotUrlFile(owner, repo, branch, f1);
    ScreenshotUrlFile(owner, repo, branch, f2);
  }

  /** `build_screenshot_urls`: every screenshot keeps its keys and gains (or
      has overwritten) `url`, pointing at its file under
      `portfolio/screenshots/` of the branch. */
  function BuildScreenshotUrls(owner: string, repo: string, shots: seq<Object>, branch: string, show: Json -> string)
    : (r: seq<Object>)
    ensures |r| == |shots|
    ensures forall i :: 0 <= i < |r| ==> r[i].Keys == shots[i].Keys + {"url"}
    ensures forall i, k :: 0 <= i < |r| && k in shots[i] && k != "url" ==> r[i][k] == shots[i][k]
    ensures forall i :: 0 <= i < |r| ==> r[i]["url"] == JStr(ScreenshotUrl(owner, repo, branch, FileName(shots[i], show)))
  {
    seq(|shots|, i requires 0 <= i < |shots| =>
      shots[i]["url" := JStr(ScreenshotUrl(owner, repo, branch, FileName(shots[i], show)))])
  }

  /** Building the URLs twice gives the same list as building them once. */
  lemma BuildScreenshotUrlsIdempotent(owner: string, repo: string, shots: seq<Object>, branch: string, show: Json -> string)
    ensures var once := BuildScreenshotUrls(owner, repo, shots, branch, show);
      BuildScreenshotUrls(owner, repo, once, branch, show) == once
  {
    var once := BuildScreenshotUrls(owner, repo, shots, branch, show);
    var twice := BuildScreenshotUrls(owner, repo, once, branch, show);
    forall i | 0 <= i < |once| ensures twice[i] == once[i] {
      assert FileName(once[i], show) == FileName(shots[i], show);
      assert twice[i].Keys == once[i].Keys;
    }
  }

  /** Dumps of a model with a string-or-None `url` field stay dumps once
      their URL is built. */
  lemma UrlsDumped(fields: seq<Field>, i: nat, owner: string, repo: string, shots: seq<Object>,
                    branch: string, show: Json -> string)
    requires WellFormed(fields) && i < |fields| && fields[i].name == "url" && fields[i].kind == KOptStr
    requires Dumped(fields, shots)
    ensures Dumped(fields, BuildScreenshotUrls(owner, repo, shots, branch, show))
  {
    var r := BuildScreenshotUrls(owner, repo, shots, branch, show);
    DumpedEach(fields, shots);
    forall j | 0 <= j < |r| ensures Validate(fields, r[j]) == Ok(r[j]) {
      var u := JStr(ScreenshotUrl(owner, repo, branch, FileName(shots[j], show)));
      SetFieldDumped(fields, shots[j], i, u);
      assert r[j] == shots[j]["url" := u];
    }
    DumpedEach(fields, r);
  }

  /** Screenshot dumps stay dumps once their URL is built. */
  lemma ScreenshotUrlsDumped(owner: string, repo: string, shots: seq<Object>, branch: string, show: Json -> string)
    requires WellFormed(ScreenshotFields) && Dumped(ScreenshotFields, shots)
    ensures Dumped(ScreenshotFields, BuildScreenshotUrls(owner, repo, shots, branch, show))
  {
    UrlsDumped(ScreenshotFields, 3, owner, repo, shots, branch, show);
  }

  // ---------------------------------------------------------------------------
  // Merging a GitHub record with its meta

  /** The GitHub-record fields of `r` are those of `g`, with the listing's
      defaults (0 stars, no topics) for absent keys. */
  predicate FromGitHub(r: Repository, g: GitHubRepo) {
    r.id == g.id && r.name == g.name && r.fullName == g.fullName && r.description == g.description
    && r.htmlUrl == g.htmlUrl && r.language == g.language && r.stargazersCount == g.stargazersCount.GetOr(0)
    && r.topics == g.topics.GetOr([]) && r.githubCreatedAt == g.createdAt && r.githubUpdatedAt == g.updatedAt
  }

  /** The metadata fields `r` copies from `m` unchanged. The meta's
      `description` and `tags` are not among them: the merge drops both. */
  predicate CarriesMeta(r: Repository, m: PortfolioMeta) {
    r.subtitle == m.subtitle && r.projectType == m.projectType && r.detailedDescription == m.detailedDescription
    && r.features == m.features && r.technologies == m.technologies && r.challenges == m.challenges
    && r.achievements == m.achievements && r.priority == m.priority && r.roles == m.roles
    && r.clientName == m.clientName && r.status == m.status && r.startDate == m.startDate
    && r.endDate == m.endDate && r.isOngoing == m.isOngoing && r.demoUrl == m.demoUrl
    && r.documentationUrl == m.documentationUrl && r.linesOfCode == m.linesOfCode
    && r.commitCount == m.commitCount && r.contributorCount == m.contributorCount
    && r.architecture == m.architecture && r.systemComponents == m.systemComponents
    && r.corePrinciples == m.corePrinciples && r.authFlow == m.authFlow && r.dataModels == m.dataModels
    && r.technicalChallenges == m.technicalChallenges && r.keyAchievements == m.keyAchievements
    && r.codeSnippets == m.codeSnippets
  }

  /** Python's `title or name`: a missing or empty title falls back. */
  function TitleOr(title: Option<string>, name: string): (r: string)
    ensures title.Some? && title.value != "" ==> r == title.value
    ensures title.None? || title.value == "" ==> r == name
  {
    if title.Some? && title.value != "" then title.value else name
  }

  /** `merge_repo_data`: the GitHub fields, then either the meta's fields
      (screenshots gaining their raw URLs on the `main` branch, the title
      falling back to the repository name) or the fallback values. */
  function MergeRepoData(g: GitHubRepo, meta: Option<PortfolioMeta>, show: Json -> string, now: int): (r: Repository)
    ensures FromGitHub(r, g)
    ensures r.hasPortfolioMeta <==> meta.Some?
    ensures r.cachedAt == Some(now)
    ensures meta.Some? ==> CarriesMeta(r, meta.value)
    ensures meta.Some? ==> r.title == Some(TitleOr(meta.value.title, g.name))
    ensures meta.Some? ==> r.screenshots == BuildScreenshotUrls(g.ownerLogin, g.name, meta.value.screenshots, "main", show)
    ensures meta.None? ==> r.title == Some(g.name)
  {
    var base := NewRepository(g.id, g.name, g.fullName, g.htmlUrl).(
      description := g.description, language := g.language,
      stargazersCount := g.stargazersCount.GetOr(0), topics := g.topics.GetOr([]),
      githubCreatedAt := g.createdAt, githubUpdatedAt := g.updatedAt,
      hasPortfolioMeta := meta.Some?, cachedAt := Some(now));
    match meta
    case None => base.(title := Some(g.name))
    case Some(m) =>
      base.(
        title := Some(TitleOr(m.title, g.name)), subtitle := m.subtitle, projectType := m.projectType,
        detailedDescription := m.detailedDescription, features := m.features, technologies := m.technologies,
        screenshots := BuildScreenshotUrls(g.ownerLogin, g.name, m.screenshots, "main", show),
        challenges := m.challenges, achievements := m.achievements, priority := m.priority, roles := m.roles,
        clientName := m.clientName, status := m.status, startDate := m.startDate, endDate := m.endDate,
        isOngoing := m.isOngoing, demoUrl := m.demoUrl, documentationUrl := m.documentationUrl,
        linesOfCode := m.linesOfCode, commitCount := m.commitCount, contributorCount := m.contributorCount,
        architecture := m.architecture, systemComponents := m.systemComponents,
        corePrinciples := m.corePrinciples, authFlow := m.authFlow, dataModels := m.dataModels,
        technicalChallenges := m.technicalChallenges, keyAchievements := m.keyAchievements,
        codeSnippets := m.codeSnippets)
  }

  /** Without a meta every field the GitHub record does not supply keeps the
      declared `Repository` default, except the title. */
  lemma MergeWithoutMeta(g: GitHubRepo, show: Json -> string, now: int)
    ensures var r := MergeRepoData(g, None, show, now);
      r.(description := None, language := None, stargazersCount := 0, topics := [],
         githubCreatedAt := None, githubUpdatedAt := None, title := None, cachedAt := None)
      == NewRepository(g.id, g.name, g.fullName, g.htmlUrl)
  {
  }

  /** Every nested record of `r` is the dump of its model. */
  predicate RepositoryDumped(r: Repository) {
    SchemaIsWellFormed();
    Dumped(TechnologyFields, r.technologies) && Dumped(FeatureFields, r.features)
    && Dumped(ScreenshotFields, r.screenshots) && Dumped(RoleFields, r.roles)
    && Dumped(SystemComponentFields, r.systemComponents) && Dumped(CorePrincipleFields, r.corePrinciples)
    && Dumped(DataModelFields, r.dataModels) && Dumped(TechnicalChallengeFields, r.technicalChallenges)
    && Dumped(CodeSnippetFields, r.codeSnippets)
  }

  /** Merging keeps every nested record a dump: a well-formed meta gives a
      well-formed repository, and so does no meta. */
  lemma MergeDumped(g: GitHubRepo, meta: Option<PortfolioMeta>, show: Json -> string, now: int)
    requires meta.Some? ==> MetaWellFormed(meta.value)
    ensures RepositoryDumped(MergeRepoData(g, meta, show, now))
  {
    SchemaIsWellFormed();
    var r := MergeRepoData(g, meta, show, now);
    if meta.Some? {
      var m := meta.value;
      assert MetaDumped(Schema, m);
      ScreenshotUrlsDumped(g.ownerLogin, g.name, m.screenshots, "main", show);
    }
  }

  // ---------------------------------------------------------------------------
  // The full sync

  /** The records the sync keeps: forks are skipped. */
  function NonForks(gs: seq<GitHubRepo>): (r: seq<GitHubRepo>)
    ensures |r| <= |gs|
    ensures forall x :: x in r <==> x in gs && !x.fork
    decreases |gs|
  {
    if |gs| == 0 then []
    else if gs[0].fork then NonForks(gs[1..])
    else [gs[0]] + NonForks(gs[1..])
  }

  /** Skipping forks distributes over concatenation, so it keeps the order of
      the listing. */
  lemma {:induction false} NonForksAppend(a: seq<GitHubRepo>, b: seq<GitHubRepo>)
    ensures NonForks(a + b) == NonForks(a) + NonForks(b)
    decreases |a|
  {
    if |a| > 0 {
      var ab := a + b;
      assert ab[0] == a[0] && ab[1..] == a[1..] + b;
      NonForksAppend(a[1..], b);
      if a[0].fork {
        assert NonForks(ab) == NonForks(a[1..] + b);
      } else {
        assert NonForks(ab) == [a[0]] + NonForks(a[1..] + b);
        assert NonForks(a) == [a[0]] + NonForks(a[1..]);
      }
    } else {
      assert a + b == b;
    }
  }

  // ---------------------------------------------------------------------------
  // The merge loop, over any step

  /** A loop that takes each element in order and either skips it (None),
      fails (the failure propagates at once) or yields a record; the records
      are kept in order. */
  function Collect<A, B>(xs: seq<A>, step: A -> Option<Result<B>>): Result<seq<B>>
    decreases |xs|
  {
    if |xs| == 0 then Ok([])
    else match step(xs[0])
      case None => Collect(xs[1..], step)
      case Some(Err(e)) => Err(e)
      case Some(Ok(x)) => Prepend([x], Collect(xs[1..], step))
  }

  /** The elements a loop does not skip. */
  function Kept<A, B>(xs: seq<A>, step: A -> Option<Result<B>>): seq<A>
    decreases |xs|
  {
    if |xs| == 0 then []
    else if step(xs[0]).None? then Kept(xs[1..], step)
    else [xs[0]] + Kept(xs[1..], step)
  }

  /** The loop fails exactly when the step fails on some element. */
  lemma {:induction false} CollectFails<A, B>(xs: seq<A>, step: A -> Option<Result<B>>)
    ensures Collect(xs, step).Err? <==> exists i :: 0 <= i < |xs| && step(xs[i]).Some? && step(xs[i]).value.Err?
    decreases |xs|
  {
    if |xs| > 0 {
      CollectFails(xs[1..], step);
      assert forall i :: 1 <= i < |xs| ==> xs[i] == xs[1..][i - 1];
    }
  }

  /** A successful loop holds, in order, the record of each element it does
      not skip. */
  lemma {:induction false} CollectRecords<A, B>(xs: seq<A>, step: A -> Option<Result<B>>)
    requires Collect(xs, step).Ok?
    ensures var r := Collect(xs, step).value;
      |r| == |Kept(xs, step)| && forall k :: 0 <= k < |r| ==> step(Kept(xs, step)[k]) == Some(Ok(r[k]))
    decreases |xs|
  {
    if |xs| > 0 {
      CollectRecords(xs[1..], step);
      if step(xs[0]).Some? {
        var r := Collect(xs, step).value;
        var rest := Collect(xs[1..], step).value;
        assert r == [step(xs[0]).value.value] + rest;
        assert Kept(xs, step) == [xs[0]] + Kept(xs[1..], step);
      }
    }
  }

  /** The loop as a method: the records so far, and a return at the first
      failure. */
  method CollectLoop<A, B>(xs: seq<A>, step: A -> Option<Result<B>>) returns (r: Result<seq<B>>)
    ensures r == Collect(xs, step)
  {
    var records: seq<B> := [];
    var i := 0;
    assert xs[0..] == xs;
    assert Collect(xs, step).Ok? ==> [] + Collect(xs, step).value == Collect(xs, step).value;
    while i < |xs|
      invariant 0 <= i <= |xs|
      invariant Collect(xs, step) == Prepend(records, Collect(xs[i..], step))
    {
      assert xs[i..][1..] == xs[i + 1..];
      var next := step(xs[i]);
      if next.None? {
        i := i + 1;
        continue;
      }
      if next.value.Err? {
        return Err(next.value.error);
      }
      var later := Collect(xs[i + 1..], step);
      assert later.Ok? ==> (records + [next.value.value]) + later.value == records + ([next.value.value] + later.value);
      records := records + [next.value.value];
      i := i + 1;
    }
    assert xs[i..] == [];
    assert records + [] == records;
    return Ok(records);
  }

  // ---------------------------------------------------------------------------
  // The merge of `fetch_all_repos_with_meta`

  /** The meta the sync fetches for `g`. */
  function MetaFor(g: GitHubRepo, contents: (string, string) -> ContentResponse,
                   utf8: seq<Base64.byte> -> Option<string>, codec: Codec): Result<Option<PortfolioMeta>> {
    FetchPortfolioMeta(contents(g.ownerLogin, g.name), utf8, codec)
  }

  /** One turn of the merge loop: a fork is skipped; otherwise the meta is
      fetched, and a failed request propagates. */
  function MergeStep(g: GitHubRepo, contents: (string, string) -> ContentResponse,
                     utf8: seq<Base64.byte> -> Option<string>, codec: Codec, show: Json -> string, now: int)
    : Option<Result<Repository>>
  {
    if g.fork then None
    else match MetaFor(g, contents, utf8, codec)
      case Err(e) => Some(Err(e))
      case Ok(meta) => Some(Ok(MergeRepoData(g, meta, show, now)))
  }

  function MergeFn(contents: (string, string) -> ContentResponse,
                   utf8: seq<Base64.byte> -> Option<string>, codec: Codec, show: Json -> string, now: int)
    : GitHubRepo -> Option<Result<Repository>>
  {
    g => MergeStep(g, contents, utf8, codec, show, now)
  }

  /** The loop of `fetch_all_repos_with_meta` before sorting: each non-fork
      record is merged with its meta, in listing order; a transport error on
      any meta request propagates. */
  function MergeAll(gs: seq<GitHubRepo>, contents: (string, string) -> ContentResponse,
                    utf8: seq<Base64.byte> -> Option<string>, codec: Codec, show: Json -> string, now: int)
    : Result<seq<Repository>>
  {
    Collect(gs, MergeFn(contents, utf8, codec, show, now))
  }

  /** The merge skips exactly the forks. */
  lemma {:induction false} KeptNonForks(gs: seq<GitHubRepo>, step: GitHubRepo -> Option<Result<Repository>>)
    requires forall g :: step(g).None? <==> g.fork
    ensures Kept(gs, step) == NonForks(gs)
    decreases |gs|
  {
    if |gs| > 0 {
      KeptNonForks(gs[1..], step);
    }
  }

  /** The merge fails exactly when a non-fork's meta request fails. */
  lemma MergeAllFails(gs: seq<GitHubRepo>, contents: (string, string) -> ContentResponse,
                      utf8: seq<Base64.byte> -> Option<string>, codec: Codec, show: Json -> string, now: int)
    ensures MergeAll(gs, contents, utf8, codec, show, now).Err?
            <==> exists i :: 0 <= i < |gs| && !gs[i].fork && MetaFor(gs[i], contents, utf8, codec).Err?
  {
    var f := MergeFn(contents, utf8, codec, show, now);
    CollectFails(gs, f);
    assert forall i :: 0 <= i < |gs| ==>
      (f(gs[i]).Some? && f(gs[i]).value.Err? <==> !gs[i].fork && MetaFor(gs[i], contents, utf8, codec).Err?);
  }

  /** A successful merge holds, in order, each non-fork merged with its
      meta. */
  lemma MergeAllRecords(gs: seq<GitHubRepo>, contents: (string, string) -> ContentResponse,
                        utf8: seq<Base64.byte> -> Option<string>, codec: Codec, show: Json -> string, now: int)
    requires MergeAll(gs, contents, utf8, codec, show, now).Ok?
    ensures var r := MergeAll(gs, contents, utf8, codec, show, now).value;
      |r| == |NonForks(gs)|
      && forall k :: 0 <= k < |r| ==>
           MetaFor(NonForks(gs)[k], contents, utf8, codec).Ok?
           && r[k] == MergeRepoData(NonForks(gs)[k], MetaFor(NonForks(gs)[k], contents, utf8, codec).value, show, now)
  {
    var f := MergeFn(contents, utf8, codec, show, now);
    CollectRecords(gs, f);
    KeptNonForks(gs, f);
  }

  /** The sort key of the sync, ascending: higher priority first, then the
      later update first, a record without an update time (`datetime.min`)
      after every record with one. */
  function RepoKey(r: Repository): seq<int> {
    [-r.priority, if r.githubUpdatedAt.Some? then 0 else 1, -r.githubUpdatedAt.GetOr(0)]
  }

  lemma KeyRanked(a: Repository, b: Repository)
    ensures LexLe(RepoKey(a), RepoKey(b)) <==> RankedNoLower(a, b)
  {
    var ka, kb := RepoKey(a), RepoKey(b);
    assert LexLe(ka[1..][1..][1..], kb[1..][1..][1..]);
    assert LexLe(ka[1..][1..], kb[1..][1..]) <==> ka[2] <= kb[2];
    assert LexLe(ka[1..], kb[1..]) <==> ka[1] < kb[1] || (ka[1] == kb[1] && ka[2] <= kb[2]);
  }

  /** Two records of the same priority, one with an update time and one
      without. Their keys compare a timezone-aware `datetime` with the naive
      `datetime.min`, which raises TypeError. */
  predicate MixedClass(rs: seq<Repository>) {
    exists i, j :: 0 <= i < |rs| && 0 <= j < |rs| && rs[i].priority == rs[j].priority
                   && rs[i].githubUpdatedAt.Some? && rs[j].githubUpdatedAt.None?
  }

  /** The ranking the sort evidently intends, with a missing update time
      ranked below every known one instead of compared with a naive
      `datetime.min`: total, a permutation of its input, highest priority
      first and then latest update first. */
  function SortReposCorrected(rs: seq<Repository>): (r: seq<Repository>)
    ensures multiset(r) == multiset(rs)
    ensures forall i, j :: 0 <= i < j < |r| ==> RankedNoLower(r[i], r[j])
  {
    var sorted := SortBy(rs, RepoKey);
    forall i, j | 0 <= i < j < |sorted| ensures RankedNoLower(sorted[i], sorted[j]) {
      KeyRanked(sorted[i], sorted[j]);
    }
    sorted
  }

  /** `repositories.sort(key=…, reverse=True)` as written. A correct
      comparison sort compares every two neighbours of its output, and a
      mixed priority class leaves one aware and one naive key next to each
      other; so the sort raises exactly when such a class exists, and
      otherwise agrees with the intended ranking. */
  function SortRepos(rs: seq<Repository>): (r: Result<seq<Repository>>)
    ensures r.Err? <==> MixedClass(rs)
    ensures r.Err? ==> r.error == Raised("TypeError")
    ensures r.Ok? ==> r.value == SortReposCorrected(rs)
    ensures r.Ok? ==> multiset(r.value) == multiset(rs)
    ensures r.Ok? ==> forall i, j :: 0 <= i < j < |r.value| ==> RankedNoLower(r.value[i], r.value[j])
  {
    if MixedClass(rs) then Err(Raised("TypeError")) else Ok(SortReposCorrected(rs))
  }

  /** Two repositories of one priority, one updated and one never: as
      written the sync raises TypeError, while the intended ranking puts the
      updated one first. */
  lemma MixedPriorityRaises(never: Repository, updated: Repository)
    requires never.priority == updated.priority
    requires never.githubUpdatedAt.None? && updated.githubUpdatedAt.Some?
    ensures SortRepos([never, updated]) == Err(Raised("TypeError"))
    ensures SortReposCorrected([never, updated]) == [updated, never]
  {
    var rs := [never, updated];
    assert rs[1].priority == rs[0].priority && rs[1].githubUpdatedAt.Some? && rs[0].githubUpdatedAt.None?;
    PairOrder(never, updated, SortReposCorrected(rs));
  }

  /** A ranked permutation of two records, the first ranked below the
      second, swaps them. */
  lemma PairOrder(x: Repository, y: Repository, r: seq<Repository>)
    requires multiset(r) == multiset([x, y])
    requires forall i, j :: 0 <= i < j < |r| ==> RankedNoLower(r[i], r[j])
    requires !RankedNoLower(x, y)
    ensures r == [y, x]
  {
    assert |r| == |multiset(r)| == 2;
    assert x != y by { assert RankedNoLower(y, y); }
    assert r[0] in multiset(r) && r[1] in multiset(r);
    assert x in multiset(r) && y in multiset(r);
    assert RankedNoLower(r[0], r[1]);
  }

  /** The full sync as one function: list, merge, sort. */
  function SyncAll(pages: seq<Page>, contents: (string, string) -> ContentResponse,
                   utf8: seq<Base64.byte> -> Option<string>, codec: Codec, show: Json -> string, now: int)
    : (r: Result<seq<Repository>>)
    ensures ListingFrom(pages, 0).Err? ==> r == Err(ListingFrom(pages, 0).error)
    ensures r.Ok? ==> ListingFrom(pages, 0).Ok?
                      && var merged := MergeAll(ListingFrom(pages, 0).value, contents, utf8, codec, show, now);
                         merged.Ok? && multiset(r.value) == multiset(merged.value)
    ensures r.Ok? ==> forall i, j :: 0 <= i < j < |r.value| ==> RankedNoLower(r.value[i], r.value[j])
  {
    var gs :- ListingFrom(pages, 0);
    var merged :- MergeAll(gs, contents, utf8, codec, show, now);
    SortRepos(merged)
  }

  /** The merge loop of `fetch_all_repos_with_meta`. */
  method MergeLoop(gs: seq<GitHubRepo>, contents: (string, string) -> ContentResponse,
                   utf8: seq<Base64.byte> -> Option<string>, codec: Codec, show: Json -> string, now: int)
    returns (r: Result<seq<Repository>>)
    ensures r == MergeAll(gs, contents, utf8, codec, show, now)
  {
    r := CollectLoop(gs, MergeFn(contents, utf8, codec, show, now));
  }

  /** `fetch_all_repos_with_meta`: list, merge, sort. */
  method FetchAllReposWithMeta(pages: seq<Page>, contents: (string, string) -> ContentResponse,
                               utf8: seq<Base64.byte> -> Option<string>, codec: Codec, show: Json -> string, now: int)
    returns (r: Result<seq<Repository>>)
    ensures r == SyncAll(pages, contents, utf8, codec, show, now)
    ensures r.Ok? ==> forall i, j :: 0 <= i < j < |r.value| ==> RankedNoLower(r.value[i], r.value[j])
  {
    var listed, _ := FetchUserRepos(pages);
    if listed.Err? {
      return Err(listed.error);
    }
    var merged := MergeLoop(listed.value, contents, utf8, codec, show, now);
    if merged.Err? {
      return Err(merged.error);
    }
    r := SortRepos(merged.value);
  }
}

=== FILE: json.dfy ===
/** JSON values as Python holds them after `json.loads` (RFC 8259 values
    without fractional numbers): None, bool, int, str, list and dict. */
module Json {
  import opened Wrappers

  datatype Json =
    | JNull
    | JBool(b: bool)
    | JInt(i: int)
    | JStr(s: string)
    | JArr(items: seq<Json>)
    | JObj(fields: map<string, Json>)

  /** A Python `dict` with string keys. */
  type Object = map<string, Json>

  /** The JSON text codec of the standard library (`json.loads` and
      `json.dumps`). It is not part of this repository, so it is a parameter:
      `Load` answers None where `json.loads` raises. */
  datatype Codec = Codec(Load: string -> Option<Json>, Dump: Json -> string)

  /** A codec whose decoder reads back what its encoder writes. */
  ghost predicate Faithful(c: Codec) {
    forall j :: c.Load(c.Dump(j)) == Some(j)
  }

  /** `d.get(k)`: the value under `k`, or None when the key is absent. */
  function Get(d: Object, k: string): (r: Option<Json>)
    ensures r.Some? <==> k in d
    ensures r.Some? ==> r.value == d[k]
  {
    if k in d then Some(d[k]) else None
  }

  /** `d.get(k, default)`. */
  function GetOr(d: Object, k: string, default: Json): (r: Json)
    ensures k in d ==> r == d[k]
    ensures k !in d ==> r == default
  {
    if k in d then d[k] else default
  }

  /** Python truthiness of a JSON value: None, False, 0, "", [] and {} are
      false. */
  predicate Truthy(j: Json) {
    match j
    case JNull => false
    case JBool(b) => b
    case JInt(i) => i != 0
    case JStr(s) => |s| > 0
    case JArr(a) => |a| > 0
    case JObj(o) => |o| > 0
  }

  function StrList(xs: seq<string>): (r: Json)
    ensures r.JArr? && |r.items| == |xs|
    ensures forall i :: 0 <= i < |xs| ==> r.items[i] == JStr(xs[i])
  {
    JArr(seq(|xs|, i requires 0 <= i < |xs| => JStr(xs[i])))
  }

  function ObjList(xs: seq<Object>): (r: Json)
    ensures r.JArr? && |r.items| == |xs|
    ensures forall i :: 0 <= i < |xs| ==> r.items[i] == JObj(xs[i])
  {
    JArr(seq(|xs|, i requires 0 <= i < |xs| => JObj(xs[i])))
  }

  function OptStr(x: Option<string>): (r: Json)
    ensures x.None? <==> r == JNull
    ensures x.Some? ==> r == JStr(x.value)
  {
    match x
    case None => JNull
    case Some(s) => JStr(s)
  }

  function OptInt(x: Option<int>): (r: Json)
    ensures x.None? <==> r == JNull
    ensures x.Some? ==> r == JInt(x.value)
  {
    match x
    case None => JNull
    case Some(i) => JInt(i)
  }
}

=== FILE: portfolio.dfy ===
/** The portfolio carousel: cached repositories projected onto forty
    slots, the search and tag filter over them, keyboard navigation between
    repositories in the detail view, and the screenshot lightbox. */
module Portfolio {
  import opened Wrappers
  import Strings
  import Carousel
  import ProjectsManager

  datatype Tech = Tech(name: string, category: string)
  datatype Feature = Feature(title: string, description: string)
  datatype Shot = Shot(url: Option<string>)

  /** A repository as `GET /repos` delivers it, reduced to the fields the
      page reads; JSON nulls are None. */
  datatype Repo = Repo(
    id: int, name: string, fullName: string,
    title: Option<string>, subtitle: Option<string>,
    description: Option<string>, detailedDescription: Option<string>,
    language: Option<string>, projectType: seq<string>, topics: seq<string>,
    technologies: seq<Tech>, features: seq<Feature>, screenshots: seq<Shot>,
    coverImage: Option<string>, challenges: Option<string>, achievements: Option<string>,
    status: string, contributorCount: int)

  /** A carousel card. */
  datatype Display = Display(
    id: int, uniqueId: string, title: string, subtitle: Option<string>, category: string,
    image: string, displayNumber: nat, spineColor: string, textColor: string,
    status: string, contributorCount: int)

  /** The card shown while nothing has loaded. */
  const Fallback := Display(1, "fallback-1", "Loading...", None, "Portfolio",
                            "https://images.unsplash.com/photo-1555066931-4365d14bab8c?w=800",
                            1, "#282828", "#FFFFFF", "completed", 1)

  const Placeholder := "https://opengraph.githubassets.com/1/"

  /** JavaScript truthiness of a nullable string. */
  predicate Truthy(s: Option<string>) {
    s.Some? && s.value != ""
  }

  // ---------------------------------------------------------------------------
  // Cards

  /** An image reference as stored: a URL is used as is, a path under
      /uploads/ is served by the API host, anything else is a storage key
      read through the file endpoint. */
  function Resolve(apiBase: string, u: string): (url: string)
    ensures Strings.StartsWith(u, "http") ==> url == u
    ensures !Strings.StartsWith(u, "http") && Strings.StartsWith(u, "/uploads/") ==> url == apiBase + u
    ensures !Strings.StartsWith(u, "http") && !Strings.StartsWith(u, "/uploads/") ==>
              url == apiBase + ProjectsManager.FilePath + u
  {
    if Strings.StartsWith(u, "http") then u
    else if Strings.StartsWith(u, "/uploads/") then apiBase + u
    else apiBase + ProjectsManager.FilePath + u
  }

  /** The card image: the cover image, else the first screenshot's url,
      else GitHub's generated preview of the repository. */
  function CoverImage(apiBase: string, r: Repo): (url: string)
    ensures Truthy(r.coverImage) ==> url == Resolve(apiBase, r.coverImage.value)
    ensures !Truthy(r.coverImage) && |r.screenshots| > 0 && Truthy(r.screenshots[0].url) ==>
              url == Resolve(apiBase, r.screenshots[0].url.value)
    ensures !Truthy(r.coverImage) && !(|r.screenshots| > 0 && Truthy(r.screenshots[0].url)) ==>
              url == Placeholder + r.fullName
  {
    if Truthy(r.coverImage) then Resolve(apiBase, r.coverImage.value)
    else if |r.screenshots| > 0 && Truthy(r.screenshots[0].url) then Resolve(apiBase, r.screenshots[0].url.value)
    else Placeholder + r.fullName
  }

  /** `project_type[0] || language || 'Project'`, first letter capitalised. */
  function Category(r: Repo): (c: string)
    ensures |r.projectType| > 0 && r.projectType[0] != "" ==> c == Strings.CapitalizeFirst(r.projectType[0])
    ensures !(|r.projectType| > 0 && r.projectType[0] != "") && Truthy(r.language) ==>
              c == Strings.CapitalizeFirst(r.language.value)
    ensures !(|r.projectType| > 0 && r.projectType[0] != "") && !Truthy(r.language) ==> c == "Project"
    ensures c != ""
  {
    var raw := if |r.projectType| > 0 && r.projectType[0] != "" then r.projectType[0]
               else if Truthy(r.language) then r.language.value
               else "Project";
    Strings.CapitalizeFirst(raw)
  }

  /** `title || name`. */
  function Title(r: Repo): (t: string)
    ensures Truthy(r.title) ==> t == r.title.value
    ensures !Truthy(r.title) ==> t == r.name
  {
    if Truthy(r.title) then r.title.value else r.name
  }

  /** The card for a repository in slot `slot` under the id `uniqueId`. */
  function Card(apiBase: string, r: Repo, slot: nat, uniqueId: string): (d: Display)
    ensures d.id == r.id && d.uniqueId == uniqueId && d.displayNumber == slot + 1
    ensures d.title == Title(r) && d.category == Category(r) && d.image == CoverImage(apiBase, r)
    ensures (d.spineColor, d.textColor) == Carousel.ColorData(slot)
    ensures d.status == (if r.status == "" then "completed" else r.status)
    ensures d.contributorCount == (if r.contributorCount == 0 then 1 else r.contributorCount)
  {
    var colors := Carousel.ColorData(slot);
    Display(r.id, uniqueId, Title(r), r.subtitle, Category(r), CoverImage(apiBase, r), slot + 1,
            colors.0, colors.1, if r.status == "" then "completed" else r.status,
            if r.contributorCount == 0 then 1 else r.contributorCount)
  }

  /** `transformReposToProjects`: the fallback card alone when there is no
      repository, else forty cards cycling through the repositories. */
  function Transform(apiBase: string, repos: seq<Repo>): (cards: seq<Display>)
    ensures |repos| == 0 ==> cards == [Fallback]
    ensures |repos| > 0 ==> |cards| == Carousel.ItemCount
    ensures |repos| > 0 ==> forall i :: 0 <= i < |cards| ==>
              cards[i] == Card(apiBase, repos[i % |repos|], i, Carousel.SlotId(repos[i % |repos|].id, i))
  {
    if |repos| == 0 then [Fallback]
    else seq(Carousel.ItemCount, i requires 0 <= i < Carousel.ItemCount =>
               Card(apiBase, repos[i % |repos|], i, Carousel.SlotId(repos[i % |repos|].id, i)))
  }

  /** No two cards share an id, whatever the repositories' ids. */
  lemma CardsDistinct(apiBase: string, repos: seq<Repo>, i: nat, j: nat)
    requires |repos| > 0 && i < j < Carousel.ItemCount
    ensures Transform(apiBase, repos)[i].uniqueId != Transform(apiBase, repos)[j].uniqueId
  {
    var a, b := repos[i % |repos|], repos[j % |repos|];
    assert Transform(apiBase, repos)[i].uniqueId == Carousel.SlotId(a.id, i);
    assert Transform(apiBase, repos)[j].uniqueId == Carousel.SlotId(b.id, j);
    Carousel.SlotIdsDistinct(a.id, i, b.id, j);
  }

  /** With at most forty repositories every one of them gets a card, the
      first `n` slots holding them in order; beyond forty only the first
      forty are shown. */
  lemma EveryRepoShown(apiBase: string, repos: seq<Repo>, k: nat)
    requires k < |repos| && k < Carousel.ItemCount
    ensures Transform(apiBase, repos)[k].id == repos[k].id
    ensures Transform(apiBase, repos)[k].displayNumber == k + 1
  {
    assert k % |repos| == k;
  }

  /** A stored key shows the same image here and in the admin editor; a
      path under /uploads/ does not, the editor reading it as a key. */
  lemma ResolveAgreesWithEditor(apiBase: string, u: string)
    requires u != "" && !Strings.StartsWith(u, "http")
    ensures !Strings.StartsWith(u, "/uploads/") ==>
              ProjectsManager.ImageUrl(apiBase, ProjectsManager.Screenshot(Some(u), None, None, 0)) == Some(Resolve(apiBase, u))
    ensures Strings.StartsWith(u, "/uploads/") ==>
              ProjectsManager.ImageUrl(apiBase, ProjectsManager.Screenshot(Some(u), None, None, 0)) != Some(Resolve(apiBase, u))
  {
    if Strings.StartsWith(u, "/uploads/") {
      var editor := apiBase + ProjectsManager.FilePath + u;
      var here := apiBase + u;
      assert |editor| != |here|;
    }
  }

  // ---------------------------------------------------------------------------
  // Search and tag filter

  /** The texts searched, in the page's order, before dropping empty ones. */
  function AllFields(r: Repo): seq<Option<string>> {
    [r.title, Some(r.name), r.subtitle, r.description, r.detailedDescription]
    + Somes(r.projectType) + Somes(r.topics)
    + seq(|r.technologies|, i requires 0 <= i < |r.technologies| => Some(r.technologies[i].name))
    + seq(|r.technologies|, i requires 0 <= i < |r.technologies| => Some(r.technologies[i].category))
    + seq(|r.features|, i requires 0 <= i < |r.features| => Some(r.features[i].title))
    + seq(|r.features|, i requires 0 <= i < |r.features| => Some(r.features[i].description))
    + [r.language, r.challenges, r.achievements, Some(r.status)]
  }

  function Somes(s: seq<string>): (r: seq<Option<string>>)
    ensures |r| == |s| && forall i :: 0 <= i < |s| ==> r[i] == Some(s[i])
  {
    seq(|s|, i requires 0 <= i < |s| => Some(s[i]))
  }

  /** Some searchable text of the repository contains `needle`: a present,
      non-empty field that, lower-cased, contains it
      (`.filter(Boolean).map(f => f.toLowerCase())` then `includes`). */
  predicate Mentions(r: Repo, needle: string) {
    var fields := AllFields(r);
    exists i :: 0 <= i < |fields| && Truthy(fields[i]) && Strings.Contains(Strings.Lower(fields[i].value), needle)
  }

  /** The repository satisfies the (already lower-cased and trimmed) query
      when that is non-empty, and every selected tag. */
  predicate RepoMatches(r: Repo, query: string, tags: seq<string>) {
    (query == "" || Mentions(r, query))
    && forall k :: 0 <= k < |tags| ==> Mentions(r, Strings.Lower(tags[k]))
  }

  /** The query as the filter uses it. */
  function NormalQuery(query: string): string {
    Strings.JsTrim(Strings.Lower(query))
  }

  /** Ids of the repositories that pass the filter. */
  function MatchingIds(repos: seq<Repo>, query: string, tags: seq<string>): (ids: set<int>)
    ensures forall id :: id in ids <==> exists r :: r in repos && r.id == id && RepoMatches(r, query, tags)
  {
    set r | r in repos && RepoMatches(r, query, tags) :: r.id
  }

  /** `filteredProjects`: every card when the query is blank and no tag is
      selected; otherwise the cards, in order, whose id belongs to a
      matching repository. */
  function Filtered(cards: seq<Display>, repos: seq<Repo>, query: string, tags: seq<string>): (shown: seq<Display>)
    ensures Strings.JsTrim(query) == "" && |tags| == 0 ==> shown == cards
    ensures Carousel.IsSubsequence(shown, cards)
    ensures !(Strings.JsTrim(query) == "" && |tags| == 0) ==>
              forall c :: c in shown <==>
                (c in cards && exists r :: r in repos && r.id == c.id && RepoMatches(r, NormalQuery(query), tags))
  {
    if Strings.JsTrim(query) == "" && |tags| == 0 then
      assert Carousel.IsSubsequence(cards, cards) by {
        var _ := Carousel.Filter(cards, (c: Display) => true);
      }
      cards
    else
      var ids := MatchingIds(repos, NormalQuery(query), tags);
      Carousel.Filter(cards, (c: Display) => c.id in ids)
  }

  /** Selecting one more tag never brings a card back. */
  lemma MoreTagsShowFewer(cards: seq<Display>, repos: seq<Repo>, query: string, tags: seq<string>, t: string, c: Display)
    requires c in Filtered(cards, repos, query, tags + [t])
    ensures c in Filtered(cards, repos, query, tags)
  {
    var q := NormalQuery(query);
    var r :| r in repos && r.id == c.id && RepoMatches(r, q, tags + [t]);
    assert forall k :: 0 <= k < |tags| ==> (tags + [t])[k] == tags[k];
    assert RepoMatches(r, q, tags);
  }

  /** A card whose repository mentions the query and every tag is kept. */
  lemma MatchingCardKept(cards: seq<Display>, repos: seq<Repo>, query: string, tags: seq<string>, c: Display, r: Repo)
    requires c in cards && r in repos && r.id == c.id && RepoMatches(r, NormalQuery(query), tags)
    ensures c in Filtered(cards, repos, query, tags)
  {
  }

  // ---------------------------------------------------------------------------
  // Keyboard navigation in the detail view

  datatype Key = ArrowLeft | ArrowRight | Escape | OtherKey

  /** `findIndex(repo => repo.id === id)`. */
  function FindIndex(repos: seq<Repo>, id: int): (k: Option<nat>)
    ensures k.Some? ==> k.value < |repos| && repos[k.value].id == id
                        && forall j :: 0 <= j < k.value ==> repos[j].id != id
    ensures k.None? ==> forall j :: 0 <= j < |repos| ==> repos[j].id != id
    decreases |repos|
  {
    if |repos| == 0 then None
    else if repos[0].id == id then Some(0)
    else
      var rest := FindIndex(repos[1..], id);
      assert forall j :: 0 < j < |repos| ==> repos[j] == repos[1..][j - 1];
      if rest.Some? then Some(rest.value + 1) else None
  }

  /** The neighbour in the direction of the arrow, wrapping at the ends. */
  function Step(current: nat, n: nat, key: Key): (next: nat)
    requires current < n && (key == ArrowLeft || key == ArrowRight)
    ensures next < n
  {
    if key == ArrowLeft then (if current == 0 then n - 1 else current - 1)
    else (if current == n - 1 then 0 else current + 1)
  }

  /** The arrows move one position on a ring of `n`. */
  lemma StepIsModular(current: nat, n: nat)
    requires current < n
    ensures Step(current, n, ArrowRight) == (current + 1) % n
    ensures Step(current, n, ArrowLeft) == (current + n - 1) % n
  {
    if current == 0 {
      Carousel.ModUnique(n - 1, n, 0, n - 1);
    } else {
      Carousel.ModUnique(current + n - 1, n, 1, current - 1);
    }
    if current == n - 1 {
      Carousel.ModUnique(current + 1, n, 1, 0);
    } else {
      Carousel.ModUnique(current + 1, n, 0, current + 1);
    }
  }

  /** The `keydown` handler: the detail view's new content, None when it is
      closed. Arrows move to the neighbouring repository, shown as a card
      for its position with the id "{id}-nav"; Escape closes; anything else,
      or an open card whose repository is not in the list, changes nothing. */
  function KeyDown(apiBase: string, repos: seq<Repo>, active: Option<Display>, key: Key): (next: Option<Display>)
    ensures active.None? ==> next.None?
    ensures active.Some? && |repos| > 0 && FindIndex(repos, active.value.id).Some? && key == Escape ==> next.None?
    ensures active.Some? && (key == OtherKey || FindIndex(repos, active.value.id).None?) ==> next == active
    ensures active.Some? && FindIndex(repos, active.value.id).Some? && (key == ArrowLeft || key == ArrowRight) ==>
              var k := Step(FindIndex(repos, active.value.id).value, |repos|, key);
              next == Some(NavCard(apiBase, repos, k))
  {
    if active.None? || |repos| == 0 then active
    else match FindIndex(repos, active.value.id)
      case None => active
      case Some(current) =>
        match key
        case Escape => None
        case OtherKey => active
        case _ => Some(NavCard(apiBase, repos, Step(current, |repos|, key)))
  }

  function NavCard(apiBase: string, repos: seq<Repo>, k: nat): Display
    requires k < |repos|
  {
    Card(apiBase, repos[k], k, Strings.IntToString(repos[k].id) + "-nav")
  }

  /** Right then left comes back to the same repository when ids are
      distinct (repository ids are the table's key). */
  lemma RightThenLeft(apiBase: string, repos: seq<Repo>, active: Display, k: nat)
    requires forall i, j :: 0 <= i < j < |repos| ==> repos[i].id != repos[j].id
    requires k < |repos| && active.id == repos[k].id
    ensures KeyDown(apiBase, repos, KeyDown(apiBase, repos, Some(active), ArrowRight), ArrowLeft)
            == Some(NavCard(apiBase, repos, k))
  {
    var k' := Step(k, |repos|, ArrowRight);
    ArrowMoves(apiBase, repos, active, k, ArrowRight);
    ArrowMoves(apiBase, repos, NavCard(apiBase, repos, k'), k', ArrowLeft);
    StepsUndo(k, |repos|);
  }

  /** An arrow on the card of the repository at position `j` opens the
      neighbouring position. */
  lemma ArrowMoves(apiBase: string, repos: seq<Repo>, active: Display, j: nat, key: Key)
    requires forall i, j :: 0 <= i < j < |repos| ==> repos[i].id != repos[j].id
    requires j < |repos| && active.id == repos[j].id && (key == ArrowLeft || key == ArrowRight)
    ensures KeyDown(apiBase, repos, Some(active), key) == Some(NavCard(apiBase, repos, Step(j, |repos|, key)))
  {
    FindDistinct(repos, j);
  }

  /** The arrows undo each other on positions. */
  lemma StepsUndo(k: nat, n: nat)
    requires k < n
    ensures Step(Step(k, n, ArrowRight), n, ArrowLeft) == k
    ensures Step(Step(k, n, ArrowLeft), n, ArrowRight) == k
  {
  }

  /** With distinct ids the search finds each repository at its own index. */
  lemma FindDistinct(repos: seq<Repo>, k: nat)
    requires forall i, j :: 0 <= i < j < |repos| ==> repos[i].id != repos[j].id
    requires k < |repos|
    ensures FindIndex(repos, repos[k].id) == Some(k)
  {
  }

  /** The card the arrows open differs from the carousel card of the same
      position only in its id. */
  lemma NavCardIsSlotCard(apiBase: string, repos: seq<Repo>, k: nat)
    requires k < |repos| && k < Carousel.ItemCount
    ensures NavCard(apiBase, repos, k) == Transform(apiBase, repos)[k].(uniqueId := NavCard(apiBase, repos, k).uniqueId)
  {
    assert k % |repos| == k;
  }

  // ---------------------------------------------------------------------------
  // Screenshot lightbox

  /** The "previous" button: from the first screenshot to the last,
      otherwise one back; no selection counts as 0. */
  function Previous(selected: Option<int>, count: nat): (next: int)
    ensures selected.Some? && 0 <= selected.value < count ==> next == (selected.value + count - 1) % count
    ensures selected.None? ==> next == -1
  {
    if selected == Some(0) then count - 1 else selected.GetOr(0) - 1
  }

  /** The "next" button: from the last screenshot to the first, otherwise
      one on. */
  function Next(selected: Option<int>, count: nat): (next: int)
    ensures selected.Some? && 0 <= selected.value < count ==> next == (selected.value + 1) % count
    ensures selected.None? ==> next == 1
  {
    if selected == Some(count - 1) then 0 else selected.GetOr(0) + 1
  }

  /** The two buttons undo each other and never leave the screenshots. */
  lemma LightboxWraps(k: nat, count: nat)
    requires k < count
    ensures 0 <= Next(Some(k), count) < count && 0 <= Previous(Some(k), count) < count
    ensures Previous(Some(Next(Some(k), count)), count) == k
    ensures Next(Some(Previous(Some(k), count)), count) == k
  {
  }
}

=== FILE: portfolio_markdown.dfy ===
/** The project pop-up's bold markup: `parseSimpleMarkdown` splits a text
    with the capturing pattern `(\*\*[^*]+\*\*)` and shows each part that
    starts and ends with "**" as bold, without its stars. */
module PortfolioMarkdown {
  import opened Wrappers
  import Strings

  // ---------------------------------------------------------------------------
  // Splitting on bold spans

  /** A bold span: "**", one or more characters other than '*', "**". */
  predicate IsBold(part: string) {
    |part| >= 5 && part[0] == '*' && part[1] == '*' && part[|part| - 2] == '*' && part[|part| - 1] == '*'
    && forall k :: 2 <= k < |part| - 2 ==> part[k] != '*'
  }

  /** The first index at or after `i` holding a '*', or the end. */
  function RunEnd(s: string, i: nat): (r: nat)
    requires i <= |s|
    ensures i <= r <= |s|
    ensures forall k :: i <= k < r ==> s[k] != '*'
    ensures r < |s| ==> s[r] == '*'
    decreases |s| - i
  {
    if i == |s| || s[i] == '*' then i else RunEnd(s, i + 1)
  }

  /** The end of the bold span the pattern matches at `q`, if any. The span
      is unique: `[^*]+` cannot stop before a '*', and the span must end on
      one. */
  function MatchAt(s: string, q: nat): (e: Option<nat>)
    requires q <= |s|
    ensures e.Some? ==> q < e.value <= |s|
    ensures forall e' :: q < e' <= |s| ==> (IsBold(s[q..e']) <==> e == Some(e'))
  {
    if q + 2 <= |s| && s[q] == '*' && s[q + 1] == '*' then
      var r := RunEnd(s, q + 2);
      if r > q + 2 && r + 2 <= |s| && s[r + 1] == '*' then
        assert IsBold(s[q..r + 2]);
        Some(r + 2)
      else None
    else None
  }

  /** The parts of `s[p..]` that `String.prototype.split` returns for the
      capturing pattern, scanning from `q`: the text before each leftmost
      span, the span itself, and finally the text after the last span. */
  function Pieces(s: string, p: nat, q: nat): (parts: seq<string>)
    requires p <= q <= |s|
    ensures |parts| % 2 == 1
    ensures forall i :: 0 <= i < |parts| && i % 2 == 1 ==> IsBold(parts[i])
    ensures Concat(parts) == s[p..]
    decreases |s| - q
  {
    if q == |s| then [s[p..]]
    else
      match MatchAt(s, q)
      case None => Pieces(s, p, q + 1)
      case Some(e) =>
        var rest := Pieces(s, e, e);
        assert IsBold(s[q..e]);
        var parts := [s[p..q], s[q..e]] + rest;
        assert parts[2..] == rest && parts[1..][1..] == rest;
        assert s[p..] == s[p..q] + s[q..e] + s[e..];
        parts
  }

  /** The parts concatenated back together. */
  function Concat(parts: seq<string>): string
    decreases |parts|
  {
    if |parts| == 0 then "" else parts[0] + Concat(parts[1..])
  }

  /** `text.split(/(\*\*[^*]+\*\*)/g)` on a non-empty text: plain text at
      even positions, bold spans at odd ones, nothing lost. */
  function SplitBold(t: string): (parts: seq<string>)
    ensures |parts| % 2 == 1
    ensures forall i :: 0 <= i < |parts| && i % 2 == 1 ==> IsBold(parts[i])
    ensures Concat(parts) == t
  {
    Pieces(t, 0, 0)
  }

  // ---------------------------------------------------------------------------
  // Rendering

  datatype Node = Plain(text: string) | Strong(text: string)

  /** An empty text is returned as it is; any other text becomes nodes. */
  datatype Rendered = Unchanged(text: string) | Nodes(nodes: seq<Node>)

  /** The markup a node stands for. */
  function Markup(n: Node): string {
    match n
    case Plain(x) => x
    case Strong(x) => "**" + x + "**"
  }

  function Source(nodes: seq<Node>): string
    decreases |nodes|
  {
    if |nodes| == 0 then "" else Markup(nodes[0]) + Source(nodes[1..])
  }

  /** `part.startsWith('**') && part.endsWith('**')`; the two may overlap. */
  predicate Framed(part: string) {
    Strings.StartsWith(part, "**") && Strings.EndsWith(part, "**")
  }

  /** `part.slice(2, -2)`: empty when the part is shorter than four. */
  function Unframe(part: string): (r: string)
    ensures Framed(part) && |part| >= 4 ==> "**" + r + "**" == part
    ensures |part| < 4 ==> r == ""
  {
    if |part| < 4 then ""
    else
      assert Framed(part) ==> part == part[..2] + part[2..|part| - 2] + part[|part| - 2..];
      part[2..|part| - 2]
  }

  /** The rendering as written: every framed part is bold, whether it came
      from a captured span or from the text between spans. */
  function ParseAsWritten(t: string): (r: Rendered)
    ensures t == "" <==> r == Unchanged("")
    ensures t != "" ==> r.Nodes? && |r.nodes| == |SplitBold(t)|
  {
    if t == "" then Unchanged(t)
    else
      var parts := SplitBold(t);
      Nodes(seq(|parts|, i requires 0 <= i < |parts| =>
                  if Framed(parts[i]) then Strong(Unframe(parts[i])) else Plain(parts[i])))
  }

  /** The rendering with the evident intent: exactly the captured spans are
      bold. */
  function ParseCorrected(t: string): (r: Rendered)
    ensures t == "" <==> r == Unchanged("")
    ensures t != "" ==> r.Nodes? && |r.nodes| == |SplitBold(t)|
    ensures r.Nodes? ==> forall i :: 0 <= i < |r.nodes| && r.nodes[i].Strong? ==>
                           r.nodes[i].text != "" && '*' !in r.nodes[i].text
    ensures r.Nodes? ==> Source(r.nodes) == t
  {
    if t == "" then Unchanged(t)
    else
      var parts := SplitBold(t);
      var nodes := CorrectNodes(parts);
      SourceOfMarkups(parts, nodes);
      Nodes(nodes)
  }

  /** The spans at odd positions become bold, the rest plain text; each node
      stands for exactly the part it came from. */
  function CorrectNodes(parts: seq<string>): (nodes: seq<Node>)
    requires forall i :: 0 <= i < |parts| && i % 2 == 1 ==> IsBold(parts[i])
    ensures |nodes| == |parts|
    ensures forall i :: 0 <= i < |nodes| ==> Markup(nodes[i]) == parts[i]
    ensures forall i :: 0 <= i < |nodes| ==> (nodes[i].Strong? <==> i % 2 == 1)
    ensures forall i :: 0 <= i < |nodes| && nodes[i].Strong? ==> nodes[i].text != "" && '*' !in nodes[i].text
  {
    var nodes := seq(|parts|, i requires 0 <= i < |parts| =>
                       if i % 2 == 1 then Strong(Unframe(parts[i])) else Plain(parts[i]));
    forall i | 0 <= i < |nodes| && i % 2 == 1
      ensures Markup(nodes[i]) == parts[i] && nodes[i].text != "" && '*' !in nodes[i].text
    {
      var x := parts[i];
      assert IsBold(x);
      assert x[..2] == "**" && x[|x| - 2..] == "**";
      var y := Unframe(x);
      forall k | 0 <= k < |y| ensures y[k] != '*' {
        assert y[k] == x[k + 2];
      }
    }
    nodes
  }

  /** Nodes that each stand for their part stand together for the whole
      text. */
  lemma {:induction false} SourceOfMarkups(parts: seq<string>, nodes: seq<Node>)
    requires |nodes| == |parts|
    requires forall i :: 0 <= i < |nodes| ==> Markup(nodes[i]) == parts[i]
    ensures Source(nodes) == Concat(parts)
    decreases |parts|
  {
    if |parts| > 0 {
      SourceOfMarkups(parts[1..], nodes[1..]);
    }
  }

  // ---------------------------------------------------------------------------
  // The two renderings compared

  /** The two renderings differ exactly when some text between spans is itself
      framed by "**": the as-written rendering turns it bold. */
  lemma AgreeUnlessStrayFrame(t: string)
    requires t != ""
    ensures ParseAsWritten(t) == ParseCorrected(t) <==>
              forall i :: 0 <= i < |SplitBold(t)| && i % 2 == 0 ==> !Framed(SplitBold(t)[i])
  {
    var parts := SplitBold(t);
    var a, c := ParseAsWritten(t).nodes, ParseCorrected(t).nodes;
    forall i | 0 <= i < |parts| && i % 2 == 1 ensures a[i] == c[i] {
      var x := parts[i];
      assert IsBold(x);
      assert Framed(x) by { assert x[..2] == "**" && x[|x| - 2..] == "**"; }
    }
    if forall i :: 0 <= i < |parts| && i % 2 == 0 ==> !Framed(parts[i]) {
      assert a == c;
    } else {
      var i :| 0 <= i < |parts| && i % 2 == 0 && Framed(parts[i]);
      assert a[i].Strong? && c[i].Plain?;
    }
  }

  /** Text made only of "**" is shown as an empty bold element by the
      rendering as written, and the stars are lost; the corrected rendering
      keeps them as plain text. */
  lemma StarsVanish()
    ensures ParseAsWritten("**") == Nodes([Strong("")])
    ensures Source(ParseAsWritten("**").nodes) != "**"
    ensures ParseCorrected("**") == Nodes([Plain("**")])
  {
    var s := "**";
    assert MatchAt(s, 0).None? by { assert RunEnd(s, 2) == 2; }
    assert MatchAt(s, 1).None?;
    assert SplitBold(s) == Pieces(s, 0, 2) == [s];
    assert Framed(s);
    assert Source([Strong("")]) == "****";
  }

  /** A text that is one bold span splits into that span between two empty
      texts. */
  lemma LoneSpanSplits(s: string)
    requires IsBold(s)
    ensures SplitBold(s) == ["", s, ""]
  {
    assert s[0..|s|] == s;
    assert MatchAt(s, 0) == Some(|s|);
    assert Pieces(s, |s|, |s|) == [""];
  }

  /** Framing a text without stars in "**" makes a bold span, and the slice
      takes it back out. */
  lemma FramedSpan(x: string)
    requires x != "" && '*' !in x
    ensures IsBold("**" + x + "**") && Unframe("**" + x + "**") == x
  {
    var s := "**" + x + "**";
    forall k | 2 <= k < |s| - 2 ensures s[k] != '*' {
      assert s[k] == x[k - 2];
    }
    assert s[2..|s| - 2] == x;
  }

  /** A text that is one bold span renders as the span's text in bold,
      between two empty texts, in both renderings. */
  lemma LoneSpan(s: string)
    requires IsBold(s)
    ensures ParseCorrected(s) == Nodes([Plain(""), Strong(Unframe(s)), Plain("")])
    ensures ParseAsWritten(s) == ParseCorrected(s)
  {
    LoneSpanCorrected(s);
    LoneSpanAgrees(s);
  }

  lemma LoneSpanCorrected(s: string)
    requires IsBold(s)
    ensures ParseCorrected(s) == Nodes([Plain(""), Strong(Unframe(s)), Plain("")])
  {
    LoneSpanSplits(s);
    LoneSpanNodes(s);
  }

  lemma LoneSpanNodes(s: string)
    requires IsBold(s)
    ensures CorrectNodes(["", s, ""]) == [Plain(""), Strong(Unframe(s)), Plain("")]
  {
    var c := CorrectNodes(["", s, ""]);
    assert c[0] == Plain("") by { assert Markup(c[0]) == "" && c[0].Plain?; }
    assert c[2] == Plain("") by { assert Markup(c[2]) == "" && c[2].Plain?; }
    assert c[1] == Strong(Unframe(s)) by {
      assert c[1].Strong? && Markup(c[1]) == s;
      assert c[1].text == s[2..|s| - 2];
    }
  }

  lemma LoneSpanAgrees(s: string)
    requires IsBold(s)
    ensures ParseAsWritten(s) == ParseCorrected(s)
  {
    assert forall i :: 0 <= i < |SplitBold(s)| && i % 2 == 0 ==> !Framed(SplitBold(s)[i]) by {
      LoneSpanSplits(s);
      EmptyEnds(s);
    }
    AgreeUnlessStrayFrame(s);
  }

  /** The even parts around a lone span are empty, so none is framed. */
  lemma EmptyEnds(x: string)
    ensures forall i :: 0 <= i < 3 && i % 2 == 0 ==> !Framed(["", x, ""][i])
  {
    assert !Framed("");
    forall i | 0 <= i < 3 && i % 2 == 0 ensures !Framed(["", x, ""][i]) {
      assert i == 0 || i == 2;
    }
  }

  /** `**x**` alone renders `x` in bold. */
  lemma LoneSpanIsBold(x: string)
    requires x != "" && '*' !in x
    ensures ParseCorrected("**" + x + "**") == Nodes([Plain(""), Strong(x), Plain("")])
    ensures ParseAsWritten("**" + x + "**") == ParseCorrected("**" + x + "**")
  {
    FramedSpan(x);
    LoneSpan("**" + x + "**");
  }
}

=== FILE: portfolio_tags.dfy ===
/** The quick-filter chips above the portfolio carousel: six fixed tags,
    then the tags the repositories carry, counted, ranked (the priority list
    first, in its order, then by how often a tag occurs) and cut to eight. */
module PortfolioTags {
  import opened Wrappers
  import Strings
  import Sorting
  import Carousel
  import Portfolio

  /** Technical terms, lower-cased, and the name shown for them. */
  const FriendlyNames: map<string, string> := map[
    "web" := "홈페이지", "website" := "홈페이지", "homepage" := "홈페이지",
    "webapp" := "웹앱",
    "mobile" := "모바일 어플", "mobile-app" := "모바일 어플", "app" := "모바일 어플",
    "desktop" := "프로그램", "desktop-app" := "프로그램", "program" := "프로그램", "software" := "프로그램",
    "saas" := "SaaS",
    "b2b" := "회사 소프트웨어", "enterprise" := "회사 소프트웨어",
    "ecommerce" := "쇼핑몰/자사몰", "shop" := "쇼핑몰/자사몰", "shopping" := "쇼핑몰/자사몰",
    "automation" := "업무 자동화",
    "cli" := "오픈소스", "tool" := "오픈소스",
    "api" := "백엔드/API", "backend" := "백엔드/API",
    "fullstack" := "풀스택", "landing" := "랜딩페이지", "dashboard" := "대시보드",
    "admin" := "관리자 페이지", "portfolio" := "포트폴리오", "blog" := "블로그",
    "react-native" := "React Native", "reactnative" := "React Native",
    "flutter" := "Flutter", "swift" := "iOS(Swift)", "kotlin" := "Android(Kotlin)",
    "react" := "React", "nextjs" := "Next.js", "next.js" := "Next.js", "vue" := "Vue",
    "python" := "Python", "typescript" := "TypeScript", "go" := "Go", "golang" := "Go"
  ]

  /** The ranking of tags that come first, in this order. */
  const PriorityTags: seq<string> := [
    "모바일 어플", "홈페이지", "프로그램", "쇼핑몰/자사몰",
    "SaaS", "회사 소프트웨어", "업무 자동화", "대시보드",
    "Flutter", "React Native",
    "React", "Next.js", "Python", "TypeScript"
  ]

  /** The chips shown whatever the data. */
  const DefaultTags: seq<string> := ["자동화프로그램", "홈페이지", "쇼핑몰", "모바일앱", "AI서비스", "SaaS"]

  /** The number of chips at most. */
  const MaxChips: nat := 8

  /** The three lookup tables, kept apart from the logic so that the
      properties below hold for any tables of the right shape. */
  datatype Tables = Tables(friendly: map<string, string>, priority: seq<string>, defaults: seq<string>)

  /** The tables the page uses. */
  const Page := Tables(FriendlyNames, PriorityTags, DefaultTags)

  // ---------------------------------------------------------------------------
  // Tags of a repository

  /** A project type: its friendly name, else the type with its first letter
      upper-cased and the rest lower-cased. */
  function TypeTag(tb: Tables, t: string): (tag: string)
    ensures Strings.Lower(t) in tb.friendly ==> tag == tb.friendly[Strings.Lower(t)]
    ensures Strings.Lower(t) !in tb.friendly ==>
              |tag| == |t| && (|t| > 0 ==> tag[0] == Strings.UpperChar(t[0]) && tag[1..] == Strings.Lower(t[1..]))
  {
    var lower := Strings.Lower(t);
    if lower in tb.friendly then tb.friendly[lower]
    else if |t| == 0 then ""
    else [Strings.UpperChar(t[0])] + Strings.Lower(t[1..])
  }

  /** The main language: its friendly name, else the language as written. */
  function LanguageTag(tb: Tables, l: string): (tag: string)
    ensures Strings.Lower(l) in tb.friendly ==> tag == tb.friendly[Strings.Lower(l)]
    ensures Strings.Lower(l) !in tb.friendly ==> tag == l
  {
    var lower := Strings.Lower(l);
    if lower in tb.friendly then tb.friendly[lower] else l
  }

  /** Technologies count only when they have a friendly name. */
  function TechTags(tb: Tables, ts: seq<Portfolio.Tech>): (tags: seq<string>)
    ensures |tags| <= |ts|
    ensures forall k :: 0 <= k < |tags| ==> tags[k] in tb.friendly.Values
    ensures (forall i :: 0 <= i < |ts| ==> Strings.Lower(ts[i].name) !in tb.friendly) ==> tags == []
    decreases |ts|
  {
    if |ts| == 0 then []
    else
      var lower := Strings.Lower(ts[0].name);
      var rest := TechTags(tb, ts[1..]);
      assert forall i :: 0 <= i < |ts[1..]| ==> ts[1..][i] == ts[i + 1];
      if lower in tb.friendly then [tb.friendly[lower]] + rest else rest
  }

  /** The tags one repository contributes, in counting order. */
  function RepoTags(tb: Tables, r: Portfolio.Repo): seq<string> {
    seq(|r.projectType|, i requires 0 <= i < |r.projectType| => TypeTag(tb, r.projectType[i]))
    + (if Portfolio.Truthy(r.language) then [LanguageTag(tb, r.language.value)] else [])
    + TechTags(tb, r.technologies)
  }

  /** Every tag occurrence over all repositories, in counting order. */
  function Occurrences(tb: Tables, repos: seq<Portfolio.Repo>): seq<string> {
    Flat(seq(|repos|, i requires 0 <= i < |repos| => RepoTags(tb, repos[i])))
  }

  /** The lists one after the other. */
  function Flat<T>(lists: seq<seq<T>>): seq<T>
    decreases |lists|
  {
    if |lists| == 0 then [] else lists[0] + Flat(lists[1..])
  }

  /** Each list's elements occur in the flattened list at least as often as
      in the list. */
  lemma {:induction false} FlatContainsEach<T>(lists: seq<seq<T>>)
    ensures forall i :: 0 <= i < |lists| ==> multiset(lists[i]) <= multiset(Flat(lists))
    decreases |lists|
  {
    if |lists| > 0 {
      var rest := lists[1..];
      FlatContainsEach(rest);
      assert multiset(Flat(lists)) == multiset(lists[0]) + multiset(Flat(rest));
      forall i | 0 < i < |lists| ensures multiset(lists[i]) <= multiset(Flat(lists)) {
        assert lists[i] == rest[i - 1];
      }
    }
  }

  /** Every tag of every repository is counted, as often as the repository
      contributes it. */
  lemma OccurrencesCountEveryTag(tb: Tables, repos: seq<Portfolio.Repo>)
    ensures forall i :: 0 <= i < |repos| ==> multiset(RepoTags(tb, repos[i])) <= multiset(Occurrences(tb, repos))
  {
    var lists := seq(|repos|, i requires 0 <= i < |repos| => RepoTags(tb, repos[i]));
    FlatContainsEach(lists);
    assert forall i :: 0 <= i < |repos| ==> lists[i] == RepoTags(tb, repos[i]);
  }

  /** The case of a project type does not matter. */
  lemma TypeTagIgnoresCase(tb: Tables, t: string)
    ensures TypeTag(tb, t) == TypeTag(tb, Strings.Lower(t))
  {
    var lower := Strings.Lower(t);
    assert Strings.Lower(lower) == lower;
    if lower !in tb.friendly && |t| > 0 {
      assert Strings.UpperChar(lower[0]) == Strings.UpperChar(t[0]);
      assert lower[1..] == Strings.Lower(t[1..]);
    }
  }

  /** The case of a language does matter when it has no friendly name:
      "Rust" and "rust" make two chips, where the project types "Rust" and
      "rust" make one. */
  lemma LanguageKeepsCase(tb: Tables, l: string)
    requires Strings.Lower(l) !in tb.friendly && Strings.Lower(l) != l
    ensures LanguageTag(tb, l) != LanguageTag(tb, Strings.Lower(l))
    ensures TypeTag(tb, l) == TypeTag(tb, Strings.Lower(l))
  {
    assert Strings.Lower(Strings.Lower(l)) == Strings.Lower(l);
    TypeTagIgnoresCase(tb, l);
  }

  // ---------------------------------------------------------------------------
  // Counting

  /** A tag and its count, as a `Map` entry. */
  type Entry = (string, nat)

  /** `tagCounts.set(tag, (tagCounts.get(tag) || 0) + 1)`: the entry of the
      tag is incremented in place, or a new entry is appended. */
  function Bump(counts: seq<Entry>, t: string): seq<Entry>
    decreases |counts|
  {
    if |counts| == 0 then [(t, 1)]
    else if counts[0].0 == t then [(t, counts[0].1 + 1)] + counts[1..]
    else [counts[0]] + Bump(counts[1..], t)
  }

  /** A tag not yet counted gets a new entry at the end. */
  lemma {:induction false} BumpAppends(counts: seq<Entry>, t: string)
    requires forall j :: 0 <= j < |counts| ==> counts[j].0 != t
    ensures Bump(counts, t) == counts + [(t, 1)]
    decreases |counts|
  {
    if |counts| > 0 {
      BumpAppends(counts[1..], t);
      assert counts == [counts[0]] + counts[1..];
    }
  }

  /** A counted tag has its entry incremented where it stands. */
  lemma {:induction false} BumpIncrements(counts: seq<Entry>, t: string, m: nat)
    requires m < |counts| && counts[m].0 == t && forall j :: 0 <= j < m ==> counts[j].0 != t
    ensures Bump(counts, t) == counts[m := (t, counts[m].1 + 1)]
    decreases m
  {
    if m > 0 {
      var rest := counts[1..];
      BumpIncrements(rest, t, m - 1);
      assert [counts[0]] + rest[m - 1 := (t, counts[m].1 + 1)] == counts[m := (t, counts[m].1 + 1)];
    }
  }

  /** The tag counts after `forEach` over the occurrences. */
  function Tally(occ: seq<string>): seq<Entry>
    decreases |occ|
  {
    if |occ| == 0 then []
    else Bump(Tally(occ[..|occ| - 1]), occ[|occ| - 1])
  }

  /** The distinct tags in order of first occurrence. */
  function FirstSeen(occ: seq<string>): (d: seq<string>)
    ensures Sorting.Distinct(d)
    ensures forall x :: x in d <==> x in occ
    decreases |occ|
  {
    if |occ| == 0 then []
    else
      var p := occ[..|occ| - 1];
      var t := occ[|occ| - 1];
      assert occ == p + [t];
      if t in p then FirstSeen(p) else FirstSeen(p) + [t]
  }

  /** What the counting map means: each distinct tag, in order of first
      occurrence, with the number of its occurrences. */
  function Reference(occ: seq<string>): (counts: seq<Entry>)
    ensures |counts| == |FirstSeen(occ)|
    ensures forall i :: 0 <= i < |counts| ==> counts[i] == (FirstSeen(occ)[i], multiset(occ)[FirstSeen(occ)[i]])
  {
    var d := FirstSeen(occ);
    seq(|d|, i requires 0 <= i < |d| => (d[i], multiset(occ)[d[i]]))
  }

  /** The map built by incrementing holds exactly the reference counts, in
      the same order. */
  lemma {:induction false} TallyCounts(occ: seq<string>)
    ensures Tally(occ) == Reference(occ)
    decreases |occ|
  {
    if |occ| > 0 {
      var p := occ[..|occ| - 1];
      var t := occ[|occ| - 1];
      TallyCounts(p);
      assert occ == p + [t];
      CountStep(p, t);
    }
  }

  /** One more occurrence bumps the reference counts as the map does. */
  lemma CountStep(p: seq<string>, t: string)
    ensures Reference(p + [t]) == Bump(Reference(p), t)
  {
    if t in p {
      CountStepSeen(p, t);
    } else {
      CountStepNew(p, t);
    }
  }

  /** A tag seen before has its count raised in place. */
  lemma CountStepSeen(p: seq<string>, t: string)
    requires t in p
    ensures Reference(p + [t]) == Bump(Reference(p), t)
  {
    var occ := p + [t];
    assert occ[..|occ| - 1] == p;
    assert multiset(occ) == multiset(p) + multiset{t};
    var before := Reference(p);
    var d := FirstSeen(p);
    var m :| 0 <= m < |d| && d[m] == t;
    assert before[m].0 == t && forall j :: 0 <= j < m ==> before[j].0 != t;
    BumpIncrements(before, t, m);
    assert FirstSeen(occ) == d;
    CountSeen(occ, p, t, d, m);
    assert before[m].1 == multiset(p)[t];
  }

  /** A new tag is appended with a count of one. */
  lemma CountStepNew(p: seq<string>, t: string)
    requires t !in p
    ensures Reference(p + [t]) == Bump(Reference(p), t)
  {
    var occ := p + [t];
    assert occ[..|occ| - 1] == p;
    assert multiset(occ) == multiset(p) + multiset{t};
    var before := Reference(p);
    var d := FirstSeen(p);
    var after := Reference(occ);
    assert forall j :: 0 <= j < |before| ==> before[j].0 != t;
    BumpAppends(before, t);
    assert FirstSeen(occ) == d + [t];
    var added: Entry := (t, 1);
    forall i | 0 <= i < |d| + 1 ensures after[i] == (before + [added])[i] {
      if i < |d| {
        assert d[i] != t;
      }
    }
    assert |after| == |d| + 1;
  }

  lemma CountSeen(occ: seq<string>, p: seq<string>, t: string, d: seq<string>, m: nat)
    requires multiset(occ) == multiset(p) + multiset{t}
    requires d == FirstSeen(p) == FirstSeen(occ) && m < |d| && d[m] == t
    ensures Reference(occ) == Reference(p)[m := (t, multiset(p)[t] + 1)]
  {
    var before := Reference(p);
    var after := Reference(occ);
    forall i | 0 <= i < |d| ensures after[i] == before[m := (t, multiset(p)[t] + 1)][i] {
      if i != m {
        assert d[i] != t;
      }
    }
  }

  // ---------------------------------------------------------------------------
  // Ranking

  /** `priorityTags.indexOf(tag)`, with "absent" ranked after every
      priority tag. */
  function Rank(tb: Tables, t: string): (r: nat)
    ensures r <= |tb.priority|
    ensures r < |tb.priority| ==> tb.priority[r] == t && forall j :: 0 <= j < r ==> tb.priority[j] != t
    ensures r == |tb.priority| <==> t !in tb.priority
  {
    IndexOf(tb.priority, t)
  }

  function IndexOf(s: seq<string>, x: string): (r: nat)
    ensures r <= |s|
    ensures r < |s| ==> s[r] == x && forall j :: 0 <= j < r ==> s[j] != x
    ensures r == |s| <==> x !in s
    decreases |s|
  {
    if |s| == 0 then 0
    else if s[0] == x then 0
    else
      var rest := IndexOf(s[1..], x);
      assert forall j :: 0 < j < |s| ==> s[j] == s[1..][j - 1];
      assert x in s <==> x == s[0] || x in s[1..];
      rest + 1
  }

  /** The comparator as a sort key: rank first, then count descending. */
  function EntryKey(tb: Tables, e: Entry): seq<int> {
    [Rank(tb, e.0) as int, -(e.1 as int)]
  }

  function KeyFor(tb: Tables): Entry -> seq<int> {
    (e: Entry) => EntryKey(tb, e)
  }

  /** The comparator's order on two tags with their counts: a priority tag
      before any other, priority tags in list order, other tags by count,
      most frequent first. */
  predicate Precedes(tb: Tables, a: string, ca: nat, b: string, cb: nat) {
    Rank(tb, a) < Rank(tb, b) || (Rank(tb, a) == Rank(tb, b) && ca >= cb)
  }

  lemma KeyOrder(tb: Tables, a: Entry, b: Entry)
    ensures Sorting.LexLe(EntryKey(tb, a), EntryKey(tb, b)) <==> Precedes(tb, a.0, a.1, b.0, b.1)
  {
    PairOrder(Rank(tb, a.0), -(a.1 as int), Rank(tb, b.0), -(b.1 as int));
  }

  /** Lexicographic order on pairs. */
  lemma PairOrder(x1: int, y1: int, x2: int, y2: int)
    ensures Sorting.LexLe([x1, y1], [x2, y2]) <==> x1 < x2 || (x1 == x2 && y1 <= y2)
  {
    assert [x1, y1][1..] == [y1];
    assert [x2, y2][1..] == [y2];
    assert [y1][1..] == [] && [y2][1..] == [];
    assert Sorting.LexLe([], []);
    assert Sorting.LexLe([y1], [y2]) <==> y1 <= y2;
  }

  // ---------------------------------------------------------------------------
  // The chips

  function KeepFor(tb: Tables): Entry -> bool {
    (e: Entry) => e.0 !in tb.defaults
  }

  /** The counted tags, ranked, without the default ones. */
  function DataEntries(tb: Tables, occ: seq<string>): seq<Entry> {
    var counts := Tally(occ);
    assert Sorting.UniformKeys(counts, KeyFor(tb));
    Carousel.Filter(Sorting.SortBy(counts, KeyFor(tb)), KeepFor(tb))
  }

  /** The entries as counted and as sorted: the same entries, each a tag
      of the occurrences with its count, none twice. */
  lemma SortedEntries(tb: Tables, occ: seq<string>)
    ensures var counts := Tally(occ);
      Sorting.UniformKeys(counts, KeyFor(tb))
      && var sorted := Sorting.SortBy(counts, KeyFor(tb));
      && Sorting.Distinct(sorted)
      && forall e :: e in sorted ==> e.0 in occ && e.1 == multiset(occ)[e.0]
  {
    var counts := Tally(occ);
    TallyCounts(occ);
    var d := FirstSeen(occ);
    assert Sorting.UniformKeys(counts, KeyFor(tb));
    var sorted := Sorting.SortBy(counts, KeyFor(tb));
    forall e | e in sorted ensures e.0 in occ && e.1 == multiset(occ)[e.0] {
      Sorting.PermutationMembers(sorted, counts, e);
      var k :| 0 <= k < |counts| && counts[k] == e;
      assert counts[k] == (d[k], multiset(occ)[d[k]]);
    }
    assert Sorting.Distinct(counts) by {
      forall i, j | 0 <= i < j < |counts| ensures counts[i] != counts[j] {
        assert counts[i].0 == d[i] && counts[j].0 == d[j];
      }
    }
    Sorting.PermutationDistinct(counts, sorted);
  }

  /** Each data entry is a counted, non-default tag with its count. */
  lemma DataMembers(tb: Tables, occ: seq<string>)
    ensures var data := DataEntries(tb, occ);
      forall i :: 0 <= i < |data| ==> data[i].0 !in tb.defaults && data[i].0 in occ && data[i].1 == multiset(occ)[data[i].0]
  {
    SortedEntries(tb, occ);
    var sorted := Sorting.SortBy(Tally(occ), KeyFor(tb));
    var data := DataEntries(tb, occ);
    Carousel.SubsequenceMembers(data, sorted);
    forall i | 0 <= i < |data|
      ensures data[i].0 !in tb.defaults && data[i].0 in occ && data[i].1 == multiset(occ)[data[i].0]
    {
      var e := data[i];
      assert e in data && KeepFor(tb)(e);
      assert e in sorted;
    }
  }

  /** No tag twice, and the comparator's order. */
  lemma DataOrdered(tb: Tables, occ: seq<string>)
    ensures var data := DataEntries(tb, occ);
      forall i, j :: 0 <= i < j < |data| ==>
        data[i].0 != data[j].0 && Precedes(tb, data[i].0, data[i].1, data[j].0, data[j].1)
  {
    SortedEntries(tb, occ);
    DataMembers(tb, occ);
    var sorted := Sorting.SortBy(Tally(occ), KeyFor(tb));
    var data := DataEntries(tb, occ);
    Carousel.SubsequencePairs(data, sorted, (x: Entry, y: Entry) => x != y);
    Carousel.SubsequencePairs(data, sorted, (x: Entry, y: Entry) => Sorting.LexLe(KeyFor(tb)(x), KeyFor(tb)(y)));
    forall i, j | 0 <= i < j < |data|
      ensures data[i].0 != data[j].0 && Precedes(tb, data[i].0, data[i].1, data[j].0, data[j].1)
    {
      KeyOrder(tb, data[i], data[j]);
    }
  }

  /** Every counted tag that is not a default one has its entry. */
  lemma DataComplete(tb: Tables, occ: seq<string>)
    ensures var data := DataEntries(tb, occ);
      forall t :: t in occ && t !in tb.defaults ==> exists i :: 0 <= i < |data| && data[i].0 == t
  {
    var counts := Tally(occ);
    TallyCounts(occ);
    var d := FirstSeen(occ);
    assert Sorting.UniformKeys(counts, KeyFor(tb));
    var sorted := Sorting.SortBy(counts, KeyFor(tb));
    var data := DataEntries(tb, occ);
    forall t | t in occ && t !in tb.defaults ensures exists i :: 0 <= i < |data| && data[i].0 == t {
      var m :| 0 <= m < |d| && d[m] == t;
      var e := counts[m];
      assert e in counts;
      Sorting.PermutationMembers(sorted, counts, e);
      assert e in data;
    }
  }

  /** What the ranked data tags are: each a counted, non-default tag with
      its count, none twice, in the comparator's order, and none missing. */
  predicate Ranked(tb: Tables, occ: seq<string>, data: seq<Entry>) {
    && (forall i :: 0 <= i < |data| ==> data[i].0 !in tb.defaults && data[i].0 in occ && data[i].1 == multiset(occ)[data[i].0])
    && (forall i, j :: 0 <= i < j < |data| ==> data[i].0 != data[j].0)
    && (forall i, j :: 0 <= i < j < |data| ==> Precedes(tb, data[i].0, data[i].1, data[j].0, data[j].1))
    && (forall t :: t in occ && t !in tb.defaults ==> exists i :: 0 <= i < |data| && data[i].0 == t)
  }

  lemma DataEntriesRanked(tb: Tables, occ: seq<string>)
    ensures Ranked(tb, occ, DataEntries(tb, occ))
  {
    DataMembers(tb, occ);
    DataOrdered(tb, occ);
    DataComplete(tb, occ);
  }

  /** The defaults followed by the data tags, cut to eight. */
  function Chips(defaults: seq<string>, data: seq<Entry>): (chips: seq<string>)
    requires |defaults| <= MaxChips
    ensures |defaults| <= |chips| <= MaxChips && chips[..|defaults|] == defaults
    ensures |chips| == (if |defaults| + |data| < MaxChips then |defaults| + |data| else MaxChips)
    ensures forall k :: |defaults| <= k < |chips| ==> chips[k] == data[k - |defaults|].0
    ensures forall i :: 0 <= i < |data| && |defaults| + i < MaxChips ==> chips[|defaults| + i] == data[i].0
  {
    var all := defaults + seq(|data|, i requires 0 <= i < |data| => data[i].0);
    all[..if |all| < MaxChips then |all| else MaxChips]
  }

  lemma ChipsDistinct(tb: Tables, occ: seq<string>, data: seq<Entry>)
    requires |tb.defaults| <= MaxChips && Sorting.Distinct(tb.defaults) && Ranked(tb, occ, data)
    ensures Sorting.Distinct(Chips(tb.defaults, data))
  {
    var chips := Chips(tb.defaults, data);
    var n := |tb.defaults|;
    forall i, j | 0 <= i < j < |chips| ensures chips[i] != chips[j] {
      if j >= n && i < n {
        assert chips[i] == chips[..n][i] == tb.defaults[i];
        assert chips[j] == data[j - n].0;
      } else if i >= n {
        assert chips[i] == data[i - n].0 && chips[j] == data[j - n].0;
      } else {
        assert chips[i] == chips[..n][i] && chips[j] == chips[..n][j];
      }
    }
  }

  lemma ChipsOrdered(tb: Tables, occ: seq<string>, data: seq<Entry>)
    requires |tb.defaults| <= MaxChips && Ranked(tb, occ, data)
    ensures var chips := Chips(tb.defaults, data);
      forall i, j :: |tb.defaults| <= i < j < |chips| ==>
        chips[i] !in tb.defaults && chips[i] in occ && chips[j] !in tb.defaults && chips[j] in occ
        && Precedes(tb, chips[i], multiset(occ)[chips[i]], chips[j], multiset(occ)[chips[j]])
  {
    var chips := Chips(tb.defaults, data);
    var n := |tb.defaults|;
    forall i, j | n <= i < j < |chips|
      ensures chips[i] !in tb.defaults && chips[i] in occ && chips[j] !in tb.defaults && chips[j] in occ
      ensures Precedes(tb, chips[i], multiset(occ)[chips[i]], chips[j], multiset(occ)[chips[j]])
    {
      assert chips[i] == data[i - n].0 && chips[j] == data[j - n].0;
    }
  }

  lemma ChipsComplete(tb: Tables, occ: seq<string>, data: seq<Entry>, t: string)
    requires |tb.defaults| <= MaxChips && Ranked(tb, occ, data)
    requires t in occ && t !in Chips(tb.defaults, data)
    ensures |Chips(tb.defaults, data)| == MaxChips
    ensures forall k :: |tb.defaults| <= k < MaxChips ==>
              var chips := Chips(tb.defaults, data);
              Precedes(tb, chips[k], multiset(occ)[chips[k]], t, multiset(occ)[t])
  {
    var chips := Chips(tb.defaults, data);
    var n := |tb.defaults|;
    forall x | x in tb.defaults ensures x in chips {
      var k :| 0 <= k < n && tb.defaults[k] == x;
      assert chips[..n][k] == x;
    }
    var m :| 0 <= m < |data| && data[m].0 == t;
    forall k | n <= k < MaxChips
      ensures Precedes(tb, chips[k], multiset(occ)[chips[k]], t, multiset(occ)[t])
    {
      assert chips[k] == data[k - n].0;
    }
  }

  /** ChipsComplete for every tag left out. */
  lemma ChipsCompleteAll(tb: Tables, occ: seq<string>, data: seq<Entry>)
    requires |tb.defaults| <= MaxChips && Ranked(tb, occ, data)
    ensures forall t :: t in occ && t !in Chips(tb.defaults, data) ==>
              (|Chips(tb.defaults, data)| == MaxChips
               && forall k :: |tb.defaults| <= k < MaxChips ==>
                    var chips := Chips(tb.defaults, data);
                    Precedes(tb, chips[k], multiset(occ)[chips[k]], t, multiset(occ)[t]))
  {
    forall t | t in occ && t !in Chips(tb.defaults, data)
      ensures |Chips(tb.defaults, data)| == MaxChips
      ensures forall k :: |tb.defaults| <= k < MaxChips ==>
                var chips := Chips(tb.defaults, data);
                Precedes(tb, chips[k], multiset(occ)[chips[k]], t, multiset(occ)[t])
    {
      ChipsComplete(tb, occ, data, t);
    }
  }

  /** `quickFilterTags`: the default tags, then the ranked data tags that
      are not among them, eight at most. */
  function QuickFilterTags(tb: Tables, repos: seq<Portfolio.Repo>): (chips: seq<string>)
    requires |tb.defaults| <= MaxChips && Sorting.Distinct(tb.defaults)
    ensures |tb.defaults| <= |chips| <= MaxChips && chips[..|tb.defaults|] == tb.defaults
    ensures Sorting.Distinct(chips)
    ensures forall i, j :: |tb.defaults| <= i < j < |chips| ==>
              var occ := Occurrences(tb, repos);
              chips[i] !in tb.defaults && chips[i] in occ && chips[j] !in tb.defaults && chips[j] in occ
              && Precedes(tb, chips[i], multiset(occ)[chips[i]], chips[j], multiset(occ)[chips[j]])
    ensures forall t :: t in Occurrences(tb, repos) && t !in chips ==>
              (|chips| == MaxChips
               && forall k :: |tb.defaults| <= k < MaxChips ==>
                    var occ := Occurrences(tb, repos);
                    Precedes(tb, chips[k], multiset(occ)[chips[k]], t, multiset(occ)[t]))
  {
    var occ := Occurrences(tb, repos);
    var data := DataEntries(tb, occ);
    DataEntriesRanked(tb, occ);
    ChipsDistinct(tb, occ, data);
    ChipsOrdered(tb, occ, data);
    ChipsCompleteAll(tb, occ, data);
    Chips(tb.defaults, data)
  }

  /** The page's tables meet the requirements above: six distinct default
      tags. */
  lemma PageTables()
    ensures |Page.defaults| == 6 <= MaxChips && Sorting.Distinct(Page.defaults)
  {
  }

  /** The page's chips: the six defaults, then at most two data tags. */
  function PageChips(repos: seq<Portfolio.Repo>): (chips: seq<string>)
    ensures 6 <= |chips| <= MaxChips && chips[..6] == DefaultTags
  {
    PageTables();
    QuickFilterTags(Page, repos)
  }

  /** With no repository the chips are the defaults alone. */
  lemma NoRepositoriesDefaultsOnly(tb: Tables)
    requires |tb.defaults| <= MaxChips && Sorting.Distinct(tb.defaults)
    ensures QuickFilterTags(tb, []) == tb.defaults
  {
    assert Occurrences(tb, []) == [];
    assert Tally([]) == [];
    assert DataEntries(tb, []) == [];
  }
}

=== FILE: project_requests.dfy ===
/** The `/project-requests` endpoints: the public "start a project" form is
    stored and announced to a Discord webhook; requests are listed newest
    first and moved through a fixed set of statuses.

    The table is a sequence of rows in insertion order with the next serial
    id and the column default of `status`. The webhook post is a parameter
    that answers whether the post went through (a raise inside the
    notifier's try block is a `false`). */
module ProjectRequests {
  import opened Wrappers
  import opened Strings
  import Config
  import Sorting

  datatype RequestForm = RequestForm(
    outputType: string, outputOther: Option<string>, features: Option<string>, idea: Option<string>,
    contactName: Option<string>, contactEmail: Option<string>, contactPhone: Option<string>,
    budget: Option<string>)

  datatype RequestRow = RequestRow(id: int, form: RequestForm, status: string, createdAt: int)

  datatype RequestTable = RequestTable(rows: seq<RequestRow>, nextId: int, defaultStatus: string)

  datatype EmbedField = EmbedField(name: string, value: string, inline: bool)

  /** The Discord embed announcing a request. */
  datatype Embed = Embed(title: string, color: int, fields: seq<EmbedField>, footer: string, timestamp: string)

  /** The statuses a request may be moved to. */
  const ValidStatuses: seq<string> := ["pending", "reviewed", "in_progress", "completed", "rejected"]

  /** Python's `str` of the status list. */
  const ValidStatusesText: string := "['pending', 'reviewed', 'in_progress', 'completed', 'rejected']"

  const OutputTypeLabels: map<string, string> := map[
    "website" := "웹사이트",
    "webapp" := "웹 애플리케이션",
    "mobile" := "모바일 앱",
    "automation" := "자동화 프로그램",
    "dashboard" := "대시보드/관리자 페이지",
    "other" := "기타"]

  /** The embed's colour, blue. */
  const EmbedColor: int := 5814783

  /** The longest idea shown in full. */
  const IdeaLimit: nat := 500

  // ---------------------------------------------------------------------------
  // The announcement

  /** Python's `x or "-"` on an optional text. */
  function OrDash(x: Option<string>): string {
    if x.None? || x.value == "" then "-" else x.value
  }

  /** The output type's label; "other" with a description shows it. */
  function OutputLabel(form: RequestForm): (text: string)
    ensures form.outputType == "other" && form.outputOther.Some? && form.outputOther.value != ""
            ==> text == "기타: " + form.outputOther.value
    ensures form.outputType in OutputTypeLabels && form.outputType != "other" ==> text == OutputTypeLabels[form.outputType]
    ensures form.outputType !in OutputTypeLabels ==> text == form.outputType
  {
    if form.outputType == "other" && form.outputOther.Some? && form.outputOther.value != "" then
      "기타: " + form.outputOther.value
    else if form.outputType in OutputTypeLabels then OutputTypeLabels[form.outputType]
    else form.outputType
  }

  /** The idea, cut to its first 500 characters followed by "..." when
      longer, "-" when missing or empty. */
  function IdeaField(idea: Option<string>): (v: string)
    ensures |v| <= IdeaLimit + 3
    ensures idea.Some? && 0 < |idea.value| <= IdeaLimit ==> v == idea.value
    ensures idea.Some? && |idea.value| > IdeaLimit ==> |v| == IdeaLimit + 3 && v[..IdeaLimit] == idea.value[..IdeaLimit] && v[IdeaLimit..] == "..."
    ensures idea.None? || idea.value == "" ==> v == "-"
  {
    if idea.Some? && |idea.value| > IdeaLimit then idea.value[..IdeaLimit] + "..." else OrDash(idea)
  }

  /** The embed for request `id`. */
  function EmbedFor(form: RequestForm, id: int, timestamp: string): (e: Embed)
    ensures |e.fields| == 7
    ensures e.fields[0].value == OutputLabel(form) && e.fields[6].value == IdeaField(form.idea)
  {
    Embed("\U{1F680} 새로운 프로젝트 요청 #" + IntToString(id), EmbedColor,
      [EmbedField("\U{1F4CB} 원하는 아웃풋", OutputLabel(form), true),
       EmbedField("\U{1F4B0} 예산", OrDash(form.budget), true),
       EmbedField("\U{1F464} 담당자", OrDash(form.contactName), true),
       EmbedField("\U{1F4E7} 이메일", OrDash(form.contactEmail), true),
       EmbedField("\U{1F4F1} 전화번호", OrDash(form.contactPhone), true),
       EmbedField("⚙️ 원하는 기능", OrDash(form.features), false),
       EmbedField("\U{1F4A1} 아이디어 설명", IdeaField(form.idea), false)],
      "포트폴리오 사이트", timestamp)
  }

  /** The title names the request: two requests' titles differ. */
  lemma EmbedTitleNamesRequest(f1: RequestForm, id1: int, f2: RequestForm, id2: int, ts: string)
    requires EmbedFor(f1, id1, ts).title == EmbedFor(f2, id2, ts).title
    ensures id1 == id2
  {
    var prefix := "\U{1F680} 새로운 프로젝트 요청 #";
    assert EmbedFor(f1, id1, ts).title[|prefix|..] == IntToString(id1);
    assert EmbedFor(f2, id2, ts).title[|prefix|..] == IntToString(id2);
    IntToStringInjective(id1, id2);
  }

  /** `send_discord_notification`: reading the webhook address happens
      before the try block, so an undeclared attribute raises; an empty
      address skips the post; otherwise the answer is whether the post of
      the request's embed went through. */
  function Notify(settings: Config.Attributes, form: RequestForm, id: int, timestamp: string,
                  post: (string, Embed) -> bool): (r: Result<bool>)
    ensures "discord_webhook_url" !in settings.declared ==> r == Err(Raised("AttributeError"))
    ensures "discord_webhook_url" in settings.declared ==> r.Ok?
    ensures r == Ok(true) <==> "discord_webhook_url" in settings.declared && settings.value("discord_webhook_url") != ""
                               && post(settings.value("discord_webhook_url"), EmbedFor(form, id, timestamp))
  {
    match settings.Get("discord_webhook_url")
    case Err(e) => Err(e)
    case Ok(url) =>
      if url == "" then Ok(false)
      else Ok(post(url, EmbedFor(form, id, timestamp)))
  }

  // ---------------------------------------------------------------------------
  // The endpoints

  /** `POST /project-requests`: the row is inserted, then the notifier runs;
      its raise, unlike its failure, reaches the caller after the insert. */
  function CreateRequest(t: RequestTable, form: RequestForm, settings: Config.Attributes, timestamp: string,
                         post: (string, Embed) -> bool, now: int): (res: (Result<RequestRow>, RequestTable))
    ensures res.1.rows == t.rows + [RequestRow(t.nextId, form, t.defaultStatus, now)]
    ensures res.1.nextId == t.nextId + 1 && res.1.defaultStatus == t.defaultStatus
    ensures res.0.Ok? <==> "discord_webhook_url" in settings.declared
    ensures res.0.Ok? ==> res.0.value == RequestRow(t.nextId, form, t.defaultStatus, now)
  {
    var row := RequestRow(t.nextId, form, t.defaultStatus, now);
    var t' := RequestTable(t.rows + [row], t.nextId + 1, t.defaultStatus);
    match Notify(settings, form, row.id, timestamp, post)
    case Err(e) => (Err(e), t')
    case Ok(_) => (Ok(row), t')
  }

  /** As the settings class is declared, every submission is answered 500
      although its row was stored. */
  lemma CreateAsWritten(t: RequestTable, form: RequestForm, value: string -> string, timestamp: string,
                        post: (string, Embed) -> bool, now: int)
    ensures var (r, t') := CreateRequest(t, form, Config.Attributes(Config.SettingsFields, value), timestamp, post, now);
      r == Err(Raised("AttributeError")) && StatusOf(r) == 500 && |t'.rows| == |t.rows| + 1
  {
    assert "discord_webhook_url" !in Config.SettingsFields;
  }

  /** With the webhook address declared the submission succeeds whether or
      not the announcement goes through, and the answer is the stored row. */
  lemma CreateCorrected(t: RequestTable, form: RequestForm, settings: Config.Attributes, timestamp: string,
                        post: (string, Embed) -> bool, now: int)
    requires "discord_webhook_url" in settings.declared
    ensures var (r, t') := CreateRequest(t, form, settings, timestamp, post, now);
      r.Ok? && r.value == t'.rows[|t'.rows| - 1] && r.value.id == t.nextId && r.value.form == form
  {
  }

  /** The created_at sort key: newest first. */
  function NewestFirst(r: RequestRow): seq<int> {
    [-r.createdAt]
  }

  /** `GET /project-requests`: every row, newest first. Rows created at the
      same time come in insertion order here; the database leaves their
      order open. */
  function ListRequests(t: RequestTable): (rows: seq<RequestRow>)
    ensures multiset(rows) == multiset(t.rows)
    ensures forall i, j :: 0 <= i < j < |rows| ==> rows[i].createdAt >= rows[j].createdAt
  {
    var rows := Sorting.SortBy(t.rows, NewestFirst);
    assert forall i, j :: 0 <= i < j < |rows| ==> rows[i].createdAt >= rows[j].createdAt by {
      forall i, j | 0 <= i < j < |rows| ensures rows[i].createdAt >= rows[j].createdAt {
        assert Sorting.LexLe(NewestFirst(rows[i]), NewestFirst(rows[j]));
      }
    }
    rows
  }

  /** Every stored request is listed. */
  lemma ListedAfterCreate(t: RequestTable, form: RequestForm, settings: Config.Attributes, timestamp: string,
                          post: (string, Embed) -> bool, now: int)
    ensures RequestRow(t.nextId, form, t.defaultStatus, now)
            in ListRequests(CreateRequest(t, form, settings, timestamp, post, now).1)
  {
    var t' := CreateRequest(t, form, settings, timestamp, post, now).1;
    var row := RequestRow(t.nextId, form, t.defaultStatus, now);
    assert t'.rows[|t'.rows| - 1] == row;
    Sorting.PermutationMembers(ListRequests(t'), t'.rows, row);
  }

  /** The table with every row of id `id` moved to `status`. */
  function SetStatus(rows: seq<RequestRow>, id: int, status: string): (r: seq<RequestRow>)
    ensures |r| == |rows|
    ensures forall i :: 0 <= i < |rows| ==>
              r[i] == (if rows[i].id == id then rows[i].(status := status) else rows[i])
  {
    seq(|rows|, (i: int) requires 0 <= i < |rows| => if rows[i].id == id then rows[i].(status := status) else rows[i])
  }

  predicate HasId(rows: seq<RequestRow>, id: int) {
    exists i :: 0 <= i < |rows| && rows[i].id == id
  }

  /** `PATCH /project-requests/{id}/status`: a status outside the list is
      400 before the table is touched; an id with no row is 404. */
  function UpdateRequestStatus(t: RequestTable, id: int, status: string): (res: (Result<string>, RequestTable))
    ensures status !in ValidStatuses ==>
              res == (Err(Http(400, "Invalid status. Must be one of: " + ValidStatusesText)), t)
    ensures status in ValidStatuses && !HasId(t.rows, id) ==> res == (Err(Http(404, "Project request not found")), t)
    ensures res.0.Ok? <==> status in ValidStatuses && HasId(t.rows, id)
    ensures res.0.Ok? ==> res.0.value == "Status updated" && res.1.rows == SetStatus(t.rows, id, status)
    ensures res.1.nextId == t.nextId && res.1.defaultStatus == t.defaultStatus
  {
    if status !in ValidStatuses then (Err(Http(400, "Invalid status. Must be one of: " + ValidStatusesText)), t)
    else if !HasId(t.rows, id) then (Err(Http(404, "Project request not found")), t)
    else (Ok("Status updated"), t.(rows := SetStatus(t.rows, id, status)))
  }

  /** Every row holds a listed status. */
  predicate StatusesValid(t: RequestTable) {
    forall i :: 0 <= i < |t.rows| ==> t.rows[i].status in ValidStatuses
  }

  /** With a listed column default, creating and updating keep every status
      in the list. */
  lemma StatusesStayValid(t: RequestTable, form: RequestForm, settings: Config.Attributes, timestamp: string,
                          post: (string, Embed) -> bool, now: int, id: int, status: string)
    requires StatusesValid(t) && t.defaultStatus in ValidStatuses
    ensures StatusesValid(CreateRequest(t, form, settings, timestamp, post, now).1)
    ensures StatusesValid(UpdateRequestStatus(t, id, status).1)
  {
  }

  /** After an update the request carries the new status; its id, form and
      creation time, and every other request, are unchanged. The update
      time the statement also sets is not a field of the model. */
  lemma UpdateChangesOnlyStatus(t: RequestTable, id: int, status: string, i: nat)
    requires i < |t.rows| && UpdateRequestStatus(t, id, status).0.Ok?
    ensures var r := UpdateRequestStatus(t, id, status).1.rows[i];
      r.id == t.rows[i].id && r.form == t.rows[i].form && r.createdAt == t.rows[i].createdAt
      && r.status == (if t.rows[i].id == id then status else t.rows[i].status)
  {
  }
}

=== FILE: projects_manager.dfy ===
/** The admin screenshot editor: per project, an edit buffer of screenshots
    that shadows the server's list until it is saved. */
module ProjectsManager {
  import opened Wrappers
  import Strings
  import Upload

  /** A screenshot as the editor holds it; `url` may be a presigned URL or a
      bare storage key, and absent fields are None. */
  datatype Screenshot = Screenshot(url: Option<string>, key: Option<string>, caption: Option<string>, order: int)

  /** A repository as listed by `GET /repos`, reduced to what the editor
      reads. */
  datatype Project = Project(id: int, screenshots: Option<seq<Screenshot>>)

  /** The edit buffers, by project id (`localScreenshots`). */
  type Edits = map<int, seq<Screenshot>>

  const FilePath := "/api/upload/file/"

  /** JavaScript truthiness of an optional string. */
  predicate Truthy(s: Option<string>) {
    s.Some? && s.value != ""
  }

  /** `getImageUrl`: a key is served through the file endpoint; an http URL
      is used as is; any other non-empty url is taken for a key; otherwise
      the url comes back unchanged. */
  function ImageUrl(apiBase: string, s: Screenshot): (u: Option<string>)
    ensures Truthy(s.key) ==> u == Some(apiBase + FilePath + s.key.value)
    ensures !Truthy(s.key) && s.url.Some? && Strings.StartsWith(s.url.value, "http") ==> u == s.url
    ensures !Truthy(s.key) && Truthy(s.url) && !Strings.StartsWith(s.url.value, "http") ==>
              u == Some(apiBase + FilePath + s.url.value)
    ensures !Truthy(s.key) && !Truthy(s.url) ==> u == s.url
  {
    if Truthy(s.key) then Some(apiBase + FilePath + s.key.value)
    else if s.url.Some? && Strings.StartsWith(s.url.value, "http") then s.url
    else if Truthy(s.url) then Some(apiBase + FilePath + s.url.value)
    else s.url
  }

  /** `getScreenshots`: the edit buffer when there is one (even an empty
      one), else the server's list, else nothing. */
  function Screenshots(edits: Edits, p: Project): (shots: seq<Screenshot>)
    ensures p.id in edits ==> shots == edits[p.id]
    ensures p.id !in edits ==> shots == p.screenshots.GetOr([])
  {
    if p.id in edits then edits[p.id] else p.screenshots.GetOr([])
  }

  /** `data?.find(p => p.id === projectId)`: the first listed project with
      the id, if the list has loaded. */
  function Find(data: Option<seq<Project>>, id: int): (p: Option<Project>)
    ensures p.Some? ==> p.value.id == id && data.Some? && p.value in data.value
    ensures p.None? ==> data.None? || forall q :: q in data.value ==> q.id != id
  {
    match data
    case None => None
    case Some(ps) => FindIn(ps, id)
  }

  function FindIn(ps: seq<Project>, id: int): (p: Option<Project>)
    ensures p.Some? ==> p.value.id == id && p.value in ps
    ensures p.None? ==> forall q :: q in ps ==> q.id != id
    decreases |ps|
  {
    if |ps| == 0 then None
    else if ps[0].id == id then Some(ps[0])
    else
      var r := FindIn(ps[1..], id);
      assert forall q :: q in ps ==> q == ps[0] || q in ps[1..];
      r
  }

  /** The entry made for the uploaded key at position `idx`: `urls[idx] ||
      key`, an empty caption, and the next order number. */
  function NewShot(result: Upload.Uploaded, idx: nat, start: nat): (s: Screenshot)
    requires idx < |result.keys|
    ensures s.key == Some(result.keys[idx]) && s.caption == Some("") && s.order == start + idx
    ensures idx < |result.urls| && result.urls[idx] != "" ==> s.url == Some(result.urls[idx])
    ensures !(idx < |result.urls| && result.urls[idx] != "") ==> s.url == Some(result.keys[idx])
  {
    var url := if idx < |result.urls| && result.urls[idx] != "" then result.urls[idx] else result.keys[idx];
    Screenshot(Some(url), Some(result.keys[idx]), Some(""), start + idx)
  }

  /** `handleFileUpload` after the upload answered: when the project is in
      the loaded list, its buffer becomes its current screenshots followed by
      one new entry per returned key; a failed upload changes nothing. */
  function UploadDone(data: Option<seq<Project>>, edits: Edits, id: int, result: Option<Upload.Uploaded>)
    : (edits': Edits)
    ensures result.None? || Find(data, id).None? ==> edits' == edits
    ensures result.Some? && Find(data, id).Some? ==>
              var current := Screenshots(edits, Find(data, id).value);
              && edits'.Keys == edits.Keys + {id}
              && |edits'[id]| == |current| + |result.value.keys|
              && edits'[id][..|current|] == current
              && forall j :: 0 <= j < |result.value.keys| ==>
                   edits'[id][|current| + j] == NewShot(result.value, j, |current|)
    ensures forall k :: k in edits && k != id ==> k in edits' && edits'[k] == edits[k]
  {
    match (result, Find(data, id))
    case (Some(r), Some(p)) =>
      var current := Screenshots(edits, p);
      var added := seq(|r.keys|, j requires 0 <= j < |r.keys| => NewShot(r, j, |current|));
      edits[id := current + added]
    case _ => edits
  }

  /** `handleDeleteScreenshot`: the entry at `index` is dropped and the rest
      keep their order. An index past the end still opens a buffer, holding
      the current list unchanged. */
  function Delete(data: Option<seq<Project>>, edits: Edits, id: int, index: int): (edits': Edits)
    ensures Find(data, id).None? ==> edits' == edits
    ensures Find(data, id).Some? ==>
              var current := Screenshots(edits, Find(data, id).value);
              && id in edits'
              && (0 <= index < |current| ==> edits'[id] == current[..index] + current[index + 1..])
              && (!(0 <= index < |current|) ==> edits'[id] == current)
    ensures forall k :: k in edits && k != id ==> k in edits' && edits'[k] == edits[k]
  {
    match Find(data, id)
    case None => edits
    case Some(p) => edits[id := Without(Screenshots(edits, p), index)]
  }

  /** `filter((_, i) => i !== index)`. */
  function Without(shots: seq<Screenshot>, index: int): (r: seq<Screenshot>)
    ensures 0 <= index < |shots| ==> r == shots[..index] + shots[index + 1..]
    ensures !(0 <= index < |shots|) ==> r == shots
    decreases |shots|
  {
    if |shots| == 0 then []
    else if index == 0 then shots[1..]
    else
      var rest := Without(shots[1..], index - 1);
      assert 0 <= index < |shots| ==> shots[1..][..index - 1] == shots[1..index];
      assert !(0 <= index < |shots|) ==> [shots[0]] + shots[1..] == shots;
      [shots[0]] + rest
  }

  /** `handleCaptionChange`: only the caption of the entry at `index`
      changes. */
  function Caption(data: Option<seq<Project>>, edits: Edits, id: int, index: int, caption: string): (edits': Edits)
    ensures Find(data, id).None? ==> edits' == edits
    ensures Find(data, id).Some? ==>
              var current := Screenshots(edits, Find(data, id).value);
              && id in edits' && |edits'[id]| == |current|
              && (forall j :: 0 <= j < |current| && j != index ==> edits'[id][j] == current[j])
              && (0 <= index < |current| ==> edits'[id][index] == current[index].(caption := Some(caption)))
    ensures forall k :: k in edits && k != id ==> k in edits' && edits'[k] == edits[k]
  {
    match Find(data, id)
    case None => edits
    case Some(p) =>
      var current := Screenshots(edits, p);
      edits[id := seq(|current|, j requires 0 <= j < |current| =>
                        if j == index then current[j].(caption := Some(caption)) else current[j])]
  }

  /** `handleSave`'s request: the buffer, or no request at all when the
      project has no edits. */
  function SaveRequest(edits: Edits, id: int): (body: Option<seq<Screenshot>>)
    ensures body.Some? <==> HasChanges(edits, id)
    ensures body.Some? ==> body.value == edits[id]
  {
    if id in edits then Some(edits[id]) else None
  }

  /** `handleSave` after the answer: success discards the buffer of that
      project alone; failure keeps everything. Without a buffer nothing is
      sent and nothing changes. */
  function SaveDone(edits: Edits, id: int, ok: bool): (edits': Edits)
    ensures !HasChanges(edits, id) ==> edits' == edits
    ensures ok ==> !HasChanges(edits', id)
    ensures !ok ==> edits' == edits
    ensures forall k :: k != id ==> (HasChanges(edits', k) <==> HasChanges(edits, k))
    ensures forall k :: k in edits' ==> k in edits && edits'[k] == edits[k]
  {
    if ok && id in edits then edits - {id} else edits
  }

  /** `hasChanges`: a project has unsaved changes exactly when the editor
      shows its buffer instead of the server's list. */
  predicate HasChanges(edits: Edits, id: int): (b: bool)
    ensures b ==> id in edits && forall p: Project :: p.id == id ==> Screenshots(edits, p) == edits[id]
    ensures !b ==> forall p: Project :: p.id == id ==> Screenshots(edits, p) == p.screenshots.GetOr([])
  {
    id in edits
  }

  /** Uploading one file and deleting the entry it produced gives back the
      list from before the upload. */
  lemma UploadThenDelete(data: Option<seq<Project>>, edits: Edits, id: int, result: Upload.Uploaded)
    requires Find(data, id).Some? && |result.keys| == 1
    ensures var before := Screenshots(edits, Find(data, id).value);
      var after := UploadDone(data, edits, id, Some(result));
      Delete(data, after, id, |before|)[id] == before
  {
    var before := Screenshots(edits, Find(data, id).value);
    var after := UploadDone(data, edits, id, Some(result));
    assert after[id][..|before|] == before;
    assert after[id][..|before|] + after[id][|before| + 1..] == before;
  }

  /** Screenshots numbered by position stay numbered by position after an
      upload. */
  predicate OrderedByPosition(shots: seq<Screenshot>) {
    forall j :: 0 <= j < |shots| ==> shots[j].order == j
  }

  lemma UploadKeepsNumbering(data: Option<seq<Project>>, edits: Edits, id: int, result: Upload.Uploaded)
    requires Find(data, id).Some? && OrderedByPosition(Screenshots(edits, Find(data, id).value))
    ensures OrderedByPosition(UploadDone(data, edits, id, Some(result))[id])
  {
    var current := Screenshots(edits, Find(data, id).value);
    var after := UploadDone(data, edits, id, Some(result))[id];
    forall j | 0 <= j < |after| ensures after[j].order == j {
      if j < |current| {
        assert after[j] == after[..|current|][j];
      } else {
        assert after[j] == after[|current| + (j - |current|)];
      }
    }
  }

  /** Deleting an entry other than the last leaves a gap in the numbering:
      orders are not renumbered. */
  lemma DeleteLeavesGap(shots: seq<Screenshot>, index: nat)
    requires OrderedByPosition(shots) && index + 1 < |shots|
    ensures !OrderedByPosition(Without(shots, index))
  {
    assert Without(shots, index)[index] == shots[index + 1];
  }

  /** A stored key is shown through the file endpoint whatever the url
      holds, so a fresh upload shows through the API. */
  lemma UploadedShownByKey(apiBase: string, result: Upload.Uploaded, idx: nat, start: nat)
    requires idx < |result.keys| && result.keys[idx] != ""
    ensures ImageUrl(apiBase, NewShot(result, idx, start)) == Some(apiBase + FilePath + result.keys[idx])
  {
  }

  /** A save that succeeds after an edit leaves no unsaved change for that
      project and keeps every other project's buffer. */
  lemma EditThenSave(data: Option<seq<Project>>, edits: Edits, id: int, index: int, other: int)
    requires Find(data, id).Some? && other != id
    ensures var edited := Delete(data, edits, id, index);
      HasChanges(edited, id) && !HasChanges(SaveDone(edited, id, true), id)
      && (HasChanges(SaveDone(edited, id, true), other) <==> HasChanges(edits, other))
  {
  }
}

=== FILE: repo_schema.dfy ===
/** The pydantic models of the repository cache: the nested records of a
    project's `meta.json` (validated field by field against a declared schema),
    `PortfolioMeta`, `Repository` and the two response bodies. */
module RepoSchema {
  import opened Wrappers
  import opened Json

  // ---------------------------------------------------------------------------
  // Nested records, validated by a declared field list

  /** The JSON kinds a field accepts. Only values of exactly that kind are
      accepted (no lax coercion). */
  datatype Kind = KStr | KOptStr | KInt | KOptDict

  /** A declared field: its name, kind and default (None when required). */
  datatype Field = Field(name: string, kind: Kind, default: Option<Json>)

  predicate Fits(k: Kind, j: Json) {
    match k
    case KStr => j.JStr?
    case KOptStr => j.JNull? || j.JStr?
    case KInt => j.JInt?
    case KOptDict => j.JNull? || j.JObj?
  }

  /** Field names are distinct and every default is a value of its kind. */
  predicate WellFormed(fields: seq<Field>) {
    (forall i, j :: 0 <= i < j < |fields| ==> fields[i].name != fields[j].name)
    && (forall i :: 0 <= i < |fields| && fields[i].default.Some? ==> Fits(fields[i].kind, fields[i].default.value))
  }

  /** Whether `o` supplies an acceptable value for `f`, or `f` has a default. */
  predicate FieldOk(f: Field, o: Object) {
    if f.name in o then Fits(f.kind, o[f.name]) else f.default.Some?
  }

  /** The value `f` takes: the supplied one, else the default. */
  function FieldValue(f: Field, o: Object): Json
    requires FieldOk(f, o)
  {
    if f.name in o then o[f.name] else f.default.value
  }

  function Names(fields: seq<Field>): set<string> {
    set i | 0 <= i < |fields| :: fields[i].name
  }

  /** `Model(**o).model_dump()`: the validated record holds exactly the
      declared fields, each with its supplied or default value; undeclared
      keys are dropped. */
  function Validate(fields: seq<Field>, o: Object): (r: Result<Object>)
    requires WellFormed(fields)
    ensures r.Ok? <==> forall i :: 0 <= i < |fields| ==> FieldOk(fields[i], o)
    ensures r.Ok? ==> r.value.Keys == Names(fields)
    ensures r.Ok? ==> forall i :: 0 <= i < |fields| ==> r.value[fields[i].name] == FieldValue(fields[i], o)
    ensures r.Err? ==> r.error == Raised("ValidationError")
    decreases |fields|
  {
    if |fields| == 0 then Ok(map[])
    else if !FieldOk(fields[0], o) then Err(Raised("ValidationError"))
    else
      WellFormedTail(fields);
      var rest := Validate(fields[1..], o);
      if rest.Err? then
        ghost var k :| 0 <= k < |fields[1..]| && !FieldOk(fields[1..][k], o);
        assert fields[k + 1] == fields[1..][k];
        rest
      else
        var r := rest.value[fields[0].name := FieldValue(fields[0], o)];
        ValidateStep(fields, o, rest.value);
        Ok(r)
  }

  /** The tail of a well-formed field list is well-formed. */
  lemma WellFormedTail(fields: seq<Field>)
    requires WellFormed(fields) && |fields| > 0
    ensures WellFormed(fields[1..])
  {
    forall i, j | 0 <= i < j < |fields[1..]| ensures fields[1..][i].name != fields[1..][j].name {
      assert fields[1..][i] == fields[i + 1] && fields[1..][j] == fields[j + 1];
    }
  }

  /** Adding the first field's value to the validated tail validates the
      whole list. */
  lemma ValidateStep(fields: seq<Field>, o: Object, rest: Object)
    requires WellFormed(fields) && |fields| > 0 && FieldOk(fields[0], o)
    requires forall i :: 0 <= i < |fields[1..]| ==> FieldOk(fields[1..][i], o)
    requires rest.Keys == Names(fields[1..])
    requires forall i :: 0 <= i < |fields[1..]| ==> rest[fields[1..][i].name] == FieldValue(fields[1..][i], o)
    ensures forall i :: 0 <= i < |fields| ==> FieldOk(fields[i], o)
    ensures rest[fields[0].name := FieldValue(fields[0], o)].Keys == Names(fields)
    ensures forall i :: 0 <= i < |fields| ==>
              rest[fields[0].name := FieldValue(fields[0], o)][fields[i].name] == FieldValue(fields[i], o)
  {
    var r := rest[fields[0].name := FieldValue(fields[0], o)];
    forall i | 0 <= i < |fields| ensures FieldOk(fields[i], o) && r[fields[i].name] == FieldValue(fields[i], o) {
      if i > 0 {
        assert fields[i] == fields[1..][i - 1];
      }
    }
    assert Names(fields) == {fields[0].name} + Names(fields[1..]) by {
      forall n | n in Names(fields) ensures n in {fields[0].name} + Names(fields[1..]) {
        var i :| 0 <= i < |fields| && fields[i].name == n;
        if i > 0 { assert fields[1..][i - 1].name == n; }
      }
    }
  }

  /** Validation only looks at the declared fields: two dicts that agree on
      them validate alike. */
  lemma {:induction false} ValidateCongruent(fields: seq<Field>, o1: Object, o2: Object)
    requires WellFormed(fields)
    requires forall i :: 0 <= i < |fields| ==> FieldOk(fields[i], o1) == FieldOk(fields[i], o2)
    requires forall i :: 0 <= i < |fields| && FieldOk(fields[i], o1) ==> FieldValue(fields[i], o1) == FieldValue(fields[i], o2)
    ensures Validate(fields, o1) == Validate(fields, o2)
    decreases |fields|
  {
    if |fields| > 0 && FieldOk(fields[0], o1) {
      assert WellFormed(fields[1..]);
      ValidateCongruent(fields[1..], o1, o2);
    }
  }

  /** A validated record validates to itself: dumping a model and loading it
      again changes nothing. */
  lemma ValidateIdempotent(fields: seq<Field>, o: Object)
    requires WellFormed(fields) && Validate(fields, o).Ok?
    ensures Validate(fields, Validate(fields, o).value) == Validate(fields, o)
  {
    var d := Validate(fields, o).value;
    forall i | 0 <= i < |fields|
      ensures FieldOk(fields[i], d) && FieldValue(fields[i], d) == FieldValue(fields[i], o)
    {
      assert FieldOk(fields[i], o);
      assert d[fields[i].name] == FieldValue(fields[i], o);
    }
    ValidateCongruent(fields, d, o);
  }

  /** What a dump holds: exactly the declared fields, each with a value of
      its kind. */
  predicate DumpShape(fields: seq<Field>, o: Object) {
    o.Keys == Names(fields)
    && forall j :: 0 <= j < |fields| ==> fields[j].name in o && Fits(fields[j].kind, o[fields[j].name])
  }

  lemma DumpHasShape(fields: seq<Field>, o: Object)
    requires WellFormed(fields) && Validate(fields, o) == Ok(o)
    ensures DumpShape(fields, o)
  {
    forall j | 0 <= j < |fields| ensures fields[j].name in o && Fits(fields[j].kind, o[fields[j].name]) {
      assert FieldOk(fields[j], o);
      assert fields[j].name in Names(fields);
    }
  }

  lemma ShapeIsDump(fields: seq<Field>, o: Object)
    requires WellFormed(fields) && DumpShape(fields, o)
    ensures Validate(fields, o) == Ok(o)
  {
    forall j | 0 <= j < |fields| ensures FieldOk(fields[j], o) && FieldValue(fields[j], o) == o[fields[j].name] {
    }
    var r := Validate(fields, o).value;
    forall k | k in o ensures k in r && r[k] == o[k] {
      assert k in Names(fields);
      var j :| 0 <= j < |fields| && fields[j].name == k;
      assert r[fields[j].name] == FieldValue(fields[j], o);
    }
    assert r == o;
  }

  /** A record is the dump of its model exactly when it has the shape of one. */
  lemma DumpCharacterised(fields: seq<Field>, o: Object)
    requires WellFormed(fields)
    ensures Validate(fields, o) == Ok(o) <==> DumpShape(fields, o)
  {
    if Validate(fields, o) == Ok(o) { DumpHasShape(fields, o); }
    if DumpShape(fields, o) { ShapeIsDump(fields, o); }
  }

  /** Setting one declared field of a dump to a value of its kind gives a
      dump again. */
  lemma SetFieldDumped(fields: seq<Field>, o: Object, i: nat, v: Json)
    requires WellFormed(fields) && Validate(fields, o) == Ok(o)
    requires i < |fields| && Fits(fields[i].kind, v)
    ensures Validate(fields, o[fields[i].name := v]) == Ok(o[fields[i].name := v])
  {
    var o' := o[fields[i].name := v];
    DumpHasShape(fields, o);
    assert o'.Keys == Names(fields);
    forall j | 0 <= j < |fields| ensures fields[j].name in o' && Fits(fields[j].kind, o'[fields[j].name]) {
      if j != i {
        assert fields[j].name != fields[i].name;
      }
    }
    ShapeIsDump(fields, o');
  }

  function Required(name: string, kind: Kind): Field { Field(name, kind, None) }
  function Optional(name: string): Field { Field(name, KOptStr, Some(JNull)) }

  const TechnologyFields: seq<Field> :=
    [Required("name", KStr), Required("category", KStr), Optional("version")]
  const FeatureFields: seq<Field> :=
    [Required("title", KStr), Required("description", KStr), Optional("sub_description")]
  const ScreenshotFields: seq<Field> :=
    [Required("file", KStr), Required("caption", KStr),
     Field("type", KOptStr, Some(JStr("desktop"))), Optional("url")]
  const RoleFields: seq<Field> :=
    [Required("role_name", KStr), Optional("responsibility"),
     Field("contribution_percentage", KInt, Some(JInt(100))),
     Field("contributions", KOptDict, Some(JNull))]
  const SystemComponentFields: seq<Field> := [Required("name", KStr), Required("description", KStr)]
  const CorePrincipleFields: seq<Field> := [Required("title", KStr), Required("description", KStr)]
  const TechnicalChallengeFields: seq<Field> :=
    [Required("title", KStr), Required("challenge", KStr), Required("solution", KStr)]
  const CodeSnippetFields: seq<Field> :=
    [Required("title", KStr), Required("description", KStr), Required("file_path", KStr),
     Required("language", KStr), Required("code", KStr)]
  const DataModelFields: seq<Field> := [Required("name", KStr), Required("description", KStr)]

  lemma TechnologyWellFormed() ensures WellFormed(TechnologyFields) {}
  lemma FeatureWellFormed() ensures WellFormed(FeatureFields) {}
  lemma ScreenshotWellFormed() ensures WellFormed(ScreenshotFields) {}
  lemma RoleWellFormed() ensures WellFormed(RoleFields) {}
  lemma SystemComponentWellFormed() ensures WellFormed(SystemComponentFields) {}
  lemma CorePrincipleWellFormed() ensures WellFormed(CorePrincipleFields) {}
  lemma TechnicalChallengeWellFormed() ensures WellFormed(TechnicalChallengeFields) {}
  lemma CodeSnippetWellFormed() ensures WellFormed(CodeSnippetFields) {}
  lemma DataModelWellFormed() ensures WellFormed(DataModelFields) {}

  /** A screenshot given only its file and caption gets type "desktop" and no url. */
  lemma ScreenshotDefaults(file: string, caption: string)
    ensures WellFormed(ScreenshotFields)
    ensures Validate(ScreenshotFields, map["file" := JStr(file), "caption" := JStr(caption)]).Ok?
    ensures Validate(ScreenshotFields, map["file" := JStr(file), "caption" := JStr(caption)]).value["type"] == JStr("desktop")
    ensures Validate(ScreenshotFields, map["file" := JStr(file), "caption" := JStr(caption)]).value["url"] == JNull
  {
    var o := map["file" := JStr(file), "caption" := JStr(caption)];
    ScreenshotWellFormed();
    assert "type" !in o && "url" !in o by {
      assert "type"[0] != "file"[0] && "type"[0] != "caption"[0];
      assert "url"[0] != "file"[0] && "url"[0] != "caption"[0];
      assert o.Keys == {"file", "caption"};
    }
    ScreenshotFieldsOk(o);
    assert Validate(ScreenshotFields, o).value[ScreenshotFields[2].name] == FieldValue(ScreenshotFields[2], o);
    assert Validate(ScreenshotFields, o).value[ScreenshotFields[3].name] == FieldValue(ScreenshotFields[3], o);
  }

  lemma ScreenshotFieldsOk(o: Object)
    requires "file" in o && o["file"].JStr? && "caption" in o && o["caption"].JStr?
    requires "type" !in o && "url" !in o
    ensures forall i :: 0 <= i < |ScreenshotFields| ==> FieldOk(ScreenshotFields[i], o)
    ensures FieldValue(ScreenshotFields[2], o) == JStr("desktop") && FieldValue(ScreenshotFields[3], o) == JNull
  {
    assert FieldOk(ScreenshotFields[0], o) && FieldOk(ScreenshotFields[1], o);
    assert FieldOk(ScreenshotFields[2], o) && FieldOk(ScreenshotFields[3], o);
  }

  /** A role given only its name contributes 100 percent. */
  lemma RoleDefaults(name: string)
    ensures WellFormed(RoleFields)
    ensures Validate(RoleFields, map["role_name" := JStr(name)]).Ok?
    ensures Validate(RoleFields, map["role_name" := JStr(name)]).value["contribution_percentage"] == JInt(100)
    ensures Validate(RoleFields, map["role_name" := JStr(name)]).value["responsibility"] == JNull
  {
    var o := map["role_name" := JStr(name)];
    RoleWellFormed();
    assert "responsibility" !in o && "contribution_percentage" !in o && "contributions" !in o by {
      assert "responsibility"[1] != "role_name"[1];
      assert "contribution_percentage"[0] != "role_name"[0] && "contributions"[0] != "role_name"[0];
      assert o.Keys == {"role_name"};
    }
    RoleFieldsOk(o);
    assert Validate(RoleFields, o).value[RoleFields[2].name] == FieldValue(RoleFields[2], o);
    assert Validate(RoleFields, o).value[RoleFields[1].name] == FieldValue(RoleFields[1], o);
  }

  lemma RoleFieldsOk(o: Object)
    requires "role_name" in o && o["role_name"].JStr?
    requires "responsibility" !in o && "contribution_percentage" !in o && "contributions" !in o
    ensures forall i :: 0 <= i < |RoleFields| ==> FieldOk(RoleFields[i], o)
    ensures FieldValue(RoleFields[1], o) == JNull && FieldValue(RoleFields[2], o) == JInt(100)
  {
    assert FieldOk(RoleFields[0], o) && FieldOk(RoleFields[1], o);
    assert FieldOk(RoleFields[2], o) && FieldOk(RoleFields[3], o);
  }

  /** The items of a list of records: every item must be a dict that validates. */
  function ValidateItems(fields: seq<Field>, items: seq<Json>): (r: Result<seq<Object>>)
    requires WellFormed(fields)
    ensures r.Ok? ==> |r.value| == |items|
    ensures r.Ok? ==> forall i :: 0 <= i < |items| ==> items[i].JObj? && Validate(fields, items[i].fields) == Ok(r.value[i])
    ensures r.Err? ==> exists i :: 0 <= i < |items| && (items[i].JObj? ==> Validate(fields, items[i].fields).Err?)
    decreases |items|
  {
    if |items| == 0 then Ok([])
    else if !items[0].JObj? then Err(Raised("ValidationError"))
    else
      var first := Validate(fields, items[0].fields);
      if first.Err? then Err(first.error)
      else
        var rest := ValidateItems(fields, items[1..]);
        if rest.Err? then
          ghost var k :| 0 <= k < |items[1..]| && (items[1..][k].JObj? ==> Validate(fields, items[1..][k].fields).Err?);
          assert items[k + 1] == items[1..][k];
          Err(rest.error)
        else
          ConsPointwise(items, first.value, rest.value,
                        (j: Json, o: Object) => j.JObj? && Validate(fields, j.fields) == Ok(o));
          Ok([first.value] + rest.value)
  }

  /** A relation that holds position by position of the tails holds of
      the whole sequences once it holds of their heads. */
  lemma ConsPointwise<A, B>(items: seq<A>, x: B, xs: seq<B>, rel: (A, B) -> bool)
    requires |items| > 0 && rel(items[0], x) && |xs| == |items| - 1
    requires forall i :: 0 <= i < |xs| ==> rel(items[1..][i], xs[i])
    ensures forall i :: 0 <= i < |items| ==> rel(items[i], ([x] + xs)[i])
  {
    forall i | 0 <= i < |items| ensures rel(items[i], ([x] + xs)[i]) {
      if i > 0 {
        assert items[i] == items[1..][i - 1] && ([x] + xs)[i] == xs[i - 1];
      }
    }
  }

  /** A `list[Model]` field: a list whose items all validate. */
  function ValidateList(fields: seq<Field>, j: Json): Result<seq<Object>>
    requires WellFormed(fields)
  {
    if j.JArr? then ValidateItems(fields, j.items) else Err(Raised("ValidationError"))
  }

  /** The records of a list are all dumps of the model (validate to themselves). */
  predicate Dumped(fields: seq<Field>, xs: seq<Object>)
    requires WellFormed(fields)
    decreases |xs|
  {
    |xs| == 0 || (Validate(fields, xs[0]) == Ok(xs[0]) && Dumped(fields, xs[1..]))
  }

  /** A list is a list of dumps exactly when each of its elements is one. */
  lemma {:induction false} DumpedEach(fields: seq<Field>, xs: seq<Object>)
    requires WellFormed(fields)
    ensures Dumped(fields, xs) <==> forall j :: 0 <= j < |xs| ==> Validate(fields, xs[j]) == Ok(xs[j])
    decreases |xs|
  {
    if |xs| > 0 {
      DumpedEach(fields, xs[1..]);
      assert forall j :: 1 <= j < |xs| ==> xs[j] == xs[1..][j - 1];
    }
  }

  /** A list of dumps validates back to itself. */
  lemma {:induction false} ValidateItemsDumped(fields: seq<Field>, xs: seq<Object>)
    requires WellFormed(fields) && Dumped(fields, xs)
    ensures ValidateItems(fields, ObjList(xs).items) == Ok(xs)
    decreases |xs|
  {
    if |xs| > 0 {
      var items := ObjList(xs).items;
      assert ValidateItems(fields, items[1..]) == Ok(xs[1..]) by {
        assert items[1..] == ObjList(xs[1..]).items;
        ValidateItemsDumped(fields, xs[1..]);
      }
      assert items[0] == JObj(xs[0]) && Validate(fields, items[0].fields) == Ok(xs[0]);
      ValidateItemsCons(fields, items);
      assert [xs[0]] + xs[1..] == xs;
    }
  }

  /** One step of item validation: a dict that validates, followed by items
      that validate. */
  lemma ValidateItemsCons(fields: seq<Field>, items: seq<Json>)
    requires WellFormed(fields) && |items| > 0 && items[0].JObj?
    requires Validate(fields, items[0].fields).Ok? && ValidateItems(fields, items[1..]).Ok?
    ensures ValidateItems(fields, items) ==
            Ok([Validate(fields, items[0].fields).value] + ValidateItems(fields, items[1..]).value)
  {
  }

  lemma ValidateListDumped(fields: seq<Field>, xs: seq<Object>)
    requires WellFormed(fields) && Dumped(fields, xs)
    ensures ValidateList(fields, ObjList(xs)) == Ok(xs)
  {
    ValidateItemsDumped(fields, xs);
  }

  /** Whatever item validation returns is a list of dumps. */
  lemma {:induction false} ValidatedItemsDumped(fields: seq<Field>, items: seq<Json>)
    requires WellFormed(fields) && ValidateItems(fields, items).Ok?
    ensures Dumped(fields, ValidateItems(fields, items).value)
    decreases |items|
  {
    if |items| > 0 {
      var r := ValidateItems(fields, items).value;
      ValidateIdempotent(fields, items[0].fields);
      ValidatedItemsDumped(fields, items[1..]);
      assert r[1..] == ValidateItems(fields, items[1..]).value;
    }
  }

  /** Whatever list validation returns is a list of dumps. */
  lemma ValidatedListDumped(fields: seq<Field>, j: Json)
    requires WellFormed(fields) && ValidateList(fields, j).Ok?
    ensures Dumped(fields, ValidateList(fields, j).value)
  {
    ValidatedItemsDumped(fields, j.items);
  }

  /** The items of a `list[str]` field. */
  function ValidateStrs(items: seq<Json>): (r: Result<seq<string>>)
    ensures r.Ok? <==> forall i :: 0 <= i < |items| ==> items[i].JStr?
    ensures r.Ok? ==> |r.value| == |items| && forall i :: 0 <= i < |items| ==> items[i] == JStr(r.value[i])
    decreases |items|
  {
    if |items| == 0 then Ok([])
    else if !items[0].JStr? then Err(Raised("ValidationError"))
    else
      var rest := ValidateStrs(items[1..]);
      assert forall i :: 1 <= i < |items| ==> items[i] == items[1..][i - 1];
      if rest.Err? then Err(rest.error) else Ok([items[0].s] + rest.value)
  }

  /** A `list[str]` field. */
  function ValidateStrList(j: Json): Result<seq<string>> {
    if j.JArr? then ValidateStrs(j.items) else Err(Raised("ValidationError"))
  }

  lemma ValidateStrListInverse(xs: seq<string>)
    ensures ValidateStrList(StrList(xs)) == Ok(xs)
  {
    var items := StrList(xs).items;
    assert forall i :: 0 <= i < |items| ==> items[i].JStr?;
    var r := ValidateStrs(items);
    forall i | 0 <= i < |xs| ensures r.value[i] == xs[i] {
      assert items[i] == JStr(r.value[i]);
    }
    assert r.value == xs;
  }

  function ValidateObjs(items: seq<Json>): (r: Result<seq<Object>>)
    ensures r.Ok? <==> forall i :: 0 <= i < |items| ==> items[i].JObj?
    ensures r.Ok? ==> |r.value| == |items| && forall i :: 0 <= i < |items| ==> items[i] == JObj(r.value[i])
    decreases |items|
  {
    if |items| == 0 then Ok([])
    else if !items[0].JObj? then Err(Raised("ValidationError"))
    else
      var rest := ValidateObjs(items[1..]);
      assert forall i :: 1 <= i < |items| ==> items[i] == items[1..][i - 1];
      if rest.Err? then Err(rest.error) else Ok([items[0].fields] + rest.value)
  }

  /** A `list[dict]` field: a list whose items are all dicts, kept as they are. */
  function ValidateDictList(j: Json): Result<seq<Object>> {
    if j.JArr? then ValidateObjs(j.items) else Err(Raised("ValidationError"))
  }

  lemma ValidateDictListInverse(xs: seq<Object>)
    ensures ValidateDictList(ObjList(xs)) == Ok(xs)
  {
    var items := ObjList(xs).items;
    assert forall i :: 0 <= i < |items| ==> items[i].JObj?;
    var r := ValidateObjs(items);
    forall i | 0 <= i < |xs| ensures r.value[i] == xs[i] {
      assert items[i] == JObj(r.value[i]);
    }
    assert r.value == xs;
  }

  /** A `dict` field. */
  function ValidateDict(j: Json): (r: Result<Object>)
    ensures r.Ok? <==> j.JObj?
    ensures r.Ok? ==> j == JObj(r.value)
  {
    if j.JObj? then Ok(j.fields) else Err(Raised("ValidationError"))
  }

  // ---------------------------------------------------------------------------
  // Scalar fields (`str`, `Optional[str]`, `int`, `Optional[int]`, `bool`)

  function StrValue(j: Json): (r: Result<string>)
    ensures r.Ok? <==> j.JStr?
    ensures r.Ok? ==> JStr(r.value) == j
  {
    if j.JStr? then Ok(j.s) else Err(Raised("ValidationError"))
  }

  /** An optional string given as `d.get(k)`: absent and null both mean None. */
  function OptStrValue(v: Option<Json>): (r: Result<Option<string>>)
    ensures r.Ok? <==> v.None? || v.value.JNull? || v.value.JStr?
    ensures r.Ok? ==> (r.value.None? <==> v.None? || v.value.JNull?)
    ensures r.Ok? && r.value.Some? ==> v == Some(JStr(r.value.value))
  {
    match v
    case None => Ok(None)
    case Some(JNull) => Ok(None)
    case Some(JStr(s)) => Ok(Some(s))
    case Some(_) => Err(Raised("ValidationError"))
  }

  function IntValue(j: Json): (r: Result<int>)
    ensures r.Ok? <==> j.JInt?
    ensures r.Ok? ==> JInt(r.value) == j
  {
    if j.JInt? then Ok(j.i) else Err(Raised("ValidationError"))
  }

  function OptIntValue(v: Option<Json>): (r: Result<Option<int>>)
    ensures r.Ok? <==> v.None? || v.value.JNull? || v.value.JInt?
    ensures r.Ok? ==> (r.value.None? <==> v.None? || v.value.JNull?)
    ensures r.Ok? && r.value.Some? ==> v == Some(JInt(r.value.value))
  {
    match v
    case None => Ok(None)
    case Some(JNull) => Ok(None)
    case Some(JInt(i)) => Ok(Some(i))
    case Some(_) => Err(Raised("ValidationError"))
  }

  function BoolValue(j: Json): (r: Result<bool>)
    ensures r.Ok? <==> j.JBool?
    ensures r.Ok? ==> JBool(r.value) == j
  {
    if j.JBool? then Ok(j.b) else Err(Raised("ValidationError"))
  }

  // ---------------------------------------------------------------------------
  // PortfolioMeta

  datatype PortfolioMeta = PortfolioMeta(
    // display
    title: Option<string>, subtitle: Option<string>, description: Option<string>,
    detailedDescription: Option<string>,
    // classification
    projectType: seq<string>, tags: seq<string>, status: string, priority: int,
    // timeline (ISO dates, kept as text)
    startDate: Option<string>, endDate: Option<string>, isOngoing: bool,
    // details: dumps of Technology, Feature and Screenshot records
    technologies: seq<Object>, features: seq<Object>, screenshots: seq<Object>,
    // links
    demoUrl: Option<string>, documentationUrl: Option<string>,
    // metrics
    linesOfCode: Option<int>, commitCount: Option<int>, contributorCount: int,
    // story
    challenges: Option<string>, achievements: Option<string>,
    roles: seq<Object>, clientName: Option<string>,
    // architecture
    architecture: Option<string>, systemComponents: seq<Object>, corePrinciples: seq<Object>,
    authFlow: seq<string>, dataModels: seq<Object>, technicalChallenges: seq<Object>,
    keyAchievements: seq<string>, codeSnippets: seq<Object>)

  /** The field lists of the nine nested models of a meta. Proofs about
      parsing are stated for any well-formed schema and applied to `Schema`. */
  datatype MetaSchema = MetaSchema(
    technology: seq<Field>, feature: seq<Field>, screenshot: seq<Field>, role: seq<Field>,
    systemComponent: seq<Field>, corePrinciple: seq<Field>, dataModel: seq<Field>,
    technicalChallenge: seq<Field>, codeSnippet: seq<Field>)

  const Schema: MetaSchema := MetaSchema(
    TechnologyFields, FeatureFields, ScreenshotFields, RoleFields, SystemComponentFields,
    CorePrincipleFields, DataModelFields, TechnicalChallengeFields, CodeSnippetFields)

  predicate SchemaWellFormed(s: MetaSchema) {
    WellFormed(s.technology) && WellFormed(s.feature) && WellFormed(s.screenshot) && WellFormed(s.role)
    && WellFormed(s.systemComponent) && WellFormed(s.corePrinciple) && WellFormed(s.dataModel)
    && WellFormed(s.technicalChallenge) && WellFormed(s.codeSnippet)
  }

  lemma SchemaIsWellFormed()
    ensures SchemaWellFormed(Schema)
  {
    TechnologyWellFormed(); FeatureWellFormed(); ScreenshotWellFormed(); RoleWellFormed();
    SystemComponentWellFormed(); CorePrincipleWellFormed(); DataModelWellFormed();
    TechnicalChallengeWellFormed(); CodeSnippetWellFormed();
  }

  /** Every nested record of `m` is the dump of its model under `s`. */
  predicate MetaDumped(s: MetaSchema, m: PortfolioMeta)
    requires SchemaWellFormed(s)
  {
    Dumped(s.technology, m.technologies) && Dumped(s.feature, m.features)
    && Dumped(s.screenshot, m.screenshots) && Dumped(s.role, m.roles)
    && Dumped(s.systemComponent, m.systemComponents) && Dumped(s.corePrinciple, m.corePrinciples)
    && Dumped(s.dataModel, m.dataModels) && Dumped(s.technicalChallenge, m.technicalChallenges)
    && Dumped(s.codeSnippet, m.codeSnippets)
  }

  /** Every nested record of a meta is the dump of its model, as validation
      leaves them. */
  predicate MetaWellFormed(m: PortfolioMeta) {
    SchemaIsWellFormed();
    MetaDumped(Schema, m)
  }

  // ---------------------------------------------------------------------------
  // Repository

  /** The cached repository record. `languages` is the field the cache writes
      and reads but the declared model lacks; see the repository store. */
  datatype Repository = Repository(
    // GitHub record
    id: int, name: string, fullName: string, description: Option<string>, htmlUrl: string,
    language: Option<string>, stargazersCount: int, topics: seq<string>,
    githubCreatedAt: Option<int>, githubUpdatedAt: Option<int>,
    // portfolio metadata
    title: Option<string>, subtitle: Option<string>, projectType: seq<string>,
    detailedDescription: Option<string>, features: seq<Object>, technologies: seq<Object>,
    screenshots: seq<Object>, challenges: Option<string>, achievements: Option<string>,
    priority: int, roles: seq<Object>, clientName: Option<string>, status: string,
    startDate: Option<string>, endDate: Option<string>, isOngoing: bool,
    demoUrl: Option<string>, documentationUrl: Option<string>,
    linesOfCode: Option<int>, commitCount: Option<int>, contributorCount: int,
    architecture: Option<string>, systemComponents: seq<Object>, corePrinciples: seq<Object>,
    authFlow: seq<string>, dataModels: seq<Object>, technicalChallenges: seq<Object>,
    keyAchievements: seq<string>, codeSnippets: seq<Object>,
    languages: Object,
    // cache bookkeeping
    hasPortfolioMeta: bool, cachedAt: Option<int>)

  /** `Repository(id=…, name=…, full_name=…, html_url=…)`: the four required
      fields; every other field takes its declared default. */
  function NewRepository(id: int, name: string, fullName: string, htmlUrl: string): (r: Repository)
    ensures r.id == id && r.name == name && r.fullName == fullName && r.htmlUrl == htmlUrl
  {
    Repository(id, name, fullName, None, htmlUrl, None, 0, [], None, None,
      None, None, [], None, [], [], [], None, None,
      0, [], None, "completed", None, None, false, None, None,
      None, None, 1,
      None, [], [], [], [], [], [], [],
      map[],
      false, None)
  }

  /** The declared defaults of `Repository`. */
  predicate HasRepositoryDefaults(r: Repository) {
    r.description.None? && r.language.None? && r.stargazersCount == 0 && r.topics == []
    && r.githubCreatedAt.None? && r.githubUpdatedAt.None? && r.title.None? && r.subtitle.None?
    && r.projectType == [] && r.detailedDescription.None? && r.features == [] && r.technologies == []
    && r.screenshots == [] && r.challenges.None? && r.achievements.None? && r.priority == 0
    && r.roles == [] && r.clientName.None? && r.status == "completed" && r.startDate.None?
    && r.endDate.None? && !r.isOngoing && r.demoUrl.None? && r.documentationUrl.None?
    && r.linesOfCode.None? && r.commitCount.None? && r.contributorCount == 1
    && r.architecture.None? && r.systemComponents == [] && r.corePrinciples == [] && r.authFlow == []
    && r.dataModels == [] && r.technicalChallenges == [] && r.keyAchievements == []
    && r.codeSnippets == [] && r.languages == map[] && !r.hasPortfolioMeta && r.cachedAt.None?
  }

  lemma NewRepositoryDefaults(id: int, name: string, fullName: string, htmlUrl: string)
    ensures HasRepositoryDefaults(NewRepository(id, name, fullName, htmlUrl))
  {
  }

  /** The portfolio order: `a` may be listed before `b` when its priority is
      higher, or equal with `b` having no update time or `a` a later or equal
      one. */
  predicate RankedNoLower(a: Repository, b: Repository) {
    a.priority > b.priority
    || (a.priority == b.priority
        && (b.githubUpdatedAt.None?
            || (a.githubUpdatedAt.Some? && a.githubUpdatedAt.value >= b.githubUpdatedAt.value)))
  }

  // ---------------------------------------------------------------------------
  // Response bodies

  datatype RepositoryListResponse = RepositoryListResponse(
    repositories: seq<Repository>, total: int, lastUpdated: Option<int>)

  datatype RefreshResponse = RefreshResponse(message: string, updatedCount: int, errors: seq<string>)
}

=== FILE: repos_router.dfy ===
/** The `/repos` endpoints: the cached listing, one cached record, and the
    two refresh triggers guarded by the optional API secret. */
module ReposRouter {
  import opened Wrappers
  import opened Json
  import opened Strings
  import opened RepoSchema
  import Base64
  import GitHubService
  import RepositoryService

  // ---------------------------------------------------------------------------
  // The API secret

  /** The token a caller presents: every "Bearer " removed, then stripped. */
  function Token(header: string): string {
    PyStrip(ReplaceAll(header, "Bearer ", ""))
  }

  /** The refresh gate. An empty secret lets everyone through; otherwise a
      missing or empty header is 401 and a token other than the secret 403. */
  function Authorize(secret: string, header: Option<string>): (r: Result<()>)
    ensures |secret| == 0 ==> r.Ok?
    ensures |secret| > 0 && (header.None? || header.value == "")
            ==> r == Err(Http(401, "Authorization required"))
    ensures |secret| > 0 && header.Some? && header.value != "" && Token(header.value) != secret
            ==> r == Err(Http(403, "Invalid authorization"))
    ensures r.Ok? <==> |secret| == 0 || (header.Some? && header.value != "" && Token(header.value) == secret)
  {
    if |secret| == 0 then Ok(())
    else if header.None? || header.value == "" then Err(Http(401, "Authorization required"))
    else if Token(header.value) != secret then Err(Http(403, "Invalid authorization"))
    else Ok(())
  }

  /** A secret that holds no "Bearer " and no surrounding space. */
  predicate PlainSecret(secret: string) {
    |secret| > 0 && !Contains(secret, "Bearer ")
    && !IsPySpace(secret[0]) && !IsPySpace(secret[|secret| - 1])
  }

  /** `Authorization: Bearer <secret>` is accepted. */
  lemma BearerAccepted(secret: string)
    requires PlainSecret(secret)
    ensures Authorize(secret, Some("Bearer " + secret)).Ok?
  {
    ReplaceAllLeading("Bearer ", secret, "");
    ReplaceAllAbsent(secret, "Bearer ", "");
    assert ReplaceAll("Bearer " + secret, "Bearer ", "") == secret;
    StripUntouched(secret, IsPySpace);
  }

  /** `Authorization: <secret>` is accepted as well. */
  lemma DirectAccepted(secret: string)
    requires PlainSecret(secret)
    ensures Authorize(secret, Some(secret)).Ok?
  {
    ReplaceAllAbsent(secret, "Bearer ", "");
    StripUntouched(secret, IsPySpace);
  }

  /** A secret that begins or ends with a space can never be presented: the
      token is stripped, so every header is refused. */
  lemma SpacedSecretUnreachable(secret: string, header: string)
    requires |secret| > 0 && (IsPySpace(secret[0]) || IsPySpace(secret[|secret| - 1]))
    ensures Authorize(secret, Some(header)).Err?
  {
  }

  // ---------------------------------------------------------------------------
  // Reading the cache

  /** `GET /repos`: the listing, its size and the latest cache time; a
      failure to read any row is reported as 500. */
  function GetRepositories(t: RepositoryService.Table, codec: Codec): (r: Result<RepositoryListResponse>)
    ensures r.Err? <==> exists id :: id in t && RepositoryService.RowToRepo(t[id], codec).Err?
    ensures r.Err? ==> r.error == Http(500, "Failed to fetch repositories")
    ensures r.Ok? ==> r.value.total == |r.value.repositories| == |t|
    ensures r.Ok? && r.value.lastUpdated.Some? ==>
              forall id :: id in t && t[id].cachedAt.Some? ==> t[id].cachedAt.value <= r.value.lastUpdated.value
    ensures r.Ok? ==> (r.value.lastUpdated.None? <==> forall id :: id in t ==> t[id].cachedAt.None?)
  {
    match RepositoryService.GetAll(t, codec)
    case Err(_) => Err(Http(500, "Failed to fetch repositories"))
    case Ok(repos) => Ok(RepositoryListResponse(repos, |repos|, RepositoryService.GetLastUpdated(t)))
  }

  /** `GET /repos/{id}`: the record, 404 when the id has no row; a row that
      does not read raises (500). */
  function GetRepository(t: RepositoryService.Table, id: int, codec: Codec): (r: Result<Repository>)
    ensures id !in t ==> r == Err(Http(404, "Repository not found"))
    ensures r.Ok? <==> id in t && RepositoryService.RowToRepo(t[id], codec).Ok?
    ensures r.Ok? ==> RepositoryService.RowToRepo(t[id], codec) == Ok(r.value)
  {
    match RepositoryService.GetById(t, id, codec)
    case Err(e) => Err(e)
    case Ok(None) => Err(Http(404, "Repository not found"))
    case Ok(Some(repo)) => Ok(repo)
  }

  /** Every record `GET /repos/{id}` answers is in the listing. */
  lemma ListingHoldsRecord(t: RepositoryService.Table, id: int, codec: Codec)
    requires GetRepositories(t, codec).Ok? && id in t
    ensures GetRepository(t, id, codec).Ok?
    ensures GetRepository(t, id, codec).value in GetRepositories(t, codec).value.repositories
  {
    RepositoryService.GetAllHoldsRow(t, id, codec);
  }

  /** A stored record is served back as the cache reads it. */
  lemma GetRepositoryAfterUpsert(t: RepositoryService.Table, repo: Repository, now: int, codec: Codec)
    requires Faithful(codec)
    ensures GetRepository(RepositoryService.Upsert(t, repo, now, codec), repo.id, codec)
            == Ok(RepositoryService.ReadBack(repo, now))
  {
    RepositoryService.GetAfterUpsert(t, repo, now, codec);
  }

  // ---------------------------------------------------------------------------
  // Refreshing

  /** What GitHub answers during a refresh, and whether each upsert reaches
      the database. */
  datatype World = World(
    pages: seq<GitHubService.Page>,
    contents: (string, string) -> GitHubService.ContentResponse,
    connected: nat -> bool)

  /** An endpoint's answer and the cache after the call. */
  datatype Outcome<T> = Outcome(response: Result<T>, table: RepositoryService.Table)

  /** The parameters a refresh runs with: the text codec, the utf-8 decoder,
      Python's `str` of a JSON value and of an exception, and the clock. */
  datatype Env = Env(
    codec: Codec, utf8: seq<Base64.byte> -> Option<string>, show: Json -> string,
    describe: Error -> string, now: int)

  /** The sync followed by the upserts, as both refresh endpoints run it:
      the fetched records, or the failure, and the cache afterwards. */
  function RunRefresh(t: RepositoryService.Table, w: World, declared: set<string>, env: Env)
    : (Result<nat>, RepositoryService.Table)
  {
    match GitHubService.SyncAll(w.pages, w.contents, env.utf8, env.codec, env.show, env.now)
    case Err(e) => (Err(e), t)
    case Ok(repos) =>
      var (t', count) := RepositoryService.UpsertAll(t, repos, w.connected, declared, env.now, env.codec);
      (Ok(count), t')
  }

  /** `POST /repos/refresh`: the gate, then the sync and the upserts; a
      failure of the sync is 500 with its description and leaves the cache
      alone. `declared` is the attribute set of `Repository`. */
  function Refresh(t: RepositoryService.Table, secret: string, header: Option<string>,
                   w: World, declared: set<string>, env: Env): (o: Outcome<RefreshResponse>)
    ensures Authorize(secret, header).Err? ==> o == Outcome(Err(Authorize(secret, header).error), t)
    ensures o.response.Ok? <==>
              Authorize(secret, header).Ok? && GitHubService.SyncAll(w.pages, w.contents, env.utf8, env.codec, env.show, env.now).Ok?
    ensures o.response.Err? ==> o.table == t
    ensures o.response.Ok? ==>
              o.response.value.message == "Refresh completed successfully" && o.response.value.errors == []
    ensures Authorize(secret, header).Ok? && GitHubService.SyncAll(w.pages, w.contents, env.utf8, env.codec, env.show, env.now).Err? ==>
              o.response == Err(Http(500, "Failed to refresh repositories: "
                + env.describe(GitHubService.SyncAll(w.pages, w.contents, env.utf8, env.codec, env.show, env.now).error)))
  {
    match Authorize(secret, header)
    case Err(e) => Outcome(Err(e), t)
    case Ok(_) =>
      var (res, t') := RunRefresh(t, w, declared, env);
      match res
      case Err(e) => Outcome(Err(Http(500, "Failed to refresh repositories: " + env.describe(e))), t)
      case Ok(count) => Outcome(Ok(RefreshResponse("Refresh completed successfully", count, [])), t')
  }

  /** `POST /repos/refresh/async`: the gate, then a fixed answer; the sync
      runs in the background and its failure is only logged. */
  function RefreshAsync(t: RepositoryService.Table, secret: string, header: Option<string>,
                        w: World, declared: set<string>, env: Env): (o: Outcome<string>)
    ensures o.response.Ok? <==> Authorize(secret, header).Ok?
    ensures o.response.Ok? ==> o.response.value == "Refresh started in background"
    ensures o.response.Err? ==> o.table == t
  {
    match Authorize(secret, header)
    case Err(e) => Outcome(Err(e), t)
    case Ok(_) => Outcome(Ok("Refresh started in background"), RunRefresh(t, w, declared, env).1)
  }

  /** Both endpoints leave the cache in the same state. */
  lemma RefreshAsyncSameCache(t: RepositoryService.Table, secret: string, header: Option<string>,
                              w: World, declared: set<string>, env: Env)
    ensures RefreshAsync(t, secret, header, w, declared, env).table == Refresh(t, secret, header, w, declared, env).table
  {
  }

  /** As `Repository` is declared, a refresh that succeeds reports no update
      and leaves the cache as it was. */
  lemma RefreshAsWritten(t: RepositoryService.Table, secret: string, header: Option<string>, w: World, env: Env)
    ensures var o := Refresh(t, secret, header, w, RepositoryService.RepositoryFields, env);
      o.table == t && (o.response.Ok? ==> o.response.value.updatedCount == 0)
  {
    var s := GitHubService.SyncAll(w.pages, w.contents, env.utf8, env.codec, env.show, env.now);
    if s.Ok? {
      RepositoryService.UpsertAllAsWritten(t, s.value, w.connected, env.now, env.codec);
    }
  }

  /** With `languages` declared, a successful refresh counts the upserts that
      reached the database and stores each of those records. */
  lemma RefreshCorrected(t: RepositoryService.Table, secret: string, header: Option<string>, w: World, env: Env)
    ensures var o := Refresh(t, secret, header, w, RepositoryService.RepositoryFields + {"languages"}, env);
      var s := GitHubService.SyncAll(w.pages, w.contents, env.utf8, env.codec, env.show, env.now);
      o.response.Ok? ==>
        s.Ok? && o.response.value.updatedCount == RepositoryService.Reached(w.connected, |s.value|)
        && RepositoryService.ReachedIds(s.value, w.connected) <= o.table.Keys
  {
    var s := GitHubService.SyncAll(w.pages, w.contents, env.utf8, env.codec, env.show, env.now);
    if Authorize(secret, header).Ok? && s.Ok? {
      RepositoryService.UpsertAllCorrectedCount(t, s.value, w.connected, env.now, env.codec);
      RepositoryService.UpsertAllCorrectedStores(t, s.value, w.connected, env.now, env.codec);
    }
  }
}

=== FILE: repository_service.dfy ===
/** The repository cache: one table row per GitHub repository id, written by
    an insert-or-overwrite upsert and read back through a decoder that
    replaces NULLs with the model defaults.

    The table is a map from id to row. The database connection is not
    modelled except for the upsert, where whether the i-th call reached the
    database is an input. JSON text columns are read with the JSON codec,
    which is a parameter. */
module RepositoryService {
  import opened Wrappers
  import opened Json
  import opened Sorting
  import opened RepoSchema
  import Strings

  /** A row of the `repositories` table: the 34 columns the upsert writes, as
      the driver hands them back. The JSON columns are driver values: a JSON
      text column comes back as a string, an array column as a list. */
  datatype Row = Row(
    id: int, name: string, fullName: string, description: Option<string>, htmlUrl: string,
    language: Option<string>, stargazersCount: Option<int>, topics: Option<seq<string>>,
    githubCreatedAt: Option<int>, githubUpdatedAt: Option<int>,
    title: Option<string>, subtitle: Option<string>, projectType: Json, detailedDescription: Option<string>,
    features: Json, technologies: Json, screenshots: Json, challenges: Option<string>,
    achievements: Option<string>, priority: Option<int>, roles: Json, clientName: Option<string>,
    status: Option<string>, startDate: Option<string>, endDate: Option<string>, isOngoing: Option<bool>,
    demoUrl: Option<string>, documentationUrl: Option<string>, linesOfCode: Option<int>,
    commitCount: Option<int>, contributorCount: Option<int>, languages: Json,
    hasPortfolioMeta: Option<bool>, cachedAt: Option<int>)

  type Table = map<int, Row>

  // ---------------------------------------------------------------------------
  // Reading a row

  /** `_parse_json_field`: None gives the default (itself [] when not given);
      a list or dict is already parsed; a string is JSON text, and text that
      does not parse gives the default; any other value gives the default.
      It never raises. */
  function ParseJsonField(value: Json, default: Option<Json>, codec: Codec): (r: Json)
    ensures value.JArr? || value.JObj? ==> r == value
    ensures value.JNull? || value.JInt? || value.JBool? ==> r == default.GetOr(JArr([]))
  {
    var d := default.GetOr(JArr([]));
    match value
    case JNull => d
    case JArr(_) => value
    case JObj(_) => value
    case JStr(text) => codec.Load(text).GetOr(d)
    case JInt(_) => d
    case JBool(_) => d
  }

  /** What the upsert writes with `json.dumps` is read back unchanged. */
  lemma ParseJsonFieldDumped(j: Json, default: Option<Json>, codec: Codec)
    requires Faithful(codec)
    ensures ParseJsonField(JStr(codec.Dump(j)), default, codec) == j
  {
    assert codec.Load(codec.Dump(j)) == Some(j);
  }

  /** Text that is not JSON falls back to the default instead of raising. */
  lemma ParseJsonFieldGarbage(text: string, default: Option<Json>, codec: Codec)
    requires codec.Load(text).None?
    ensures ParseJsonField(JStr(text), default, codec) == default.GetOr(JArr([]))
  {
  }

  /** Python's `x or d` on a nullable integer column. */
  function IntOr(x: Option<int>, d: int): (r: int)
    ensures x.Some? && x.value != 0 ==> r == x.value
    ensures x.None? || x.value == 0 ==> r == d
  {
    if x.Some? && x.value != 0 then x.value else d
  }

  /** `_row_to_repo`: NULL columns take the model defaults (`priority` 0,
      `status` "completed", `is_ongoing` false, `contributor_count` 1, no
      topics, no languages, no meta); the JSON columns are parsed
      defensively. Validation of the result can still fail: a NULL star
      count, or a JSON column holding something other than the declared list
      or dict. Columns the upsert does not write (the architecture fields)
      take their model defaults. */
  function RowToRepo(row: Row, codec: Codec): (r: Result<Repository>)
    ensures row.stargazersCount.None? ==> r.Err?
    ensures r.Ok? ==> r.value.id == row.id && r.value.priority == row.priority.GetOr(0)
                      && r.value.githubUpdatedAt == row.githubUpdatedAt && r.value.cachedAt == row.cachedAt
  {
    var stars :- if row.stargazersCount.Some? then Ok(row.stargazersCount.value) else Err(Raised("ValidationError"));
    var projectType :- ValidateStrList(ParseJsonField(row.projectType, None, codec));
    var features :- ValidateDictList(ParseJsonField(row.features, None, codec));
    var technologies :- ValidateDictList(ParseJsonField(row.technologies, None, codec));
    var screenshots :- ValidateDictList(ParseJsonField(row.screenshots, None, codec));
    var roles :- ValidateDictList(ParseJsonField(row.roles, None, codec));
    var languages :- ValidateDict(ParseJsonField(row.languages, Some(JObj(map[])), codec));
    Ok(NewRepository(row.id, row.name, row.fullName, row.htmlUrl).(
      description := row.description, language := row.language, stargazersCount := stars,
      topics := row.topics.GetOr([]), githubCreatedAt := row.githubCreatedAt,
      githubUpdatedAt := row.githubUpdatedAt, title := row.title, subtitle := row.subtitle,
      projectType := projectType, detailedDescription := row.detailedDescription,
      features := features, technologies := technologies, screenshots := screenshots,
      challenges := row.challenges, achievements := row.achievements, priority := row.priority.GetOr(0),
      roles := roles, clientName := row.clientName, status := Strings.OrText(row.status, "completed"),
      startDate := row.startDate, endDate := row.endDate, isOngoing := row.isOngoing.GetOr(false),
      demoUrl := row.demoUrl, documentationUrl := row.documentationUrl, linesOfCode := row.linesOfCode,
      commitCount := row.commitCount, contributorCount := IntOr(row.contributorCount, 1),
      languages := languages, hasPortfolioMeta := row.hasPortfolioMeta.GetOr(false),
      cachedAt := row.cachedAt))
  }

  /** `_row_to_repo` with `Repository` as declared: the class has no
      `languages` field, so pydantic ignores that keyword and the column's
      content never matters. `RowToRepo` reads with the field declared, as
      the rest of the cache needs. */
  function RowToRepoAsWritten(row: Row, codec: Codec): (r: Result<Repository>)
    ensures r.Ok? ==> r.value.languages == map[]
    ensures row.languages == JNull ==> r == RowToRepo(row, codec)
  {
    RowToRepo(row.(languages := JNull), codec)
  }

  /** The as-written read ignores the `languages` column entirely. */
  lemma AsWrittenIgnoresLanguages(row: Row, other: Json, codec: Codec)
    ensures RowToRepoAsWritten(row.(languages := other), codec) == RowToRepoAsWritten(row, codec)
  {
    assert row.(languages := other).(languages := JNull) == row.(languages := JNull);
  }

  /** A stored `languages` that is not an object fails the read with the
      field declared, and not as written. */
  lemma LanguagesListDiffers(row: Row, codec: Codec)
    requires RowToRepoAsWritten(row, codec).Ok?
    requires row.languages == JArr([])
    ensures RowToRepo(row, codec).Err?
  {
  }

  /** A row with every nullable column NULL (and no stars). */
  function NullRow(id: int, name: string, fullName: string, htmlUrl: string): Row {
    Row(id, name, fullName, None, htmlUrl, None, Some(0), None, None, None,
      None, None, JNull, None, JNull, JNull, JNull, None, None, None, JNull, None,
      None, None, None, None, None, None, None, None, None, JNull, None, None)
  }

  /** The NULL replacements agree with the declared defaults: an all-NULL row
      reads as a `Repository` built from its four required fields. */
  lemma NullRowDefaults(id: int, name: string, fullName: string, htmlUrl: string, codec: Codec)
    ensures RowToRepo(NullRow(id, name, fullName, htmlUrl), codec) == Ok(NewRepository(id, name, fullName, htmlUrl))
  {
    ValidateStrListInverse([]);
    ValidateDictListInverse([]);
    assert StrList([]) == JArr([]) && ObjList([]) == JArr([]);
  }

  // ---------------------------------------------------------------------------
  // Writing a row

  /** The declared fields of `Repository`. */
  const RepositoryFields: set<string> := {
    "id", "name", "full_name", "description", "html_url", "language", "stargazers_count", "topics",
    "github_created_at", "github_updated_at", "title", "subtitle", "project_type",
    "detailed_description", "features", "technologies", "screenshots", "challenges", "achievements",
    "priority", "roles", "client_name", "status", "start_date", "end_date", "is_ongoing", "demo_url",
    "documentation_url", "lines_of_code", "commit_count", "contributor_count", "architecture",
    "system_components", "core_principles", "auth_flow", "data_models", "technical_challenges",
    "key_achievements", "code_snippets", "has_portfolio_meta", "cached_at"}

  /** The attributes the upsert reads to build its 34 arguments, in order. */
  const UpsertReads: seq<string> := [
    "id", "name", "full_name", "description", "html_url", "language", "stargazers_count", "topics",
    "github_created_at", "github_updated_at", "title", "subtitle", "project_type",
    "detailed_description", "features", "technologies", "screenshots", "challenges", "achievements",
    "priority", "roles", "client_name", "status", "start_date", "end_date", "is_ongoing", "demo_url",
    "documentation_url", "lines_of_code", "commit_count", "contributor_count", "languages",
    "has_portfolio_meta", "cached_at"]

  /** The row the upsert writes: list-of-dict and dict fields as JSON text,
      `project_type` and `topics` as arrays, and the current time for a
      missing `cached_at`. The architecture fields have no column. */
  function RowOf(r: Repository, now: int, codec: Codec): (row: Row)
    ensures row.id == r.id
    ensures row.cachedAt == Some(r.cachedAt.GetOr(now))
  {
    Row(r.id, r.name, r.fullName, r.description, r.htmlUrl, r.language, Some(r.stargazersCount),
      Some(r.topics), r.githubCreatedAt, r.githubUpdatedAt, r.title, r.subtitle, StrList(r.projectType),
      r.detailedDescription, JStr(codec.Dump(ObjList(r.features))), JStr(codec.Dump(ObjList(r.technologies))),
      JStr(codec.Dump(ObjList(r.screenshots))), r.challenges, r.achievements, Some(r.priority),
      JStr(codec.Dump(ObjList(r.roles))), r.clientName, Some(r.status), r.startDate, r.endDate,
      Some(r.isOngoing), r.demoUrl, r.documentationUrl, r.linesOfCode, r.commitCount,
      Some(r.contributorCount), JStr(codec.Dump(JObj(r.languages))), Some(r.hasPortfolioMeta),
      Some(r.cachedAt.GetOr(now)))
  }

  /** What a written record reads back as: the same record except that the
      `or` defaults replace an empty status and a zero contributor count, a
      missing cache time is the time of writing, and the unstored
      architecture fields are at their defaults. */
  function ReadBack(r: Repository, now: int): Repository {
    r.(status := Strings.OrText(Some(r.status), "completed"), contributorCount := IntOr(Some(r.contributorCount), 1),
       cachedAt := Some(r.cachedAt.GetOr(now)),
       architecture := None, systemComponents := [], corePrinciples := [], authFlow := [],
       dataModels := [], technicalChallenges := [], keyAchievements := [], codeSnippets := [])
  }

  lemma RowOfReadBack(r: Repository, now: int, codec: Codec)
    requires Faithful(codec)
    ensures RowToRepo(RowOf(r, now, codec), codec) == Ok(ReadBack(r, now))
  {
    var row := RowOf(r, now, codec);
    ValidateStrListInverse(r.projectType);
    ParseJsonFieldDumped(ObjList(r.features), None, codec);
    ParseJsonFieldDumped(ObjList(r.technologies), None, codec);
    ParseJsonFieldDumped(ObjList(r.screenshots), None, codec);
    ParseJsonFieldDumped(ObjList(r.roles), None, codec);
    ParseJsonFieldDumped(JObj(r.languages), Some(JObj(map[])), codec);
    ValidateDictListInverse(r.features);
    ValidateDictListInverse(r.technologies);
    ValidateDictListInverse(r.screenshots);
    ValidateDictListInverse(r.roles);
  }

  /** Reading back a written record is stable: writing what was read and
      reading it again changes nothing. */
  lemma ReadBackIdempotent(r: Repository, now: int, later: int)
    ensures ReadBack(ReadBack(r, now), later) == ReadBack(r, now)
  {
  }

  /** `upsert` on a table: the row for `r.id` is inserted or every column
      overwritten; no other row changes. */
  function Upsert(t: Table, r: Repository, now: int, codec: Codec): (t': Table)
    ensures t'.Keys == t.Keys + {r.id}
    ensures t'[r.id] == RowOf(r, now, codec)
    ensures forall id :: id in t && id != r.id ==> t'[id] == t[id]
  {
    t[r.id := RowOf(r, now, codec)]
  }

  /** Upserting the same record twice leaves the table as upserting it once. */
  lemma UpsertIdempotent(t: Table, r: Repository, now: int, codec: Codec)
    ensures Upsert(Upsert(t, r, now, codec), r, now, codec) == Upsert(t, r, now, codec)
  {
  }

  /** One call of `upsert`, given whether the connection was made and the
      attributes `Repository` declares: building the arguments reads 34
      attributes, and reading one the model does not declare raises
      AttributeError before anything is written. */
  function UpsertCall(t: Table, r: Repository, connected: bool, declared: set<string>, now: int, codec: Codec)
    : (res: Result<Table>)
    ensures res.Ok? <==> connected && forall i :: 0 <= i < |UpsertReads| ==> UpsertReads[i] in declared
    ensures res.Ok? ==> res.value == Upsert(t, r, now, codec)
  {
    if !connected then Err(Transport)
    else if exists i :: 0 <= i < |UpsertReads| && UpsertReads[i] !in declared then Err(Raised("AttributeError"))
    else Ok(Upsert(t, r, now, codec))
  }

  /** As declared, `Repository` has no `languages`, so every upsert raises. */
  lemma UpsertAsWrittenFails(t: Table, r: Repository, connected: bool, now: int, codec: Codec)
    ensures UpsertCall(t, r, connected, RepositoryFields, now, codec).Err?
  {
    assert UpsertReads[31] == "languages";
    assert "languages" !in RepositoryFields;
  }

  /** With `languages` declared, an upsert fails only when the database is
      unreachable. */
  lemma UpsertCorrectedSucceeds(t: Table, r: Repository, now: int, codec: Codec)
    ensures UpsertCall(t, r, true, RepositoryFields + {"languages"}, now, codec) == Ok(Upsert(t, r, now, codec))
  {
    forall i | 0 <= i < |UpsertReads| ensures UpsertReads[i] in RepositoryFields + {"languages"} {
    }
  }

  /** The table and count after the calls for `repos`, in order; a failing
      call is skipped and does not stop the later ones. */
  function UpsertAll(t: Table, repos: seq<Repository>, connected: nat -> bool, declared: set<string>, now: int, codec: Codec)
    : (r: (Table, nat))
    ensures r.1 <= Reached(connected, |repos|)
    ensures forall id :: id in t ==> id in r.0
    decreases |repos|
  {
    if |repos| == 0 then (t, 0)
    else
      var (t1, n1) := UpsertAll(t, repos[..|repos| - 1], connected, declared, now, codec);
      match UpsertCall(t1, repos[|repos| - 1], connected(|repos| - 1), declared, now, codec)
      case Ok(t2) => (t2, n1 + 1)
      case Err(_) => (t1, n1)
  }

  /** `upsert_many`: the number of successful upserts. */
  method UpsertMany(t: Table, repos: seq<Repository>, connected: nat -> bool, declared: set<string>, now: int, codec: Codec)
    returns (count: nat, t': Table)
    ensures (t', count) == UpsertAll(t, repos, connected, declared, now, codec)
    ensures count <= |repos|
  {
    t' := t;
    count := 0;
    var i := 0;
    while i < |repos|
      invariant 0 <= i <= |repos|
      invariant (t', count) == UpsertAll(t, repos[..i], connected, declared, now, codec)
      invariant count <= i
    {
      UpsertAllLast(t, repos, i, connected, declared, now, codec);
      var res := UpsertCall(t', repos[i], connected(i), declared, now, codec);
      if res.Ok? {
        t' := res.value;
        count := count + 1;
      }
      i := i + 1;
    }
    assert repos[..i] == repos;
  }

  /** Upserting the first `i + 1` records is upserting the first `i`, then
      record `i`. */
  lemma UpsertAllLast(t: Table, repos: seq<Repository>, i: nat, connected: nat -> bool, declared: set<string>, now: int,
                      codec: Codec)
    requires i < |repos|
    ensures var (t1, n1) := UpsertAll(t, repos[..i], connected, declared, now, codec);
      UpsertAll(t, repos[..i + 1], connected, declared, now, codec)
        == match UpsertCall(t1, repos[i], connected(i), declared, now, codec)
           case Ok(t2) => (t2, n1 + 1)
           case Err(_) => (t1, n1)
  {
    assert repos[..i + 1][..i] == repos[..i];
  }

  /** As written, `upsert_many` stores nothing and reports 0. */
  lemma {:induction false} UpsertAllAsWritten(t: Table, repos: seq<Repository>, connected: nat -> bool, now: int, codec: Codec)
    ensures UpsertAll(t, repos, connected, RepositoryFields, now, codec) == (t, 0)
    decreases |repos|
  {
    if |repos| > 0 {
      UpsertAllAsWritten(t, repos[..|repos| - 1], connected, now, codec);
      UpsertAsWrittenFails(t, repos[|repos| - 1], connected(|repos| - 1), now, codec);
    }
  }

  /** The number of the first `n` calls that reach the database. */
  function Reached(connected: nat -> bool, n: nat): (c: nat)
    ensures c <= n
  {
    if n == 0 then 0 else Reached(connected, n - 1) + (if connected(n - 1) then 1 else 0)
  }

  /** The ids the records carry. */
  function Ids(repos: seq<Repository>): set<int> {
    set i | 0 <= i < |repos| :: repos[i].id
  }

  lemma IdsSnoc(repos: seq<Repository>)
    requires |repos| > 0
    ensures Ids(repos) == Ids(repos[..|repos| - 1]) + {repos[|repos| - 1].id}
  {
    var init := repos[..|repos| - 1];
    forall x | x in Ids(repos) ensures x in Ids(init) + {repos[|repos| - 1].id} {
      var i :| 0 <= i < |repos| && repos[i].id == x;
      if i < |repos| - 1 { assert init[i].id == x; }
    }
    forall x | x in Ids(init) ensures x in Ids(repos) {
      var i :| 0 <= i < |init| && init[i].id == x;
      assert repos[i].id == x;
    }
  }

  /** With `languages` declared, the count is the number of calls that reach
      the database. */
  lemma {:induction false} UpsertAllCorrectedCount(t: Table, repos: seq<Repository>, connected: nat -> bool, now: int, codec: Codec)
    ensures UpsertAll(t, repos, connected, RepositoryFields + {"languages"}, now, codec).1 == Reached(connected, |repos|)
    decreases |repos|
  {
    if |repos| > 0 {
      var k := |repos| - 1;
      UpsertAllCorrectedCount(t, repos[..k], connected, now, codec);
      var (t1, n1) := UpsertAll(t, repos[..k], connected, RepositoryFields + {"languages"}, now, codec);
      UpsertCorrectedSucceeds(t1, repos[k], now, codec);
    }
  }

  /** With `languages` declared, the last call writes its record exactly
      when it reaches the database. */
  lemma UpsertAllCorrectedStep(t: Table, repos: seq<Repository>, connected: nat -> bool, now: int, codec: Codec)
    requires |repos| > 0
    ensures var k := |repos| - 1;
      var t1 := UpsertAll(t, repos[..k], connected, RepositoryFields + {"languages"}, now, codec).0;
      UpsertAll(t, repos, connected, RepositoryFields + {"languages"}, now, codec).0
        == if connected(k) then Upsert(t1, repos[k], now, codec) else t1
  {
    var k := |repos| - 1;
    var t1 := UpsertAll(t, repos[..k], connected, RepositoryFields + {"languages"}, now, codec).0;
    UpsertCorrectedSucceeds(t1, repos[k], now, codec);
  }

  /** The ids of the records whose call reached the database. */
  function ReachedIds(repos: seq<Repository>, connected: nat -> bool): set<int> {
    set i | 0 <= i < |repos| && connected(i) :: repos[i].id
  }

  lemma ReachedIdsSnoc(repos: seq<Repository>, connected: nat -> bool)
    requires |repos| > 0
    ensures var k := |repos| - 1;
      ReachedIds(repos, connected) == ReachedIds(repos[..k], connected) + (if connected(k) then {repos[k].id} else {})
  {
    var k := |repos| - 1;
    var init := repos[..k];
    forall x | x in ReachedIds(repos, connected)
      ensures x in ReachedIds(init, connected) + (if connected(k) then {repos[k].id} else {})
    {
      var i :| 0 <= i < |repos| && connected(i) && repos[i].id == x;
      if i < k { assert init[i].id == x; }
    }
    forall x | x in ReachedIds(init, connected) ensures x in ReachedIds(repos, connected) {
      var i :| 0 <= i < |init| && connected(i) && init[i].id == x;
      assert repos[i].id == x;
    }
  }

  /** With `languages` declared, every record whose call reached the
      database has a row after the calls. */
  lemma {:induction false} UpsertAllCorrectedStores(t: Table, repos: seq<Repository>, connected: nat -> bool, now: int, codec: Codec)
    ensures ReachedIds(repos, connected) <= UpsertAll(t, repos, connected, RepositoryFields + {"languages"}, now, codec).0.Keys
    decreases |repos|
  {
    if |repos| > 0 {
      UpsertAllCorrectedStores(t, repos[..|repos| - 1], connected, now, codec);
      UpsertAllCorrectedGrows(t, repos, connected, now, codec);
      ReachedIdsSnoc(repos, connected);
    }
  }

  /** With `languages` declared, the last call adds its record's id exactly
      when it reaches the database. */
  lemma UpsertAllCorrectedGrows(t: Table, repos: seq<Repository>, connected: nat -> bool, now: int, codec: Codec)
    requires |repos| > 0
    ensures var k := |repos| - 1;
      var t1 := UpsertAll(t, repos[..k], connected, RepositoryFields + {"languages"}, now, codec).0;
      UpsertAll(t, repos, connected, RepositoryFields + {"languages"}, now, codec).0.Keys
        == t1.Keys + (if connected(k) then {repos[k].id} else {})
  {
    UpsertAllCorrectedStep(t, repos, connected, now, codec);
  }

  /** With `languages` declared, the rows of ids no record carries are kept
      unchanged. */
  lemma {:induction false} UpsertAllCorrectedKeeps(t: Table, repos: seq<Repository>, connected: nat -> bool, now: int, codec: Codec)
    ensures var t' := UpsertAll(t, repos, connected, RepositoryFields + {"languages"}, now, codec).0;
      forall id :: id in t && id !in Ids(repos) ==> id in t' && t'[id] == t[id]
    decreases |repos|
  {
    if |repos| > 0 {
      var k := |repos| - 1;
      UpsertAllCorrectedKeeps(t, repos[..k], connected, now, codec);
      UpsertAllCorrectedStep(t, repos, connected, now, codec);
      IdsSnoc(repos);
    }
  }

  /** With `languages` declared, the calls add no ids but the records'. */
  lemma {:induction false} UpsertAllCorrectedKeys(t: Table, repos: seq<Repository>, connected: nat -> bool, now: int, codec: Codec)
    ensures UpsertAll(t, repos, connected, RepositoryFields + {"languages"}, now, codec).0.Keys <= t.Keys + Ids(repos)
    decreases |repos|
  {
    if |repos| > 0 {
      var k := |repos| - 1;
      UpsertAllCorrectedKeys(t, repos[..k], connected, now, codec);
      UpsertAllCorrectedStep(t, repos, connected, now, codec);
      IdsSnoc(repos);
    }
  }

  // ---------------------------------------------------------------------------
  // Lookups, deletion and the listing

  /** `get_by_id`. */
  function GetById(t: Table, id: int, codec: Codec): (r: Result<Option<Repository>>)
    ensures id !in t ==> r == Ok(None)
    ensures r.Ok? && r.value.Some? ==> id in t && RowToRepo(t[id], codec) == Ok(r.value.value)
  {
    if id !in t then Ok(None)
    else
      var repo :- RowToRepo(t[id], codec);
      Ok(Some(repo))
  }

  /** After an upsert the record is found under its id, as read back. */
  lemma GetAfterUpsert(t: Table, r: Repository, now: int, codec: Codec)
    requires Faithful(codec)
    ensures GetById(Upsert(t, r, now, codec), r.id, codec) == Ok(Some(ReadBack(r, now)))
  {
    RowOfReadBack(r, now, codec);
  }

  datatype Deletion = Deletion(table: Table, deleted: bool)

  /** `delete`: true exactly when one row was removed, which is when the id
      had a row. */
  function Delete(t: Table, id: int): (r: Deletion)
    ensures r.deleted <==> id in t
    ensures r.table.Keys == t.Keys - {id}
    ensures forall k :: k in r.table ==> r.table[k] == t[k]
  {
    Deletion(t - {id}, id in t)
  }

  /** Deleting a freshly inserted record restores the table. */
  lemma DeleteUndoesInsert(t: Table, r: Repository, now: int, codec: Codec)
    requires r.id !in t
    ensures Delete(Upsert(t, r, now, codec), r.id) == Deletion(t, true)
  {
    assert Upsert(t, r, now, codec) - {r.id} == t;
  }

  lemma MinExists(s: set<int>)
    requires s != {}
    ensures exists m :: m in s && forall y :: y in s ==> m <= y
    decreases s
  {
    if forall z :: z !in s {
      assert false;
    }
    var x :| x in s;
    var rest := s - {x};
    assert s == rest + {x};
    if rest == {} {
      assert forall y :: y in s ==> y == x;
    } else {
      MinExists(rest);
      var m :| m in rest && forall y :: y in rest ==> m <= y;
      var least := if x < m then x else m;
      assert least in s && forall y :: y in s ==> least <= y;
    }
  }

  /** The smallest element of a non-empty set. */
  function MinOf(s: set<int>): (m: int)
    requires s != {}
    ensures m in s && forall y :: y in s ==> m <= y
  {
    MinExists(s);
    var m :| m in s && forall y :: y in s ==> m <= y;
    m
  }

  /** The ids of a table in ascending order. */
  function SortedIds(s: set<int>): (r: seq<int>)
    ensures |r| == |s|
    ensures forall x :: x in r <==> x in s
    ensures forall i, j :: 0 <= i < j < |r| ==> r[i] < r[j]
    decreases s
  {
    if s == {} then []
    else
      var m := MinOf(s);
      var rest := SortedIds(s - {m});
      SortedIdsStep(s, m, rest);
      [m] + rest
  }

  lemma SortedIdsStep(s: set<int>, m: int, rest: seq<int>)
    requires m in s && forall y :: y in s ==> m <= y
    requires |rest| == |s - {m}| && forall x :: x in rest <==> x in s - {m}
    requires forall i, j :: 0 <= i < j < |rest| ==> rest[i] < rest[j]
    ensures |[m] + rest| == |s|
    ensures forall x :: x in [m] + rest <==> x in s
    ensures forall i, j :: 0 <= i < j < |[m] + rest| ==> ([m] + rest)[i] < ([m] + rest)[j]
  {
    var r := [m] + rest;
    assert |s - {m}| == |s| - 1;
    forall x ensures x in r <==> x in s {
      assert x in r <==> x == m || x in rest;
    }
    forall i, j | 0 <= i < j < |r| ensures r[i] < r[j] {
      assert r[j] == rest[j - 1];
      if i > 0 { assert r[i] == rest[i - 1]; }
      else { assert rest[j - 1] in s - {m}; }
    }
  }

  /** The rows of a table in id order. */
  function Rows(t: Table): (rows: seq<Row>)
    ensures |rows| == |t|
    ensures forall row :: row in rows <==> row in t.Values
  {
    var ids := SortedIds(t.Keys);
    var rows := seq(|ids|, i requires 0 <= i < |ids| => t[ids[i]]);
    assert forall row :: row in rows <==> row in t.Values by {
      forall row | row in t.Values ensures row in rows {
        var id :| id in t && t[id] == row;
        var i :| 0 <= i < |ids| && ids[i] == id;
        assert rows[i] == row;
      }
    }
    rows
  }

  /** `ORDER BY priority DESC, github_updated_at DESC NULLS LAST`, as an
      ascending key. PostgreSQL sorts NULL above every value, so a descending
      order puts a NULL priority first. */
  function RowKey(row: Row): seq<int> {
    [if row.priority.None? then 0 else 1, -row.priority.GetOr(0),
     if row.githubUpdatedAt.Some? then 0 else 1, -row.githubUpdatedAt.GetOr(0)]
  }

  /** The table's rows in listing order. Rows equal in both sort columns come
      in id order here; SQL leaves their order open. */
  function ListingRows(t: Table): (rows: seq<Row>)
    ensures |rows| == |t|
    ensures forall row :: row in rows <==> row in t.Values
    ensures SortedBy(rows, RowKey)
  {
    var all := Rows(t);
    var rows := SortBy(all, RowKey);
    forall row ensures row in rows <==> row in all {
      PermutationMembers(rows, all, row);
    }
    rows
  }

  /** Reading a list of rows; the first failure is raised. */
  function RowsToRepos(rows: seq<Row>, codec: Codec): (r: Result<seq<Repository>>)
    ensures r.Ok? <==> forall i :: 0 <= i < |rows| ==> RowToRepo(rows[i], codec).Ok?
    ensures r.Ok? ==> |r.value| == |rows| && forall i :: 0 <= i < |rows| ==> RowToRepo(rows[i], codec) == Ok(r.value[i])
    decreases |rows|
  {
    if |rows| == 0 then Ok([])
    else
      var first :- RowToRepo(rows[0], codec);
      var rest := RowsToRepos(rows[1..], codec);
      assert forall i :: 1 <= i < |rows| ==> rows[i] == rows[1..][i - 1];
      if rest.Err? then Err(rest.error) else Ok([first] + rest.value)
  }

  /** `get_all`. */
  function GetAll(t: Table, codec: Codec): (r: Result<seq<Repository>>)
    ensures r.Ok? <==> forall id :: id in t ==> RowToRepo(t[id], codec).Ok?
    ensures r.Ok? ==> |r.value| == |t|
  {
    ListingReadable(t, codec);
    RowsToRepos(ListingRows(t), codec)
  }

  lemma ListingReadable(t: Table, codec: Codec)
    ensures RowsToRepos(ListingRows(t), codec).Ok? <==> forall id :: id in t ==> RowToRepo(t[id], codec).Ok?
  {
    ReadableRowsOrIds(ListingRows(t), t, codec);
  }

  /** Every listed row reads exactly when every row of the table reads, when
      the two hold the same rows. */
  lemma ReadableRowsOrIds(rows: seq<Row>, t: Table, codec: Codec)
    requires forall row :: row in rows <==> row in t.Values
    ensures (forall i :: 0 <= i < |rows| ==> RowToRepo(rows[i], codec).Ok?) <==>
            (forall id :: id in t ==> RowToRepo(t[id], codec).Ok?)
  {
    if forall i :: 0 <= i < |rows| ==> RowToRepo(rows[i], codec).Ok? {
      forall id | id in t ensures RowToRepo(t[id], codec).Ok? {
        var i := RowIndexOf(rows, t, id);
      }
    } else {
      var i :| 0 <= i < |rows| && RowToRepo(rows[i], codec).Err?;
      var id := KeyOfValue(t, rows[i]);
    }
  }

  /** A value of a map is stored under some key. */
  lemma KeyOfValue<K, V>(m: map<K, V>, v: V) returns (k: K)
    requires v in m.Values
    ensures k in m && m[k] == v
  {
    k :| k in m.Keys && m[k] == v;
  }

  /** Where a row of the table stands among rows that hold the same rows. */
  lemma RowIndexOf(rows: seq<Row>, t: Table, id: int) returns (i: nat)
    requires forall row :: row in rows <==> row in t.Values
    requires id in t
    ensures i < |rows| && rows[i] == t[id]
  {
    assert t[id] in t.Values;
    i :| 0 <= i < |rows| && rows[i] == t[id];
  }

  /** Every row of a readable table is in the listing, as it reads. */
  lemma GetAllHoldsRow(t: Table, id: int, codec: Codec)
    requires GetAll(t, codec).Ok? && id in t
    ensures RowToRepo(t[id], codec).Ok? && RowToRepo(t[id], codec).value in GetAll(t, codec).value
  {
    var rows := ListingRows(t);
    var i := RowIndexOf(rows, t, id);
    ListedRowReads(rows, GetAll(t, codec), i, codec);
  }

  /** A listed row reads as the repository at its position. */
  lemma ListedRowReads(rows: seq<Row>, r: Result<seq<Repository>>, i: nat, codec: Codec)
    requires r == RowsToRepos(rows, codec) && r.Ok? && i < |rows|
    ensures RowToRepo(rows[i], codec).Ok? && RowToRepo(rows[i], codec).value in r.value
  {
    assert RowToRepo(rows[i], codec) == Ok(r.value[i]);
  }

  /** Row order becomes the portfolio order: when no row has a NULL
      priority, the listing is ranked as the sync ranks it. */
  lemma RowKeyRanked(a: Row, b: Row, ra: Repository, rb: Repository, codec: Codec)
    requires a.priority.Some? && b.priority.Some? && LexLe(RowKey(a), RowKey(b))
    requires RowToRepo(a, codec) == Ok(ra) && RowToRepo(b, codec) == Ok(rb)
    ensures RankedNoLower(ra, rb)
  {
    var ka, kb := RowKey(a), RowKey(b);
    assert LexLe(ka[1..][1..][1..][1..], kb[1..][1..][1..][1..]);
    assert LexLe(ka[1..][1..][1..], kb[1..][1..][1..]) <==> ka[3] <= kb[3];
    assert LexLe(ka[1..][1..], kb[1..][1..]) <==> ka[2] < kb[2] || (ka[2] == kb[2] && ka[3] <= kb[3]);
  }

  lemma GetAllRanked(t: Table, codec: Codec)
    requires forall id :: id in t ==> t[id].priority.Some?
    requires GetAll(t, codec).Ok?
    ensures var r := GetAll(t, codec).value;
      forall i, j :: 0 <= i < j < |r| ==> RankedNoLower(r[i], r[j])
  {
    var rows := ListingRows(t);
    var r := GetAll(t, codec).value;
    forall i, j | 0 <= i < j < |r| ensures RankedNoLower(r[i], r[j]) {
      assert rows[i] in t.Values && rows[j] in t.Values;
      RowKeyRanked(rows[i], rows[j], r[i], r[j], codec);
    }
  }

  /** The latest cache time among the rows; None when no row has one
      (`MAX` ignores NULLs and is NULL on an empty table). */
  function MaxCached(rows: seq<Row>): (r: Option<int>)
    ensures r.None? <==> forall i :: 0 <= i < |rows| ==> rows[i].cachedAt.None?
    ensures r.Some? ==> exists i :: 0 <= i < |rows| && rows[i].cachedAt == r
    ensures r.Some? ==> forall i :: 0 <= i < |rows| && rows[i].cachedAt.Some? ==> rows[i].cachedAt.value <= r.value
    decreases |rows|
  {
    if |rows| == 0 then None
    else
      var rest := MaxCached(rows[1..]);
      assert forall i :: 1 <= i < |rows| ==> rows[i] == rows[1..][i - 1];
      match rows[0].cachedAt
      case None => rest
      case Some(c) => if rest.Some? && rest.value > c then rest else Some(c)
  }

  /** `get_last_updated`: the latest `cached_at` of the table. */
  function GetLastUpdated(t: Table): (r: Option<int>)
    ensures r.None? <==> forall id :: id in t ==> t[id].cachedAt.None?
    ensures r.Some? ==> exists id :: id in t && t[id].cachedAt == r
    ensures r.Some? ==> forall id :: id in t && t[id].cachedAt.Some? ==> t[id].cachedAt.value <= r.value
  {
    MaxCachedOfTable(t);
    MaxCached(Rows(t))
  }

  /** Every row of the table is among its listed rows. */
  lemma RowListed(t: Table, id: int)
    requires id in t
    ensures exists i :: 0 <= i < |Rows(t)| && Rows(t)[i] == t[id]
  {
    assert t[id] in t.Values;
    assert t[id] in Rows(t);
  }

  /** Every listed row is a row of the table. */
  lemma ListedRow(t: Table, i: int)
    requires 0 <= i < |Rows(t)|
    ensures exists id :: id in t && t[id] == Rows(t)[i]
  {
    assert Rows(t)[i] in Rows(t);
    assert Rows(t)[i] in t.Values;
  }

  lemma MaxCachedOfTable(t: Table)
    ensures var r := MaxCached(Rows(t));
      (r.None? <==> forall id :: id in t ==> t[id].cachedAt.None?)
      && (r.Some? ==> exists id :: id in t && t[id].cachedAt == r)
      && (r.Some? ==> forall id :: id in t && t[id].cachedAt.Some? ==> t[id].cachedAt.value <= r.value)
  {
    var rows := Rows(t);
    var r := MaxCached(rows);
    forall id | id in t ensures t[id].cachedAt.Some? ==> r.Some? && t[id].cachedAt.value <= r.value {
      RowListed(t, id);
    }
    if r.Some? {
      var i :| 0 <= i < |rows| && rows[i].cachedAt == r;
      ListedRow(t, i);
    }
  }

  /** `get_count`: the number of rows, one per id. */
  function GetCount(t: Table): (n: nat)
    ensures n == |Rows(t)|
  {
    |t|
  }

  /** An upsert adds one to the count exactly when the id is new. */
  lemma UpsertCount(t: Table, r: Repository, now: int, codec: Codec)
    ensures GetCount(Upsert(t, r, now, codec)) == GetCount(t) + (if r.id in t then 0 else 1)
  {
    var t' := Upsert(t, r, now, codec);
    KeysCount(t);
    KeysCount(t');
    if r.id in t {
      assert t'.Keys == t.Keys;
    }
  }

  /** A deletion takes one off the count exactly when it reports a removed
      row. */
  lemma DeleteCount(t: Table, id: int)
    ensures GetCount(Delete(t, id).table) == GetCount(t) - (if Delete(t, id).deleted then 1 else 0)
  {
    var d := Delete(t, id);
    KeysCount(t);
    KeysCount(d.table);
    if id !in t {
      assert d.table.Keys == t.Keys;
    }
  }

  lemma KeysCount(t: Table)
    ensures |t| == |t.Keys|
  {
  }
}

=== FILE: settings_manager.dfy ===
/** The admin settings form: the values fetched from `GET /admin/settings`,
    the edits made to them, and whether they still differ from what the
    server last confirmed. */
module SettingsManager {
  import opened Wrappers
  import AuthService
  import SettingsRouter

  /** A JavaScript object with string values, as its entries in insertion
      order. */
  type Settings = seq<(string, string)>

  /** No key appears twice, as in any JavaScript object. */
  predicate DistinctKeys(s: Settings) {
    forall i, j :: 0 <= i < j < |s| ==> s[i].0 != s[j].0
  }

  function Get(s: Settings, key: string): (v: Option<string>)
    ensures v.Some? <==> exists i :: 0 <= i < |s| && s[i].0 == key
    decreases |s|
  {
    if |s| == 0 then None
    else if s[0].0 == key then Some(s[0].1)
    else
      var rest := Get(s[1..], key);
      assert rest.Some? ==> exists i :: 0 <= i < |s| && s[i].0 == key by {
        if rest.Some? {
          var i :| 0 <= i < |s[1..]| && s[1..][i].0 == key;
          assert s[i + 1].0 == key;
        }
      }
      rest
  }

  /** The value stored under the key at index `i` is the one `Get` finds. */
  lemma {:induction false} GetAt(s: Settings, i: nat)
    requires DistinctKeys(s) && i < |s|
    ensures Get(s, s[i].0) == Some(s[i].1)
    decreases i
  {
    if i > 0 {
      GetAt(s[1..], i - 1);
    }
  }

  datatype MessageKind = Success | Failure
  datatype Message = Message(kind: MessageKind, text: string)

  datatype Form = Form(settings: Settings, original: Settings, loading: bool, saving: bool,
                       message: Option<Message>)

  const Initial := Form([], [], true, false, None)

  const ExpiredText := "인증이 만료되었습니다. 다시 로그인해주세요."
  const LoadFailedText := "설정을 불러오는데 실패했습니다."
  const SavedText := "설정이 저장되었습니다."
  const SaveFailedText := "설정 저장에 실패했습니다."

  /** What the settings fetch came back with. */
  datatype Fetched = Loaded(settings: Settings) | Unauthorized | OtherStatus | NetworkError

  /** The fetch: a loaded object becomes both the edited and the confirmed
      settings; 401 and a network failure each leave a message; loading ends
      in every case. */
  function Fetch(f: Form, outcome: Fetched): (f': Form)
    ensures !f'.loading
    ensures outcome.Loaded? ==> f'.settings == f'.original == outcome.settings && f'.message == f.message
    ensures !outcome.Loaded? ==> f'.settings == f.settings && f'.original == f.original
    ensures outcome.Unauthorized? ==> f'.message == Some(Message(Failure, ExpiredText))
    ensures outcome.NetworkError? ==> f'.message == Some(Message(Failure, LoadFailedText))
    ensures outcome.OtherStatus? ==> f'.message == f.message
  {
    match outcome
    case Loaded(s) => f.(settings := s, original := s, loading := false)
    case Unauthorized => f.(message := Some(Message(Failure, ExpiredText)), loading := false)
    case OtherStatus => f.(loading := false)
    case NetworkError => f.(message := Some(Message(Failure, LoadFailedText)), loading := false)
  }

  /** `{...prev, [key]: value}`: an existing key keeps its place and takes
      the new value; a new key is appended. */
  function Put(s: Settings, key: string, value: string): (r: Settings)
    ensures Get(r, key) == Some(value)
    ensures Get(s, key).Some? ==> |r| == |s|
    ensures Get(s, key).None? ==> r == s + [(key, value)]
    decreases |s|
  {
    if |s| == 0 then [(key, value)]
    else if s[0].0 == key then [(key, value)] + s[1..]
    else [s[0]] + Put(s[1..], key, value)
  }

  /** Every other key keeps its value and every entry its place. */
  lemma {:induction false} PutFrame(s: Settings, key: string, value: string, k: string)
    requires k != key
    ensures Get(Put(s, key, value), k) == Get(s, k)
    ensures forall i :: 0 <= i < |s| ==> Put(s, key, value)[i].0 == s[i].0
    decreases |s|
  {
    if |s| > 0 && s[0].0 != key {
      PutFrame(s[1..], key, value, k);
      var r := Put(s, key, value);
      assert r[1..] == Put(s[1..], key, value);
    }
  }

  /** A put keeps the keys distinct. */
  lemma {:induction false} PutDistinct(s: Settings, key: string, value: string)
    requires DistinctKeys(s)
    ensures DistinctKeys(Put(s, key, value))
    decreases |s|
  {
    if |s| > 0 && s[0].0 != key {
      PutDistinct(s[1..], key, value);
      var r := Put(s, key, value);
      var rest := Put(s[1..], key, value);
      assert r[1..] == rest;
      forall j | 0 < j < |r| ensures r[0].0 != r[j].0 {
        if j - 1 < |s[1..]| {
          PutFrame(s[1..], key, value, key + [' ']);
          assert rest[j - 1].0 == s[1..][j - 1].0 == s[j].0;
        } else {
          assert rest == s[1..] + [(key, value)];
          assert r[j].0 == key;
        }
      }
    }
  }

  /** `handleChange`. */
  function HandleChange(f: Form, key: string, value: string): (f': Form)
    ensures Get(f'.settings, key) == Some(value)
    ensures forall k :: k != key ==> Get(f'.settings, k) == Get(f.settings, k)
    ensures DistinctKeys(f.settings) ==> DistinctKeys(f'.settings)
    ensures f'.original == f.original && f'.saving == f.saving && f'.message == f.message
  {
    var r := Put(f.settings, key, value);
    assert forall k :: k != key ==> Get(r, k) == Get(f.settings, k) by {
      forall k | k != key ensures Get(r, k) == Get(f.settings, k) {
        PutFrame(f.settings, key, value, k);
      }
    }
    assert DistinctKeys(f.settings) ==> DistinctKeys(r) by {
      if DistinctKeys(f.settings) {
        PutDistinct(f.settings, key, value);
      }
    }
    f.(settings := Put(f.settings, key, value))
  }

  /** `hasChanges`: `JSON.stringify` of an object with string values is
      determined by, and determines, its entries in order, so comparing the
      two texts compares the entry sequences. */
  predicate HasChanges(f: Form): (b: bool)
    ensures b <==> |f.settings| != |f.original|
                   || exists i :: 0 <= i < |f.settings| && i < |f.original| && f.settings[i] != f.original[i]
    ensures !b ==> forall k :: Get(f.settings, k) == Get(f.original, k)
  {
    f.settings != f.original
  }

  /** The save button is enabled only with unsaved changes and no save in
      flight. */
  predicate SaveEnabled(f: Form): (b: bool)
    ensures f.saving || f.settings == f.original ==> !b
    ensures b ==> Save(f, true).original != f.original
  {
    HasChanges(f) && !f.saving
  }

  /** The `PUT` body: one item per entry, in order, `value || ''` keeping a
      string as it is, and no description. */
  function SaveRequest(s: Settings): (items: seq<SettingsRouter.SettingItem>)
    ensures |items| == |s|
    ensures forall i :: 0 <= i < |s| ==> items[i] == SettingsRouter.SettingItem(s[i].0, Some(s[i].1), None)
  {
    seq(|s|, i requires 0 <= i < |s| => SettingsRouter.SettingItem(s[i].0, Some(s[i].1), None))
  }

  /** `handleSave` once the request has been answered: on success the
      current settings become the confirmed ones; on failure nothing but the
      message changes; saving ends either way. */
  function Save(f: Form, ok: bool): (f': Form)
    ensures f'.settings == f.settings && !f'.saving
    ensures ok ==> !HasChanges(f') && f'.message == Some(Message(Success, SavedText))
    ensures !ok ==> f'.original == f.original && HasChanges(f') == HasChanges(f)
                    && f'.message == Some(Message(Failure, SaveFailedText))
  {
    if ok then f.(original := f.settings, saving := false, message := Some(Message(Success, SavedText)))
    else f.(saving := false, message := Some(Message(Failure, SaveFailedText)))
  }

  /** Editing a key away from its confirmed value and back again leaves no
      unsaved change, provided the form had none before. */
  lemma {:induction false} RevertLeavesNoChanges(f: Form, key: string, value: string)
    requires !HasChanges(f) && Get(f.settings, key).Some?
    ensures !HasChanges(HandleChange(HandleChange(f, key, value), key, Get(f.settings, key).value))
  {
    PutRestore(f.settings, key, value);
  }

  /** Putting a key's own value back after changing it restores the entries. */
  lemma {:induction false} PutRestore(s: Settings, key: string, value: string)
    requires Get(s, key).Some?
    ensures Put(Put(s, key, value), key, Get(s, key).value) == s
    decreases |s|
  {
    if s[0].0 != key {
      PutRestore(s[1..], key, value);
      assert s == [s[0]] + s[1..];
    }
  }

  /** A key the confirmed settings did not have stays an unsaved change
      whatever value it is given afterwards: the form cannot remove it. */
  lemma NewKeyStaysChanged(f: Form, key: string, value: string, later: string)
    requires Get(f.original, key).None?
    ensures HasChanges(HandleChange(HandleChange(f, key, value), key, later))
  {
    var f2 := HandleChange(HandleChange(f, key, value), key, later);
    assert Get(f2.settings, key) != Get(f2.original, key);
  }

  /** A successful save sends every entry, and the server then lists each key
      with the form's value. */
  lemma SaveReachesServer(user: AuthService.PublicUser, t: SettingsRouter.SettingsTable, f: Form, now: int, i: nat)
    requires DistinctKeys(f.settings) && i < |f.settings|
    ensures var (answer, t') := SettingsRouter.UpdateSettings(Ok(user), t, SaveRequest(f.settings), now);
      answer == Ok(|f.settings|)
      && f.settings[i].0 in SettingsRouter.GetAllSettings(Ok(user), t').value
      && SettingsRouter.GetAllSettings(Ok(user), t').value[f.settings[i].0] == f.settings[i].1
  {
    var items := SaveRequest(f.settings);
    SettingsRouter.ApplyItemsLastWins(t, items, now, i);
    var t' := SettingsRouter.UpdateSettings(Ok(user), t, items, now).1;
    assert f.settings[i].0 in t';
  }

  /** Loading settings and saving them again without edits is not offered:
      the button stays disabled until something changes. */
  lemma FreshLoadNotSavable(s: Settings)
    ensures !SaveEnabled(Fetch(Initial, Loaded(s)))
  {
  }
}

=== FILE: settings_router.dfy ===
/** The site settings endpoints: a key/value table (`site_settings`) edited
    by signed-in admins, and the public read of the contact links. */
module SettingsRouter {
  import opened Wrappers
  import AuthService

  /** A row of `site_settings`; NULL columns are None. */
  datatype SettingRow = SettingRow(value: Option<string>, description: Option<string>, updatedAt: int)

  /** The table, by its primary key. */
  type SettingsTable = map<string, SettingRow>

  /** One item of an update request. */
  datatype SettingItem = SettingItem(key: string, value: Option<string>, description: Option<string>)

  datatype SnsLinks = SnsLinks(
    threads: Option<string>, youtube: Option<string>, github: Option<string>,
    linkedin: Option<string>, email: Option<string>)

  datatype SettingView = SettingView(key: string, value: Option<string>, description: Option<string>)

  // ---------------------------------------------------------------------------
  // The public contact links

  /** SQL `key LIKE 'sns_%' OR key = 'contact_email'`; in LIKE the '_' is a
      wildcard for one character, so any key starting with "sns" followed by
      at least one character matches. */
  predicate SnsRow(key: string) {
    (|key| >= 4 && key[..3] == "sns") || key == "contact_email"
  }

  /** The rows the public query fetches, as a dict from key to value. */
  function SnsRows(t: SettingsTable): (m: map<string, Option<string>>)
    ensures m.Keys == set k | k in t && SnsRow(k)
    ensures forall k :: k in m ==> m[k] == t[k].value
  {
    map k | k in t && SnsRow(k) :: t[k].value
  }

  /** `settings.get(key, '')`: a missing key reads "", a stored NULL None. */
  function LinkOf(rows: map<string, Option<string>>, key: string): Option<string> {
    if key in rows then rows[key] else Some("")
  }

  /** `GET /settings/sns`: public; the five links, each the stored value of
      its key: the LIKE filter lets every one of the five keys through. */
  function GetSnsLinks(t: SettingsTable): (r: SnsLinks)
    ensures r == SnsLinks(Stored(t, "sns_threads"), Stored(t, "sns_youtube"), Stored(t, "sns_github"),
                          Stored(t, "sns_linkedin"), Stored(t, "contact_email"))
  {
    assert SnsRow("sns_threads") && SnsRow("sns_youtube") && SnsRow("sns_github") && SnsRow("sns_linkedin");
    var rows := SnsRows(t);
    SnsLinks(LinkOf(rows, "sns_threads"), LinkOf(rows, "sns_youtube"), LinkOf(rows, "sns_github"),
             LinkOf(rows, "sns_linkedin"), LinkOf(rows, "contact_email"))
  }

  /** The stored value of a key as the public links read it. */
  function Stored(t: SettingsTable, key: string): Option<string> {
    if key in t then t[key].value else Some("")
  }

  /** The five names the public links are read from. */
  const SnsKeys: set<string> := {"sns_threads", "sns_youtube", "sns_github", "sns_linkedin", "contact_email"}

  /** Writing or deleting any other key, even one the LIKE filter fetches
      such as "sns_x", leaves the public links unchanged. */
  lemma SnsLinksIgnoreOtherKeys(t: SettingsTable, k: string, row: SettingRow)
    requires k !in SnsKeys
    ensures GetSnsLinks(t[k := row]) == GetSnsLinks(t)
    ensures GetSnsLinks(t - {k}) == GetSnsLinks(t)
  {
    var t1 := t[k := row];
    var t2 := t - {k};
    forall key | key in SnsKeys
      ensures Stored(t1, key) == Stored(t, key) && Stored(t2, key) == Stored(t, key)
    {
      assert key != k;
    }
  }

  // ---------------------------------------------------------------------------
  // The admin endpoints

  /** `GET /admin/settings`: every key with its value, NULL and "" both
      read as "". */
  function GetAllSettings(caller: Result<AuthService.PublicUser>, t: SettingsTable): (r: Result<map<string, string>>)
    ensures caller.Err? ==> r == Err(caller.error)
    ensures caller.Ok? ==> r.Ok? && r.value.Keys == t.Keys
    ensures r.Ok? ==> forall k :: k in t ==> r.value[k] == t[k].value.GetOr("")
  {
    match caller
    case Err(e) => Err(e)
    case Ok(_) => Ok(map k | k in t :: t[k].value.GetOr(""))
  }

  /** One upsert: the value is replaced, the description only when the item
      carries one. */
  function UpsertSetting(t: SettingsTable, item: SettingItem, now: int): (t': SettingsTable)
    ensures t'.Keys == t.Keys + {item.key}
    ensures t'[item.key].value == item.value && t'[item.key].updatedAt == now
    ensures item.description.Some? ==> t'[item.key].description == item.description
    ensures item.description.None? && item.key in t ==> t'[item.key].description == t[item.key].description
    ensures item.description.None? && item.key !in t ==> t'[item.key].description.None?
    ensures forall k :: k in t && k != item.key ==> t'[k] == t[k]
  {
    var description := if item.description.Some? then item.description
                       else if item.key in t then t[item.key].description
                       else None;
    t[item.key := SettingRow(item.value, description, now)]
  }

  /** The items applied in order. */
  function ApplyItems(t: SettingsTable, items: seq<SettingItem>, now: int): SettingsTable
    decreases |items|
  {
    if |items| == 0 then t
    else UpsertSetting(ApplyItems(t, items[..|items| - 1], now), items[|items| - 1], now)
  }

  /** The keys an update request names. */
  function ItemKeys(items: seq<SettingItem>): set<string> {
    set i | 0 <= i < |items| :: items[i].key
  }

  /** `PUT /admin/settings`: every item upserted in order; the answer
      counts the items. */
  function UpdateSettings(caller: Result<AuthService.PublicUser>, t: SettingsTable, items: seq<SettingItem>, now: int)
    : (res: (Result<nat>, SettingsTable))
    ensures caller.Err? ==> res == (Err(caller.error), t)
    ensures caller.Ok? ==> res.0 == Ok(|items|)
  {
    match caller
    case Err(e) => (Err(e), t)
    case Ok(_) => (Ok(|items|), ApplyItems(t, items, now))
  }

  /** Keys the request does not name keep their rows; the table gains
      exactly the keys it names. */
  lemma {:induction false} ApplyItemsFrame(t: SettingsTable, items: seq<SettingItem>, now: int)
    ensures ApplyItems(t, items, now).Keys == t.Keys + ItemKeys(items)
    ensures forall k :: k in t && k !in ItemKeys(items) ==> ApplyItems(t, items, now)[k] == t[k]
    decreases |items|
  {
    if |items| > 0 {
      var init := items[..|items| - 1];
      ApplyItemsFrame(t, init, now);
      assert ItemKeys(items) == ItemKeys(init) + {items[|items| - 1].key} by {
        forall k | k in ItemKeys(items) ensures k in ItemKeys(init) + {items[|items| - 1].key} {
          var i :| 0 <= i < |items| && items[i].key == k;
          if i < |items| - 1 { assert init[i] == items[i]; }
        }
        forall k | k in ItemKeys(init) ensures k in ItemKeys(items) {
          var i :| 0 <= i < |init| && init[i].key == k;
          assert items[i] == init[i];
        }
      }
    }
  }

  /** The last item naming a key decides its value, and every named key
      carries the time of the update. */
  lemma {:induction false} ApplyItemsLastWins(t: SettingsTable, items: seq<SettingItem>, now: int, j: nat)
    requires j < |items|
    requires forall i :: j < i < |items| ==> items[i].key != items[j].key
    ensures items[j].key in ApplyItems(t, items, now)
    ensures ApplyItems(t, items, now)[items[j].key].value == items[j].value
    ensures ApplyItems(t, items, now)[items[j].key].updatedAt == now
    decreases |items|
  {
    if j < |items| - 1 {
      var init := items[..|items| - 1];
      ApplyItemsLastWins(t, init, now, j);
    }
  }

  /** A description is kept until an item brings a new one: the last item
      for the key that carries a description decides it. */
  lemma {:induction false} ApplyItemsDescription(t: SettingsTable, items: seq<SettingItem>, now: int, j: nat)
    requires j < |items| && items[j].description.Some?
    requires forall i :: j < i < |items| && items[i].key == items[j].key ==> items[i].description.None?
    ensures items[j].key in ApplyItems(t, items, now)
    ensures ApplyItems(t, items, now)[items[j].key].description == items[j].description
    decreases |items|
  {
    if j < |items| - 1 {
      var init := items[..|items| - 1];
      ApplyItemsDescription(t, init, now, j);
    }
  }

  /** Items without a description keep the stored one. */
  lemma {:induction false} ApplyItemsKeepsDescription(t: SettingsTable, items: seq<SettingItem>, now: int, k: string)
    requires k in t
    requires forall i :: 0 <= i < |items| && items[i].key == k ==> items[i].description.None?
    ensures k in ApplyItems(t, items, now)
    ensures ApplyItems(t, items, now)[k].description == t[k].description
    decreases |items|
  {
    if |items| > 0 {
      ApplyItemsKeepsDescription(t, items[..|items| - 1], now, k);
    }
  }

  /** `GET /admin/settings/{key}`: the row, 404 when there is none. */
  function GetSetting(caller: Result<AuthService.PublicUser>, t: SettingsTable, key: string): (r: Result<SettingView>)
    ensures caller.Err? ==> r == Err(caller.error)
    ensures caller.Ok? && key !in t ==> r == Err(Http(404, "Setting not found"))
    ensures r.Ok? <==> caller.Ok? && key in t
    ensures r.Ok? ==> r.value == SettingView(key, t[key].value, t[key].description)
  {
    match caller
    case Err(e) => Err(e)
    case Ok(_) =>
      if key !in t then Err(Http(404, "Setting not found"))
      else Ok(SettingView(key, t[key].value, t[key].description))
  }

  /** `DELETE /admin/settings/{key}`: the key is removed and echoed; 404
      when no row was deleted. */
  function DeleteSetting(caller: Result<AuthService.PublicUser>, t: SettingsTable, key: string)
    : (res: (Result<string>, SettingsTable))
    ensures caller.Err? ==> res == (Err(caller.error), t)
    ensures res.0.Ok? <==> caller.Ok? && key in t
    ensures res.0.Ok? ==> res.0.value == key && res.1.Keys == t.Keys - {key}
                          && forall k :: k in res.1 ==> res.1[k] == t[k]
    ensures caller.Ok? && key !in t ==> res == (Err(Http(404, "Setting not found")), t)
  {
    match caller
    case Err(e) => (Err(e), t)
    case Ok(_) =>
      if key !in t then (Err(Http(404, "Setting not found")), t)
      else (Ok(key), t - {key})
  }

  /** A saved value is read back, by key and in the full listing. */
  lemma UpdateThenGet(user: AuthService.PublicUser, t: SettingsTable, items: seq<SettingItem>, now: int, j: nat)
    requires j < |items|
    requires forall i :: j < i < |items| ==> items[i].key != items[j].key
    ensures var t' := UpdateSettings(Ok(user), t, items, now).1;
      GetSetting(Ok(user), t', items[j].key).Ok?
      && GetSetting(Ok(user), t', items[j].key).value.value == items[j].value
      && GetAllSettings(Ok(user), t').value[items[j].key] == items[j].value.GetOr("")
  {
    ApplyItemsLastWins(t, items, now, j);
  }

  /** A deleted key is gone, and deleting it again is 404. */
  lemma DeleteThenGet(user: AuthService.PublicUser, t: SettingsTable, key: string)
    requires key in t
    ensures var t' := DeleteSetting(Ok(user), t, key).1;
      GetSetting(Ok(user), t', key) == Err(Http(404, "Setting not found"))
      && DeleteSetting(Ok(user), t', key).0 == Err(Http(404, "Setting not found"))
  {
  }

  /** Saving a contact link publishes it. */
  lemma UpdateThenSns(user: AuthService.PublicUser, t: SettingsTable, link: string, now: int)
    ensures GetSnsLinks(UpdateSettings(Ok(user), t, [SettingItem("sns_github", Some(link), None)], now).1).github
            == Some(link)
  {
    var items := [SettingItem("sns_github", Some(link), None)];
    ApplyItemsLastWins(t, items, now, 0);
  }
}

=== FILE: sorting.dfy ===
/** Sorting by a lexicographic integer key. Every ordering of the modelled code
    (Python's `list.sort(key=…)`, SQL `ORDER BY`, JavaScript's stable
    `Array.prototype.sort` with a comparator) is expressed as an ascending sort
    on a tuple of integers; descending components are negated. */
module Sorting {

  /** Lexicographic "less than or equal" on integer tuples. */
  predicate LexLe(a: seq<int>, b: seq<int>)
    decreases |a|
  {
    |a| == 0 || (|b| > 0 && (a[0] < b[0] || (a[0] == b[0] && LexLe(a[1..], b[1..]))))
  }

  lemma {:induction false} LexReflexive(a: seq<int>)
    ensures LexLe(a, a)
    decreases |a|
  {
    if |a| > 0 {
      LexReflexive(a[1..]);
    }
  }

  lemma {:induction false} LexTransitive(a: seq<int>, b: seq<int>, c: seq<int>)
    requires LexLe(a, b) && LexLe(b, c)
    ensures LexLe(a, c)
    decreases |a|
  {
    if |a| > 0 && a[0] == b[0] && b[0] == c[0] {
      LexTransitive(a[1..], b[1..], c[1..]);
    }
  }

  /** Keys of equal length are always comparable. */
  lemma {:induction false} LexTotal(a: seq<int>, b: seq<int>)
    requires |a| == |b|
    ensures LexLe(a, b) || LexLe(b, a)
    decreases |a|
  {
    if |a| > 0 && a[0] == b[0] {
      LexTotal(a[1..], b[1..]);
    }
  }

  /** A key function whose keys all have the same length. */
  predicate UniformKeys<T>(s: seq<T>, key: T -> seq<int>) {
    forall i, j :: 0 <= i < |s| && 0 <= j < |s| ==> |key(s[i])| == |key(s[j])|
  }

  predicate SortedBy<T>(s: seq<T>, key: T -> seq<int>) {
    forall i, j :: 0 <= i < j < |s| ==> LexLe(key(s[i]), key(s[j]))
  }

  /** Inserts `x` in front of the first element whose key is not smaller, so
      that `x` stays ahead of the elements with an equal key. */
  function Insert<T>(x: T, s: seq<T>, key: T -> seq<int>): (r: seq<T>)
    decreases |s|
  {
    if |s| == 0 || LexLe(key(x), key(s[0])) then [x] + s
    else [s[0]] + Insert(x, s[1..], key)
  }

  /** Insertion adds exactly `x`. */
  lemma {:induction false} InsertMultiset<T>(x: T, s: seq<T>, key: T -> seq<int>)
    ensures multiset(Insert(x, s, key)) == multiset(s) + multiset{x}
    decreases |s|
  {
    if |s| > 0 && !LexLe(key(x), key(s[0])) {
      InsertMultiset(x, s[1..], key);
      assert s == [s[0]] + s[1..];
    }
  }

  /** Insertion keeps every key at length `n`. */
  lemma {:induction false} InsertKeyLengths<T>(x: T, s: seq<T>, key: T -> seq<int>, n: nat)
    requires |key(x)| == n && forall i :: 0 <= i < |s| ==> |key(s[i])| == n
    ensures forall i :: 0 <= i < |Insert(x, s, key)| ==> |key(Insert(x, s, key)[i])| == n
    decreases |s|
  {
    if |s| > 0 && !LexLe(key(x), key(s[0])) {
      InsertKeyLengths(x, s[1..], key, n);
    }
  }

  /** Insertion into a sorted sequence keeps it sorted. */
  lemma {:induction false} InsertSorted<T>(x: T, s: seq<T>, key: T -> seq<int>, n: nat)
    requires SortedBy(s, key)
    requires |key(x)| == n && forall i :: 0 <= i < |s| ==> |key(s[i])| == n
    ensures SortedBy(Insert(x, s, key), key)
    decreases |s|
  {
    var r := Insert(x, s, key);
    if |s| == 0 {
    } else if LexLe(key(x), key(s[0])) {
      forall i, j | 0 <= i < j < |r| ensures LexLe(key(r[i]), key(r[j])) {
        if i == 0 && j > 1 {
          LexTransitive(key(x), key(s[0]), key(s[j - 1]));
        }
      }
    } else {
      LexTotal(key(x), key(s[0]));
      InsertSorted(x, s[1..], key, n);
      InsertMultiset(x, s[1..], key);
      var t := Insert(x, s[1..], key);
      assert r == [s[0]] + t;
      forall j | 0 <= j < |t| ensures LexLe(key(s[0]), key(t[j])) {
        assert t[j] in multiset(s[1..]) + multiset{x};
        if t[j] != x {
          assert t[j] in multiset(s[1..]);
          var k :| 0 <= k < |s[1..]| && s[1..][k] == t[j];
          assert s[k + 1] == t[j];
        }
      }
    }
  }

  lemma InsertFacts<T>(x: T, s: seq<T>, key: T -> seq<int>, n: nat)
    requires SortedBy(s, key)
    requires |key(x)| == n && forall i :: 0 <= i < |s| ==> |key(s[i])| == n
    ensures multiset(Insert(x, s, key)) == multiset(s) + multiset{x}
    ensures SortedBy(Insert(x, s, key), key)
    ensures forall i :: 0 <= i < |Insert(x, s, key)| ==> |key(Insert(x, s, key)[i])| == n
  {
    InsertMultiset(x, s, key);
    InsertSorted(x, s, key, n);
    InsertKeyLengths(x, s, key, n);
  }

  /** Stable insertion sort: a permutation of `s` sorted by `key`. */
  function SortBy<T>(s: seq<T>, key: T -> seq<int>): (r: seq<T>)
    requires UniformKeys(s, key)
    ensures multiset(r) == multiset(s) && |r| == |s|
    ensures SortedBy(r, key)
    ensures |s| > 0 ==> forall i :: 0 <= i < |r| ==> |key(r[i])| == |key(s[0])|
    decreases |s|
  {
    if |s| == 0 then []
    else
      var rest := SortBy(s[1..], key);
      assert s == [s[0]] + s[1..];
      assert forall i :: 0 <= i < |s[1..]| ==> |key(s[1..][i])| == |key(s[0])| by {
        forall i | 0 <= i < |s[1..]| ensures |key(s[1..][i])| == |key(s[0])| {
          assert s[1..][i] == s[i + 1];
        }
      }
      InsertFacts(s[0], rest, key, |key(s[0])|);
      var r := Insert(s[0], rest, key);
      assert |r| == |multiset(r)| == |s|;
      r
  }

  /** Membership is what a permutation preserves. */
  lemma PermutationMembers<T>(a: seq<T>, b: seq<T>, x: T)
    requires multiset(a) == multiset(b)
    ensures x in a <==> x in b
  {
    assert x in a <==> x in multiset(a);
    assert x in b <==> x in multiset(b);
  }

  predicate Distinct<T(==)>(s: seq<T>) {
    forall i, j :: 0 <= i < j < |s| ==> s[i] != s[j]
  }

  /** A sequence without repeats holds each value at most once. */
  lemma {:induction false} DistinctOnce<T>(s: seq<T>, x: T)
    requires Distinct(s)
    ensures multiset(s)[x] <= 1
    decreases |s|
  {
    if |s| > 0 {
      DistinctOnce(s[1..], x);
      assert s == [s[0]] + s[1..];
      if s[0] == x {
        assert x !in s[1..];
      }
    }
  }

  /** A permutation of a sequence without repeats has none either. */
  lemma PermutationDistinct<T>(a: seq<T>, b: seq<T>)
    requires multiset(a) == multiset(b) && Distinct(a)
    ensures Distinct(b)
  {
    forall i, j | 0 <= i < j < |b| ensures b[i] != b[j] {
      if b[i] == b[j] {
        var x := b[i];
        assert b == b[..i] + [x] + b[i + 1..j] + [x] + b[j + 1..];
        assert multiset(b)[x] >= 2;
        DistinctOnce(a, x);
        assert false;
      }
    }
  }
}

=== FILE: strings.dfy ===
/** String operations of Python and JavaScript that the modelled code relies on,
    written over `string` (a sequence of Unicode scalar values, which is what a
    Python `str` holds). Case mapping is ASCII-only here. */
module Strings {
  import opened Wrappers

  // ---------------------------------------------------------------------------
  // Prefixes, suffixes, substrings

  predicate StartsWith(s: string, p: string) {
    |p| <= |s| && s[..|p|] == p
  }

  predicate EndsWith(s: string, p: string) {
    |p| <= |s| && s[|s| - |p|..] == p
  }

  /** `t in s` in Python, `s.includes(t)` in JavaScript. */
  predicate Contains(s: string, t: string)
    decreases |s|
  {
    StartsWith(s, t) || (|s| > 0 && Contains(s[1..], t))
  }

  lemma {:induction false} ContainsAt(s: string, t: string, i: nat)
    requires i + |t| <= |s| && s[i..i + |t|] == t
    ensures Contains(s, t)
    decreases i
  {
    if i > 0 {
      assert s[1..][i - 1..i - 1 + |t|] == t;
      ContainsAt(s[1..], t, i - 1);
    }
  }

  lemma {:induction false} ContainsWitness(s: string, t: string) returns (i: nat)
    requires Contains(s, t)
    ensures i + |t| <= |s| && s[i..i + |t|] == t
    decreases |s|
  {
    if StartsWith(s, t) {
      i := 0;
    } else {
      var j := ContainsWitness(s[1..], t);
      assert s[1..][j..j + |t|] == s[j + 1..j + 1 + |t|];
      i := j + 1;
    }
  }

  lemma ContainsItself(s: string)
    ensures Contains(s, s)
  {
    ContainsAt(s, s, 0);
  }

  /** A string containing `t` is at least as long as `t`. */
  lemma ContainsLength(s: string, t: string)
    requires Contains(s, t)
    ensures |t| <= |s|
  {
    var _ := ContainsWitness(s, t);
  }

  // ---------------------------------------------------------------------------
  // Python `str.replace(pat, rep)`: leftmost, non-overlapping occurrences

  function ReplaceAll(s: string, pat: string, rep: string): (r: string)
    requires |pat| > 0
    decreases |s|
  {
    if |s| < |pat| then s
    else if s[..|pat|] == pat then rep + ReplaceAll(s[|pat|..], pat, rep)
    else [s[0]] + ReplaceAll(s[1..], pat, rep)
  }

  /** Replacing leaves a string without occurrences unchanged. */
  lemma {:induction false} ReplaceAllAbsent(s: string, pat: string, rep: string)
    requires |pat| > 0 && !Contains(s, pat)
    ensures ReplaceAll(s, pat, rep) == s
    decreases |s|
  {
    if |s| >= |pat| {
      assert !StartsWith(s, pat);
      ReplaceAllAbsent(s[1..], pat, rep);
      assert [s[0]] + s[1..] == s;
    }
  }

  /** A leading occurrence of the pattern is replaced and the rest follows. */
  lemma ReplaceAllLeading(pat: string, rest: string, rep: string)
    requires |pat| > 0
    ensures ReplaceAll(pat + rest, pat, rep) == rep + ReplaceAll(rest, pat, rep)
  {
    var s := pat + rest;
    assert s[..|pat|] == pat && s[|pat|..] == rest;
  }

  // ---------------------------------------------------------------------------
  // Whitespace trimming

  /** Characters for which Python's `str.isspace()` holds. */
  predicate IsPySpace(c: char) {
    c == ' ' || ('\t' <= c <= '\r') || ('\U{1c}' <= c <= '\U{1f}') || c == '\U{85}'
    || c == '\U{a0}' || c == '\U{1680}' || ('\U{2000}' <= c <= '\U{200a}')
    || c == '\U{2028}' || c == '\U{2029}' || c == '\U{202f}' || c == '\U{205f}' || c == '\U{3000}'
  }

  /** Characters JavaScript's `String.prototype.trim` removes (WhiteSpace and LineTerminator). */
  predicate IsJsSpace(c: char) {
    c == ' ' || ('\t' <= c <= '\r') || c == '\U{a0}' || c == '\U{1680}'
    || ('\U{2000}' <= c <= '\U{200a}') || c == '\U{2028}' || c == '\U{2029}'
    || c == '\U{202f}' || c == '\U{205f}' || c == '\U{3000}' || c == '\U{feff}'
  }

  function TrimStart(s: string, ws: char -> bool): (r: string)
    ensures |r| <= |s| && r == s[|s| - |r|..]
    ensures forall k :: 0 <= k < |s| - |r| ==> ws(s[k])
    ensures |r| > 0 ==> !ws(r[0])
    decreases |s|
  {
    if |s| > 0 && ws(s[0]) then
      var t := s[1..];
      var r := TrimStart(t, ws);
      assert s[|s| - |r|..] == t[|t| - |r|..];
      assert forall k :: 1 <= k < |s| - |r| ==> s[k] == t[k - 1];
      r
    else s
  }

  function TrimEnd(s: string, ws: char -> bool): (r: string)
    ensures |r| <= |s| && r == s[..|r|]
    ensures forall k :: |r| <= k < |s| ==> ws(s[k])
    ensures |r| > 0 ==> !ws(r[|r| - 1])
    decreases |s|
  {
    if |s| > 0 && ws(s[|s| - 1]) then TrimEnd(s[..|s| - 1], ws) else s
  }

  /** Removes leading and trailing characters satisfying `ws`: the result is the
      infix of `s` that starts and ends with a non-space character. */
  function Trim(s: string, ws: char -> bool): (r: string)
    ensures |r| <= |s|
    ensures |r| > 0 ==> !ws(r[0]) && !ws(r[|r| - 1])
    ensures (forall k :: 0 <= k < |s| ==> ws(s[k])) <==> r == []
  {
    var a := TrimStart(s, ws);
    var r := TrimEnd(a, ws);
    TrimFacts(s, ws, a, r);
    r
  }

  lemma TrimFacts(s: string, ws: char -> bool, a: string, r: string)
    requires a == TrimStart(s, ws) && r == TrimEnd(a, ws)
    ensures (forall k :: 0 <= k < |s| ==> ws(s[k])) <==> r == []
  {
    var n := |s| - |a|;
    if r != [] {
      assert a[0] == s[n];
    }
  }

  /** Python `str.strip()`. */
  function PyStrip(s: string): string {
    Trim(s, IsPySpace)
  }

  /** JavaScript `String.prototype.trim()`. */
  function JsTrim(s: string): string {
    Trim(s, IsJsSpace)
  }

  /** A string without surrounding spaces is its own strip. */
  lemma StripUntouched(s: string, ws: char -> bool)
    requires |s| > 0 ==> !ws(s[0]) && !ws(s[|s| - 1])
    ensures Trim(s, ws) == s
  {
  }

  // ---------------------------------------------------------------------------
  // Python `str.split(c)` and `c.join(parts)`

  /** The number of occurrences of `c` in `s`. */
  function Count(s: string, c: char): nat
    decreases |s|
  {
    if |s| == 0 then 0
    else (if s[0] == c then 1 else 0) + Count(s[1..], c)
  }

  function Join(parts: seq<string>, sep: string): string
    decreases |parts|
  {
    if |parts| == 0 then ""
    else if |parts| == 1 then parts[0]
    else parts[0] + sep + Join(parts[1..], sep)
  }

  /** Python `s.split(c)` for a one-character separator: never empty, one more
      part than separators, and no part contains the separator; joining the
      parts back gives `s` (`JoinSplit`). */
  function Split(s: string, c: char): (parts: seq<string>)
    ensures |parts| == Count(s, c) + 1
    ensures forall i :: 0 <= i < |parts| ==> c !in parts[i]
    decreases |s|
  {
    if |s| == 0 then [""]
    else
      var rest := Split(s[1..], c);
      if s[0] == c then [""] + rest
      else [[s[0]] + rest[0]] + rest[1..]
  }

  /** Joining the parts back with the separator gives the string. */
  lemma {:induction false} JoinSplit(s: string, c: char)
    ensures Join(Split(s, c), [c]) == s
    decreases |s|
  {
    if |s| > 0 {
      JoinSplit(s[1..], c);
      var rest := Split(s[1..], c);
      assert |rest| > 0;
      if s[0] == c {
        assert Split(s, c) == [""] + rest;
      } else {
        var parts := Split(s, c);
        assert parts == [[s[0]] + rest[0]] + rest[1..];
        if |rest| == 1 {
          assert Join(parts, [c]) == [s[0]] + rest[0];
        } else {
          assert Join(rest, [c]) == rest[0] + [c] + Join(rest[1..], [c]);
          assert parts[1..] == rest[1..];
          assert Join(parts, [c]) == ([s[0]] + rest[0]) + [c] + Join(rest[1..], [c]);
        }
      }
      assert [s[0]] + s[1..] == s;
    }
  }

  /** Splitting a join of separator-free parts gives the parts back. */
  lemma {:induction false} SplitJoin(parts: seq<string>, c: char)
    requires |parts| > 0
    requires forall i :: 0 <= i < |parts| ==> c !in parts[i]
    ensures Split(Join(parts, [c]), c) == parts
    decreases |parts|
  {
    if |parts| == 1 {
      SplitNoSeparator(parts[0], c);
    } else {
      SplitJoin(parts[1..], c);
      SplitPrefix(parts[0], Join(parts[1..], [c]), c);
    }
  }

  lemma {:induction false} SplitNoSeparator(s: string, c: char)
    requires c !in s
    ensures Split(s, c) == [s]
    decreases |s|
  {
    if |s| > 0 {
      SplitNoSeparator(s[1..], c);
      assert [s[0]] + s[1..] == s;
    }
  }

  lemma {:induction false} SplitPrefix(a: string, b: string, c: char)
    requires c !in a
    ensures Split(a + [c] + b, c) == [a] + Split(b, c)
    decreases |a|
  {
    var s := a + [c] + b;
    if |a| == 0 {
      assert s[0] == c && s[1..] == b;
    } else {
      assert s[0] == a[0] && s[0] != c;
      assert s[1..] == a[1..] + [c] + b;
      SplitPrefix(a[1..], b, c);
      var rest := Split(s[1..], c);
      assert rest == [a[1..]] + Split(b, c);
      assert Split(s, c) == [[s[0]] + rest[0]] + rest[1..];
      assert [a[0]] + a[1..] == a;
    }
  }

  /** The part after the last separator is the last part. */
  lemma {:induction false} SplitSnoc(a: string, b: string, c: char)
    requires c !in b
    ensures Split(a + [c] + b, c) == Split(a, c) + [b]
    decreases |a|
  {
    var s := a + [c] + b;
    if |a| == 0 {
      assert s[0] == c && s[1..] == b;
      SplitNoSeparator(b, c);
    } else {
      assert s[0] == a[0];
      assert s[1..] == a[1..] + [c] + b;
      SplitSnoc(a[1..], b, c);
      var tail := Split(a[1..], c);
      var rest := Split(s[1..], c);
      assert rest == tail + [b];
      assert |tail| > 0;
      if a[0] == c {
        assert Split(s, c) == [""] + rest;
        assert Split(a, c) == [""] + tail;
      } else {
        assert rest[0] == tail[0] && rest[1..] == tail[1..] + [b];
        assert Split(s, c) == [[a[0]] + rest[0]] + rest[1..];
        assert Split(a, c) == [[a[0]] + tail[0]] + tail[1..];
      }
    }
  }

  // ---------------------------------------------------------------------------
  // Decimal numerals (Python `str(int)`, JavaScript `String(n)`)

  predicate IsDigit(c: char) { '0' <= c <= '9' }

  function DigitChar(d: nat): (c: char)
    requires d < 10
    ensures IsDigit(c)
  {
    ["0123456789"][0][d]
  }

  function NatToString(n: nat): (s: string)
    ensures |s| > 0 && forall i :: 0 <= i < |s| ==> IsDigit(s[i])
    decreases n
  {
    if n < 10 then [DigitChar(n)] else NatToString(n / 10) + [DigitChar(n % 10)]
  }

  function IntToString(i: int): (s: string)
    ensures forall k :: 0 <= k < |s| ==> IsDigit(s[k]) || s[k] == '-'
  {
    if i < 0 then "-" + NatToString(-i) else NatToString(i)
  }

  function DigitValue(c: char): nat
    requires IsDigit(c)
  {
    (c as int - '0' as int) as nat
  }

  /** Reads a non-empty run of decimal digits. */
  function ParseNat(s: string): Option<nat>
    decreases |s|
  {
    if |s| == 0 || !IsDigit(s[|s| - 1]) then None
    else if |s| == 1 then Some(DigitValue(s[0]))
    else match ParseNat(s[..|s| - 1])
      case None => None
      case Some(v) => Some(v * 10 + DigitValue(s[|s| - 1]))
  }

  lemma {:induction false} ParseNatToString(n: nat)
    ensures ParseNat(NatToString(n)) == Some(n)
    decreases n
  {
    var s := NatToString(n);
    if n >= 10 {
      ParseNatToString(n / 10);
      assert s[..|s| - 1] == NatToString(n / 10);
      assert DigitValue(s[|s| - 1]) == n % 10;
    } else {
      assert DigitValue(s[0]) == n;
    }
  }

  lemma NatToStringInjective(a: nat, b: nat)
    requires NatToString(a) == NatToString(b)
    ensures a == b
  {
    ParseNatToString(a);
    ParseNatToString(b);
  }

  /** The numeral of a negative number, and only that, starts with '-'. */
  lemma IntToStringSign(i: int)
    ensures IntToString(i)[0] == '-' <==> i < 0
  {
    if i >= 0 {
      assert IsDigit(NatToString(i)[0]);
    }
  }

  lemma IntToStringInjective(a: int, b: int)
    requires IntToString(a) == IntToString(b)
    ensures a == b
  {
    IntToStringSign(a);
    IntToStringSign(b);
    if a < 0 && b < 0 {
      assert NatToString(-a) == IntToString(a)[1..];
      NatToStringInjective(-a, -b);
    } else if a >= 0 && b >= 0 {
      NatToStringInjective(a, b);
    } else {
      assert false;
    }
  }

  // ---------------------------------------------------------------------------
  // Case mapping (ASCII letters only)

  function LowerChar(c: char): char {
    if 'A' <= c <= 'Z' then (c as int + 32) as char else c
  }

  function UpperChar(c: char): char {
    if 'a' <= c <= 'z' then (c as int - 32) as char else c
  }

  function Lower(s: string): (r: string)
    ensures |r| == |s| && forall i :: 0 <= i < |s| ==> r[i] == LowerChar(s[i])
  {
    seq(|s|, i requires 0 <= i < |s| => LowerChar(s[i]))
  }

  /** JavaScript `s.charAt(0).toUpperCase() + s.slice(1)`. */
  function CapitalizeFirst(s: string): (r: string)
    ensures |r| == |s| && (|s| > 0 ==> r[0] == UpperChar(s[0]) && r[1..] == s[1..])
  {
    if |s| == 0 then s else [UpperChar(s[0])] + s[1..]
  }

  // ---------------------------------------------------------------------------
  // Truthiness

  /** Python's `a or b` on an optional text (a nullable column, a missing
      field): the text when it is present and non-empty, else the fallback. */
  function OrText(a: Option<string>, b: string): (r: string)
    ensures a.Some? && a.value != "" ==> r == a.value
    ensures a.None? || a.value == "" ==> r == b
  {
    if a.Some? && a.value != "" then a.value else b
  }
}

=== FILE: tracker.dfy ===
/** The browser tracker: it keeps a session id in session storage and a
    visitor id in local storage, sends a page view on load and on every
    in-app navigation, and reports scroll milestones, hidden tabs, exit
    intent and the time on the page to the collector.

    The browser is a parameter: the storages (None where using one throws),
    the JSON codec, the clock, the random digits and the inputs it delivers.
    The listeners' throttling only drops inputs, so a run is the sequence of
    inputs the throttles let through. */
module Tracker {
  import opened Wrappers
  import opened Json
  import Analytics

  // ---------------------------------------------------------------------------
  // Identifiers

  const SessionKey: string := "_as_sid"
  const VisitorKey: string := "_as_vid"
  /** A stored session lives for 30 minutes, in milliseconds. */
  const SessionTimeout: int := 30 * 60 * 1000

  /** One of the browser's storages; the empty string reads as no value. */
  type Storage = map<string, string>

  /** Reading a storage key as JavaScript's `if (stored)` sees it. */
  function Item(st: Storage, key: string): Option<string> {
    if key in st && st[key] != "" then Some(st[key]) else None
  }

  /** The session record `{ id, timestamp }`; an id that was undefined is
      left out, as `JSON.stringify` does. */
  function Stamp(id: Option<Json>, now: int): Json {
    if id.Some? then JObj(map["id" := id.value, "timestamp" := JInt(now)])
    else JObj(map["timestamp" := JInt(now)])
  }

  /** The stored record, when it parses to an object whose timestamp is a
      number less than 30 minutes old: then its id (None when undefined). A
      record that does not parse, is not an object or has no numeric
      timestamp gives NaN or throws, and is not live. */
  function LiveId(codec: Codec, stored: string, now: int): Option<Option<Json>> {
    match codec.Load(stored)
    case Some(JObj(o)) =>
      if "timestamp" in o && o["timestamp"].JInt? && now - o["timestamp"].i < SessionTimeout then Some(Get(o, "id"))
      else None
    case _ => None
  }

  /** `getOrCreateSessionId`: a live stored session is reused and its
      timestamp refreshed; otherwise `newId` is stored and returned. */
  function GetOrCreateSessionId(store: Option<Storage>, codec: Codec, now: int, newId: string)
    : (res: (Option<Json>, Option<Storage>))
    ensures store.None? ==> res == (Some(JStr(newId)), None)
    ensures store.Some? ==> res.1.Some? && res.1.value.Keys == store.value.Keys + {SessionKey}
    ensures store.Some? ==> res.1.value[SessionKey] == codec.Dump(Stamp(res.0, now))
    ensures store.Some? ==> forall k :: k in store.value && k != SessionKey ==> res.1.value[k] == store.value[k]
  {
    match store
    case None => (Some(JStr(newId)), None)
    case Some(st) =>
      var live := if Item(st, SessionKey).Some? then LiveId(codec, st[SessionKey], now) else None;
      if live.Some? then (live.value, Some(st[SessionKey := codec.Dump(Stamp(live.value, now))]))
      else (Some(JStr(newId)), Some(st[SessionKey := codec.Dump(Stamp(Some(JStr(newId)), now))]))
  }

  /** A stored session is reused exactly when it is live; otherwise the
      newId id is used. */
  lemma SessionReuse(st: Storage, codec: Codec, now: int, newId: string)
    ensures var (id, _) := GetOrCreateSessionId(Some(st), codec, now, newId);
      (Item(st, SessionKey).Some? && LiveId(codec, st[SessionKey], now).Some? ==>
         id == LiveId(codec, st[SessionKey], now).value)
      && (Item(st, SessionKey).None? || LiveId(codec, st[SessionKey], now).None? ==> id == Some(JStr(newId)))
  {
  }

  /** Within 30 minutes of a call, the next call returns the same session id
      and pushes its expiry further; from 30 minutes on, a new id. */
  lemma SessionLivesThirtyMinutes(st: Storage, codec: Codec, now: int, later: int, newId1: string, newId2: string)
    requires Faithful(codec) && NonEmptyTexts(codec)
    requires now <= later
    ensures var (id, st1) := GetOrCreateSessionId(Some(st), codec, now, newId1);
      var (id2, st2) := GetOrCreateSessionId(st1, codec, later, newId2);
      (later - now < SessionTimeout ==> id2 == id && st2.value[SessionKey] == codec.Dump(Stamp(id, later)))
      && (later - now >= SessionTimeout ==> id2 == Some(JStr(newId2)))
  {
    var (id, st1) := GetOrCreateSessionId(Some(st), codec, now, newId1);
    var stored := st1.value[SessionKey];
    assert codec.Load(stored) == Some(Stamp(id, now));
    assert Item(st1.value, SessionKey) == Some(stored);
  }

  /** JSON texts are never empty. */
  ghost predicate NonEmptyTexts(codec: Codec) {
    forall j :: codec.Dump(j) != ""
  }

  /** `getOrCreateVisitorId`: the stored id, else `newId`, stored for next
      time; when local storage throws, `newId` and nothing stored. */
  function GetOrCreateVisitorId(store: Option<Storage>, newId: string): (res: (string, Option<Storage>))
    ensures store.Some? && Item(store.value, VisitorKey).Some? ==> res == (store.value[VisitorKey], store)
    ensures store.Some? && Item(store.value, VisitorKey).None? ==> res == (newId, Some(store.value[VisitorKey := newId]))
    ensures store.None? ==> res == (newId, None)
  {
    match store
    case None => (newId, None)
    case Some(st) =>
      match Item(st, VisitorKey)
      case Some(id) => (id, store)
      case None => (newId, Some(st[VisitorKey := newId]))
  }

  /** The visitor id is created once: a second visit returns the same id and
      leaves the storage as it was. */
  lemma VisitorIdStable(st: Storage, rnd1: nat -> Nibble, rnd2: nat -> Nibble)
    ensures var (id, st1) := GetOrCreateVisitorId(Some(st), GenerateId(rnd1));
      GetOrCreateVisitorId(st1, GenerateId(rnd2)) == (id, st1)
  {
  }

  // ---------------------------------------------------------------------------
  // Random ids (section 4.4 of RFC 4122)

  /** `(Math.random() * 16) | 0`: a random hex digit value. */
  type Nibble = x: int | 0 <= x < 16

  const Template: string := "xxxxxxxx-xxxx-4xxx-yxxx-xxxxxxxxxxxx"

  predicate IsHex(c: char) {
    '0' <= c <= '9' || 'a' <= c <= 'f'
  }

  /** The lower-case hex digit of a value. */
  function HexDigit(n: Nibble): (c: char)
    ensures IsHex(c)
  {
    if n < 10 then ('0' as int + n) as char else ('a' as int + n - 10) as char
  }

  function HexValue(c: char): (n: Nibble)
    requires IsHex(c)
    ensures HexDigit(n) == c
  {
    if c <= '9' then (c - '0') as int else (c - 'a') as int + 10
  }

  /** The template character at position i filled with the random digit
      drawn for it: `x` takes it as is, `y` keeps its two low bits under
      the variant bits 10. */
  function Fill(t: char, r: Nibble): char {
    if t == 'x' then HexDigit(r)
    else if t == 'y' then HexDigit(r % 4 + 8)
    else t
  }

  /** `generateId`; `rnd(i)` is the digit drawn for position i. */
  function GenerateId(rnd: nat -> Nibble): (id: string)
    ensures |id| == 36
  {
    seq(36, (i: int) requires 0 <= i < 36 => Fill(Template[i], rnd(i)))
  }

  /** The character a version 4 UUID holds at position i: dashes at 8, 13,
      18 and 23, the version digit 4, a variant digit 8, 9, a or b, and
      lower-case hex digits elsewhere. */
  predicate UuidChar(i: int, c: char) {
    if i == 8 || i == 13 || i == 18 || i == 23 then c == '-'
    else if i == 14 then c == '4'
    else if i == 19 then c == '8' || c == '9' || c == 'a' || c == 'b'
    else IsHex(c)
  }

  predicate IsUuidV4(s: string) {
    |s| == 36 && forall i :: 0 <= i < 36 ==> UuidChar(i, s[i])
  }

  /** The template holds 'y' at the variant position, the version and the
      dashes where the layout has them, and 'x' elsewhere. */
  lemma TemplateAt(i: int)
    requires 0 <= i < 36
    ensures i == 8 || i == 13 || i == 18 || i == 23 ==> Template[i] == '-'
    ensures i == 14 ==> Template[i] == '4'
    ensures i == 19 ==> Template[i] == 'y'
    ensures !(i in {8, 13, 14, 18, 19, 23}) ==> Template[i] == 'x'
  {
  }

  /** Every generated id is a version 4 UUID. */
  lemma GeneratedIsUuidV4(rnd: nat -> Nibble)
    ensures IsUuidV4(GenerateId(rnd))
  {
    var id := GenerateId(rnd);
    forall i | 0 <= i < 36 ensures UuidChar(i, id[i]) {
      TemplateAt(i);
      assert id[i] == Fill(Template[i], rnd(i));
    }
  }

  /** The digits that generate a given id. */
  function DigitsOf(s: string): nat -> Nibble
    requires IsUuidV4(s)
  {
    (i: nat) => if i < 36 && IsHex(s[i]) then (if i == 19 then HexValue(s[i]) % 4 else HexValue(s[i])) else 0
  }

  /** Every version 4 UUID is generated by some digits. */
  lemma EveryUuidV4Generated(s: string)
    requires IsUuidV4(s)
    ensures GenerateId(DigitsOf(s)) == s
  {
    var rnd := DigitsOf(s);
    forall i | 0 <= i < 36 ensures GenerateId(rnd)[i] == s[i] {
      TemplateAt(i);
      assert UuidChar(i, s[i]);
      assert GenerateId(rnd)[i] == Fill(Template[i], rnd(i));
      if i == 19 {
        assert 8 <= HexValue(s[i]) < 12;
        assert rnd(i) == HexValue(s[i]) % 4;
      } else if Template[i] == 'x' {
        assert rnd(i) == HexValue(s[i]);
      }
    }
  }

  // ---------------------------------------------------------------------------
  // UTM parameters

  /** The campaign fields, named without their "utm_" prefix. */
  const UtmNames: set<string> := {"source", "medium", "campaign"}

  /** The query carries a non-empty `utm_<name>`. */
  predicate Carries(query: string -> Option<string>, name: string) {
    query("utm_" + name).Some? && query("utm_" + name).value != ""
  }

  function AddUtm(utm: map<string, string>, query: string -> Option<string>, name: string): map<string, string> {
    if Carries(query, name) then utm[name := query("utm_" + name).value] else utm
  }

  /** `getUTMParams`: the non-empty campaign fields of the query string.
      `query(k)` is `URLSearchParams.get(k)`. */
  function GetUtmParams(query: string -> Option<string>): (utm: map<string, string>)
    ensures utm.Keys <= UtmNames
    ensures forall name :: name in UtmNames ==> (name in utm <==> Carries(query, name))
    ensures forall name :: name in utm ==> Carries(query, name) && utm[name] == query("utm_" + name).value
  {
    AddUtm(AddUtm(AddUtm(map[], query, "source"), query, "medium"), query, "campaign")
  }

  // ---------------------------------------------------------------------------
  // Scroll depth

  const Milestones: seq<int> := [25, 50, 75, 100]

  /** `Math.round`: halves go up. */
  function Round(x: real): int {
    (x + 0.5).Floor
  }

  /** The scrolled share of the page in percent; 0 when nothing scrolls. */
  function ScrollPercent(scrollTop: real, viewport: real, scrollHeight: real): (p: int)
    ensures scrollHeight - viewport <= 0.0 ==> p == 0
    ensures 0.0 <= scrollTop <= scrollHeight - viewport ==> 0 <= p <= 100
  {
    var docHeight := scrollHeight - viewport;
    if docHeight > 0.0 then
      var x := scrollTop / docHeight * 100.0;
      assert 0.0 <= scrollTop <= docHeight ==> 0.0 <= x <= 100.0 by {
        if 0.0 <= scrollTop <= docHeight {
          ShareAtMostOne(scrollTop, docHeight);
        }
      }
      Round(x)
    else 0
  }

  lemma ShareAtMostOne(a: real, b: real)
    requires 0.0 <= a <= b && b > 0.0
    ensures 0.0 <= a / b <= 1.0
  {
  }

  /** The first milestone from position k on that the page reached and that
      was not reported yet. */
  function NextMilestone(percent: int, last: int, k: nat): (m: Option<int>)
    requires k <= |Milestones|
    ensures m.Some? ==> m.value in Milestones[k..] && last < m.value <= percent
    ensures m.None? ==> forall j :: k <= j < |Milestones| ==> !(last < Milestones[j] <= percent)
    ensures m.Some? ==> forall j :: k <= j < |Milestones| && Milestones[j] < m.value ==> !(last < Milestones[j] <= percent)
    decreases |Milestones| - k
  {
    if k == |Milestones| then None
    else if percent >= Milestones[k] && last < Milestones[k] then Some(Milestones[k])
    else NextMilestone(percent, last, k + 1)
  }

  /** The deepest scroll of the page, and the last milestone reported since
      the tracker started (page views do not reset it). */
  datatype ScrollState = ScrollState(maxDepth: int, lastMilestone: int)

  /** One scroll handling: a new depth record reports at most one milestone,
      the smallest one reached and not yet reported. */
  function HandleScroll(st: ScrollState, percent: int): (res: (ScrollState, Option<int>))
    ensures res.0.maxDepth == if percent > st.maxDepth then percent else st.maxDepth
    ensures res.1.Some? ==> res.1.value in Milestones && st.lastMilestone < res.1.value <= percent
                            && res.0.lastMilestone == res.1.value
    ensures res.1.None? ==> res.0.lastMilestone == st.lastMilestone
    ensures percent > st.maxDepth && (exists j :: 0 <= j < |Milestones| && st.lastMilestone < Milestones[j] <= percent)
            ==> res.1.Some?
    ensures percent <= st.maxDepth ==> res == (st, None)
  {
    if percent > st.maxDepth then
      var m := NextMilestone(percent, st.lastMilestone, 0);
      if m.Some? then (ScrollState(percent, m.value), m)
      else (st.(maxDepth := percent), None)
    else (st, None)
  }

  /** Jumping straight to the bottom reports 25 only, and the higher
      milestones never follow while the depth stays at its record. */
  lemma JumpToBottomReportsQuarter()
    ensures HandleScroll(ScrollState(0, 0), 100) == (ScrollState(100, 25), Some(25))
    ensures HandleScroll(ScrollState(100, 25), 100) == (ScrollState(100, 25), None)
  {
  }

  // ---------------------------------------------------------------------------
  // The tracker

  /** The options after the defaults: every flag is on unless given. */
  datatype Options = Options(endpoint: string, trackScrollDepth: Option<bool>, trackTimeOnPage: Option<bool>,
                             trackExitIntent: Option<bool>, respectDnt: Option<bool>)

  datatype Config = Config(endpoint: string, trackScrollDepth: bool, trackTimeOnPage: bool, trackExitIntent: bool,
                           respectDnt: bool)

  function WithDefaults(o: Options): (c: Config)
    ensures o.trackScrollDepth.None? ==> c.trackScrollDepth
    ensures o.respectDnt.None? ==> c.respectDnt
  {
    Config(o.endpoint, o.trackScrollDepth.GetOr(true), o.trackTimeOnPage.GetOr(true),
           o.trackExitIntent.GetOr(true), o.respectDnt.GetOr(true))
  }

  /** What the browser shows of the current page. */
  datatype Page = Page(url: string, title: string, referrer: string, screenWidth: int, screenHeight: int,
                       query: string -> Option<string>)

  /** The messages sent to the collector. */
  datatype Message =
    | PageViewMsg(sessionId: Option<Json>, visitorId: string, url: string, title: string, referrer: string,
                  width: int, height: int, timestamp: int, utm: map<string, string>)
    | EventMsg(sessionId: Option<Json>, visitorId: string, name: string, data: Option<Json>, url: string, timestamp: int)
    | LeaveMsg(sessionId: Option<Json>, visitorId: string, url: string, duration: int, activeTime: int,
               scrollDepth: int, timestamp: int)

  function JStrMap(m: map<string, string>): map<string, Json> {
    map k | k in m :: JStr(m[k])
  }

  /** Adds a key unless its value is undefined, as `JSON.stringify` does. */
  function Put(o: Object, key: string, v: Option<Json>): Object {
    if v.Some? then o[key := v.value] else o
  }

  /** The JSON body of a message. */
  function Body(m: Message): (j: Json)
    ensures j.JObj? && "type" in j.fields
  {
    match m
    case PageViewMsg(sid, vid, url, title, referrer, w, h, ts, utm) =>
      JObj(Put(map["type" := JStr("pageview"), "visitorId" := JStr(vid), "url" := JStr(url), "title" := JStr(title),
                   "referrer" := JStr(referrer), "screen" := JObj(map["width" := JInt(w), "height" := JInt(h)]),
                   "timestamp" := JInt(ts), "utm" := JObj(JStrMap(utm))], "sessionId", sid))
    case EventMsg(sid, vid, name, data, url, ts) =>
      JObj(Put(Put(map["type" := JStr("event"), "visitorId" := JStr(vid), "name" := JStr(name), "url" := JStr(url),
                       "timestamp" := JInt(ts)], "data", data), "sessionId", sid))
    case LeaveMsg(sid, vid, url, duration, active, depth, ts) =>
      JObj(Put(map["type" := JStr("leave"), "visitorId" := JStr(vid), "url" := JStr(url), "duration" := JInt(duration),
                   "activeTime" := JInt(active), "scrollDepth" := JInt(depth), "timestamp" := JInt(ts)],
               "sessionId", sid))
  }

  /** `Math.round(ms / 1000)` on whole milliseconds. */
  function Seconds(ms: int): int {
    (ms + 500) / 1000
  }

  /** A tracker the constructor left without ids under Do Not Track still
      exists: it knows its configuration and the page the browser shows. */
  datatype Tracker =
    | Disabled(config: Config, url: string)
    | Active(config: Config, sessionId: Option<Json>, visitorId: string, url: string, pageLoad: int,
             lastActivity: int, scroll: ScrollState, exitTriggered: bool)

  /** What the browser holds across page loads. */
  datatype Browser = Browser(session: Option<Storage>, local: Option<Storage>)

  /** The constructor: with Do Not Track honoured no id is settled, no
      listener is installed and nothing is sent or stored; otherwise the ids
      are settled and a page view is sent. */
  function Start(o: Options, doNotTrack: Option<string>, b: Browser, codec: Codec, page: Page, now: int,
                 sessionFresh: nat -> Nibble, visitorFresh: nat -> Nibble): (res: (Tracker, Browser, seq<Message>))
    ensures WithDefaults(o).respectDnt && doNotTrack == Some("1") ==> res == (Disabled(WithDefaults(o), page.url), b, [])
    ensures !(WithDefaults(o).respectDnt && doNotTrack == Some("1")) ==> res.0.Active? && |res.2| == 1
  {
    var config := WithDefaults(o);
    if config.respectDnt && doNotTrack == Some("1") then (Disabled(config, page.url), b, [])
    else
      var (sid, session) := GetOrCreateSessionId(b.session, codec, now, GenerateId(sessionFresh));
      var (vid, local) := GetOrCreateVisitorId(b.local, GenerateId(visitorFresh));
      var t := Active(config, sid, vid, page.url, now, now, ScrollState(0, 0), false);
      var (t', out) := Step(t, Navigate(page), now);
      (t', Browser(session, local), out)
  }

  /** What the listeners deliver. */
  datatype Input =
    | Navigate(page: Page)
    | ScrollTo(scrollTop: real, viewport: real, scrollHeight: real)
    | Activity
    | Hide
    | Unload
    | MouseOut(clientY: real, relatedTargetNull: bool)
    | Custom(name: string, data: Option<Json>)

  /** The tracker's answer to one input at time `now`. */
  function Step(t: Tracker, input: Input, now: int): (res: (Tracker, seq<Message>))
    ensures t.Disabled? ==> res.0.Disabled? && res.0.config == t.config
    ensures t.Disabled? && !input.Custom? ==> res.1 == []
    ensures t.Disabled? && input.Custom? ==> res.1 == [EventMsg(Some(JStr("")), "", input.name, input.data, t.url, now)]
    ensures t.Active? ==> res.0.Active? && res.0.config == t.config && res.0.sessionId == t.sessionId
                          && res.0.visitorId == t.visitorId
    ensures |res.1| <= 1
    ensures t.Active? ==> res.0.scroll.maxDepth >= t.scroll.maxDepth || input.Navigate?
    ensures t.Active? && input.Navigate? ==> res.0.scroll.maxDepth == 0
    ensures t.Active? ==> t.scroll.lastMilestone <= res.0.scroll.lastMilestone
    ensures t.Active? && t.exitTriggered ==> res.0.exitTriggered
  {
    match t
    case Disabled(config, url) =>
      (match input
       case Navigate(page) => (Disabled(config, page.url), [])
       case Custom(name, data) => (t, [EventMsg(Some(JStr("")), "", name, data, url, now)])
       case _ => (t, []))
    case Active(config, sid, vid, url, pageLoad, lastActivity, scroll, triggered) =>
      match input
      case Navigate(page) =>
        (t.(url := page.url, pageLoad := now, scroll := scroll.(maxDepth := 0)),
         [PageViewMsg(sid, vid, page.url, page.title, page.referrer, page.screenWidth, page.screenHeight, now,
                      GetUtmParams(page.query))])
      case ScrollTo(top, viewport, height) =>
        if !config.trackScrollDepth then (t, [])
        else
          var (scroll', m) := HandleScroll(scroll, ScrollPercent(top, viewport, height));
          (t.(scroll := scroll'),
           if m.Some? then [EventMsg(sid, vid, "scroll_depth", Some(JObj(map["depth" := JInt(m.value)])), url, now)]
           else [])
      case Activity =>
        if config.trackTimeOnPage then (t.(lastActivity := now), []) else (t, [])
      case Hide =>
        if config.trackTimeOnPage then
          (t, [EventMsg(sid, vid, "tab_hidden", Some(JObj(map["duration" := JInt(Seconds(now - pageLoad))])), url, now)])
        else (t, [])
      case Unload =>
        if config.trackTimeOnPage then
          (t, [LeaveMsg(sid, vid, url, Seconds(now - pageLoad), Seconds(lastActivity - pageLoad), scroll.maxDepth, now)])
        else (t, [])
      case MouseOut(clientY, relatedNull) =>
        if config.trackExitIntent && !triggered && clientY < 10.0 && relatedNull then
          (t.(exitTriggered := true),
           [EventMsg(sid, vid, "exit_intent",
                     Some(JObj(map["scrollDepth" := JInt(scroll.maxDepth), "timeOnPage" := JInt(Seconds(now - pageLoad))])),
                     url, now)])
        else (t, [])
      case Custom(name, data) =>
        (t, [EventMsg(sid, vid, name, data, url, now)])
  }

  /** The inputs in order, each with its time. */
  function Run(t: Tracker, inputs: seq<(Input, int)>): (r: (Tracker, seq<Message>))
    ensures t.Disabled? ==> r.0.Disabled? && r.0.config == t.config
    ensures t.Disabled? && (forall i :: 0 <= i < |inputs| ==> !inputs[i].0.Custom?) ==> r.1 == []
    decreases |inputs|
  {
    if |inputs| == 0 then (t, [])
    else
      var (t1, out1) := Step(t, inputs[0].0, inputs[0].1);
      var (t2, out2) := Run(t1, inputs[1..]);
      (t2, out1 + out2)
  }

  /** With Do Not Track honoured, the tracker's own listeners send nothing:
      only calls of the exported `trackEvent` reach the collector. */
  lemma {:induction false} DisabledSendsNothing(config: Config, url: string, inputs: seq<(Input, int)>)
    requires forall i :: 0 <= i < |inputs| ==> !inputs[i].0.Custom?
    ensures Run(Disabled(config, url), inputs).0.Disabled? && Run(Disabled(config, url), inputs).1 == []
    decreases |inputs|
  {
    if |inputs| > 0 {
      var (t1, out1) := Step(Disabled(config, url), inputs[0].0, inputs[0].1);
      assert forall i :: 0 <= i < |inputs| - 1 ==> inputs[1..][i] == inputs[i + 1];
      DisabledSendsNothing(t1.config, t1.url, inputs[1..]);
      assert out1 + Run(t1, inputs[1..]).1 == [];
    }
  }

  /** A `trackEvent` call on a tracker disabled by Do Not Track still sends
      an event, with empty session and visitor ids. */
  lemma DisabledSendsCustom(config: Config, url: string, name: string, data: Option<Json>, now: int)
    ensures Run(Disabled(config, url), [(Custom(name, data), now)]).1
            == [EventMsg(Some(JStr("")), "", name, data, url, now)]
  {
    var inputs := [(Custom(name, data), now)];
    assert inputs[1..] == [];
    var (t1, out1) := Step(Disabled(config, url), Custom(name, data), now);
    assert out1 + [] == out1;
  }

  /** The step Do Not Track evidently intends: a disabled tracker sends
      nothing at all; an active one behaves as `Step`. */
  function StepCorrected(t: Tracker, input: Input, now: int): (res: (Tracker, seq<Message>))
    ensures t.Disabled? ==> res.0.Disabled? && res.1 == []
    ensures t.Active? ==> res == Step(t, input, now)
  {
    if t.Disabled? then (Step(t, input, now).0, []) else Step(t, input, now)
  }

  function RunCorrected(t: Tracker, inputs: seq<(Input, int)>): (r: (Tracker, seq<Message>))
    ensures t.Disabled? ==> r.0.Disabled? && r.0.config == t.config
    ensures t.Active? ==> r.0.Active? && r.0.config == t.config && r.0.sessionId == t.sessionId
                          && r.0.visitorId == t.visitorId
    ensures |r.1| <= |inputs|
    decreases |inputs|
  {
    if |inputs| == 0 then (t, [])
    else
      var (t1, out1) := StepCorrected(t, inputs[0].0, inputs[0].1);
      var (t2, out2) := RunCorrected(t1, inputs[1..]);
      (t2, out1 + out2)
  }

  /** Under the corrected step a disabled tracker sends nothing, whatever
      happens, `trackEvent` calls included. */
  lemma {:induction false} CorrectedDisabledSendsNothing(t: Tracker, inputs: seq<(Input, int)>)
    requires t.Disabled?
    ensures RunCorrected(t, inputs).0.Disabled? && RunCorrected(t, inputs).1 == []
    decreases |inputs|
  {
    if |inputs| > 0 {
      var (t1, out1) := StepCorrected(t, inputs[0].0, inputs[0].1);
      CorrectedDisabledSendsNothing(t1, inputs[1..]);
      assert out1 + RunCorrected(t1, inputs[1..]).1 == [];
    }
  }

  /** The two steps differ exactly on `trackEvent` calls to a disabled
      tracker. */
  lemma StepsAgree(t: Tracker, input: Input, now: int)
    ensures StepCorrected(t, input, now) == Step(t, input, now) <==> t.Active? || !input.Custom?
  {
  }

  /** No custom event borrows the given name. */
  predicate NoCustom(inputs: seq<(Input, int)>, name: string) {
    forall i :: 0 <= i < |inputs| ==> !(inputs[i].0.Custom? && inputs[i].0.name == name)
  }

  predicate IsEvent(m: Message, name: string) {
    m.EventMsg? && m.name == name
  }

  function CountEvents(msgs: seq<Message>, name: string): nat
    decreases |msgs|
  {
    if |msgs| == 0 then 0 else (if IsEvent(msgs[0], name) then 1 else 0) + CountEvents(msgs[1..], name)
  }

  lemma {:induction false} CountEventsAppend(a: seq<Message>, b: seq<Message>, name: string)
    ensures CountEvents(a + b, name) == CountEvents(a, name) + CountEvents(b, name)
    decreases |a|
  {
    if |a| > 0 {
      assert (a + b)[0] == a[0] && (a + b)[1..] == a[1..] + b;
      CountEventsAppend(a[1..], b, name);
    } else {
      assert a + b == b;
    }
  }

  /** Exit intent is reported only for the mouse leaving through the top
      edge of the window. */
  lemma ExitIntentOnlyAtTop(t: Tracker, input: Input, now: int)
    requires !input.Custom?
    requires CountEvents(Step(t, input, now).1, "exit_intent") > 0
    ensures input.MouseOut? && input.clientY < 10.0 && input.relatedTargetNull
    ensures t.Active? && !t.exitTriggered && Step(t, input, now).0.exitTriggered
  {
  }

  /** Exit intent is reported at most once per tracker. */
  lemma {:induction false} ExitIntentAtMostOnce(t: Tracker, inputs: seq<(Input, int)>)
    requires NoCustom(inputs, "exit_intent")
    ensures CountEvents(Run(t, inputs).1, "exit_intent") <= (if t.Active? && !t.exitTriggered then 1 else 0)
    decreases |inputs|
  {
    if |inputs| > 0 {
      var (t1, out1) := Step(t, inputs[0].0, inputs[0].1);
      var (t2, out2) := Run(t1, inputs[1..]);
      assert NoCustom(inputs[1..], "exit_intent") by {
        forall i | 0 <= i < |inputs| - 1 ensures !(inputs[1..][i].0.Custom? && inputs[1..][i].0.name == "exit_intent") {
          assert inputs[1..][i] == inputs[i + 1];
        }
      }
      ExitIntentAtMostOnce(t1, inputs[1..]);
      CountEventsAppend(out1, out2, "exit_intent");
      assert !(inputs[0].0.Custom? && inputs[0].0.name == "exit_intent");
      if CountEvents(out1, "exit_intent") > 0 {
        ExitIntentOnlyAtTop(t, inputs[0].0, inputs[0].1);
      }
    }
  }

  /** The depth a message reports, when it is a scroll milestone. */
  function MilestoneOf(m: Message): Option<int> {
    if m.EventMsg? && m.name == "scroll_depth" && m.data.Some? && m.data.value.JObj?
       && "depth" in m.data.value.fields && m.data.value.fields["depth"].JInt?
    then Some(m.data.value.fields["depth"].i)
    else None
  }

  /** The milestones a run reports, in order. */
  function Reported(msgs: seq<Message>): seq<int>
    decreases |msgs|
  {
    if |msgs| == 0 then []
    else (if MilestoneOf(msgs[0]).Some? then [MilestoneOf(msgs[0]).value] else []) + Reported(msgs[1..])
  }

  lemma {:induction false} ReportedAppend(a: seq<Message>, b: seq<Message>)
    ensures Reported(a + b) == Reported(a) + Reported(b)
    decreases |a|
  {
    if |a| > 0 {
      assert (a + b)[0] == a[0] && (a + b)[1..] == a[1..] + b;
      ReportedAppend(a[1..], b);
    } else {
      assert a + b == b;
    }
  }

  predicate Increasing(s: seq<int>) {
    forall i, j :: 0 <= i < j < |s| ==> s[i] < s[j]
  }

  /** One step reports at most the milestone it records as the last. */
  lemma StepReports(t: Tracker, input: Input, now: int)
    requires t.Active? && !(input.Custom? && input.name == "scroll_depth")
    ensures var (t1, out) := Step(t, input, now);
      Reported(out) == [] || (Reported(out) == [t1.scroll.lastMilestone]
                              && t.scroll.lastMilestone < t1.scroll.lastMilestone && t1.scroll.lastMilestone in Milestones)
  {
    var (t1, out) := Step(t, input, now);
    if |out| == 1 {
      assert Reported(out) == (if MilestoneOf(out[0]).Some? then [MilestoneOf(out[0]).value] else []) + Reported([]);
    }
  }

  /** The milestones a tracker reports are milestones, above the last one it
      had reported, and strictly increasing. */
  lemma {:induction false} MilestonesIncrease(t: Tracker, inputs: seq<(Input, int)>)
    requires t.Active?
    requires NoCustom(inputs, "scroll_depth")
    ensures var r := Reported(Run(t, inputs).1);
      Increasing(r) && forall i :: 0 <= i < |r| ==> r[i] in Milestones && t.scroll.lastMilestone < r[i]
    decreases |inputs|
  {
    if |inputs| > 0 {
      var (t1, out1) := Step(t, inputs[0].0, inputs[0].1);
      var (t2, out2) := Run(t1, inputs[1..]);
      assert NoCustom(inputs[1..], "scroll_depth") by {
        forall i | 0 <= i < |inputs| - 1 ensures !(inputs[1..][i].0.Custom? && inputs[1..][i].0.name == "scroll_depth") {
          assert inputs[1..][i] == inputs[i + 1];
        }
      }
      assert !(inputs[0].0.Custom? && inputs[0].0.name == "scroll_depth");
      StepReports(t, inputs[0].0, inputs[0].1);
      MilestonesIncrease(t1, inputs[1..]);
      ReportedAppend(out1, out2);
    }
  }

  /** Four milestones at most are ever reported. */
  lemma MilestonesAtMostFour(t: Tracker, inputs: seq<(Input, int)>)
    requires t.Active?
    requires NoCustom(inputs, "scroll_depth")
    ensures |Reported(Run(t, inputs).1)| <= 4
  {
    var r := Reported(Run(t, inputs).1);
    MilestonesIncrease(t, inputs);
    var positions := set i | 0 <= i < |r| :: r[i];
    assert positions <= {25, 50, 75, 100};
    InjectiveCard(r);
    assert |{25, 50, 75, 100}| == 4;
    SubsetCard(positions, {25, 50, 75, 100});
  }

  lemma InjectiveCard(r: seq<int>)
    requires Increasing(r)
    ensures |set i | 0 <= i < |r| :: r[i]| == |r|
    decreases |r|
  {
    if |r| > 0 {
      var init := r[..|r| - 1];
      InjectiveCard(init);
      var s := set i | 0 <= i < |r| :: r[i];
      var s0 := set i | 0 <= i < |init| :: init[i];
      assert s == s0 + {r[|r| - 1]};
      assert r[|r| - 1] !in s0;
    }
  }

  lemma SubsetCard(a: set<int>, b: set<int>)
    requires a <= b
    ensures |a| <= |b|
  {
    assert b == a + (b - a);
  }

  /** Every page view the tracker sends passes the collector's checks on
      "screen" and "utm": they are always objects. */
  lemma PageViewBodiesAccepted(m: Message)
    requires m.PageViewMsg?
    ensures Analytics.SubObject(Body(m).fields, "screen").Some?
    ensures Analytics.SubObject(Body(m).fields, "utm").Some?
    ensures Analytics.Field(Body(m).fields, "type") == JStr("pageview")
  {
  }

  /** A leave message records, through the collector, the duration the
      tracker measured. */
  lemma LeaveRecordsDuration(db: Analytics.AnalyticsDb, m: Message, ctx: Analytics.Context)
    requires m.LeaveMsg? && m.sessionId.Some? && m.sessionId.value != JNull && m.sessionId.value in db.sessions
    requires ctx.failAt.None?
    ensures var (ok, db') := Analytics.Collect(db, Some(Body(m)), ctx);
      ok && db'.sessions[m.sessionId.value].duration == JInt(m.duration)
  {
    Analytics.LeaveEndsSession(db, Some(Body(m)), ctx);
  }
}

=== FILE: upload.dfy ===
/** The `/upload` endpoints: screenshots of a project are put into an S3
    compatible bucket under a fresh key and answered with presigned links;
    a stored file is served by redirecting to a presigned link, and deleted
    by key.

    The bucket client is a parameter (`Remote`): whether each put reaches
    the bucket, the presigned link the client signs for a bucket, key and
    lifetime (None when signing raises), and whether each delete succeeds.
    The settings are read by attribute name (`Config.Attributes`), so that
    names the settings class does not declare raise AttributeError as they
    do in Python. */
module Upload {
  import opened Wrappers
  import opened Strings
  import Base64
  import Config
  import AuthService

  /** Links handed out after an upload stay valid for 90 days. */
  const UploadUrlLifetime: nat := 86400 * 90

  /** Links used by the file redirect stay valid for one hour. */
  const FileUrlLifetime: nat := 3600

  /** The storage settings the handlers read, by attribute name. */
  const BucketFields: set<string> :=
    {"bucket_endpoint", "bucket_access_key_id", "bucket_secret_access_key", "bucket_name"}

  datatype UploadFile = UploadFile(filename: Option<string>, contentType: Option<string>, content: seq<Base64.byte>)

  datatype StoredObject = StoredObject(content: seq<Base64.byte>, contentType: string)

  /** The bucket: its objects by key. */
  type Bucket = map<string, StoredObject>

  /** What the bucket client answers. */
  datatype Remote = Remote(
    putOk: nat -> bool,
    presign: (string, string, nat) -> Option<string>,
    deleteOk: string -> bool)

  /** The answer of the upload endpoint. */
  datatype Uploaded = Uploaded(urls: seq<string>, keys: seq<string>)

  /** The answer of the file endpoint: a redirect. */
  datatype Redirect = Redirect(url: string, status: int)

  // ---------------------------------------------------------------------------
  // Content type, extension and key

  /** The declared content type, "image/jpeg" when it is missing or empty. */
  function ContentType(f: UploadFile): (ct: string)
    ensures f.contentType.Some? && f.contentType.value != "" ==> ct == f.contentType.value
    ensures f.contentType.None? || f.contentType.value == "" ==> ct == "image/jpeg"
  {
    if f.contentType.None? || f.contentType.value == "" then "image/jpeg" else f.contentType.value
  }

  /** Only images are accepted. */
  predicate Accepted(f: UploadFile) {
    StartsWith(ContentType(f), "image/")
  }

  /** The text after the last '.' of the file name, "jpg" when the name is
      missing, empty or has no '.'. */
  function Extension(filename: Option<string>): (ext: string)
    ensures '.' !in ext
  {
    if filename.Some? && '.' in filename.value then
      var parts := Split(filename.value, '.');
      parts[|parts| - 1]
    else "jpg"
  }

  /** A name ending in "." + e, where e has no '.', has extension e. */
  lemma ExtensionOf(name: string, e: string)
    requires '.' !in e
    ensures Extension(Some(name + "." + e)) == e
  {
    var s := name + "." + e;
    assert s[|name|] == '.';
    SplitSnoc(name, e, '.');
  }

  /** A name without '.' gets the default extension. */
  lemma ExtensionDefault(name: string)
    requires '.' !in name
    ensures Extension(Some(name)) == "jpg"
  {
  }

  /** The folder every screenshot key starts with. */
  const Folder := "screenshots"

  lemma FolderHasNoSlash()
    ensures '/' !in Folder
  {
  }

  /** "screenshots/{project}/{uuid}.{ext}". */
  function ScreenshotKey(projectId: int, uuid: string, ext: string): string {
    Folder + "/" + (IntToString(projectId) + "/" + (uuid + "." + ext))
  }

  /** Keys are separated by '/' into the folder, the project and the file. */
  lemma ScreenshotKeyParts(projectId: int, uuid: string, ext: string)
    ensures Split(ScreenshotKey(projectId, uuid, ext), '/')
            == ["screenshots", IntToString(projectId)] + Split(uuid + "." + ext, '/')
  {
    var p := IntToString(projectId);
    var x := uuid + "." + ext;
    FolderHasNoSlash();
    SplitPrefix(Folder, p + ['/'] + x, '/');
    assert '/' !in p;
    SplitPrefix(p, x, '/');
  }

  /** The file part "{uuid}.{ext}" gives back its uuid and extension when
      the uuid has no '.'. */
  lemma FilePartInjective(u1: string, e1: string, u2: string, e2: string)
    requires '.' !in u1 && '.' !in u2
    requires u1 + "." + e1 == u2 + "." + e2
    ensures u1 == u2 && e1 == e2
  {
    SplitPrefix(u1, e1, '.');
    SplitPrefix(u2, e2, '.');
    assert Split(u1 + "." + e1, '.')[0] == u1;
    assert (u1 + "." + e1)[|u1| + 1..] == e1;
    assert (u2 + "." + e2)[|u2| + 1..] == e2;
  }

  /** A key names its project, its uuid and its extension: two files get
      the same key only for the same project, uuid and extension, as long
      as uuids have no '.'. */
  lemma ScreenshotKeyInjective(p1: int, u1: string, e1: string, p2: int, u2: string, e2: string)
    requires '.' !in u1 && '.' !in u2
    requires ScreenshotKey(p1, u1, e1) == ScreenshotKey(p2, u2, e2)
    ensures p1 == p2 && u1 == u2 && e1 == e2
  {
    ScreenshotKeyParts(p1, u1, e1);
    ScreenshotKeyParts(p2, u2, e2);
    var parts := Split(ScreenshotKey(p1, u1, e1), '/');
    assert parts[1] == IntToString(p1) && parts[1] == IntToString(p2);
    IntToStringInjective(p1, p2);
    var n := |Folder| + 1 + |IntToString(p1)| + 1;
    assert ScreenshotKey(p1, u1, e1)[n..] == u1 + "." + e1;
    assert ScreenshotKey(p2, u2, e2)[n..] == u2 + "." + e2;
    FilePartInjective(u1, e1, u2, e2);
  }

  /** Python's `str` of the optional file name. */
  function ShowName(filename: Option<string>): string {
    match filename
    case None => "None"
    case Some(n) => n
  }

  // ---------------------------------------------------------------------------
  // Uploading

  /** One request's files, the project they belong to and the uuid drawn
      for the file at each position. */
  datatype Batch = Batch(files: seq<UploadFile>, projectId: int, uuid: nat -> string) {
    function Key(j: nat): string
      requires j < |files|
    {
      ScreenshotKey(projectId, uuid(j), Extension(files[j].filename))
    }
  }

  /** The file at position j is stored and signed. */
  predicate Uploads(b: Batch, bucket: Result<string>, remote: Remote, j: nat)
    requires j < |b.files|
  {
    Accepted(b.files[j]) && bucket.Ok? && remote.putOk(j)
    && remote.presign(bucket.value, b.Key(j), UploadUrlLifetime).Some?
  }

  /** The error for the file at position j when it is not uploaded. */
  function UploadError(b: Batch, j: nat): Error
    requires j < |b.files|
  {
    if Accepted(b.files[j]) then Http(500, "Failed to upload " + ShowName(b.files[j].filename))
    else Http(400, "Invalid file type: " + ContentType(b.files[j]))
  }

  /** What happens to one file: its key, the object put into the bucket if
      the put happened, and the link answered or the error raised. */
  datatype FileStep = FileStep(key: string, put: Option<StoredObject>, outcome: Result<string>)

  /** The step of the file at position j. A file that is not an image is
      refused before anything is stored; the put needs the bucket name and
      a put that reaches the bucket; the link is signed after the put, so a
      file whose signing fails stays in the bucket. */
  function Step(b: Batch, bucket: Result<string>, remote: Remote, j: nat): (s: FileStep)
    requires j < |b.files|
    ensures s.key == b.Key(j)
    ensures s.outcome.Ok? <==> Uploads(b, bucket, remote, j)
    ensures s.outcome.Ok? ==> s.put.Some? && Some(s.outcome.value) == remote.presign(bucket.value, b.Key(j), UploadUrlLifetime)
    ensures s.outcome.Err? ==> s.outcome.error == UploadError(b, j)
    ensures s.put.Some? ==> s.put.value == StoredObject(b.files[j].content, ContentType(b.files[j]))
  {
    var f := b.files[j];
    var key := b.Key(j);
    var failed := Http(500, "Failed to upload " + ShowName(f.filename));
    if !Accepted(f) then FileStep(key, None, Err(Http(400, "Invalid file type: " + ContentType(f))))
    else if bucket.Err? || !remote.putOk(j) then FileStep(key, None, Err(failed))
    else
      var obj := StoredObject(f.content, ContentType(f));
      match remote.presign(bucket.value, key, UploadUrlLifetime)
      case None => FileStep(key, Some(obj), Err(failed))
      case Some(url) => FileStep(key, Some(obj), Ok(url))
  }

  /** The steps of every file of the batch, in order. */
  function Steps(b: Batch, bucket: Result<string>, remote: Remote): (steps: seq<FileStep>)
    ensures |steps| == |b.files|
    ensures forall j :: 0 <= j < |b.files| ==> steps[j] == Step(b, bucket, remote, j)
  {
    seq(|b.files|, (j: int) requires 0 <= j < |b.files| => Step(b, bucket, remote, j))
  }

  /** The bucket after a step's put. */
  function Put(s: FileStep, objects: Bucket): Bucket {
    if s.put.Some? then objects[s.key := s.put.value] else objects
  }

  /** The loop over the steps from position i on: it stops at the first
      failure, and otherwise answers each step's link and key in order. */
  function Run(steps: seq<FileStep>, i: nat, objects: Bucket): (res: (Result<Uploaded>, Bucket))
    requires i <= |steps|
    ensures res.0.Ok? <==> forall j :: i <= j < |steps| ==> steps[j].outcome.Ok?
    ensures res.0.Ok? ==>
              |res.0.value.keys| == |res.0.value.urls| == |steps| - i
              && forall j :: 0 <= j < |steps| - i ==>
                   res.0.value.keys[j] == steps[i + j].key && Ok(res.0.value.urls[j]) == steps[i + j].outcome
    decreases |steps| - i
  {
    if i == |steps| then (Ok(Uploaded([], [])), objects)
    else
      var objects' := Put(steps[i], objects);
      match steps[i].outcome
      case Err(e) => (Err(e), objects')
      case Ok(url) =>
        var next := Run(steps, i + 1, objects');
        if next.0.Err? then next
        else (Ok(Uploaded([url] + next.0.value.urls, [steps[i].key] + next.0.value.keys)), next.1)
  }

  /** A failed run reports the error of its first failing step. */
  lemma {:induction false} RunError(steps: seq<FileStep>, i: nat, objects: Bucket) returns (j: nat)
    requires i <= |steps|
    requires Run(steps, i, objects).0.Err?
    ensures i <= j < |steps| && steps[j].outcome.Err?
    ensures forall m :: i <= m < j ==> steps[m].outcome.Ok?
    ensures Run(steps, i, objects).0.error == steps[j].outcome.error
    decreases |steps| - i
  {
    if steps[i].outcome.Ok? {
      j := RunError(steps, i + 1, Put(steps[i], objects));
    } else {
      j := i;
    }
  }

  /** An object whose key no step gets is left as it was, whatever the
      outcome. */
  lemma {:induction false} RunKeeps(steps: seq<FileStep>, i: nat, objects: Bucket, k: string)
    requires i <= |steps| && k in objects
    requires forall j :: i <= j < |steps| ==> k != steps[j].key
    ensures var stored := Run(steps, i, objects).1;
      k in stored && stored[k] == objects[k]
    decreases |steps| - i
  {
    if i < |steps| {
      RunKeeps(steps, i + 1, Put(steps[i], objects), k);
    }
  }

  /** Only the keys of the steps are added to the bucket. */
  lemma {:induction false} RunKeys(steps: seq<FileStep>, i: nat, objects: Bucket, k: string)
    requires i <= |steps|
    requires k in Run(steps, i, objects).1
    ensures k in objects || exists j :: i <= j < |steps| && k == steps[j].key
    decreases |steps| - i
  {
    if i < |steps| && steps[i].outcome.Ok? {
      RunKeys(steps, i + 1, Put(steps[i], objects), k);
    }
  }

  /** After a successful run over steps with distinct keys, every step's
      object is in the bucket under its key. */
  lemma {:induction false} RunStores(steps: seq<FileStep>, i: nat, objects: Bucket, j: nat)
    requires i <= j < |steps|
    requires forall m, n :: i <= m < n < |steps| ==> steps[m].key != steps[n].key
    requires forall m :: i <= m < |steps| && steps[m].outcome.Ok? ==> steps[m].put.Some?
    requires Run(steps, i, objects).0.Ok?
    ensures var stored := Run(steps, i, objects).1;
      steps[j].key in stored && stored[steps[j].key] == steps[j].put.value
    decreases |steps| - i
  {
    if j == i {
      RunKeeps(steps, i + 1, Put(steps[i], objects), steps[j].key);
    } else {
      RunStores(steps, i + 1, Put(steps[i], objects), j);
    }
  }

  /** Keys of distinct files differ when the uuids drawn are distinct and
      free of '.'. */
  predicate FreshUuids(b: Batch) {
    (forall j :: 0 <= j < |b.files| ==> '.' !in b.uuid(j))
    && forall j, m :: 0 <= j < |b.files| && 0 <= m < |b.files| && j != m ==> b.uuid(j) != b.uuid(m)
  }

  lemma DistinctKeys(b: Batch, j: nat, m: nat)
    requires FreshUuids(b) && j < |b.files| && m < |b.files| && j != m
    ensures b.Key(j) != b.Key(m)
  {
    if b.Key(j) == b.Key(m) {
      ScreenshotKeyInjective(b.projectId, b.uuid(j), Extension(b.files[j].filename),
                             b.projectId, b.uuid(m), Extension(b.files[m].filename));
    }
  }

  /** The storage client can be built: the endpoint is set and both keys
      are declared. */
  predicate ClientReady(settings: Config.Attributes) {
    "bucket_endpoint" in settings.declared && "bucket_access_key_id" in settings.declared
    && "bucket_secret_access_key" in settings.declared && settings.value("bucket_endpoint") != ""
  }

  /** `POST /upload/screenshots`: the caller must be signed in and the
      storage endpoint set; the client is built from the key settings, then
      the files are uploaded in order. */
  function UploadScreenshots(caller: Result<AuthService.PublicUser>, settings: Config.Attributes, b: Batch,
                             remote: Remote, objects: Bucket): (res: (Result<Uploaded>, Bucket))
    ensures caller.Err? ==> res == (Err(caller.error), objects)
    ensures caller.Ok? && "bucket_endpoint" !in settings.declared ==> res == (Err(Raised("AttributeError")), objects)
    ensures caller.Ok? && "bucket_endpoint" in settings.declared && settings.value("bucket_endpoint") == ""
            ==> res == (Err(Http(500, "Storage bucket not configured")), objects)
    ensures res.0.Ok? <==>
              caller.Ok? && ClientReady(settings)
              && forall j :: 0 <= j < |b.files| ==> Uploads(b, settings.Get("bucket_name"), remote, j)
    ensures res.0.Ok? ==>
              |res.0.value.urls| == |res.0.value.keys| == |b.files|
              && forall j :: 0 <= j < |b.files| ==>
                   res.0.value.keys[j] == b.Key(j)
                   && Some(res.0.value.urls[j]) == remote.presign(settings.value("bucket_name"), b.Key(j), UploadUrlLifetime)
  {
    match caller
    case Err(e) => (Err(e), objects)
    case Ok(_) =>
      match settings.Get("bucket_endpoint")
      case Err(e) => (Err(e), objects)
      case Ok(endpoint) =>
        if endpoint == "" then (Err(Http(500, "Storage bucket not configured")), objects)
        else if settings.Get("bucket_access_key_id").Err? || settings.Get("bucket_secret_access_key").Err? then
          (Err(Raised("AttributeError")), objects)
        else
          var steps := Steps(b, settings.Get("bucket_name"), remote);
          assert forall j :: 0 <= j < |steps| ==>
                   (steps[j].outcome.Ok? <==> Uploads(b, settings.Get("bucket_name"), remote, j));
          Run(steps, 0, objects)
  }

  /** Past the configuration checks the upload is the run of the batch's
      steps. */
  lemma UploadRuns(user: AuthService.PublicUser, settings: Config.Attributes, b: Batch, remote: Remote, objects: Bucket)
    requires ClientReady(settings)
    ensures UploadScreenshots(Ok(user), settings, b, remote, objects)
            == Run(Steps(b, settings.Get("bucket_name"), remote), 0, objects)
  {
  }

  /** A failed upload past the configuration checks names the first file
      that was not uploaded: 400 with its type when it is not an image, 500
      with its name otherwise. */
  lemma UploadFailure(user: AuthService.PublicUser, settings: Config.Attributes, b: Batch, remote: Remote, objects: Bucket)
    returns (j: nat)
    requires ClientReady(settings)
    requires UploadScreenshots(Ok(user), settings, b, remote, objects).0.Err?
    ensures j < |b.files| && !Uploads(b, settings.Get("bucket_name"), remote, j)
    ensures forall m :: 0 <= m < j ==> Uploads(b, settings.Get("bucket_name"), remote, m)
    ensures UploadScreenshots(Ok(user), settings, b, remote, objects).0.error == UploadError(b, j)
  {
    UploadRuns(user, settings, b, remote, objects);
    var bucket := settings.Get("bucket_name");
    var steps := Steps(b, bucket, remote);
    j := RunError(steps, 0, objects);
    assert steps[j] == Step(b, bucket, remote, j);
    forall m | 0 <= m < j ensures Uploads(b, bucket, remote, m) {
      assert steps[m] == Step(b, bucket, remote, m);
    }
  }

  /** Whatever the outcome, the upload touches no object outside the
      batch's keys and adds no other key. */
  lemma UploadTouchesOnlyBatch(user: AuthService.PublicUser, settings: Config.Attributes, b: Batch, remote: Remote,
                               objects: Bucket, k: string)
    requires ClientReady(settings)
    ensures var stored := UploadScreenshots(Ok(user), settings, b, remote, objects).1;
      (k in objects && (forall m :: 0 <= m < |b.files| ==> k != b.Key(m)) ==> k in stored && stored[k] == objects[k])
      && (k in stored ==> k in objects || exists m :: 0 <= m < |b.files| && k == b.Key(m))
  {
    UploadRuns(user, settings, b, remote, objects);
    var steps := Steps(b, settings.Get("bucket_name"), remote);
    if k in objects && (forall m :: 0 <= m < |b.files| ==> k != b.Key(m)) {
      RunKeeps(steps, 0, objects, k);
    }
    if k in Run(steps, 0, objects).1 {
      RunKeys(steps, 0, objects, k);
    }
  }

  /** As the settings class is declared, no bucket attribute exists: every
      signed-in upload raises AttributeError and stores nothing. */
  lemma UploadAsWritten(user: AuthService.PublicUser, value: string -> string, b: Batch, remote: Remote, objects: Bucket)
    ensures UploadScreenshots(Ok(user), Config.Attributes(Config.SettingsFields, value), b, remote, objects)
            == (Err(Raised("AttributeError")), objects)
  {
    assert "bucket_endpoint" !in Config.SettingsFields;
  }

  /** With the bucket attributes declared and the endpoint set, an upload
      whose puts and signings succeed answers one link and one key per
      file, and with fresh uuids each file is in the bucket under its key
      with its content and content type. */
  lemma UploadCorrected(user: AuthService.PublicUser, settings: Config.Attributes, b: Batch, remote: Remote, objects: Bucket)
    requires BucketFields <= settings.declared && settings.value("bucket_endpoint") != ""
    requires forall j :: 0 <= j < |b.files| ==>
               Accepted(b.files[j]) && remote.putOk(j)
               && remote.presign(settings.value("bucket_name"), b.Key(j), UploadUrlLifetime).Some?
    requires FreshUuids(b)
    ensures var (r, stored) := UploadScreenshots(Ok(user), settings, b, remote, objects);
      r.Ok? && |r.value.keys| == |b.files|
      && forall j :: 0 <= j < |b.files| ==>
           b.Key(j) in stored && stored[b.Key(j)] == StoredObject(b.files[j].content, ContentType(b.files[j]))
  {
    assert "bucket_endpoint" in settings.declared;
    var steps := Steps(b, settings.Get("bucket_name"), remote);
    forall m, n | 0 <= m < n < |steps| ensures steps[m].key != steps[n].key {
      DistinctKeys(b, m, n);
    }
    forall j | 0 <= j < |b.files|
      ensures b.Key(j) in Run(steps, 0, objects).1
              && Run(steps, 0, objects).1[b.Key(j)] == StoredObject(b.files[j].content, ContentType(b.files[j]))
    {
      RunStores(steps, 0, objects, j);
    }
  }

  // ---------------------------------------------------------------------------
  // Serving and deleting

  /** `GET /upload/file/{key}`: a redirect to a one-hour link. The bucket is
      not consulted, so a key that names no object is redirected as well;
      404 is answered only when building the client or signing raises. */
  function GetFile(settings: Config.Attributes, key: string, remote: Remote): (r: Result<Redirect>)
    ensures "bucket_endpoint" !in settings.declared ==> r == Err(Raised("AttributeError"))
    ensures "bucket_endpoint" in settings.declared && settings.value("bucket_endpoint") == ""
            ==> r == Err(Http(500, "Storage not configured"))
    ensures r.Ok? <==> BucketFields <= settings.declared && settings.value("bucket_endpoint") != ""
                       && remote.presign(settings.value("bucket_name"), key, FileUrlLifetime).Some?
    ensures r.Ok? ==> r.value == Redirect(remote.presign(settings.value("bucket_name"), key, FileUrlLifetime).value, 302)
    ensures r.Err? && "bucket_endpoint" in settings.declared && settings.value("bucket_endpoint") != ""
            ==> r == Err(Http(404, "File not found"))
  {
    match settings.Get("bucket_endpoint")
    case Err(e) => Err(e)
    case Ok(endpoint) =>
      if endpoint == "" then Err(Http(500, "Storage not configured"))
      else if !(BucketFields <= settings.declared) then Err(Http(404, "File not found"))
      else match remote.presign(settings.value("bucket_name"), key, FileUrlLifetime)
        case None => Err(Http(404, "File not found"))
        case Some(url) => Ok(Redirect(url, 302))
  }

  /** `DELETE /upload/screenshots`: the caller must be signed in; the object
      is removed, and any failure of the client is 500. */
  function DeleteScreenshot(caller: Result<AuthService.PublicUser>, settings: Config.Attributes, key: string,
                            remote: Remote, objects: Bucket): (res: (Result<bool>, Bucket))
    ensures caller.Err? ==> res == (Err(caller.error), objects)
    ensures caller.Ok? && "bucket_endpoint" !in settings.declared ==> res == (Err(Raised("AttributeError")), objects)
    ensures caller.Ok? && "bucket_endpoint" in settings.declared && settings.value("bucket_endpoint") == ""
            ==> res == (Err(Http(500, "Storage bucket not configured")), objects)
    ensures res.0.Ok? <==> caller.Ok? && BucketFields <= settings.declared
                           && settings.value("bucket_endpoint") != "" && remote.deleteOk(key)
    ensures res.0.Ok? ==> res.0.value && key !in res.1 && forall k :: k in objects && k != key ==> k in res.1 && res.1[k] == objects[k]
    ensures res.0.Err? ==> res.1 == objects
    ensures res.0.Err? && caller.Ok? && "bucket_endpoint" in settings.declared && settings.value("bucket_endpoint") != ""
            ==> res.0.error == Http(500, "Failed to delete file")
  {
    match caller
    case Err(e) => (Err(e), objects)
    case Ok(_) =>
      match settings.Get("bucket_endpoint")
      case Err(e) => (Err(e), objects)
      case Ok(endpoint) =>
        if endpoint == "" then (Err(Http(500, "Storage bucket not configured")), objects)
        else if !(BucketFields <= settings.declared) || !remote.deleteOk(key) then
          (Err(Http(500, "Failed to delete file")), objects)
        else (Ok(true), objects - {key})
  }

  /** Deleting the key of an uploaded screenshot takes back exactly that
      upload: the other objects stay. */
  lemma DeleteUndoesPut(user: AuthService.PublicUser, settings: Config.Attributes, key: string, obj: StoredObject,
                        remote: Remote, objects: Bucket)
    requires key !in objects
    requires BucketFields <= settings.declared && settings.value("bucket_endpoint") != "" && remote.deleteOk(key)
    ensures DeleteScreenshot(Ok(user), settings, key, remote, objects[key := obj]) == (Ok(true), objects)
  {
    assert "bucket_endpoint" in settings.declared;
    assert objects[key := obj] - {key} == objects;
  }

  /** As the settings class is declared, serving and deleting raise
      AttributeError for every key. */
  lemma ServeAndDeleteAsWritten(user: AuthService.PublicUser, value: string -> string, key: string,
                                remote: Remote, objects: Bucket)
    ensures GetFile(Config.Attributes(Config.SettingsFields, value), key, remote) == Err(Raised("AttributeError"))
    ensures DeleteScreenshot(Ok(user), Config.Attributes(Config.SettingsFields, value), key, remote, objects)
            == (Err(Raised("AttributeError")), objects)
  {
    assert "bucket_endpoint" !in Config.SettingsFields;
  }
}

=== FILE: works.dfy ===
/** The static "Works" carousel: five sample projects repeated over the
    forty slots, and a search box over title, category and year. */
module Works {
  import Strings
  import Carousel

  datatype BaseProject = BaseProject(id: int, title: string, category: string, image: string, year: string)

  /** A slot on the wheel. */
  datatype Item = Item(id: int, title: string, category: string, image: string, year: string,
                       uniqueId: string, displayNumber: nat, spineColor: string, textColor: string)

  const BaseProjects: seq<BaseProject> := [
    BaseProject(1, "Ethereal Spaces", "Architecture",
      "https://images.unsplash.com/photo-1755018237309-bb3f5efeb2c4?crop=entropy&cs=tinysrgb&fit=max&fm=jpg&ixid=M3w3Nzg4Nzd8MHwxfHNlYXJjaHwxfHxtaW5pbWFsaXN0JTIwYXJjaGl0ZWN0dXJlJTIwYmxhY2slMjBhbmQlMjB3aGl0ZXxlbnwxfHx8fDE3Njg3MTMzNDR8MA&ixlib=rb-4.1.0&q=80&w=1080",
      "2024"),
    BaseProject(2, "Mono Object", "Product Design",
      "https://images.unsplash.com/photo-1658526064786-63d6e3603215?crop=entropy&cs=tinysrgb&fit=max&fm=jpg&ixid=M3w3Nzg4Nzd8MHwxfHNlYXJjaHwxfHxtaW5pbWFsaXN0JTIwcHJvZHVjdCUyMGRlc2lnbnxlbnwxfHx8fDE3Njg2MzM5OTd8MA&ixlib=rb-4.1.0&q=80&w=1080",
      "2023"),
    BaseProject(3, "Geometric Flow", "Art Direction",
      "https://images.unsplash.com/photo-1716363013751-78dc48b0403d?crop=entropy&cs=tinysrgb&fit=max&fm=jpg&ixid=M3w3Nzg4Nzd8MHwxfHNlYXJjaHwxfHxhYnN0cmFjdCUyMGdlb21ldHJpYyUyMHNoYXBlcyUyMG1pbmltYWxpc3Q8ZW58MXx8fHwxNzY4NjQ3NjU2fDA&ixlib=rb-4.1.0&q=80&w=1080",
      "2024"),
    BaseProject(4, "Interior Void", "Interior",
      "https://images.unsplash.com/photo-1759038086962-13119e3da5bf?crop=entropy&cs=tinysrgb&fit=max&fm=jpg&ixid=M3w3Nzg4Nzd8MHwxfHNlYXJjaHwxfHxtb2Rlcm4lMjBpbnRlcmlvciUyMGRlc2lnbiUyMG1pbmltYWxpc3QlMjBibGFjayUyMGFuZCUyMHdoaXRlfGVufDF8fHx8MTc2ODcxMzM0OXww&ixlib=rb-4.1.0&q=80&w=1080",
      "2023"),
    BaseProject(5, "Silent Forms", "Photography",
      "https://images.unsplash.com/photo-1507643179173-61b0f729435a?q=80&w=1080&auto=format&fit=crop",
      "2022")
  ]

  /** `Array(n).fill(xs).flat()`: n copies of xs, one after another. */
  function Repeat<T>(xs: seq<T>, n: nat): (r: seq<T>)
    ensures |r| == n * |xs|
  {
    if n == 0 then [] else xs + Repeat(xs, n - 1)
  }

  /** Position i of the repetition holds xs[i mod |xs|]. */
  lemma {:induction false} RepeatAt<T>(xs: seq<T>, n: nat, i: nat)
    requires i < n * |xs|
    ensures Repeat(xs, n)[i] == xs[i % |xs|]
    decreases n
  {
    if i >= |xs| {
      RepeatAt(xs, n - 1, i - |xs|);
      ModShift(i, |xs|);
    } else {
      assert Repeat(xs, n)[i] == xs[i];
    }
  }

  lemma ModShift(i: nat, m: nat)
    requires 0 < m <= i
    ensures (i - m) % m == i % m
  {
    Carousel.ModUnique(i - m, m, i / m - 1, i % m);
  }

  /** Slot i of the wheel: the base project's fields with the slot's id,
      number and colours, and a year that alternates with the slot's
      parity. */
  function MakeItem(p: BaseProject, i: nat): Item {
    var colors := Carousel.ColorData(i);
    Item(p.id, p.title, p.category, p.image, if i % 2 == 0 then "2025" else "2026",
         Carousel.SlotId(p.id, i), i + 1, colors.0, colors.1)
  }

  /** Slot i holds base[i mod |base|]. */
  function Slots(base: seq<BaseProject>): (items: seq<Item>)
    requires |base| > 0
    ensures |items| == Carousel.ItemCount
  {
    seq(Carousel.ItemCount, i requires 0 <= i < Carousel.ItemCount => MakeItem(base[i % |base|], i))
  }

  /** `Array(ItemCount).fill(base).flat().slice(0, ItemCount).map(...)`,
      built the way the page builds it. */
  function FilledSlots(base: seq<BaseProject>, copies: nat): (items: seq<Item>)
    requires copies * |base| >= Carousel.ItemCount
  {
    var flat := Repeat(base, copies)[..Carousel.ItemCount];
    seq(|flat|, i requires 0 <= i < |flat| => MakeItem(flat[i], i))
  }

  /** The repeated-and-sliced construction puts base[i mod |base|] in slot
      i, however many copies are made. */
  lemma FilledSlotsCycle(base: seq<BaseProject>, copies: nat)
    requires |base| > 0 && copies * |base| >= Carousel.ItemCount
    ensures FilledSlots(base, copies) == Slots(base)
  {
    var flat := Repeat(base, copies)[..Carousel.ItemCount];
    forall i | 0 <= i < |flat| ensures flat[i] == base[i % |base|] {
      RepeatAt(base, copies, i);
    }
  }

  /** The forty slots of the page. */
  function Projects(): seq<Item> {
    Slots(BaseProjects)
  }

  /** The page's forty slots are the sample projects repeated and cut to
      forty, slot i holding sample i mod 5. */
  lemma ProjectsAsBuilt()
    ensures Projects() == FilledSlots(BaseProjects, Carousel.ItemCount)
    ensures forall i :: 0 <= i < Carousel.ItemCount ==> Projects()[i] == MakeItem(BaseProjects[i % 5], i)
  {
    FilledSlotsCycle(BaseProjects, Carousel.ItemCount);
  }

  /** The search predicate: the lower-cased query (not trimmed) inside the
      lower-cased title or category, or inside the year as it is. */
  predicate Matches(p: Item, query: string) {
    var q := Strings.Lower(query);
    Strings.Contains(Strings.Lower(p.title), q) || Strings.Contains(Strings.Lower(p.category), q)
    || Strings.Contains(p.year, q)
  }

  /** The filtered wheel: all slots for a blank query, otherwise the
      matching slots in wheel order. */
  function Search(items: seq<Item>, query: string): (r: seq<Item>)
    ensures Strings.JsTrim(query) == "" ==> r == items
    ensures Strings.JsTrim(query) != "" ==>
              Carousel.IsSubsequence(r, items) && forall p :: p in r <==> p in items && Matches(p, query)
  {
    if Strings.JsTrim(query) == "" then items
    else Carousel.Filter(items, p => Matches(p, query))
  }

  /** Slots are told apart by their ids although each base project fills
      several of them. */
  lemma SlotsDistinct(base: seq<BaseProject>, i: nat, j: nat)
    requires 0 < |base| && i < j < Carousel.ItemCount
    ensures Slots(base)[i].uniqueId != Slots(base)[j].uniqueId
  {
    var p, q := base[i % |base|], base[j % |base|];
    assert Slots(base)[i].uniqueId == MakeItem(p, i).uniqueId == Carousel.SlotId(p.id, i);
    assert Slots(base)[j].uniqueId == MakeItem(q, j).uniqueId == Carousel.SlotId(q.id, j);
    Carousel.SlotIdsDistinct(p.id, i, q.id, j);
  }

  /** Slot i is numbered i + 1 and shows the same project as slot
      i + |base|. */
  lemma SlotsRepeat(base: seq<BaseProject>, i: nat)
    requires 0 < |base| && i < Carousel.ItemCount
    ensures Slots(base)[i].displayNumber == i + 1
    ensures i + |base| < Carousel.ItemCount ==> Slots(base)[i].id == Slots(base)[i + |base|].id
  {
    if i + |base| < Carousel.ItemCount {
      ModShift(i + |base|, |base|);
    }
  }

  /** The year of every slot follows its parity, whatever the base project
      says. */
  lemma YearsAlternate(base: seq<BaseProject>, i: nat)
    requires 0 < |base| && i < Carousel.ItemCount
    ensures Slots(base)[i].year == (if i % 2 == 0 then "2025" else "2026")
  {
  }

  /** No title or category holds a digit. */
  predicate NoDigitsIn(base: seq<BaseProject>) {
    forall b :: b in base ==> DigitFree(b.title) && DigitFree(b.category)
  }

  predicate DigitFree(s: string) {
    forall k :: 0 <= k < |s| ==> !Strings.IsDigit(s[k])
  }

  /** A slot of a digit-free project matches a year query exactly when it
      is that year's slot. */
  lemma YearQuery(p: Item, year: string)
    requires DigitFree(p.title) && DigitFree(p.category)
    requires year == "2025" || year == "2026"
    requires p.year == "2025" || p.year == "2026"
    ensures Matches(p, year) <==> p.year == year
  {
    assert Strings.Lower(year) == year;
    NoDigits(p.title, year);
    NoDigits(p.category, year);
    if p.year == year {
      Strings.ContainsItself(year);
    } else if Strings.Contains(p.year, year) {
      var k := Strings.ContainsWitness(p.year, year);
    }
  }

  /** Over projects whose titles and categories hold no digit, searching
      for a year finds exactly the slots of that year. */
  lemma SearchByYear(base: seq<BaseProject>, year: string)
    requires 0 < |base| && NoDigitsIn(base)
    requires year == "2025" || year == "2026"
    ensures forall p :: p in Search(Slots(base), year) <==> p in Slots(base) && p.year == year
  {
    SlotsYearQuery(base, year);
    assert Strings.JsTrim(year) != "" by { YearNotBlank(year); }
    SearchExact(Slots(base), year);
  }

  /** Every slot of digit-free projects matches a year query exactly when it
      is that year's slot. */
  lemma SlotsYearQuery(base: seq<BaseProject>, year: string)
    requires 0 < |base| && NoDigitsIn(base)
    requires year == "2025" || year == "2026"
    ensures forall p :: p in Slots(base) ==> (Matches(p, year) <==> p.year == year)
  {
    var all := Slots(base);
    forall p | p in all
      ensures Matches(p, year) <==> p.year == year
    {
      var i :| 0 <= i < |all| && all[i] == p;
      SlotYearQuery(base, i, year);
    }
  }

  /** A year is not blank. */
  lemma YearNotBlank(year: string)
    requires year == "2025" || year == "2026"
    ensures Strings.JsTrim(year) != ""
  {
    Strings.StripUntouched(year, Strings.IsJsSpace);
  }

  /** When a non-blank query matches exactly the items of its year, the
      search keeps exactly those. */
  lemma SearchExact(items: seq<Item>, year: string)
    requires Strings.JsTrim(year) != ""
    requires forall p :: p in items ==> (Matches(p, year) <==> p.year == year)
    ensures forall p :: p in Search(items, year) <==> p in items && p.year == year
  {
  }

  /** One slot of digit-free projects matches a year query exactly when it
      is that year's slot. */
  lemma SlotYearQuery(base: seq<BaseProject>, i: nat, year: string)
    requires 0 < |base| && NoDigitsIn(base) && i < Carousel.ItemCount
    requires year == "2025" || year == "2026"
    ensures Matches(Slots(base)[i], year) <==> Slots(base)[i].year == year
  {
    var b := base[i % |base|];
    assert b in base;
    YearQuery(MakeItem(b, i), year);
  }

  /** A text without digits contains no year. */
  lemma NoDigits(s: string, q: string)
    requires |q| > 0 && Strings.IsDigit(q[0])
    requires DigitFree(s)
    ensures !Strings.Contains(Strings.Lower(s), q)
  {
    if Strings.Contains(Strings.Lower(s), q) {
      var k := Strings.ContainsWitness(Strings.Lower(s), q);
    }
  }
}

=== FILE: wrappers.dfy ===
/** Failure-carrying datatypes shared by every module of the model.
    - Option<T> stands for Python's Optional / JavaScript's null and undefined.
    - Result<T> stands for "returns a value or raises"; the error is a small
      description of the exception or of the HTTP status the source raises.
 */
module Wrappers {

  datatype Option<+T> = None | Some(value: T) {
    function GetOr(default: T): T {
      match this
      case Some(v) => v
      case None => default
    }
  }

  /** The errors the modelled code raises. */
  datatype Error =
    | Http(status: int, detail: string)   // fastapi.HTTPException
    | Raised(kind: string)                // any other Python exception
    | Transport                           // a network call that failed

  datatype Result<+T> = Ok(value: T) | Err(error: Error) {
    predicate IsFailure() { Err? }
    function PropagateFailure<U>(): Result<U>
      requires Err?
    {
      Err(error)
    }
    function Extract(): T
      requires Ok?
    {
      value
    }
  }

  /** The HTTP status of a result: 200 for success, else the raised status. */
  function StatusOf<T>(r: Result<T>): int {
    match r
    case Ok(_) => 200
    case Err(Http(s, _)) => s
    case Err(_) => 500
  }

  /** Applying a fallible step to each element in order: the results when
      every step succeeds, else the error of a failing step (the first). */
  function MapResult<A, B>(xs: seq<A>, f: A -> Result<B>): (r: Result<seq<B>>)
    ensures r.Ok? <==> forall i :: 0 <= i < |xs| ==> f(xs[i]).Ok?
    ensures r.Ok? ==> |r.value| == |xs| && forall i :: 0 <= i < |xs| ==> f(xs[i]) == Ok(r.value[i])
    ensures r.Err? ==> exists i :: 0 <= i < |xs| && f(xs[i]) == Err(r.error)
    decreases |xs|
  {
    if |xs| == 0 then Ok([])
    else if f(xs[0]).Err? then Err(f(xs[0]).error)
    else
      var rest := MapResult(xs[1..], f);
      assert forall i :: 1 <= i < |xs| ==> xs[i] == xs[1..][i - 1];
      if rest.Err? then
        ghost var k :| 0 <= k < |xs[1..]| && f(xs[1..][k]) == Err(rest.error);
        assert xs[k + 1] == xs[1..][k];
        Err(rest.error)
      else Ok([f(xs[0]).value] + rest.value)
  }
}
